=== FILE: README.md ===
# rfgrep, modelled in Dafny

rfgrep is a recursive grep written in Rust. This project models the parts of
it that decide what is found and what is printed, as pure Dafny functions and
a few loop-carrying methods, and proves what they promise:

- **Substring matchers** (`search_algorithms.dfy`, `simd.dfy`). These cover
  Boyer-Moore with its bad-character and good-suffix tables, the `find` loop
  of `SimpleSearch`, the line-context helpers, and the matcher factory. The
  AVX2, SSE4.2 and scalar backends of the SIMD engine are modelled as a block
  of 32 or 16 lanes whose first-byte mask is visited from the lowest lane up.
- **File processing** (`processor.dfy`). This covers the tiered chunk size,
  the clamped memory-map threshold and the binary heuristics over a byte
  sample. It also covers the regex cache and the two match-extraction loops
  with their context windows.
- **The streaming pipeline** (`streaming_search.dfy`). This covers the
  bounded context buffer, the per-match records, invert and `max_matches`
  post-processing, and the `(?i)` prefix rule. It also covers the
  algorithm-suggestion ladder and the final sort of the parallel search.
- **File filtering and compression** (`filters.dfy`, `compression.dfy`,
  `paths.dfy`). This covers the safety policy, the extension lists, the
  file-type strategy, the size cap and the extension-to-format table. It also
  covers the file name and extension of a path and the component order in
  which paths sort.
- **Standard-input search** (`stdin.dfy`). This covers the line loop with
  invert and `max_matches`, and the precedence of its outputs.
- **Output formats** (`output_formats.dfy`). This covers the CSV, TSV, XML and
  HTML escapes with their readers, the rows of the CSV and TSV tables, and
  the line splicing of the text, XML, HTML and Markdown formats. It also
  covers ANSI highlighting.
- **Configuration** (`config.dfy`, `cli_config.dfy`). This covers layer
  merging and validation, the `RFGREP_THREADS` layer, and the search for a
  project root. It also covers the dotted-key `get`, the flattening `list`
  and the overwrite guard of `init`.
- **The terminal interface and the application** (`tui.dfy`,
  `app_simple.dfy`). The first covers the state machine of the interface.
  The second covers pattern building, algorithm mapping, routing to standard
  input, gathering per-file results, the report precedence, and the filter,
  sort, reverse and limit of `list`.

Shared helpers live in `wrappers.dfy` (`Option`, `Result`), `text.dfy`
(ASCII folding, splitting and joining, decimal numbers, lines) and `seqs.dfy`
(the occurrence list, orders, stable sorting, set-sorting, filtering).

Modelling conventions:
- Rust strings are `seq<char>` with one character per byte. Byte samples are
  sequences of `Processor.Byte`, an int in 0..255.
- Each regex engine is an oracle from a line to an optional match span.
- `memchr::memmem` is the list of leftmost non-overlapping occurrences.
- The file system appears as parameters, for example "is this file readable"
  or "does `dir/marker` exist", and so does `FileTypeClassifier`.
- Integers are unbounded. Where the source compares sizes as `f64`, the model
  states the comparison over integers and proves it equal to the comparison
  over reals.

## Model

| member | source | states |
|---|---|---|
| SearchAlgorithms.BuildBadCharTable | src/search_algorithms.rs:114-123 | every pattern byte is in the table, mapped to m-1 minus the index of its last occurrence, so no copy of that byte lies closer to the pattern's end |
| SearchAlgorithms.BuildGoodSuffixTable | src/search_algorithms.rs:126-135 | the table as written: m entries, all 1 except entry m-2, which is m |
| SearchAlgorithms.BuildGoodSuffixTableFixed | src/search_algorithms.rs:126-135 | the corrected table: m entries, all 1 (see Findings) |
| SearchAlgorithms.NewBoyerMoore | src/search_algorithms.rs:101-111 | the constructed searcher keeps the pattern, has a valid bad-character table and the as-written good-suffix table |
| SearchAlgorithms.NewBoyerMooreFixed | src/search_algorithms.rs:101-111 | the same construction with the all-ones good-suffix table |
| SearchAlgorithms.StopIndexSpec | src/search_algorithms.rs:153-156 | the right-to-left comparison agrees with the pattern on every index above where it stops, and disagrees at the stop index unless it reached 0 |
| SearchAlgorithms.Shift | src/search_algorithms.rs:162-173 | each outer step moves the window by at least 1 (the bad-character shift is 0 only when the last byte matched, and then the good-suffix entry is used), so the loop terminates |
| SearchAlgorithms.ScanHits | src/search_algorithms.rs:148-174 | every index the outer loop reports is a true occurrence of the pattern |
| SearchAlgorithms.ScanIncreasing | src/search_algorithms.rs:148-174 | the reported indices strictly increase, whatever the tables, as long as every good-suffix entry is at least 1 |
| SearchAlgorithms.BoyerMooreSearch | src/search_algorithms.rs:138-178 | no result for an empty pattern or a text shorter than it; otherwise only true occurrences, strictly ascending |
| SearchAlgorithms.BoyerMooreMissesOccurrence | src/search_algorithms.rs:126-178 | as written, "abab" in "aaababab" yields [4] while the occurrences are [2, 4]: the search is not complete |
| SearchAlgorithms.BadCharShiftSafe | src/search_algorithms.rs:162-165 | no occurrence starts strictly inside the bad-character shift: it would put a copy of the byte under the window's end after its last occurrence in the pattern |
| SearchAlgorithms.HitIffMatch | src/search_algorithms.rs:153-160 | a window is reported exactly when the pattern occurs there |
| SearchAlgorithms.ScanComplete | src/search_algorithms.rs:148-174 | with every good-suffix entry 1, the loop from a window reports exactly the occurrences starting at that window or later |
| SearchAlgorithms.BoyerMooreFixedComplete | src/search_algorithms.rs:138-178 | the corrected search returns exactly the ascending list of all occurrences, and nothing for an empty pattern |
| SearchAlgorithms.NewSimpleSearch | src/search_algorithms.rs:379-384 | `SimpleSearch::new` yields a case-sensitive searcher |
| SearchAlgorithms.NewSimpleSearchCaseSensitive | src/search_algorithms.rs:386-391 | `new_case_sensitive` yields a case-sensitive searcher too |
| SearchAlgorithms.SimpleStep | src/search_algorithms.rs:404-411 | one turn of the `find` loop either records the next occurrence and resumes one past it, or ends with every occurrence collected |
| SearchAlgorithms.SimpleSearchRun | src/search_algorithms.rs:395-415 | a non-empty pattern yields exactly every occurrence, overlapping ones included, ascending; an empty pattern yields every index of the text, or [0] for an empty text |
| SearchAlgorithms.ContextBefore | src/search_algorithms.rs:315-325 | min(c, current) lines, numbered 1-based and consecutively, ending just before the current line, each paired with its text |
| SearchAlgorithms.ContextAfter | src/search_algorithms.rs:327-337 | at most c lines, numbered from current+2 on and cut at the last line, each paired with its text; exactly c when the text has enough lines |
| SearchAlgorithms.ContextWindow | src/search_algorithms.rs:315-337 | the context before, the line itself and the context after form one contiguous, consecutively numbered run of lines |
| SearchAlgorithms.CreateWithCaseSensitivity | src/search_algorithms.rs:284-301 | the matcher kind follows the algorithm one to one and keeps the pattern; a Boyer-Moore matcher is built as `BoyerMoore::new` builds it, with the good-suffix table as written |
| SearchAlgorithms.Create | src/search_algorithms.rs:275-282 | the matcher keeps the pattern, and a Boyer-Moore matcher carries the tables as written |
| SearchAlgorithms.CaseSensitivityIgnored | src/search_algorithms.rs:275-301 | the case-sensitivity flag makes no difference, and both equal `create` |
| SearchAlgorithms.MatcherSearch | src/search_algorithms.rs:340-555 | for a non-empty pattern the SIMD and simple matchers return every occurrence in ascending order; the Boyer-Moore matcher, with its table as written, returns only occurrences, strictly ascending, and may miss some; SIMD and Boyer-Moore return nothing for an empty pattern; the regex matcher returns the regex engine's match starts |
| Simd.NewAvx2 | src/simd.rs:21-28 | the backend keeps a non-empty pattern with its first and last byte |
| Simd.NewSse42 | src/simd.rs:106-112 | the backend keeps a non-empty pattern with its first byte |
| Simd.CompareMask | src/simd.rs:48-54 | one lane per block position, set exactly when that text byte equals the pattern's first byte |
| Simd.TrailingZeros | src/simd.rs:59-60 | the lowest set lane: it is set and no lane below it is |
| Simd.ClearLowest | src/simd.rs:59-76 | clearing the lowest set lane leaves exactly the candidate lanes above it pending |
| Simd.CheckCandidate | src/simd.rs:62-73 | the bounds check, last-byte filter and full compare append a candidate exactly when the pattern occurs there |
| Simd.ScanBlock | src/simd.rs:47-80 | one block appends exactly the occurrences that start inside it, in ascending order |
| Simd.ScanTail | src/simd.rs:84-91 | the scalar loop after the blocks completes the list of occurrences |
| Simd.BlockScan | src/simd.rs:41-92 | the whole block-then-tail scan yields exactly all occurrences, ascending |
| Simd.Avx2Search | src/simd.rs:33-95 | the AVX2 backend returns exactly the ascending occurrences, nothing when the text is shorter than the pattern |
| Simd.Sse42Search | src/simd.rs:117-166 | the SSE4.2 backend returns the same list |
| Simd.FallbackSearch | src/simd.rs:261-278 | nothing for an empty pattern; otherwise every start i in 0..=n-m where the pattern occurs, ascending |
| Simd.NewEngine | src/simd.rs:287-312 | AVX2 exactly when available and the pattern is non-empty, else SSE4.2 under the same condition, else the fallback; never a vector backend for an empty pattern |
| Simd.EngineSearch | src/simd.rs:314-316 | whichever backend was chosen, every occurrence in ascending order, and nothing for an empty pattern |
| Simd.OccurrenceAtStartIsFirst | tests/property_tests.rs:156-169 | a pattern at the start of the text is the first result, 0 |
| Simd.OverlappingOccurrences | tests/property_tests.rs:122-141 | overlapping occurrences are all reported |
| Simd.LowerNotFoundInUpper | tests/property_tests.rs:108-120 | matching is case-sensitive: a word of lower-case letters is not found in a word of upper-case ones |
| Processor.AdaptiveChunkSize | src/processor.rs:47-57 | each of the four chunk sizes is returned exactly on its tier: below 64 KiB, below 1 MiB, below 16 MiB, and the rest |
| Processor.ChunkSizeMonotone | src/processor.rs:47-57 | a larger file never gets a smaller chunk |
| Processor.AdaptiveMmapThreshold | src/processor.rs:24-44 | with `available_kb * 1024` wrapping at 2^64, the threshold always lies in [16 MiB, 1 GiB], and is 16 MiB when the available memory cannot be read |
| Processor.MmapThresholdIsClampedEighth | src/processor.rs:33-36 | without u64 wrap-around the threshold is an eighth of the available memory clamped to [16 MiB, 1 GiB] |
| Processor.MmapThresholdMonotone | src/processor.rs:33-36 | without wrap-around, more available memory never lowers the threshold |
| Processor.Utf16Scan | src/processor.rs:107-121 | the step-by-2 loop clears the first flag exactly when some even offset holds (non-zero, zero), the second exactly when one holds (zero, non-zero) |
| Processor.ClassifySample | src/processor.rs:91-139 | the sample branch decides binary exactly when the sample is non-empty, has no UTF-16 or UTF-8 byte-order mark, does not look like UTF-16 (from 4 bytes), and more than one and more than a tenth of its bytes are zero |
| Processor.IsBinary | src/processor.rs:77-148 | a sniffed MIME type outside `text/` means binary; otherwise the sample decides, and an unreadable file is text |
| Processor.BomSampleIsText | src/processor.rs:93-105 | a sample starting with FF FE, FE FF or EF BB BF is text |
| Processor.Utf16HeuristicExtremes | src/processor.rs:107-129 | samples of 4 bytes or more that are free of zero bytes, or made only of zero bytes, are text |
| Processor.BinarySampleHasBothPairs | src/processor.rs:107-129 | a binary verdict on 4 bytes or more needs both kinds of pair at even offsets |
| Processor.IsBinaryContent | src/processor.rs:210-217 | empty content is not binary |
| Processor.BinaryContentSample | src/processor.rs:214-216 | only the first 8000 bytes decide |
| Processor.BinaryContentExtremes | src/processor.rs:210-217 | non-empty all-zero content is binary, zero-free content is not |
| Processor.GetOrCompileRegex | src/processor.rs:219-230 | a hit returns the cached regex with the cache unchanged; a miss returns the compile result and inserts exactly that key on success only; existing entries are kept |
| Processor.CacheTransparent | src/processor.rs:219-230 | with a cache whose entries are what compiling their keys gives, the lookup returns what compiling would, and the cache stays so |
| Processor.CacheSecondLookupHits | src/processor.rs:219-230 | after a successful lookup, a second one of the same pattern returns the same regex and leaves the cache alone |
| Processor.CaseFlagged | src/streaming_search.rs:230-240 | case-insensitive matching puts "(?i)" in front of the unchanged pattern; case-sensitive matching keeps the pattern |
| Processor.ContextRecord | src/processor.rs:290-310 | the record of a matching line: 1-based line number, the line, the first match's span and text, and two lines of context on each side |
| Processor.ContextStep | src/processor.rs:290-311 | one turn of the loop keeps the records well formed, ascending and covering every matching line seen so far |
| Processor.ContextRecords | src/processor.rs:289-313 | every record is well formed, line numbers strictly ascend, and every matching line is reported |
| Processor.FindMatchesWithContext | src/processor.rs:284-314 | over the lines of the content: one record per matching line, in line order, each with its first match and its context |
| Processor.PushWindow | src/processor.rs:327-331 | the window gains the new line at its end and drops its oldest entry only when it would exceed 5 entries |
| Processor.ReadAfter | src/processor.rs:334-338 | the lines after a match are read until the stop point; the read fails exactly when one of them fails, and otherwise is the numbered run of those lines |
| Processor.StreamOkIffReadable | src/processor.rs:316-354 | the streaming search returns an error exactly when some line fails to read |
| Processor.StreamRecordsSound | src/processor.rs:316-354 | every record's matched line holds its text and first match, its context after is the run of lines right after it, its context before is at most 2 earlier window lines, and its line number is the matched line plus the lines read as context after |
| Processor.StreamCoversMatches | src/processor.rs:316-354 | every matching line is either reported or lies within the context after of an earlier report |
| Processor.StreamingQuirks | src/processor.rs:332-350 | on "x","x","y" with both "x" lines matching, the single record carries line 1 itself as context before, reports line number 3, and line 2 is never reported |
| Processor.FindMatchesStreaming | src/processor.rs:316-354 | the search fails exactly when some line fails to read; otherwise every record holds its matched line's text and first match with the shape `StreamRecordsSound` states, each record's matched line comes after the previous record's, and every matching line is reported or lies within the context after of an earlier report |
| StreamingSearch.PushBuffer | src/streaming_search.rs:277-281 | the buffer gains the new line at its end and drops its oldest entry only beyond 2c+1 entries, so it never holds more than 2c+1 |
| StreamingSearch.ContextBeforeOf | src/streaming_search.rs:312-323 | exactly the buffered entries numbered in [current-c, current) |
| StreamingSearch.ContextBeforeIsSubsequence | src/streaming_search.rs:318-322 | the context before keeps the buffer's order |
| StreamingSearch.PullAfter | src/streaming_search.rs:325-345 | up to c further lines from the reader, numbered on from the current line; any read error, even invalid UTF-8, fails the pull |
| StreamingSearch.RawRecord | src/streaming_search.rs:286-304 | a one-character column range at the match position; matched text of at most 50 characters from there when the position is not the line's last, else the whole line |
| StreamingSearch.MatchedTextEmptyIff | src/streaming_search.rs:290-294 | a record's matched text is empty exactly when its line is |
| StreamingSearch.StreamSound | src/streaming_search.rs:252-310 | every record of the loop has a one-character column range at a position the matcher reported for its line, at most c lines of context after, context before numbered within c lines below its line number, and a line number no larger than the line's true position |
| StreamingSearch.StreamAllReadOk | src/streaming_search.rs:263-274 | a reader whose every item is a line never makes the loop fail |
| StreamingSearch.ContextLinesNotSearched | src/streaming_search.rs:283-289 | with two lines of context, three matching lines give a single record: the two lines pulled as its context after are never searched |
| StreamingSearch.LineNumberDrift | src/streaming_search.rs:263-289 | line numbers fall behind the lines pulled as context: the second match of "a","b","a" is reported as line 2 |
| StreamingSearch.ProcessFileStreaming | src/streaming_search.rs:252-310 | every record the loop returns satisfies the soundness of `StreamSound` (a one-character column range at a reported position, bounded context, a line number no larger than the line's true position), and a reader whose every item is a line never makes it fail |
| StreamingSearch.PostProcess | src/streaming_search.rs:347-377 | at most as many records, each carrying the file's path, with empty matched text exactly when inverting |
| StreamingSearch.PostProcessIsFilter | src/streaming_search.rs:347-377 | post-processing is the order-preserving filter of the included records with the path attached |
| StreamingSearch.PostProcessPartition | src/streaming_search.rs:355-359 | the results with and without invert split the records between them |
| StreamingSearch.Truncate | src/streaming_search.rs:136-140 | with a limit k the result is the first min(k, n) records; without one the list is unchanged |
| StreamingSearch.SearchFile | src/streaming_search.rs:76-141 | nothing for a binary file; otherwise at most `max_matches` records, each with the file's path and empty matched text exactly when inverting |
| StreamingSearch.ProcessedPattern | src/streaming_search.rs:230-243 | the pattern changes exactly for a case-insensitive regex, and then is "(?i)" followed by the pattern |
| StreamingSearch.CreateSearchAlgorithm | src/streaming_search.rs:223-250 | a valid matcher for the processed pattern (a Boyer-Moore one carries the table as written), a regex matcher exactly for the regex algorithm |
| StreamingSearch.SuggestAlgorithm | src/streaming_search.rs:399-421 | never SIMD; Boyer-Moore for patterns of at most 4 bytes; Regex exactly for longer patterns with a backslash, '[' or '('; Simple exactly for the other longer patterns with more than 1000 files of unknown or under 1 KiB average size |
| StreamingSearch.SuggestionFileCountMonotone | src/streaming_search.rs:415-417 | more files can only turn Boyer-Moore into Simple, never the reverse |
| StreamingSearch.CollectOk | src/streaming_search.rs:206-215 | a record is collected exactly when it belongs to some successful file's result |
| StreamingSearch.SearchFilesParallel | src/streaming_search.rs:206-220 | the result is sorted by path, compared component by component as `Ord for PathBuf` does, then by line number, and is a permutation of the collected records |
| Filters.ExtOf | src/app/filters.rs:83-87 | the ASCII-lowered extension of the path, "" when it has none |
| Filters.ApplySafetyPolicy | src/app/filters.rs:118-135 | Default admits everything; Conservative admits exactly files of at most 10 MiB whose extension is always searched; Performance admits exactly files of at most 500 MiB |
| Filters.AnyEqIgnoreCase | src/app/filters.rs:141 | true exactly when some entry equals the extension ignoring ASCII case |
| Filters.ApplyExtensionFilters | src/app/filters.rs:138-154 | passes exactly when the include list, if any, has a case-insensitively equal entry and the exclude list, if any, has none |
| Filters.ShouldSearchByFileType | src/app/filters.rs:157-186 | searching all files admits everything; otherwise text-only admits exactly the always-searched extensions; otherwise Comprehensive admits exactly those not never-searched, Conservative exactly the always-searched ones, Performance exactly the always- or conditionally-searched ones, and Default follows the classifier's decision |
| Filters.ApplySizeLimits | src/app/filters.rs:189-197 | without a limit everything passes; with one, a file passes exactly when its size in MiB, as a real number, is at most the limit |
| Filters.SizeInMiBExact | src/app/filters.rs:191-192 | the float comparison in MiB equals the integer comparison of bytes with limit times 1048576 |
| Filters.ShouldSearchFile | src/app/filters.rs:77-115 | a file passes only if its metadata is readable, it is not a binary being skipped, and its extension passes the include/exclude lists |
| Filters.FilterFiles | src/app/filters.rs:61-66 | a file is kept exactly when it is in the input and passes `should_search_file` |
| Filters.FilterFilesOrderAndIdempotent | src/app/filters.rs:61-66 | the result is an order-preserving subsequence of the input, and filtering it again changes nothing |
| Filters.ExtensionFiltersIgnoreCase | src/app/filters.rs:138-154 | two extensions equal after ASCII lowering get the same verdict |
| Filters.NoExtensionNeedsEmptyEntry | src/app/filters.rs:83-87 | a file name without a '.' gets extension "" and fails any include list without "" |
| Filters.ExtOfLowerCaseName | src/app/filters.rs:83-87 | for `dir/stem.ext` with a lower-case `ext`, the checks see exactly `ext` |
| Filters.StrategiesNest | src/app/filters.rs:173-184 | when the searched lists are disjoint from the never-searched one, what Conservative admits Performance admits, and what Performance admits Comprehensive admits |
| Compression.Names | src/compression.rs:19-27 | every format has at least one extension name |
| Compression.FromLowerExtension | src/compression.rs:19-28 | a name found selects a format it names; a name not found names no format |
| Compression.FromExtension | src/compression.rs:17-29 | no extension gives no format; a format found is named by the lowered last extension |
| Compression.NamesSelectTheirFormat | src/compression.rs:19-28 | the names of the formats do not overlap, and each name selects its own format |
| Compression.FromExtensionOfName | src/compression.rs:17-34 | `dir/stem.ext` selects the format named by `ext` in any mix of ASCII case, and only the last extension counts ("a.tar.gz" is gzip); such a file is compressed |
| Compression.NoExtensionNotCompressed | src/compression.rs:17-34 | a file name without an extension is not compressed |
| Compression.OpenCompressedStream | src/compression.rs:36-72 | succeeds exactly when the file opens, the format is not Zip or Tar, and (for Zstd) the decoder sets up; Zip and Tar are refused as unsupported |
| Paths.LastIndexOf | src/compression.rs:18 | the position of the last occurrence of the character, none when absent |
| Paths.FileName | src/app/filters.rs:83-84 | a file name holds no '/' and is not empty, "." or ".." |
| Paths.FileNameSkipsTrailing | src/app_simple.rs:731-733 | as `Path::file_name` does, a trailing "/" or a trailing "." component does not change the file name: "x/." and "x/" name "x" |
| Paths.Extension | src/app/filters.rs:83-84 | an extension holds no '.' and no '/' |
| Paths.FileNameOfComponent | src/app/filters.rs:83-84 | the file name of `dir/name` is `name` |
| Paths.ExtensionOfName | src/compression.rs:18 | the extension of `dir/stem.ext` is `ext`, whatever dots the stem holds |
| Paths.NoExtensionWithoutInnerDot | src/compression.rs:18 | a name without a '.', or whose only '.' leads, has no extension |
| Paths.PathOrderKey | src/app_simple.rs:761-763 | the sort key of a path holds no '/', and a path without '/' is its own key |
| Paths.PathOrderIsComponentOrder | src/streaming_search.rs:219 | for paths without NUL, comparing sort keys as strings is comparing the paths' '/'-separated components in order, a path before every path it starts, as `Ord for PathBuf` compares them |
| Stdin.IncludedCountMonotone | src/app/stdin.rs:89-97 | the number of included lines never decreases along the input |
| Stdin.Cap | src/app/stdin.rs:120-124 | the loop admits at least one included line: a limit of 0 is only checked after a line was counted |
| Stdin.StdinRecord | src/app/stdin.rs:99-117 | the record has path "<stdin>", the 0-based line index as line number and no context; with a match, its span and text; without one, empty text spanning columns 0 to the line's length |
| Stdin.RecordsUpToCorrect | src/app/stdin.rs:86-118 | one record per included line, each the record of its line, in strictly ascending line order, and every included line has its record |
| Stdin.SearchLines | src/app/stdin.rs:86-126 | a read error ends the search with an I/O error; an input of lines never fails; otherwise the count is the number of included lines capped by the limit, and when records are kept there is one per counted line, in input order, covering every included line the count reached |
| Stdin.CountBounds | src/app/stdin.rs:96-124 | without a limit every included line is counted; with limit k at most max(k, 1) are, and exactly min(included, k) when k > 0 |
| Stdin.Search | src/app/stdin.rs:72-129 | a pattern that does not compile fails with the regex error before any line is read; otherwise the outcome above, or an I/O error |
| Stdin.OutputResults | src/app/stdin.rs:132-158 | count mode prints the count; otherwise "<stdin>" exactly when something was counted in files-with-matches mode; otherwise "No matches found" exactly when there are no records, the format is not JSON and not quiet; otherwise the records |
| Stdin.ShowsHeader | src/app/stdin.rs:166 | the "Found n matches:" header appears exactly when not quiet and the formatter does not write JSON, so JSON output is never preceded by a header |
| Stdin.FormatterFormat | src/app/stdin.rs:175-193 | NDJSON forces the JSON formatter, otherwise the command line's format; the formatter writes JSON exactly when the result is printed raw (JSON or NDJSON requested) |
| Stdin.RegexPattern | src/app/stdin.rs:73-77 | case-insensitive search puts "(?i)" in front of the pattern; case-sensitive search keeps it |
| OutputFormats.EscapeCsv | src/output_formats.rs:514-520 | a field without ',', '"', LF or CR is written as is; any other field is enclosed in quotes |
| OutputFormats.CsvFieldRoundTrip | src/output_formats.rs:514-520 | removing the enclosing quotes and undoubling the inner ones gives every field back (section 2, rules 6-7, of RFC 4180) |
| OutputFormats.ReadEscapedField | src/output_formats.rs:514-520 | a CSV reader reads an escaped field followed by ',' or a line break back as exactly that field, and stops at the separator |
| OutputFormats.ReadCsvLine | src/output_formats.rs:479-485 | a record of escaped fields joined by ',' and ended by '\n' reads back as exactly its fields |
| OutputFormats.MatchFields | src/output_formats.rs:478-485 | each match gives six columns |
| OutputFormats.FormatCsv | src/output_formats.rs:472-488 | the whole table reads back as the fixed header followed by one record per match, in input order, whatever the field texts hold |
| OutputFormats.EscapeTsv | src/output_formats.rs:524-528 | the result holds no tab, LF or CR |
| OutputFormats.EscapeTsvCollides | src/output_formats.rs:524-528 | the escape is not injective: a tab and a backslash followed by 't' are written alike |
| OutputFormats.TsvRoundTrip | src/output_formats.rs:524-528 | for a field without backslashes, reading \t, \n and \r back gives the field |
| OutputFormats.TsvFields | src/output_formats.rs:498-505 | six columns, none holding a tab or a line break |
| OutputFormats.TsvRowShape | src/output_formats.rs:502-505 | a row splits at its tabs into exactly its six columns, so holds five tabs, and holds no line break |
| OutputFormats.FormatTsv | src/output_formats.rs:492-509 | the lines of the output are the header line and one row per match, in order: no field text adds or removes a line |
| OutputFormats.FormatTsvShape | src/output_formats.rs:492-509 | the output is the header line plus exactly one line per match, in order, each splitting into that match's six columns with exactly five tabs |
| OutputFormats.HeaderPlain | src/output_formats.rs:496-497 | no header name holds a tab or a line break |
| OutputFormats.EscapeXml | src/output_formats.rs:532-538 | no '<', '>', '"' or '\'' is left in the result |
| OutputFormats.EscapeHtml | src/output_formats.rs:542-548 | the same for the HTML escape |
| OutputFormats.EntitiesRoundTrip | src/output_formats.rs:532-548 | because '&' is replaced first, reading the five entities back gives every text back exactly |
| OutputFormats.XmlRoundTrip | src/output_formats.rs:532-538 | unescaping the XML escape gives the text back |
| OutputFormats.HtmlRoundTrip | src/output_formats.rs:542-548 | unescaping the HTML escape, with "&#39;" for '\'', gives the text back |
| OutputFormats.SpliceDropsLineAtEnd | src/output_formats.rs:241-245 | as written, a zero-width match at the end of "ab" shows an empty line instead of "ab" (see Findings) |
| OutputFormats.SpliceAsWritten | src/output_formats.rs:241-252 | the part of the line before the start column is kept whenever that column lies strictly inside the line; a start column at or past the end gives only the matched text and what follows the end column |
| OutputFormats.SpliceAsWrittenExact | src/output_formats.rs:241-252 | as written, a record whose matched text is its line between its columns shows its line when the start column lies inside it, and nothing when it is an empty match at the end of the line |
| OutputFormats.Splice | src/output_formats.rs:241-252 | the corrected splice agrees with the code as written whenever the start column lies strictly inside the line |
| OutputFormats.SpliceRestoresLine | src/output_formats.rs:241-252 | with the corrected splice, a record whose matched text is the line between its columns shows its line unchanged |
| OutputFormats.ClampedSplice | src/output_formats.rs:389-403 | after clamping both columns to the line no slice goes out of range; an exact record shows its line, except an empty match at the end of the line, which shows nothing; a start column at or past the end shows only the matched text and what follows the end column |
| OutputFormats.Highlight | src/output_formats.rs:556-571 | for ascending, non-overlapping starts inside a text without ESC, stripping the colour codes gives the text back, and the result holds exactly two codes per start |
| OutputFormats.HighlightStrips | src/output_formats.rs:556-571 | stripping the colour codes from a highlighted text gives the text from `last` on back |
| OutputFormats.HighlightCountsCodes | src/output_formats.rs:556-571 | a highlighted text holds one pair of colour codes per occurrence |
| OutputFormats.NonOverlappingSeparated | src/output_formats.rs:550-554 | the leftmost non-overlapping occurrences are true occurrences and can be highlighted |
| OutputFormats.FindMatchIndicesSeparated | src/output_formats.rs:550-554 | what `find_match_indices` returns satisfies `highlight`'s requirements, for the empty query too |
| OutputFormats.FindMatchIndices | src/output_formats.rs:550-554 | an empty query is found at every position of the text, end included; a non-empty one only where it occurs |
| OutputFormats.TextShown | src/output_formats.rs:233-273 | without colour an exact record shows its line, except an empty match at its end, which shows nothing, and a start column at the end shows only the matched text and what follows; with colour the shown text strips back to the matched text |
| OutputFormats.TextMatchLine | src/output_formats.rs:258-273 | the line starts with its location; without colour, what follows is an exact record's line, or nothing for an empty match at its end; with colour, what follows strips back to the matched text |
| OutputFormats.TextContext | src/output_formats.rs:277-289 | a context block only when context is on and the match has some, of the lines before and after plus three; its arrow line ends with an exact record's line when the start column lies inside it |
| OutputFormats.FormatTextLines | src/output_formats.rs:216-291 | after the four metadata lines, if any, every match gives at least its own line, and exactly that one without context |
| OutputFormats.FormatTextShowsLines | src/output_formats.rs:216-291 | without context, the text format shows after its header exactly one line per match, in order; without colour an exact record's line ends with its line, or is only the location for an empty match at the end of the line |
| OutputFormats.ElementContentRoundTrip | src/output_formats.rs:320-337 | the content of an element line is cut back out of it exactly |
| OutputFormats.XmlMatch | src/output_formats.rs:320-337 | every match takes seven lines |
| OutputFormats.XmlMatchReadsBack | src/output_formats.rs:320-337 | a match's seven lines give back its line number, line, matched text and both columns |
| OutputFormats.FormatXmlMatchBlock | src/output_formats.rs:297-344 | after the head (8 lines with metadata, 3 without), match k owns seven consecutive lines, in order, and they are its block |
| OutputFormats.FormatXmlReadsBack | src/output_formats.rs:297-344 | the XML document gives back every match's line number, line, matched text and columns, in order |
| OutputFormats.FormatXmlLines | src/output_formats.rs:297-344 | the document is the head (eight lines with metadata, three without), seven lines per match and the two closing lines |
| OutputFormats.HtmlMatchLine | src/output_formats.rs:405-417 | whatever the line and matched text hold, the shown line has exactly the six angle-bracket pairs of its own tags: nothing in the record becomes markup |
| OutputFormats.HtmlMatchLineShowsLine | src/output_formats.rs:389-417 | reading the three escaped parts of an exact record's shown line back gives its line, or nothing for an empty match at the end of the line |
| OutputFormats.FormatHtmlShowsLine | src/output_formats.rs:348-425 | after the head (21 lines with metadata, 15 without), match k owns four lines, the third being its shown line |
| OutputFormats.FormatHtmlLines | src/output_formats.rs:348-425 | the page is the head (21 lines with metadata, 15 without), four lines per match, and the closing body and html tags |
| OutputFormats.MarkdownMatch | src/output_formats.rs:440-466 | every match takes seven lines; the fifth ends with an exact record's line when the start column lies inside it, and holds only the arrow and line number for an empty match at the end of the line |
| OutputFormats.FormatMarkdownShowsLines | src/output_formats.rs:428-469 | after the head (6 lines with metadata, 2 without), match k owns seven lines, and the fifth, inside the code fence, ends with its line when the record is exact and its start column lies inside the line |
| OutputFormats.FormatMarkdownLines | src/output_formats.rs:428-469 | the document starts with its title line and is the head (6 lines with metadata, 2 without) and seven lines per match |
| Config.Merge | src/config.rs:383-391 | the other layer's search, output and performance sections replace this one's; its extension list replaces this one's only when non-empty; every other field is kept |
| Config.Validate | src/config.rs:444-452 | valid exactly when the thread count is at most 1024, with the message "Thread count too high: n" otherwise |
| Config.DefaultValid | src/config.rs:49-63 | the defaults pass validation, with thread count 0 meaning automatic and no extension list or shortcuts |
| Config.ParseUsize | src/config.rs:534-538 | a value is read only when it is a decimal number, with an optional '+', below 2^64 |
| Config.ParseUsizeRoundTrip | src/config.rs:534-538 | the decimal rendering of any usize, with or without '+', parses back to itself |
| Config.LoadEnvConfig | src/config.rs:531-541 | the defaults, differing at most in the thread count, which is the parsed `RFGREP_THREADS` when present and valid and 0 otherwise |
| Config.Layers | src/config.rs:485-500 | the present layers end with the environment layer |
| Config.LastExtensions | src/config.rs:388-390 | the extension list that ends up after the layers is the base's or one of the layers' |
| Config.MergeAll | src/config.rs:485-498 | merging no layer leaves the base as it is, and whatever the layers, only the search, output and performance sections and the extension list can differ from the base |
| Config.MergeAllSpec | src/config.rs:383-391 | merging a non-empty list of layers gives the last layer's three sections, the last non-empty extension list, and the base everywhere else |
| Config.MergeConfigs | src/config.rs:485-500 | only the merged configuration changes |
| Config.MergeConfigsResult | src/config.rs:485-500 | the merged configuration takes the environment's search, output and performance, the last non-empty extension list of the present layers, and the defaults for git, compression, logging, shortcuts, UI, types and experimental settings |
| Config.EnvThreadsWin | src/config.rs:485-500 | a valid `RFGREP_THREADS` sets the merged thread count, whatever the files say |
| Config.NewManager | src/config.rs:464-475 | a new manager has no project layer and its merged search section is the environment's |
| Config.Ancestor | src/config.rs:550-552 | popping `up` components keeps the path's prefix and whether it is absolute |
| Config.HasMarker | src/config.rs:546-550 | true exactly when one of ".git", ".rfgreprc" or "Cargo.toml" is present in the directory |
| Config.FindProjectRoot | src/config.rs:543-556 | the result is the nearest ancestor, the start included, holding a marker; none exactly when no ancestor up to the root holds one |
| Config.LoadForDirectory | src/config.rs:477-483 | without a project root nothing changes; with one, the project layer is the root's `.rfgreprc` and the environment still decides the search section |
| CliConfig.LookupField | src/cli_config.rs:185 | a found value belongs to an entry with that key; nothing is found exactly when no entry has it |
| CliConfig.Walk | src/cli_config.rs:183-190 | the empty key path reaches the value itself, and a one-part path is the lookup of that entry |
| CliConfig.WalkAppend | src/cli_config.rs:183-190 | walking a key path in two pieces is walking it whole; a part missing in the first piece stops the walk |
| CliConfig.GetKey | src/cli_config.rs:178-197 | fails with "Key not found: key" exactly when some part of the dotted key is missing; a string leaf is shown bare and any other value as JSON |
| CliConfig.PrintKeys | src/cli_config.rs:204-224 | only an object lists anything, and no listed value is an object |
| CliConfig.PrintFrom | src/cli_config.rs:204-221 | from any entry on, no listed value is an object, and with a prefix every listed key starts with it |
| CliConfig.ListKeys | src/cli_config.rs:199-228 | every listed value is a leaf, and with a prefix every listed key starts with it |
| CliConfig.PrintFromFilter | src/cli_config.rs:204-224 | the prefix filter only drops entries: the filtered listing is the unfiltered one restricted to keys with the prefix, in the same order |
| CliConfig.ListFilter | src/cli_config.rs:199-228 | `list` with a prefix prints exactly the entries of the full listing whose key starts with it, in order |
| CliConfig.ExtendJoins | src/cli_config.rs:207-211 | below a non-empty prefix, a nested key is the prefix, '.', and the path joined with '.' |
| CliConfig.LookupDistinct | src/cli_config.rs:185 | with distinct keys, an entry's own key finds that entry's value |
| CliConfig.PrintFromWalk | src/cli_config.rs:204-224 | every listed entry is reached from the tree by walking the parts of its dotted key |
| CliConfig.ListThenGet | src/cli_config.rs:178-228 | when keys are non-empty, free of '.' and distinct, every key `list` prints can be given to `get`, which prints the listed value |
| CliConfig.InitPath | src/cli_config.rs:148-154 | fails with "No config directory found" exactly for the user location without a configuration directory; the user file is `rfgrep/config.toml` in that directory |
| CliConfig.Init | src/cli_config.rs:143-177 | fails exactly when the path cannot be found; otherwise an existing file is left alone exactly when `--force` is absent |
| CliConfig.InitGuard | src/cli_config.rs:156-162 | without `--force` an existing file is never overwritten; with it, it always is |
| Tui.MaxScroll | src/tui.rs:522 | the largest scroll still leaves a page of ten matches below it, and is 0 for fewer than ten |
| Tui.DefaultValid | src/tui.rs:62-93 | the initial state keeps the interface's invariant |
| Tui.Position | src/tui.rs:470-481 | the first position of a file in the list, or none exactly when the file is not listed |
| Tui.MatchPosition | src/tui.rs:483-494 | the first match in a file, or none exactly when no match is in it |
| Tui.UpdateFileIndexFromMatch | src/tui.rs:470-481 | only the file index changes, and it points at the current match's file whenever that file is listed |
| Tui.UpdateMatchIndexFromFile | src/tui.rs:483-494 | only the match index changes, and it points at a match in the current file whenever there is one |
| Tui.MatchPathListed | src/tui.rs:590-602 | in a valid state every match's file is in the file list |
| Tui.FileHasMatch | src/tui.rs:590-602 | in a valid state every listed file has a match |
| Tui.NextMatch | src/tui.rs:432-438 | with no matches nothing changes; otherwise the match index steps forward by one with wrap-around, only the two indices change, and in a valid state the current file becomes the current match's |
| Tui.PreviousMatch | src/tui.rs:440-449 | with no matches nothing changes; otherwise the match index steps back by one with wrap-around, the inverse of `next_match`, only the two indices change, and in a valid state the current file becomes the current match's |
| Tui.MatchMoveSelectsFile | src/tui.rs:470-481 | selecting any match in a valid state selects its file |
| Tui.NextFile | src/tui.rs:451-457 | with no files nothing changes; otherwise the file index steps forward by one with wrap-around, only the two indices change, and in a valid state the current match lies in the current file |
| Tui.PreviousFile | src/tui.rs:459-468 | with no files nothing changes; otherwise the file index steps back by one with wrap-around, the inverse of `next_file`, only the two indices change, and in a valid state the current match lies in the current file |
| Tui.FileMoveSelectsMatch | src/tui.rs:483-494 | selecting a file selects the first match in it |
| Tui.CycleSearchMode | src/tui.rs:496-503 | only the mode and the status message change |
| Tui.CycleAlgorithm | src/tui.rs:505-513 | only the algorithm and the status message change |
| Tui.CyclePeriods | src/tui.rs:496-513 | the mode comes back after exactly three presses and the algorithm after exactly four |
| Tui.ScrollUp | src/tui.rs:515-519 | only the scroll changes, down by one and never below 0 |
| Tui.ScrollDown | src/tui.rs:521-526 | only the scroll changes: it moves one line down while below the largest scroll and stays put at it, so it never passes the largest scroll |
| Tui.ScrollInverse | src/tui.rs:515-526 | scrolling down then up, away from the bottom, and up then down, away from the top, return to the same place |
| Tui.SetMatches | src/tui.rs:590-602 | the new list with both indices and the scroll at 0, and as file list the strictly sorted set of the matches' paths; nothing else changes |
| Tui.RefreshSearch | src/tui.rs:551-584 | with no pattern only the status says so; otherwise the found matches are installed and the search is reported completed |
| Tui.OpenCurrentFile | src/tui.rs:528-549 | only the status message changes, and only when there is a current match |
| Tui.Edit | src/tui.rs:643-684 | a typed character is inserted at the cursor, Backspace removes the one before it, Delete the one under it, and the moves keep the text; the cursor stays inside the text |
| Tui.RemoveInsert | src/tui.rs:643-684 | removing the character just inserted gives the text back |
| Tui.EditUndo | src/tui.rs:643-684 | typing then Backspace restores the line, and Left then Right restores a cursor not at the start |
| Tui.HandleSearchInput | src/tui.rs:623-684 | Enter makes the typed text the pattern and runs the search, Esc drops it, and any other key only edits the prompt |
| Tui.HandleCommandInput | src/tui.rs:686-708 | Enter and Esc return to normal mode with an empty prompt, reporting "Command processed" or "Command cancelled", and change nothing else; every other key edits the prompt line exactly as the search prompt does |
| Tui.EnterSearchInputMode | src/tui.rs:605-611 | the prompt opens in search mode holding the current pattern, with the cursor at its end and the status line asking for a pattern; nothing else changes |
| Tui.ToggleCase | src/tui.rs:394-404 | case sensitivity flips and only it and the status message change |
| Tui.KeyAction | src/tui.rs:371-428 | the whole normal-mode key map, one iff per action: 'q' quits, 'h' help, 'j'/'n'/Down next match, 'k'/'N'/Up previous match, 'l'/Right next file, Left previous file, 'c' case, 'm' mode, 'a' algorithm, 'r' refresh, '/' search prompt, Enter open, PageUp/PageDown scroll; any other key does nothing |
| Tui.Apply | src/tui.rs:371-429 | quitting and unbound keys leave the state alone |
| Tui.ApplyEffects | src/tui.rs:371-429 | what each other action does: help shows, match and file moves change only the two indices (next steps with wrap-around), `c` flips case, `m` and `a` step their cycles, refresh installs the found matches or reports a missing pattern, `/` opens the prompt with the pattern, Enter changes only the status, and the page keys move the scroll one line within its bound and change nothing else |
| Tui.HandleKey | src/tui.rs:358-430 | the interface quits exactly on 'q' in normal mode with no help shown, leaving the state alone; with help shown a key only closes it, and only 'h' or Esc do |
| Tui.SetMatchesValid | src/tui.rs:590-602 | installing any list of matches gives a valid state |
| Tui.MatchMovesValid | src/tui.rs:432-449 | moving between matches keeps a valid state valid |
| Tui.FileMovesValid | src/tui.rs:451-468 | moving between files keeps a valid state valid |
| Tui.RefreshValid | src/tui.rs:551-584 | a refresh keeps a valid state valid, whatever the search finds |
| Tui.ApplyValid | src/tui.rs:371-429 | every action of normal mode keeps a valid state valid |
| Tui.PromptKeyValid | src/tui.rs:614-708 | the keys of both prompts keep a valid state valid |
| Tui.HandleKeyValid | src/tui.rs:358-430 | every key keeps a valid state valid, whatever a search returns or the editor does |
| Tui.PromptEnterEsc | src/tui.rs:623-642 | Enter in the prompt makes the typed text the pattern and empties the prompt; Esc keeps the pattern and the matches |
| AppSimple.Escape | src/app_simple.rs:385 | escaping never shortens a pattern and leaves one without meta characters as it is |
| AppSimple.EscapeRoundTrip | src/app_simple.rs:385 | the escaped pattern reads back as the typed pattern |
| AppSimple.EscapeIsLiteral | src/app_simple.rs:385 | the escaped pattern leaves no meta character for the regex engine to interpret, and no dangling backslash |
| AppSimple.WordPattern | src/app_simple.rs:382-388 | a word pattern is "\b", the literal text of the typed pattern, and "\b" |
| AppSimple.BuildSearchPattern | src/app_simple.rs:382-388 | text and regex modes keep the pattern; word mode is the escaped pattern with a two-character word boundary on each side |
| AppSimple.CliAlgorithmOf | src/app_simple.rs:391-397 | only SIMD has no command-line choice |
| AppSimple.MapSearchAlgorithm | src/app_simple.rs:391-397 | a command-line choice never selects SIMD, and the choice can be read back from the algorithm |
| AppSimple.MapSearchAlgorithmInjective | src/app_simple.rs:391-397 | no two choices select the same algorithm |
| AppSimple.PlanSearch | src/app_simple.rs:306-318 | standard input is searched exactly when it is piped and the path is "." or empty; otherwise the path is searched as files with the chosen algorithm; the pattern is built either way |
| AppSimple.ThreadCount | src/app_simple.rs:433 | an asked-for thread count is used as is; otherwise the number of CPUs, capped at 8 |
| AppSimple.CollectOkAppend | src/app_simple.rs:442-453 | gathering the records of two runs of files is gathering each and concatenating |
| AppSimple.SequentialPlaces | src/app_simple.rs:442-453 | a failed file adds nothing, and a successful one adds its records at its own place |
| AppSimple.PerformSearch | src/app_simple.rs:410-455 | the records are exactly those of the successful files; up to ten files keep the files' order, more come back sorted by path, compared component by component, and line |
| AppSimple.FilesWithMatches | src/app_simple.rs:505-517 | each path with a match, once, in strictly ascending order |
| AppSimple.FilesWithMatchesSameSet | src/app_simple.rs:505-517 | the file listing depends only on which records occur, not on their order or repeats |
| AppSimple.OutputResults | src/app_simple.rs:457-559 | the count first, then the file list for a non-empty result, then "No matches found" for an empty one except in JSON, then the matches with a header unless quiet, JSON or NDJSON, NDJSON formatting as JSON |
| AppSimple.ReportIgnoresStrategy | src/app_simple.rs:438-517 | the count and the file list are the same whether the files were searched in parallel or one after another |
| AppSimple.ExtensionAllowed | src/app_simple.rs:698-711 | with an extension list, a file passes exactly when it has an extension equal to one of them ignoring ASCII case; without one, every file does |
| AppSimple.BelowInMiBExact | src/app_simple.rs:713-724 | comparing the size in bytes with a bound times 1 MiB is the float comparison of the size in MiB |
| AppSimple.SizeAllowed | src/app_simple.rs:713-726 | with readable metadata, a file passes exactly when its size in MiB is within the bounds given; without it, it passes |
| AppSimple.SortKeyOrder | src/app_simple.rs:730-764 | for every criterion, comparing two files' sort keys agrees with the comparator `handle_list` sorts by: file names as options, sizes and modification times with missing metadata as 0 and the epoch, extensions with a missing one as "", and whole paths by their components |
| AppSimple.OrderedPermutes | src/app_simple.rs:730-768 | sorting and reversing keep the same files, as often as they were found |
| AppSimple.OrderedSorted | src/app_simple.rs:730-768 | the files are in ascending order of the criterion's key, which agrees with the comparator (`SortKeyOrder`), or descending when reversed |
| AppSimple.ReverseDescending | src/app_simple.rs:766-768 | reversing an ascending list gives a descending one |
| AppSimple.ListFiles | src/app_simple.rs:769-772 | no more files than the limit are listed |
| AppSimple.ListFilesRetained | src/app_simple.rs:698-772 | every listed file was found by the walk and passes the filters |
| AppSimple.ListFilesOrdered | src/app_simple.rs:730-772 | the listing is in the criterion's order, or its reverse |
| AppSimple.ListFilesComplete | src/app_simple.rs:698-768 | without a limit every file that passes the filters is listed, as often as it was found |
| AppSimple.FileLine | src/app_simple.rs:781-800 | a file's line ends with its path, and is the path alone unless long and the metadata could be read; a long line split at spaces reads back the size as its first field and the seconds since the epoch (0 when unknown or before it) as its second |
| AppSimple.SecondsShown | src/app_simple.rs:785-792 | the whole seconds since the epoch of a modification time in nanoseconds, rounded down, and 0 for a time before the epoch |
| AppSimple.ExtensionKeys | src/app_simple.rs:804-818 | the distinct extensions of the listed files, in strictly ascending order |
| AppSimple.ExtensionLines | src/app_simple.rs:804-823 | one line per distinct extension, sorted, each with its own positive count |
| AppSimple.ListOutput | src/app_simple.rs:774-823 | with `stats` only the summary; with `simple` exactly the paths; otherwise each file's line in order, then the summary, then, when long and some file has an extension, the "Extensions:" heading and one line per sorted extension count, and nothing after the summary otherwise |
| AppSimple.FullListing | src/app_simple.rs:780-823 | for any extension counts: the file lines, the summary right after them, and with `long` and non-empty counts the heading next and then the k-th count line at offset k after it; just the lines and summary otherwise |
| Text.EqIgnoreAsciiCaseIffLowerEqual | src/app/filters.rs:141 | two texts are equal ignoring ASCII case exactly when their ASCII-lowered forms are equal |
| Text.Lines | src/processor.rs:290 | no line holds a line feed |
| Text.LinesOfTerminated | src/processor.rs:290 | lines without line endings, each ended by '\n', split back into exactly those lines |
| Text.JoinSplit | src/cli_config.rs:184 | joining the pieces of a split with the separator gives the text back |
| Text.SplitJoin | src/cli_config.rs:184 | pieces free of the separator, joined with it, split back into exactly those pieces |
| Text.NatToStringRoundTrip | src/config.rs:444-452 | the decimal rendering of a number parses back to it |
| Seqs.SortByKeyCorrect | src/app_simple.rs:730-764 | the stable sort by a key is ascending in the key and keeps every element as often as it occurs |
| Seqs.SortedSetCorrect | src/app_simple.rs:505-515 | collecting into a set and sorting gives a strictly ascending list of exactly the elements that occur |
| Seqs.FilterIsSubsequence | src/app/filters.rs:61-66 | filtering keeps a subsequence of the input, in its order |
| Seqs.FilterIdempotent | src/app/filters.rs:61-66 | filtering twice by the same test is filtering once |

## Left out

- File and operating-system I/O is not modelled: opening and memory-mapping files, reading `/proc/meminfo`, metadata, `canonicalize`, directory walks (src/walker.rs), TOML loading and the platform's directory lookups. Their results are parameters: available memory, the size and binary flag of a file, the lines a reader yields, whether a marker exists, and a configuration layer that is present or absent.
- The dispatch of `FileProcessor::search_file` between memory mapping, streaming and whole-file reading is left out, because it only chooses an I/O strategy. The search each strategy runs is modelled.
- Concurrency is left out: tokio tasks, the semaphore and channel of `search_files_parallel`, and the per-file timeout. Only the final collection and sort are modelled. Which tasks finish, and in which order, is an input.
- The archive branch of the streaming `search_file` is left out. So are src/archive.rs and the decompressors behind `open_compressed_stream`, which are foreign libraries. Only the rejection of Zip and Tar and the success or failure of opening are modelled.
- The `regex` crate is an oracle from a line to its first match span, so compiling a pattern is a parameter. `RegexSearch::new` panics on an invalid pattern; the model has no panic, and the regex matcher returns the engine's match starts.
- `memchr::memmem` is modelled by its contract: leftmost non-overlapping occurrences, with an empty needle found at every position.
- `infer` MIME sniffing and `FileTypeClassifier` are parameters, because they are external.
- The AVX-512 backend is left out. It is compiled only behind a feature gate, and its scan has the same block-then-tail shape as the AVX2 one, with 64 lanes.
- `estimate_performance` is left out because it is floating-point arithmetic only.
- `format_json`, NDJSON output, the `format_results` dispatch and the serde rendering of configuration values are left out. JSON is a foreign serialiser, and a value printed as JSON is returned as the value itself.
- The debug `println!` calls inside `format_text` are left out. They slice `line[column_start..]` without a bound check, so the text format is modelled only for records whose columns fit the line.
- Strings are indexed by character, not by UTF-8 byte. The two agree on ASCII. `to_lowercase` in src/compression.rs is modelled as ASCII lowering.
- Terminal drawing, `init_terminal` and `restore_terminal` are left out, because they are I/O. So is spawning an editor in `open_current_file`: whether the spawn fails is a parameter. The walk in `refresh_search` is also left out: the matches it finds are a parameter.
- `ConfigAction::Show`, the configuration actions printed as "not fully implemented", shell completions, the worker and plugin commands, and the TUI command of src/app_simple.rs are left out. They only print or delegate to I/O.
- Filters.ShouldSearchFile: the contract states only the necessary conditions (readable metadata, not a skipped binary, the extension lists pass). The full conjunction is the body, and the safety, type and size checks are stated by their own members.
- StreamingSearch.SearchFilesParallel: the result is sorted by (path, line number) only. Records that tie on both may come out in a different order than the derived `Ord` of `SearchMatch` would put them.
- Paths.PathOrderKey: paths are compared by their '/'-separated pieces as written. `Path::components` also drops repeated separators, a trailing separator, inner "." components and a leading "./"; paths that differ only in those may be ordered differently by the model. A path holding NUL is outside `PathOrderIsComponentOrder`, because NUL stands for the separator in the key.
- Processor.AdaptiveMmapThreshold: `available_kb * 1024` wraps at 2^64, as a release build computes it; a debug build panics on that overflow instead (src/processor.rs:33-36).
- StreamingSearch.CollectOk: the records are collected in the order the per-file searches report, which is taken as an input; in the source that order depends on scheduling.
- Compression.FromExtension: the extension is lowered with ASCII rules instead of Unicode `to_lowercase`. The two agree on every name in the table.

## Findings

For both rows the model keeps the code as written wherever the program runs it: the matcher factory builds the Boyer-Moore searcher with the table as written, and the text, HTML and Markdown formats splice the line as written. The corrected definitions stand beside them with the intended property proved.

| source | as written | input that shows it | evidently intended | confidence | as-written member | corrected member |
|---|---|---|---|---|---|---|
| src/search_algorithms.rs:126-135 | the good-suffix table holds m at index m-2, and the search shifts by it when the comparison stops there | pattern "abab" in "aaababab": the search returns [4], but "abab" also occurs at 2 | every occurrence is found, as the repository's property test expects of every matcher | not executed | SearchAlgorithms.BoyerMooreMissesOccurrence | SearchAlgorithms.BoyerMooreFixedComplete |
| src/output_formats.rs:241-245 | the text before the match is taken only when the start column lies strictly inside the line (the same code is at 397-401 and 449-453) | a zero-width match at the end of "ab" (columns 2..2, empty text) is shown as "" | the shown line is the line itself: before, matched text, after | not executed | OutputFormats.SpliceDropsLineAtEnd | OutputFormats.SpliceRestoresLine |

=== FILE: app_simple.dfy ===
/** The decisions `RfgrepApp` in src/app_simple.rs makes around a search and a
    listing: the pattern a search mode builds (with the regex crate's escaping),
    the algorithm a command-line choice selects, whether standard input is
    searched, how per-file results are gathered, which report is printed, and the
    list command's filter, order, limit and lines.

    Walking directories, reading metadata, the terminal and printing are outside
    the model: their results are parameters. */
module AppSimple {

  import opened Wrappers
  import opened Text
  import opened Seqs
  import P = Processor
  import SA = SearchAlgorithms
  import SS = StreamingSearch
  import F = OutputFormats
  import Paths
  import Filters

  // ---------------------------------------------------------------------------
  // The search pattern

  /** `cli::SearchMode`. */
  datatype SearchMode = TextMode | WordMode | RegexMode

  /** The characters `regex::escape` prefixes with a backslash. */
  predicate IsMeta(c: char) {
    c == '\\' || c == '.' || c == '+' || c == '*' || c == '?' || c == '(' || c == ')' || c == '|'
    || c == '[' || c == ']' || c == '{' || c == '}' || c == '^' || c == '$' || c == '#' || c == '&'
    || c == '-' || c == '~'
  }

  function EscapeChar(c: char): (r: String) {
    if IsMeta(c) then ['\\', c] else [c]
  }

  /** `regex::escape`: every meta character is preceded by a backslash. */
  function Escape(s: String): (r: String)
    ensures |r| >= |s|
    ensures (forall i :: 0 <= i < |s| ==> !IsMeta(s[i])) ==> r == s
  {
    if s == [] then [] else EscapeChar(s[0]) + Escape(s[1..])
  }

  /** Reads an escaped text back: a backslash takes the next character literally. */
  function Unescape(t: String): (r: String) {
    if t == [] then []
    else if t[0] == '\\' && |t| >= 2 then [t[1]] + Unescape(t[2..])
    else [t[0]] + Unescape(t[1..])
  }

  /** Text the regex engine reads as literal characters only: every meta
      character comes escaped, and no backslash is left dangling. */
  predicate LiteralOnly(t: String) {
    if t == [] then true
    else if t[0] == '\\' then |t| >= 2 && IsMeta(t[1]) && LiteralOnly(t[2..])
    else !IsMeta(t[0]) && LiteralOnly(t[1..])
  }

  lemma EscapeCons(c: char, rest: String)
    ensures Escape([c] + rest) == EscapeChar(c) + Escape(rest)
  {
    assert ([c] + rest)[1..] == rest;
  }

  /** Escaping loses nothing: the escaped text reads back as the pattern. */
  lemma {:induction false} EscapeRoundTrip(s: String)
    ensures Unescape(Escape(s)) == s
  {
    if s != [] {
      EscapeRoundTrip(s[1..]);
      var t := Escape(s);
      var rest := Escape(s[1..]);
      assert t == EscapeChar(s[0]) + rest;
      if IsMeta(s[0]) {
        assert t[0] == '\\' && t[1] == s[0] && t[2..] == rest;
      } else {
        assert t[0] == s[0] && t[1..] == rest;
      }
      assert s == [s[0]] + s[1..];
    }
  }

  /** Escaped text has no meta character left for the regex engine to interpret. */
  lemma {:induction false} EscapeIsLiteral(s: String)
    ensures LiteralOnly(Escape(s))
  {
    if s != [] {
      EscapeIsLiteral(s[1..]);
      var t := Escape(s);
      var rest := Escape(s[1..]);
      assert t == EscapeChar(s[0]) + rest;
      if IsMeta(s[0]) {
        assert t[0] == '\\' && t[1] == s[0] && t[2..] == rest;
      } else {
        assert t[0] == s[0] && t[1..] == rest;
      }
    }
  }

  const WordBoundary := "\\b"

  /** `build_search_pattern`: text and regex patterns pass through; a word
      pattern is escaped and put between word boundaries. */
  function BuildSearchPattern(pattern: String, mode: SearchMode): (r: String)
    ensures !mode.WordMode? ==> r == pattern
    ensures mode.WordMode? ==> |r| == |Escape(pattern)| + 4
  {
    match mode
    case TextMode => pattern
    case WordMode => WordBoundary + Escape(pattern) + WordBoundary
    case RegexMode => pattern
  }

  /** A word pattern is the literal text of the typed pattern between two word
      boundaries: the middle reads back as the pattern and holds no meta
      character of its own. */
  lemma WordPattern(pattern: String)
    ensures var r := BuildSearchPattern(pattern, WordMode);
            |r| >= 4 && r[..2] == WordBoundary && r[|r| - 2..] == WordBoundary
            && Unescape(r[2..|r| - 2]) == pattern && LiteralOnly(r[2..|r| - 2])
  {
    var r := BuildSearchPattern(pattern, WordMode);
    var e := Escape(pattern);
    assert r == WordBoundary + e + WordBoundary;
    assert r[2..|r| - 2] == e;
    EscapeRoundTrip(pattern);
    EscapeIsLiteral(pattern);
  }

  // ---------------------------------------------------------------------------
  // The algorithm

  /** `cli::SearchAlgorithm`. */
  datatype CliAlgorithm = BoyerMoore | Regex | Simple

  /** The command-line choice an internal algorithm comes from, if any. */
  function CliAlgorithmOf(a: SA.SearchAlgorithm): (r: Option<CliAlgorithm>)
    ensures r.None? <==> a.Simd?
  {
    match a
    case BoyerMooreAlgorithm => Some(BoyerMoore)
    case Regex => Some(Regex)
    case Simple => Some(Simple)
    case Simd => None
  }

  /** `map_search_algorithm`: never SIMD, and no two choices share an algorithm
      (the choice is read back from the result). */
  function MapSearchAlgorithm(a: CliAlgorithm): (r: SA.SearchAlgorithm)
    ensures !r.Simd?
    ensures CliAlgorithmOf(r) == Some(a)
  {
    match a
    case BoyerMoore => SA.BoyerMooreAlgorithm
    case Regex => SA.Regex
    case Simple => SA.Simple
  }

  lemma MapSearchAlgorithmInjective(a: CliAlgorithm, b: CliAlgorithm)
    ensures MapSearchAlgorithm(a) == MapSearchAlgorithm(b) ==> a == b
  {
    var _ := MapSearchAlgorithm(a);
    var _ := MapSearchAlgorithm(b);
  }

  // ---------------------------------------------------------------------------
  // Where a search reads from

  /** The path given when none was: "." or nothing. */
  predicate IsDefaultPath(path: String) {
    path == "." || path == []
  }

  datatype Plan =
    | StdinPlan(searchPattern: String, originalPattern: String)
    | FilesPlan(searchPattern: String, algorithm: SA.SearchAlgorithm, path: String)

  /** The start of `handle_search`: the pattern is built first; piped standard
      input is searched only when the path is the default one, and any other
      path is searched as files even when input is piped. */
  function PlanSearch(pattern: String, mode: SearchMode, algorithm: CliAlgorithm, stdinPiped: bool, path: String)
    : (r: Plan)
    ensures r.StdinPlan? <==> stdinPiped && |path| <= 1 && (path == [] || path[0] == '.')
    ensures r.searchPattern == BuildSearchPattern(pattern, mode)
    ensures r.StdinPlan? ==> r.originalPattern == pattern
    ensures r.FilesPlan? ==> r.algorithm == MapSearchAlgorithm(algorithm) && r.path == path
  {
    var searchPattern := BuildSearchPattern(pattern, mode);
    if stdinPiped && IsDefaultPath(path) then StdinPlan(searchPattern, pattern)
    else FilesPlan(searchPattern, MapSearchAlgorithm(algorithm), path)
  }

  // ---------------------------------------------------------------------------
  // Gathering the results of the files

  /** The most worker threads chosen when none is asked for. */
  const MaxDefaultThreads: nat := 8

  /** More files than this are searched in parallel. */
  const ParallelThreshold: nat := 10

  /** `threads.unwrap_or_else(|| num_cpus::get().min(8))`. */
  function ThreadCount(threads: Option<nat>, cpus: nat): (r: nat)
    ensures threads.Some? ==> r == threads.value
    ensures threads.None? ==> r <= MaxDefaultThreads && r <= cpus && (r == MaxDefaultThreads || r == cpus)
  {
    match threads
    case Some(t) => t
    case None => Min(cpus, MaxDefaultThreads)
  }

  /** The per-file searches concatenated: order is kept, failures are dropped. */
  lemma {:induction false} CollectOkAppend(a: seq<Result<seq<P.SearchMatch>, P.Error>>,
                                           b: seq<Result<seq<P.SearchMatch>, P.Error>>)
    ensures SS.CollectOk(a + b) == SS.CollectOk(a) + SS.CollectOk(b)
  {
    if a != [] {
      CollectOkAppend(a[1..], b);
      assert (a + b)[0] == a[0];
      assert (a + b)[1..] == a[1..] + b;
    } else {
      assert a + b == b;
    }
  }

  /** In the sequential search a failed file adds nothing, and a successful one
      adds its records at its own place. */
  lemma SequentialPlaces(a: seq<Result<seq<P.SearchMatch>, P.Error>>, x: Result<seq<P.SearchMatch>, P.Error>,
                         b: seq<Result<seq<P.SearchMatch>, P.Error>>)
    ensures x.Err? ==> SS.CollectOk(a + [x] + b) == SS.CollectOk(a + b)
    ensures x.Ok? ==> SS.CollectOk(a + [x] + b) == SS.CollectOk(a) + x.value + SS.CollectOk(b)
  {
    CollectOkAppend(a + [x], b);
    CollectOkAppend(a, [x]);
    CollectOkAppend(a, b);
    assert SS.CollectOk([x]) == (if x.Ok? then x.value else []) + SS.CollectOk([]);
  }

  /** `perform_search` given the outcome of searching each file, in the order of
      the files: up to ten files are searched one after the other and their
      records kept in that order; more are searched in parallel and come back
      sorted by path and line number. Either way the records are those of the
      files whose search succeeded. */
  function PerformSearch(results: seq<Result<seq<P.SearchMatch>, P.Error>>): (r: seq<P.SearchMatch>)
    ensures multiset(r) == multiset(SS.CollectOk(results))
    ensures |results| > ParallelThreshold ==> SortedBy(r, SS.MatchKey)
    ensures |results| <= ParallelThreshold ==> r == SS.CollectOk(results)
  {
    if |results| > ParallelThreshold then SS.SearchFilesParallel(results) else SS.CollectOk(results)
  }

  // ---------------------------------------------------------------------------
  // Reports

  /** What `output_results` prints. */
  datatype Report =
    | PrintCount(n: nat)
    | PrintFiles(files: seq<String>)
    | PrintNoMatches
    | PrintNothing
    | PrintMatches(header: bool, format: F.OutputFormat, matches: seq<P.SearchMatch>)

  /** The progress lines ("Searching n files...", "Found n matches:") are shown
      unless quiet, JSON or NDJSON. */
  predicate Chatty(format: F.OutputFormat, ndjson: bool, quiet: bool) {
    !quiet && format != F.Json && !ndjson
  }

  /** `output_files_with_matches`: each path once, in sorted order. */
  function FilesWithMatches(ms: seq<P.SearchMatch>): (r: seq<String>)
    ensures StrictlySorted(r)
    ensures forall x :: x in r <==> exists i :: 0 <= i < |ms| && ms[i].path == x
  {
    var paths := P.MatchPaths(ms);
    SortedSetCorrect(paths);
    assert forall x :: x in paths ==> exists i :: 0 <= i < |ms| && paths[i] == x;
    SortedSet(paths)
  }

  /** The listing depends only on which paths occur: records in another order or
      number give the same list, so the parallel and the sequential search list
      the same files. */
  lemma FilesWithMatchesSameSet(a: seq<P.SearchMatch>, b: seq<P.SearchMatch>)
    requires forall m :: m in a <==> m in b
    ensures FilesWithMatches(a) == FilesWithMatches(b)
  {
    var ra := FilesWithMatches(a);
    var rb := FilesWithMatches(b);
    forall x ensures x in ra <==> x in rb {
      if x in ra {
        var i :| 0 <= i < |a| && a[i].path == x;
        assert a[i] in b;
      }
      if x in rb {
        var i :| 0 <= i < |b| && b[i].path == x;
        assert b[i] in a;
      }
    }
    StrictlySortedUnique(ra, rb);
  }

  /** `output_results` with `output_no_matches` and `output_matches`: a count
      comes first, then the file list, then the "No matches found" notice (for
      every format but JSON, and even when quiet), then the formatted records;
      NDJSON formats as JSON. */
  function OutputResults(ms: seq<P.SearchMatch>, format: F.OutputFormat, ndjson: bool, count: bool,
                         filesWithMatches: bool, quiet: bool): (r: Report)
    ensures r.PrintCount? <==> count
    ensures r.PrintCount? ==> r.n == |ms|
    ensures r.PrintFiles? <==> !count && filesWithMatches && ms != []
    ensures r.PrintFiles? ==> r.files == FilesWithMatches(ms)
    ensures r.PrintNoMatches? <==> !count && !filesWithMatches && ms == [] && format != F.Json
    ensures r.PrintMatches? <==> !count && !filesWithMatches && ms != []
    ensures r.PrintMatches? ==> r.matches == ms && (r.header <==> Chatty(format, ndjson, quiet))
    ensures r.PrintMatches? ==> r.format == if ndjson then F.Json else format
  {
    if ms == [] then
      if count then PrintCount(0)
      else if filesWithMatches then PrintNothing
      else if format != F.Json then PrintNoMatches
      else PrintNothing
    else if count then PrintCount(|ms|)
    else if filesWithMatches then PrintFiles(FilesWithMatches(ms))
    else PrintMatches(Chatty(format, ndjson, quiet), if ndjson then F.Json else format, ms)
  }

  /** Searching in parallel or one file after another prints the same count
      and the same file list. */
  lemma ReportIgnoresStrategy(results: seq<Result<seq<P.SearchMatch>, P.Error>>, format: F.OutputFormat,
                              ndjson: bool, count: bool, filesWithMatches: bool, quiet: bool)
    requires count || filesWithMatches
    ensures OutputResults(PerformSearch(results), format, ndjson, count, filesWithMatches, quiet)
         == OutputResults(SS.CollectOk(results), format, ndjson, count, filesWithMatches, quiet)
  {
    var r := PerformSearch(results);
    var c := SS.CollectOk(results);
    assert |r| == |multiset(r)| == |multiset(c)| == |c|;
    assert forall m :: m in r <==> m in multiset(c);
    FilesWithMatchesSameSet(r, c);
  }

  // ---------------------------------------------------------------------------
  // The list command

  /** A file's size and modification time; the time counts nanoseconds from the
      Unix epoch, negative before it, which is the resolution `SystemTime` compares
      at. */
  datatype Metadata = Metadata(len: nat, modified: Option<int>)

  /** The whole seconds since the epoch the long listing prints for a time: a time
      before the epoch prints 0. */
  function SecondsShown(t: int): (secs: nat)
    ensures t < 0 ==> secs == 0
    ensures 0 <= t ==> secs * NanosPerSecond <= t < (secs + 1) * NanosPerSecond
  {
    if t < 0 then 0 else t / NanosPerSecond
  }

  const NanosPerSecond: nat := 1_000_000_000

  /** A file the walk found, with its metadata when it could be read. */
  datatype ListEntry = ListEntry(path: String, meta: Option<Metadata>)

  /** `cli::SortCriteria`. */
  datatype SortCriteria = ByName | BySize | ByDate | ByType | ByPath

  /** With an extension list, the file must have an extension equal to one of
      them ignoring ASCII case. */
  function ExtensionAllowed(extensions: Option<seq<String>>, path: String): (ok: bool)
    ensures extensions.None? ==> ok
    ensures extensions.Some? ==>
              (ok <==> Paths.Extension(path).Some?
                       && exists i :: 0 <= i < |extensions.value|
                                      && EqIgnoreAsciiCase(extensions.value[i], Paths.Extension(path).value))
  {
    match extensions
    case None => true
    case Some(exts) =>
      match Paths.Extension(path)
      case None => false
      case Some(ext) => Filters.AnyEqIgnoreCase(exts, ext)
  }

  /** `size < min * 1048576` is the float comparison of the size in MiB with `min`. */
  lemma BelowInMiBExact(size: nat, min: nat)
    ensures size < min * Filters.MiB <==> (size as real) / (Filters.MiB as real) < min as real
  {
    var m := Filters.MiB as real;
    assert (size as real) / m * m == size as real;
    assert (min * Filters.MiB) as real == (min as real) * m;
  }

  /** The size bounds in MiB, checked only when the metadata could be read. */
  function SizeAllowed(meta: Option<Metadata>, maxSize: Option<nat>, minSize: Option<nat>): (ok: bool)
    ensures meta.None? ==> ok
    ensures meta.Some? ==>
              (ok <==> (maxSize.None? || (meta.value.len as real) / (Filters.MiB as real) <= maxSize.value as real)
                       && (minSize.None? || !((meta.value.len as real) / (Filters.MiB as real) < minSize.value as real)))
  {
    match meta
    case None => true
    case Some(m) =>
      (match maxSize
       case None => true
       case Some(max) => Filters.SizeInMiBExact(m.len, max); m.len <= max * Filters.MiB)
      && (match minSize
          case None => true
          case Some(min) => BelowInMiBExact(m.len, min); !(m.len < min * Filters.MiB))
  }

  /** The `retain` of `handle_list`. */
  predicate Retained(e: ListEntry, extensions: Option<seq<String>>, maxSize: Option<nat>, minSize: Option<nat>) {
    ExtensionAllowed(extensions, e.path) && SizeAllowed(e.meta, maxSize, minSize)
  }

  /** The sort key of each criterion; a missing file name sorts first, missing
      metadata counts as size 0 and as the epoch, a missing extension as "". */
  function SortKey(criteria: SortCriteria): (key: ListEntry -> Key) {
    match criteria
    case ByName => (e: ListEntry) => Key(match Paths.FileName(e.path) case Some(n) => n case None => [], 0)
    case BySize => (e: ListEntry) => Key([], SizeOf(e))
    case ByDate => (e: ListEntry) => Key([], TimeOf(e))
    case ByType => (e: ListEntry) => Key(ExtensionOrEmpty(e), 0)
    case ByPath => (e: ListEntry) => Key(Paths.PathOrderKey(e.path), 0)
  }

  /** `a.cmp(b) != Greater` for the comparator `handle_list` sorts with: file
      names as options (`None` first), sizes and times with missing metadata as 0
      and the epoch, extensions with a missing one as "", and whole paths by their
      components. */
  predicate ListLeq(criteria: SortCriteria, a: ListEntry, b: ListEntry) {
    match criteria
    case ByName =>
      var x := Paths.FileName(a.path);
      var y := Paths.FileName(b.path);
      x.None? || (y.Some? && StrLeq(x.value, y.value))
    case BySize => SizeOf(a) <= SizeOf(b)
    case ByDate => TimeOf(a) <= TimeOf(b)
    case ByType => StrLeq(ExtensionOrEmpty(a), ExtensionOrEmpty(b))
    case ByPath => Paths.ComponentsLeq(Split(a.path, '/'), Split(b.path, '/'))
  }

  function SizeOf(e: ListEntry): nat {
    match e.meta case Some(m) => m.len case None => 0
  }

  function TimeOf(e: ListEntry): int {
    match e.meta case Some(Metadata(_, Some(t))) => t case _ => 0
  }

  function ExtensionOrEmpty(e: ListEntry): String {
    match Paths.Extension(e.path) case Some(x) => x case None => []
  }

  /** On one-field keys, the key order is the string order. */
  lemma KeyLeqOfStrings(x: String, y: String)
    ensures KeyLeq(Key(x, 0), Key(y, 0)) <==> StrLeq(x, y)
  {
    if x == y { StrLeqReflexive(x); }
  }

  /** The sort keys order the files as the source's comparators do; paths that
      hold no NUL compare component by component. */
  lemma SortKeyOrder(criteria: SortCriteria, a: ListEntry, b: ListEntry)
    requires criteria.ByPath? ==> '\0' !in a.path && '\0' !in b.path
    ensures KeyLeq(SortKey(criteria)(a), SortKey(criteria)(b)) <==> ListLeq(criteria, a, b)
  {
    match criteria
    case ByName =>
      var x := Paths.FileName(a.path);
      var y := Paths.FileName(b.path);
      var kx := match x case Some(n) => n case None => [];
      var ky := match y case Some(n) => n case None => [];
      KeyLeqOfStrings(kx, ky);
    case BySize =>
    case ByDate =>
    case ByType =>
      KeyLeqOfStrings(ExtensionOrEmpty(a), ExtensionOrEmpty(b));
    case ByPath =>
      KeyLeqOfStrings(Paths.PathOrderKey(a.path), Paths.PathOrderKey(b.path));
      Paths.PathOrderIsComponentOrder(a.path, b.path);
  }

  function Reverse<T>(s: seq<T>): (r: seq<T>)
    ensures |r| == |s| && forall i :: 0 <= i < |s| ==> r[i] == s[|s| - 1 - i]
  {
    if s == [] then [] else Reverse(s[1..]) + [s[0]]
  }

  lemma {:induction false} ReverseMultiset<T>(s: seq<T>)
    ensures multiset(Reverse(s)) == multiset(s)
  {
    if s != [] {
      ReverseMultiset(s[1..]);
      assert s == [s[0]] + s[1..];
    }
  }

  /** The `retain` of `handle_list` as a filter. */
  function Keep(extensions: Option<seq<String>>, maxSize: Option<nat>, minSize: Option<nat>): ListEntry -> bool {
    (e: ListEntry) => Retained(e, extensions, maxSize, minSize)
  }

  /** The retained files sorted by the criterion and reversed when asked. */
  function Ordered(kept: seq<ListEntry>, criteria: SortCriteria, reverse: bool): (r: seq<ListEntry>) {
    var sorted := SortByKey(kept, SortKey(criteria));
    if reverse then Reverse(sorted) else sorted
  }

  /** The files `handle_list` prints, in order: those retained, sorted by the
      criterion (stably), reversed when asked, and cut to the limit. */
  function ListFiles(entries: seq<ListEntry>, extensions: Option<seq<String>>, maxSize: Option<nat>,
                     minSize: Option<nat>, criteria: SortCriteria, reverse: bool, limit: Option<nat>)
    : (r: seq<ListEntry>)
    ensures limit.Some? ==> |r| <= limit.value
  {
    SS.Truncate(Ordered(Filter(entries, Keep(extensions, maxSize, minSize)), criteria, reverse), limit)
  }

  /** Sorting and reversing keep the files: the same multiset. */
  lemma OrderedPermutes(kept: seq<ListEntry>, criteria: SortCriteria, reverse: bool)
    ensures multiset(Ordered(kept, criteria, reverse)) == multiset(kept)
  {
    var sorted := SortByKey(kept, SortKey(criteria));
    SortByKeyCorrect(kept, SortKey(criteria));
    ReverseMultiset(sorted);
  }

  /** Sorted ascending, or descending when reversed. */
  lemma OrderedSorted(kept: seq<ListEntry>, criteria: SortCriteria, reverse: bool)
    ensures var r := Ordered(kept, criteria, reverse);
            forall i, j :: 0 <= i < j < |r| ==>
              if reverse then KeyLeq(SortKey(criteria)(r[j]), SortKey(criteria)(r[i]))
              else KeyLeq(SortKey(criteria)(r[i]), SortKey(criteria)(r[j]))
  {
    var key := SortKey(criteria);
    SortByKeyCorrect(kept, key);
    if reverse {
      ReverseDescending(SortByKey(kept, key), key);
    }
  }

  /** Reversing a list sorted ascending by a key leaves it sorted descending. */
  lemma ReverseDescending<T>(s: seq<T>, key: T -> Key)
    requires SortedBy(s, key)
    ensures var r := Reverse(s);
            forall i, j :: 0 <= i < j < |r| ==> KeyLeq(key(r[j]), key(r[i]))
  {
    var r := Reverse(s);
    forall i, j | 0 <= i < j < |r| ensures KeyLeq(key(r[j]), key(r[i])) {
      assert r[i] == s[|s| - 1 - i] && r[j] == s[|s| - 1 - j];
    }
  }

  /** Every listed file was found by the walk and passes the filter. */
  lemma ListFilesRetained(entries: seq<ListEntry>, extensions: Option<seq<String>>, maxSize: Option<nat>,
                          minSize: Option<nat>, criteria: SortCriteria, reverse: bool, limit: Option<nat>)
    ensures var r := ListFiles(entries, extensions, maxSize, minSize, criteria, reverse, limit);
            forall i :: 0 <= i < |r| ==> r[i] in entries && Retained(r[i], extensions, maxSize, minSize)
  {
    var keep := Keep(extensions, maxSize, minSize);
    var kept := Filter(entries, keep);
    FilterMembers(entries, keep);
    var ordered := Ordered(kept, criteria, reverse);
    var r := ListFiles(entries, extensions, maxSize, minSize, criteria, reverse, limit);
    FilterIsSubsequence(entries, keep);
    OrderedPermutes(kept, criteria, reverse);
    forall i | 0 <= i < |r| ensures r[i] in entries && keep(r[i]) {
      assert r[i] == ordered[i];
      assert ordered[i] in multiset(kept);
    }
  }

  /** The listing is in the criterion's order, or its reverse. */
  lemma ListFilesOrdered(entries: seq<ListEntry>, extensions: Option<seq<String>>, maxSize: Option<nat>,
                         minSize: Option<nat>, criteria: SortCriteria, reverse: bool, limit: Option<nat>)
    ensures var r := ListFiles(entries, extensions, maxSize, minSize, criteria, reverse, limit);
            forall i, j :: 0 <= i < j < |r| ==>
              if reverse then KeyLeq(SortKey(criteria)(r[j]), SortKey(criteria)(r[i]))
              else KeyLeq(SortKey(criteria)(r[i]), SortKey(criteria)(r[j]))
  {
    var ordered := Ordered(Filter(entries, Keep(extensions, maxSize, minSize)), criteria, reverse);
    OrderedSorted(Filter(entries, Keep(extensions, maxSize, minSize)), criteria, reverse);
    var r := ListFiles(entries, extensions, maxSize, minSize, criteria, reverse, limit);
    assert r == ordered[..|r|];
  }

  /** Without a limit every retained file is listed, as often as it was found. */
  lemma ListFilesComplete(entries: seq<ListEntry>, extensions: Option<seq<String>>, maxSize: Option<nat>,
                          minSize: Option<nat>, criteria: SortCriteria, reverse: bool)
    ensures multiset(ListFiles(entries, extensions, maxSize, minSize, criteria, reverse, None))
         == multiset(Filter(entries, Keep(extensions, maxSize, minSize)))
  {
    OrderedPermutes(Filter(entries, Keep(extensions, maxSize, minSize)), criteria, reverse);
  }

  const SummaryHead := "Summary: "
  const SummaryTail := " files found"
  const ExtensionsHead := "Extensions:"

  function Summary(n: nat): (line: String)
    ensures |line| >= |SummaryHead| + |SummaryTail|
    ensures StartsWith(line, SummaryHead) && EndsWith(line, SummaryTail)
    ensures ParseNat(line[|SummaryHead|..|line| - |SummaryTail|]) == Some(n)
  {
    var digits := NatToString(n);
    NatToStringRoundTrip(n);
    var line := SummaryHead + digits + SummaryTail;
    assert line[..|SummaryHead|] == SummaryHead;
    assert line[|line| - |SummaryTail|..] == SummaryTail;
    assert line[|SummaryHead|..|line| - |SummaryTail|] == digits;
    line
  }

  /** A file's line: size, modification time and path in the long form when the
      metadata could be read, the path alone otherwise. */
  function FileLine(e: ListEntry, long: bool): (line: String)
    ensures EndsWith(line, e.path)
    ensures !long || e.meta.None? ==> line == e.path
    ensures long && e.meta.Some? ==>
              var ps := Split(line, ' ');
              |ps| >= 3 && ParseNat(ps[0]) == Some(e.meta.value.len)
              && ParseNat(ps[1]) == Some(match e.meta.value.modified case Some(t) => SecondsShown(t) case None => 0)
  {
    if long && e.meta.Some? then
      var m := e.meta.value;
      var size := NatToString(m.len);
      var secs := NatToString(match m.modified case Some(t) => SecondsShown(t) case None => 0);
      var line := size + " " + secs + " " + e.path;
      assert line[|line| - |e.path|..] == e.path;
      assert line == size + [' '] + (secs + [' '] + e.path);
      SplitAtFirst(size, ' ', secs + [' '] + e.path);
      SplitAtFirst(secs, ' ', e.path);
      NatToStringRoundTrip(m.len);
      NatToStringRoundTrip(match m.modified case Some(t) => SecondsShown(t) case None => 0);
      line
    else e.path
  }

  /** The extension of each file, in order. */
  function ExtensionOfEach(files: seq<ListEntry>): (r: seq<Option<String>>)
    ensures |r| == |files| && forall i :: 0 <= i < |files| ==> r[i] == Paths.Extension(files[i].path)
  {
    seq(|files|, i requires 0 <= i < |files| => Paths.Extension(files[i].path))
  }

  /** How many of `files` have the extension `ext`. */
  function ExtensionCount(files: seq<ListEntry>, ext: String): (n: nat)
    ensures n <= |files|
  {
    multiset(ExtensionOfEach(files))[Some(ext)]
  }

  /** The extensions among `files`, in the order of the files, with repeats. */
  function ExtensionsOf(files: seq<ListEntry>): (r: seq<String>)
    ensures forall x :: x in r <==> exists i :: 0 <= i < |files| && Paths.Extension(files[i].path) == Some(x)
  {
    if files == [] then []
    else
      var rest := ExtensionsOf(files[1..]);
      assert forall i :: 1 <= i < |files| ==> files[i] == files[1..][i - 1];
      match Paths.Extension(files[0].path)
      case Some(x) => [x] + rest
      case None => rest
  }

  /** The distinct extensions among `files`, sorted. */
  function ExtensionKeys(files: seq<ListEntry>): (r: seq<String>)
    ensures StrictlySorted(r)
    ensures forall x :: x in r <==> exists i :: 0 <= i < |files| && Paths.Extension(files[i].path) == Some(x)
  {
    SortedSetCorrect(ExtensionsOf(files));
    SortedSet(ExtensionsOf(files))
  }

  /** The extension counts of the long listing, sorted by extension; every
      count is that of its extension and is positive. */
  function ExtensionLines(files: seq<ListEntry>): (r: seq<(String, nat)>)
    ensures var keys := ExtensionKeys(files);
            |r| == |keys| && forall i :: 0 <= i < |r| ==> r[i] == (keys[i], ExtensionCount(files, keys[i])) && r[i].1 > 0
  {
    var keys := ExtensionKeys(files);
    forall i | 0 <= i < |keys| ensures ExtensionCount(files, keys[i]) > 0 {
      var j :| 0 <= j < |files| && Paths.Extension(files[j].path) == Some(keys[i]);
      assert ExtensionOfEach(files)[j] in multiset(ExtensionOfEach(files));
    }
    seq(|keys|, i requires 0 <= i < |keys| => (keys[i], ExtensionCount(files, keys[i])))
  }

  function ExtensionLine(e: (String, nat)): String {
    "  ." + e.0 + ": " + NatToString(e.1) + " files"
  }

  /** The printed part of `handle_list`: the summary alone with `stats`, the
      paths alone with `simple`, otherwise one line per file, the summary, and
      with `long` the extension counts. */
  function ListOutput(files: seq<ListEntry>, long: bool, simple: bool, stats: bool): (r: seq<String>)
    ensures stats ==> r == [Summary(|files|)]
    ensures !stats ==> |r| >= |files| && forall i :: 0 <= i < |files| ==> EndsWith(r[i], files[i].path)
    ensures !stats && simple ==> r == seq(|files|, i requires 0 <= i < |files| => files[i].path)
    ensures !stats && !simple ==> |r| > |files| && r[|files|] == Summary(|files|)
    ensures !stats && !simple && !long ==> |r| == |files| + 1
    ensures !stats && !simple ==> forall i :: 0 <= i < |files| ==> r[i] == FileLine(files[i], long)
    ensures !stats && !simple && long && ExtensionLines(files) != [] ==>
              var counts := ExtensionLines(files);
              |r| == |files| + 2 + |counts| && r[|files| + 1] == ExtensionsHead
              && forall k :: 0 <= k < |counts| ==> r[|files| + 2 + k] == ExtensionLine(counts[k])
    ensures !stats && !simple && ExtensionLines(files) == [] ==> |r| == |files| + 1
  {
    if stats then [Summary(|files|)]
    else if simple then seq(|files|, i requires 0 <= i < |files| => files[i].path)
    else FullListing(files, long, ExtensionLines(files))
  }

  /** The listing without `stats` or `simple`, for given extension counts: one
      line per file, the summary, and with `long` the heading and count lines. */
  function FullListing(files: seq<ListEntry>, long: bool, counts: seq<(String, nat)>): (r: seq<String>)
    ensures |r| > |files| && r[|files|] == Summary(|files|)
    ensures forall i :: 0 <= i < |files| ==> r[i] == FileLine(files[i], long)
    ensures long && counts != [] ==>
              |r| == |files| + 2 + |counts| && r[|files| + 1] == ExtensionsHead
              && forall k :: 0 <= k < |counts| ==> r[|files| + 2 + k] == ExtensionLine(counts[k])
    ensures !long || counts == [] ==> |r| == |files| + 1
  {
    var lines := seq(|files|, i requires 0 <= i < |files| => FileLine(files[i], long));
    var head := lines + [Summary(|files|)];
    assert forall i :: 0 <= i < |files| ==> head[i] == lines[i];
    if long && counts != [] then
      var tail := ExtensionsTail(counts);
      var r := head + tail;
      assert forall i :: 0 <= i < |head| ==> r[i] == head[i];
      assert forall k :: 0 <= k < |tail| ==> r[|head| + k] == tail[k];
      r
    else head
  }

  /** The "Extensions:" heading followed by one line per count. */
  function ExtensionsTail(counts: seq<(String, nat)>): (tail: seq<String>)
    ensures |tail| == 1 + |counts| && tail[0] == ExtensionsHead
    ensures forall k :: 0 <= k < |counts| ==> tail[1 + k] == ExtensionLine(counts[k])
  {
    [ExtensionsHead] + seq(|counts|, i requires 0 <= i < |counts| => ExtensionLine(counts[i]))
  }
}

=== FILE: cli_config.dfy ===
/** The `config` subcommand of src/cli_config.rs over the configuration as a
    JSON value: `Get` walks a dotted key through the tree, `List` flattens the
    tree into dotted keys and leaves, and `Init` refuses to overwrite an
    existing file unless forced.

    Serialising the configuration into the tree (serde) and rendering values as
    JSON text are outside the model: the tree is a parameter, and a value
    printed "as JSON" is returned as the value itself. */
module CliConfig {

  import opened Wrappers
  import opened Text
  import opened Seqs

  /** `serde_json::Value`; an object is its entries in iteration order. */
  datatype Json =
    | JNull
    | JBool(b: bool)
    | JNumber(n: int)
    | JString(s: String)
    | JArray(items: seq<Json>)
    | JObject(fields: seq<(String, Json)>)

  /** `Value::get` with a string index: the entry of an object, nothing for
      any other value. */
  function Get(v: Json, key: String): (r: Option<Json>)
    ensures r.Some? ==> v.JObject? && exists i :: 0 <= i < |v.fields| && v.fields[i] == (key, r.value)
    ensures r.None? ==> !v.JObject? || forall i :: 0 <= i < |v.fields| ==> v.fields[i].0 != key
  {
    if v.JObject? then LookupField(v.fields, key) else None
  }

  /** The first entry named `key`. */
  function LookupField(fields: seq<(String, Json)>, key: String): (r: Option<Json>)
    ensures r.Some? ==> exists i :: 0 <= i < |fields| && fields[i] == (key, r.value)
    ensures r.None? ==> forall i :: 0 <= i < |fields| ==> fields[i].0 != key
  {
    if fields == [] then None
    else if fields[0].0 == key then Some(fields[0].1)
    else
      var r := LookupField(fields[1..], key);
      assert forall i :: 1 <= i < |fields| ==> fields[i] == fields[1..][i - 1];
      r
  }

  /** Following `parts` one entry at a time: no part reaches the value itself,
      and one part is the lookup of that entry. */
  function Walk(v: Json, parts: seq<String>): (r: Option<Json>)
    ensures parts == [] ==> r == Some(v)
    ensures |parts| == 1 ==> r == Get(v, parts[0])
    decreases |parts|
  {
    if parts == [] then Some(v)
    else
      match Get(v, parts[0])
      case None => None
      case Some(child) => Walk(child, parts[1..])
  }

  /** Walking a path in two pieces is walking it whole: the second piece starts
      where the first ends, and a part missing in the first stops the walk. */
  lemma {:induction false} WalkAppend(v: Json, a: seq<String>, b: seq<String>)
    ensures Walk(v, a + b) == match Walk(v, a) case None => None case Some(x) => Walk(x, b)
    decreases |a|
  {
    if a == [] {
      assert a + b == b;
    } else {
      assert (a + b)[0] == a[0] && (a + b)[1..] == a[1..] + b;
      match Get(v, a[0])
      case None =>
      case Some(child) => WalkAppend(child, a[1..], b);
    }
  }

  // ---------------------------------------------------------------------------
  // Get

  /** What `Get` prints: a string leaf bare, any other value as JSON. */
  datatype Shown = Bare(text: String) | AsJson(value: Json)

  /** `ConfigAction::Get`: the key split at every '.', walked from the root. */
  function GetKey(tree: Json, key: String): (r: Result<Shown, String>)
    ensures Walk(tree, Split(key, '.')).None? <==> r.Err?
    ensures r.Err? ==> r.error == "Key not found: " + key
    ensures r.Ok? ==> var v := Walk(tree, Split(key, '.')).value;
                      (v.JString? ==> r.value == Bare(v.s)) && (!v.JString? ==> r.value == AsJson(v))
  {
    match Walk(tree, Split(key, '.'))
    case None => Err("Key not found: " + key)
    case Some(v) => if v.JString? then Ok(Bare(v.s)) else Ok(AsJson(v))
  }

  // ---------------------------------------------------------------------------
  // List

  /** The key of an entry named `k` under `prefix`. */
  function KeyOf(prefix: String, k: String): (r: String)
    ensures prefix == [] ==> r == k
    ensures prefix != [] ==> r == prefix + "." + k
  {
    if prefix == [] then k else prefix + "." + k
  }

  /** `print_keys` over the entries of object `v` from the `i`-th on: objects
      are entered, every other value is listed under its dotted key when it
      passes the prefix filter. */
  function PrintFrom(v: Json, i: nat, prefix: String, filter: Option<String>): (r: seq<(String, Json)>)
    requires v.JObject? && i <= |v.fields|
    ensures forall n :: 0 <= n < |r| ==> !r[n].1.JObject?
    ensures filter.Some? ==> forall n :: 0 <= n < |r| ==> StartsWith(r[n].0, filter.value)
    decreases v, |v.fields| - i
  {
    if i == |v.fields| then []
    else
      var (k, c) := v.fields[i];
      var key := KeyOf(prefix, k);
      var first := if c.JObject? then PrintFrom(c, 0, key, filter)
                   else if filter.Some? && !StartsWith(key, filter.value) then []
                   else [(key, c)];
      first + PrintFrom(v, i + 1, prefix, filter)
  }

  /** `print_keys`: only an object lists anything. */
  function PrintKeys(v: Json, prefix: String, filter: Option<String>): (r: seq<(String, Json)>)
    ensures !v.JObject? ==> r == []
    ensures forall n :: 0 <= n < |r| ==> !r[n].1.JObject?
  {
    if v.JObject? then PrintFrom(v, 0, prefix, filter) else []
  }

  /** `ConfigAction::List`. */
  function ListKeys(tree: Json, filter: Option<String>): (r: seq<(String, Json)>)
    ensures forall n :: 0 <= n < |r| ==> !r[n].1.JObject?
    ensures filter.Some? ==> forall n :: 0 <= n < |r| ==> StartsWith(r[n].0, filter.value)
  {
    PrintKeys(tree, [], filter)
  }

  /** The prefix test of the listing, as a predicate on entries. */
  function UnderPrefix(f: String): ((String, Json)) -> bool
  {
    (e: (String, Json)) => StartsWith(e.0, f)
  }

  /** The prefix filter only drops entries: the filtered list is the unfiltered
      one filtered by the prefix test on the whole key. */
  lemma {:induction false} PrintFromFilter(v: Json, i: nat, prefix: String, f: String)
    requires v.JObject? && i <= |v.fields|
    ensures PrintFrom(v, i, prefix, Some(f))
            == Filter(PrintFrom(v, i, prefix, None), UnderPrefix(f))
    decreases v, |v.fields| - i
  {
    if i < |v.fields| {
      PrintFromFilter(v, i + 1, prefix, f);
      var (k, c) := v.fields[i];
      if c.JObject? {
        PrintFromFilter(c, 0, KeyOf(prefix, k), f);
      }
      PrintFromFilterStep(v, i, prefix, f);
    }
  }

  /** One entry of the listing: filtering commutes with it once it commutes
      with the entry's own listing and with the rest. */
  lemma PrintFromFilterStep(v: Json, i: nat, prefix: String, f: String)
    requires v.JObject? && i < |v.fields|
    requires PrintFrom(v, i + 1, prefix, Some(f))
             == Filter(PrintFrom(v, i + 1, prefix, None), UnderPrefix(f))
    requires v.fields[i].1.JObject? ==>
             PrintFrom(v.fields[i].1, 0, KeyOf(prefix, v.fields[i].0), Some(f))
             == Filter(PrintFrom(v.fields[i].1, 0, KeyOf(prefix, v.fields[i].0), None), UnderPrefix(f))
    ensures PrintFrom(v, i, prefix, Some(f))
            == Filter(PrintFrom(v, i, prefix, None), UnderPrefix(f))
  {
    var keep := UnderPrefix(f);
    var (k, c) := v.fields[i];
    var key := KeyOf(prefix, k);
    var first := if c.JObject? then PrintFrom(c, 0, key, None) else [(key, c)];
    if !c.JObject? {
      FilterSingleton((key, c), keep);
    }
    FilterAppend(first, PrintFrom(v, i + 1, prefix, None), keep);
  }

  /** `List` with a prefix lists exactly the entries of the full listing whose
      key starts with it, in the same order. */
  lemma ListFilter(tree: Json, f: String)
    ensures ListKeys(tree, Some(f)) == Filter(ListKeys(tree, None), UnderPrefix(f))
  {
    if tree.JObject? {
      PrintFromFilter(tree, 0, [], f);
    }
  }

  // ---------------------------------------------------------------------------
  // Listing, then getting

  /** Object keys that `Get` can address: non-empty, free of '.', and distinct
      within each object, all the way down. */
  predicate Addressable(v: Json)
    decreases v
  {
    v.JObject? ==>
      forall i :: 0 <= i < |v.fields| ==>
        v.fields[i].0 != [] && '.' !in v.fields[i].0
        && (forall j :: 0 <= j < |v.fields| && j != i ==> v.fields[j].0 != v.fields[i].0)
        && Addressable(v.fields[i].1)
  }

  /** The dotted key of a path below `prefix`. */
  function Extend(prefix: String, path: seq<String>): String
    decreases |path|
  {
    if path == [] then prefix else Extend(KeyOf(prefix, path[0]), path[1..])
  }

  /** Below a non-empty prefix, the key is the prefix, a '.', and the joined path. */
  lemma {:induction false} ExtendJoins(prefix: String, path: seq<String>)
    requires prefix != [] && path != []
    ensures Extend(prefix, path) == prefix + "." + Join(path, '.')
    decreases |path|
  {
    if |path| > 1 {
      ExtendJoins(prefix + "." + path[0], path[1..]);
      assert prefix + "." + path[0] + "." + Join(path[1..], '.')
             == prefix + "." + (path[0] + ['.'] + Join(path[1..], '.'));
    }
  }

  /** From the root, the key is the joined path. */
  lemma ExtendFromRoot(path: seq<String>)
    requires path != [] && path[0] != []
    ensures Extend([], path) == Join(path, '.')
  {
    if |path| > 1 {
      ExtendJoins(path[0], path[1..]);
    }
  }

  /** With distinct keys, an entry's own key finds it. */
  lemma {:induction false} LookupDistinct(fields: seq<(String, Json)>, i: nat)
    requires i < |fields|
    requires forall j :: 0 <= j < |fields| && j != i ==> fields[j].0 != fields[i].0
    ensures LookupField(fields, fields[i].0) == Some(fields[i].1)
    decreases i
  {
    if i > 0 {
      LookupDistinct(fields[1..], i - 1);
    }
  }

  /** A path of addressable keys. */
  predicate PlainPath(path: seq<String>) {
    path != [] && forall n :: 0 <= n < |path| ==> path[n] != [] && '.' !in path[n]
  }

  /** Entry `e` is reached by walking from `v` along a plain path whose dotted
      key under `prefix` is the entry's key. */
  ghost predicate Reached(v: Json, prefix: String, e: (String, Json)) {
    exists path: seq<String> :: PlainPath(path) && e.0 == Extend(prefix, path) && Walk(v, path) == Some(e.1)
  }

  /** Every entry listed from the `i`-th entry of `v` on is reached from `v`. */
  lemma {:induction false} PrintFromWalk(v: Json, i: nat, prefix: String)
    requires v.JObject? && i <= |v.fields| && Addressable(v)
    ensures forall e | e in PrintFrom(v, i, prefix, None) :: Reached(v, prefix, e)
    decreases v, |v.fields| - i
  {
    if i < |v.fields| {
      var (k, c) := v.fields[i];
      var key := KeyOf(prefix, k);
      PrintFromWalk(v, i + 1, prefix);
      var first := if c.JObject? then PrintFrom(c, 0, key, None) else [(key, c)];
      if c.JObject? {
        PrintFromWalk(c, 0, key);
        forall e | e in first ensures Reached(v, prefix, e) {
          EntryReached(v, i, prefix, e);
        }
      } else {
        WalkEntry(v, i, prefix, [], c);
      }
      assert PrintFrom(v, i, prefix, None) == first + PrintFrom(v, i + 1, prefix, None);
    }
  }

  /** An entry reached from the `i`-th entry's object value is reached from `v`. */
  lemma EntryReached(v: Json, i: nat, prefix: String, e: (String, Json))
    requires v.JObject? && i < |v.fields| && Addressable(v)
    requires Reached(v.fields[i].1, KeyOf(prefix, v.fields[i].0), e)
    ensures Reached(v, prefix, e)
  {
    var sub: seq<String> :| PlainPath(sub) && e.0 == Extend(KeyOf(prefix, v.fields[i].0), sub)
                            && Walk(v.fields[i].1, sub) == Some(e.1);
    WalkEntry(v, i, prefix, sub, e.1);
  }

  /** A path through the `i`-th entry of an addressable object: its key, then
      a path through the entry's value. */
  lemma WalkEntry(v: Json, i: nat, prefix: String, sub: seq<String>, x: Json)
    requires v.JObject? && i < |v.fields| && Addressable(v)
    requires sub == [] || PlainPath(sub)
    requires Walk(v.fields[i].1, sub) == Some(x)
    ensures var path := [v.fields[i].0] + sub;
            PlainPath(path) && Extend(prefix, path) == Extend(KeyOf(prefix, v.fields[i].0), sub)
            && Walk(v, path) == Some(x)
    ensures Reached(v, prefix, (Extend(KeyOf(prefix, v.fields[i].0), sub), x))
  {
    LookupDistinct(v.fields, i);
    var path := [v.fields[i].0] + sub;
    assert path[1..] == sub;
    forall n | 0 <= n < |path| ensures path[n] != [] && '.' !in path[n] {
      if n > 0 { assert path[n] == sub[n - 1]; }
    }
  }

  /** Every key `List` prints can be given to `Get`, which finds the listed
      value, when the tree's keys are addressable. */
  lemma ListThenGet(tree: Json, n: nat)
    requires tree.JObject? && Addressable(tree)
    requires n < |ListKeys(tree, None)|
    ensures var (key, v) := ListKeys(tree, None)[n];
            GetKey(tree, key) == (if v.JString? then Ok(Bare(v.s)) else Ok(AsJson(v)))
  {
    var e := ListKeys(tree, None)[n];
    PrintFromWalk(tree, 0, []);
    assert e in PrintFrom(tree, 0, [], None);
    assert Reached(tree, [], e);
    var path: seq<String> :| PlainPath(path) && e.0 == Extend([], path) && Walk(tree, path) == Some(e.1);
    ExtendFromRoot(path);
    SplitJoin(path, '.');
  }

  // ---------------------------------------------------------------------------
  // Init

  datatype ConfigLocation = SystemLocation | UserLocation | ProjectLocation

  /** `PathBuf::join` of a relative path. */
  function JoinPath(dir: String, rel: String): (r: String)
    ensures EndsWith(r, rel)
  {
    if dir == [] then rel
    else if dir[|dir| - 1] == '/' then dir + rel
    else dir + "/" + rel
  }

  /** The file `Init` writes; the user location needs the platform's
      configuration directory. */
  function InitPath(location: ConfigLocation, configDir: Option<String>): (r: Result<String, String>)
    ensures r.Err? <==> location.UserLocation? && configDir.None?
    ensures r.Err? ==> r.error == "No config directory found"
    ensures location.UserLocation? && configDir.Some? ==> r == Ok(JoinPath(configDir.value, "rfgrep/config.toml"))
  {
    match location
    case UserLocation =>
      (match configDir
       case None => Err("No config directory found")
       case Some(d) => Ok(JoinPath(d, "rfgrep/config.toml")))
    case ProjectLocation => Ok(".rfgreprc")
    case SystemLocation => Ok("/etc/rfgrep/config.toml")
  }

  /** What `Init` does: nothing with an existing file unless forced, otherwise
      write the default configuration at the path. */
  datatype InitOutcome = AlreadyExists(path: String) | WriteDefaults(path: String)

  function Init(location: ConfigLocation, configDir: Option<String>, fileExists: String -> bool, force: bool)
    : (r: Result<InitOutcome, String>)
    ensures r.Err? <==> InitPath(location, configDir).Err?
    ensures r.Ok? ==> r.value.path == InitPath(location, configDir).value
    ensures r.Ok? ==> (r.value.AlreadyExists? <==> fileExists(r.value.path) && !force)
  {
    match InitPath(location, configDir)
    case Err(e) => Err(e)
    case Ok(path) => if fileExists(path) && !force then Ok(AlreadyExists(path)) else Ok(WriteDefaults(path))
  }

  /** Without `--force` an existing file is never written; with it, it always is. */
  lemma InitGuard(location: ConfigLocation, configDir: Option<String>, fileExists: String -> bool)
    requires InitPath(location, configDir).Ok? && fileExists(InitPath(location, configDir).value)
    ensures Init(location, configDir, fileExists, false).value.AlreadyExists?
    ensures Init(location, configDir, fileExists, true).value.WriteDefaults?
  {
  }
}

=== FILE: compression.dfy ===
/** The compression table of src/compression.rs: which decompressor a file's
    extension selects, and which of the formats can be opened as a stream. */
module Compression {

  import opened Wrappers
  import opened Text
  import Paths

  datatype CompressionType = Gzip | Bzip2 | Xz | Zstd | Lz4 | Zip | Tar

  /** The lower-case extensions naming each format. */
  function Names(t: CompressionType): (names: set<String>)
    ensures names != {}
  {
    match t
    case Gzip => {"gz", "gzip"}
    case Bzip2 => {"bz2", "bzip2"}
    case Xz => {"xz"}
    case Zstd => {"zst", "zstd"}
    case Lz4 => {"lz4"}
    case Zip => {"zip"}
    case Tar => {"tar"}
  }

  /** The table lookup on an already lower-cased extension. */
  function FromLowerExtension(ext: String): (r: Option<CompressionType>)
    ensures r.Some? ==> ext in Names(r.value)
    ensures r.None? ==> forall t: CompressionType :: ext !in Names(t)
  {
    if ext == "gz" || ext == "gzip" then Some(Gzip)
    else if ext == "bz2" || ext == "bzip2" then Some(Bzip2)
    else if ext == "xz" then Some(Xz)
    else if ext == "zst" || ext == "zstd" then Some(Zstd)
    else if ext == "lz4" then Some(Lz4)
    else if ext == "zip" then Some(Zip)
    else if ext == "tar" then Some(Tar)
    else None
  }

  /** `CompressionType::from_extension`: the last extension of the path, lowered. */
  function FromExtension(path: String): (r: Option<CompressionType>)
    ensures Paths.Extension(path).None? ==> r.None?
    ensures r.Some? ==> AsciiLower(Paths.Extension(path).value) in Names(r.value)
  {
    match Paths.Extension(path)
    case None => None
    case Some(ext) => FromLowerExtension(AsciiLower(ext))
  }

  /** `is_compressed`. */
  predicate IsCompressed(path: String) {
    FromExtension(path).Some?
  }

  /** The names of different formats never overlap, so the table is a function of
      the name, and every name of a format finds that format. */
  lemma NamesSelectTheirFormat(t: CompressionType, ext: String)
    requires ext in Names(t)
    ensures FromLowerExtension(ext) == Some(t)
  {
  }

  /** A file named `stem.ext` in any directory selects the format whose name is
      `ext` in any mix of ASCII case.  The stem may hold dots of its own: only the
      last extension counts, so "a.tar.gz" is gzip. */
  lemma FromExtensionOfName(dir: String, stem: String, ext: String, t: CompressionType)
    requires stem != [] && stem != "." && '/' !in stem && '/' !in ext && '.' !in ext
    requires AsciiLower(ext) in Names(t)
    ensures FromExtension(dir + "/" + stem + "." + ext) == Some(t)
    ensures IsCompressed(dir + "/" + stem + "." + ext)
  {
    var path := dir + "/" + stem + "." + ext;
    Paths.ExtensionOfName(dir, stem, ext);
    assert FromExtension(path) == FromLowerExtension(AsciiLower(ext));
    NamesSelectTheirFormat(t, AsciiLower(ext));
  }

  /** A file name without a dot after its first character is not compressed. */
  lemma NoExtensionNotCompressed(dir: String, name: String)
    requires name != [] && name != "." && name != ".." && '/' !in name
    requires '.' !in name || (name[0] == '.' && '.' !in name[1..])
    ensures !IsCompressed(dir + "/" + name)
  {
    Paths.NoExtensionWithoutInnerDot(dir, name);
  }

  // ---------------------------------------------------------------------------
  // Opening a stream

  datatype StreamError = OpenFailed | DecoderFailed | Unsupported(t: CompressionType)

  /** The decompressing reader `open_compressed_stream` returns. */
  datatype Decoder = Decoder(format: CompressionType)

  /** `open_compressed_stream`: the file is opened first; Gzip, Bzip2, Xz, Zstd and
      Lz4 get a decoder (only the Zstd decoder's set-up can fail); Zip and Tar are
      archives, not streams, and are refused. */
  function OpenCompressedStream(fileOpens: bool, zstdInitOk: bool, t: CompressionType)
    : (r: Result<Decoder, StreamError>)
    ensures r.Ok? ==> fileOpens && r.value.format == t && !t.Zip? && !t.Tar?
    ensures r.Ok? <==> fileOpens && !t.Zip? && !t.Tar? && (t.Zstd? ==> zstdInitOk)
    ensures !fileOpens ==> r == Err(OpenFailed)
    ensures fileOpens && (t.Zip? || t.Tar?) ==> r == Err(Unsupported(t))
  {
    if !fileOpens then Err(OpenFailed)
    else
      match t
      case Gzip => Ok(Decoder(Gzip))
      case Bzip2 => Ok(Decoder(Bzip2))
      case Xz => Ok(Decoder(Xz))
      case Zstd => if zstdInitOk then Ok(Decoder(Zstd)) else Err(DecoderFailed)
      case Lz4 => Ok(Decoder(Lz4))
      case _ => Err(Unsupported(t))
  }
}

=== FILE: config.dfy ===
/** The layered configuration of src/config.rs: the configuration record and
    its defaults, `Config::merge`, `Config::validate`, the manager's merge of the
    system, user, project and environment layers, the environment layer's
    `RFGREP_THREADS`, and the walk up the directory tree that finds the project
    root.

    Reading TOML files and locating them through the platform's directories are
    outside the model: a layer is present (`Some`) or absent (`None`), and the
    file system's answer to "does `dir/marker` exist" is a parameter. */
module Config {

  import opened Wrappers
  import opened Text

  // ---------------------------------------------------------------------------
  // The configuration record

  /** `cli::SearchMode`. */
  datatype SearchMode = TextMode | WordMode | RegexMode

  datatype AlgorithmConfig = AlgorithmConfig(simple: String, regex: String, multiPattern: String)

  datatype SearchConfig = SearchConfig(
    mode: SearchMode,
    caseSensitive: bool,
    smartCase: bool,
    maxFileSizeMb: nat,
    skipBinary: bool,
    contextBefore: nat,
    contextAfter: nat,
    threads: nat,
    chunkSize: nat,
    algorithms: AlgorithmConfig)

  /** `config::OutputFormat`, the configuration file's own list of formats. */
  datatype ConfigOutputFormat = TextFormat | JsonFormat | CsvFormat | NdjsonFormat

  datatype ColorMode = Auto | Always | Never

  datatype ColorScheme = ColorScheme(matchColor: String, lineNumber: String, filename: String, separator: String)

  datatype OutputConfig = OutputConfig(
    format: ConfigOutputFormat,
    color: ColorMode,
    lineNumbers: bool,
    showFilenames: bool,
    showColumns: bool,
    syntaxHighlighting: bool,
    colors: ColorScheme)

  datatype SizeFilter = SizeFilter(minSize: nat, maxSize: nat)

  datatype FilterConfig = FilterConfig(
    extensions: seq<String>,
    excludeExtensions: seq<String>,
    excludePatterns: seq<String>,
    ignoreDirectories: seq<String>,
    ignoreFiles: seq<String>,
    size: SizeFilter)

  datatype OptimizationConfig = OptimizationConfig(literalExtraction: bool, preFilter: bool, autoDfa: bool)

  /** `chunk_size_multiplier` is an `f64` in the source; it is only copied here. */
  datatype PerformanceConfig = PerformanceConfig(
    mmapThresholdMb: nat,
    maxMemoryUsageMb: nat,
    chunkSizeMultiplier: real,
    adaptiveMemory: bool,
    simd: String,
    parallel: bool,
    bufferSize: nat,
    regexCacheSize: nat,
    optimization: OptimizationConfig)

  datatype GitConfig = GitConfig(
    respectGitignore: bool,
    respectGlobalGitignore: bool,
    respectGitExclude: bool,
    searchDotGit: bool,
    followSubmodules: bool,
    searchSubmodules: bool)

  datatype CompressionConfig = CompressionConfig(
    enabled: bool, formats: seq<String>, maxDecompressedSizeMb: nat, cacheDecompressed: bool)

  datatype LoggingConfig = LoggingConfig(level: String, file: String, format: String)

  /** The named lists of `TypeDefinitions` and its flattened custom ones. */
  datatype TypeDefinitions = TypeDefinitions(named: map<String, seq<String>>, custom: map<String, seq<String>>)

  datatype SearchShortcut = SearchShortcut(
    pattern: String, mode: SearchMode, extensions: seq<String>, excludeExtensions: seq<String>,
    caseSensitive: Option<bool>)

  datatype UIConfig = UIConfig(interactive: bool, showProgress: bool, pager: String, pagerCommand: String)

  datatype ExperimentalConfig = ExperimentalConfig(semanticSearch: bool, aiSuggestions: bool)

  datatype Config = Config(
    search: SearchConfig,
    output: OutputConfig,
    filters: FilterConfig,
    performance: PerformanceConfig,
    git: GitConfig,
    compression: CompressionConfig,
    logging: LoggingConfig,
    typeDefinitions: TypeDefinitions,
    shortcuts: map<String, SearchShortcut>,
    ui: UIConfig,
    experimental: ExperimentalConfig)

  // ---------------------------------------------------------------------------
  // Defaults

  const MaxThreads: nat := 1024

  const DefaultSearch := SearchConfig(RegexMode, false, true, 100, true, 2, 2, 0, 100,
                                      AlgorithmConfig("boyer-moore", "regex-automaton", "aho-corasick"))

  const DefaultOutput := OutputConfig(TextFormat, Auto, true, true, false, true,
                                      ColorScheme("red", "green", "blue", "cyan"))

  const DefaultFilters := FilterConfig(
    [],
    ["o", "so", "dylib", "exe", "dll", "class", "pyc"],
    [],
    ["node_modules", ".git", "target", "build", "dist", ".next", "__pycache__", ".cache"],
    [".gitignore", ".ignore", ".rfgrepignore"],
    SizeFilter(0, 100 * 1024 * 1024))

  const DefaultPerformance := PerformanceConfig(16, 512, 1.0, true, "auto", true, 65536, 100,
                                                OptimizationConfig(true, true, true))

  const DefaultConfig := Config(
    DefaultSearch, DefaultOutput, DefaultFilters, DefaultPerformance,
    GitConfig(true, true, true, false, false, false),
    CompressionConfig(true, ["gzip", "bzip2", "xz", "zstd", "lz4"], 100, true),
    LoggingConfig("info", "", "text"),
    TypeDefinitions(map[], map[]),
    map[],
    UIConfig(true, true, "auto", ""),
    ExperimentalConfig(false, false))

  // ---------------------------------------------------------------------------
  // Merging and validation

  /** `Config::merge`: `other` wins for the search, output and performance
      sections, and for the extension list when it has one. */
  function Merge(c: Config, other: Config): (r: Config)
    ensures r.search == other.search && r.output == other.output && r.performance == other.performance
    ensures r.filters.extensions == if other.filters.extensions == [] then c.filters.extensions
                                    else other.filters.extensions
    ensures r.filters.(extensions := c.filters.extensions) == c.filters
    ensures r.(search := c.search, output := c.output, performance := c.performance,
               filters := c.filters) == c
  {
    var merged := c.(search := other.search, output := other.output, performance := other.performance);
    if other.filters.extensions != [] then
      merged.(filters := merged.filters.(extensions := other.filters.extensions))
    else merged
  }

  /** `Config::validate`. */
  function Validate(c: Config): (r: Result<(), String>)
    ensures r.Ok? <==> c.search.threads <= MaxThreads
    ensures r.Err? ==> r.error == "Thread count too high: " + NatToString(c.search.threads)
  {
    if c.search.threads > MaxThreads then Err("Thread count too high: " + NatToString(c.search.threads))
    else Ok(())
  }

  /** The built-in defaults pass validation and ask for automatic threading. */
  lemma DefaultValid()
    ensures Validate(DefaultConfig).Ok? && DefaultConfig.search.threads == 0
    ensures DefaultConfig.filters.extensions == [] && DefaultConfig.shortcuts == map[]
  {
  }

  // ---------------------------------------------------------------------------
  // The environment layer

  const UsizeLimit: nat := 0x1_0000_0000_0000_0000

  /** `usize::from_str` on a 64-bit target: an optional '+', then at least one
      decimal digit and nothing else, with a value that fits. */
  function ParseUsize(s: String): (r: Option<nat>)
    ensures r.Some? ==> r.value < UsizeLimit
    ensures s != [] && s[0] != '+' ==> r == (if ParseNat(s).Some? && ParseNat(s).value < UsizeLimit then ParseNat(s) else None)
    ensures s != [] && s[0] == '+' ==> r == (if ParseNat(s[1..]).Some? && ParseNat(s[1..]).value < UsizeLimit then ParseNat(s[1..]) else None)
  {
    var digits := if s != [] && s[0] == '+' then s[1..] else s;
    match ParseNat(digits)
    case Some(n) => if n < UsizeLimit then Some(n) else None
    case None => None
  }

  /** The decimal rendering of a `usize` parses back. */
  lemma ParseUsizeRoundTrip(n: nat)
    requires n < UsizeLimit
    ensures ParseUsize(NatToString(n)) == Some(n)
    ensures ParseUsize("+" + NatToString(n)) == Some(n)
  {
    NatToStringRoundTrip(n);
    var s := NatToString(n);
    assert s != [] && IsDigit(s[0]);
    assert ("+" + s)[1..] == s;
  }

  /** `load_env_config`: the defaults, with the thread count from
      `RFGREP_THREADS` when that variable is set and parses. */
  function LoadEnvConfig(threadsVar: Option<String>): (r: Config)
    ensures r.(search := DefaultSearch) == DefaultConfig
    ensures r.search.(threads := 0) == DefaultSearch
    ensures r.search.threads == if threadsVar.Some? && ParseUsize(threadsVar.value).Some?
                                then ParseUsize(threadsVar.value).value else 0
  {
    match threadsVar
    case Some(v) =>
      (match ParseUsize(v)
       case Some(n) => DefaultConfig.(search := DefaultSearch.(threads := n))
       case None => DefaultConfig)
    case None => DefaultConfig
  }

  // ---------------------------------------------------------------------------
  // The manager

  datatype ConfigManager = ConfigManager(
    systemConfig: Option<Config>,
    userConfig: Option<Config>,
    projectConfig: Option<Config>,
    envConfig: Config,
    mergedConfig: Config)

  /** The layers present, lowest precedence first. */
  function Layers(m: ConfigManager): (r: seq<Config>)
    ensures |r| >= 1 && r[|r| - 1] == m.envConfig
  {
    (if m.systemConfig.Some? then [m.systemConfig.value] else [])
    + (if m.userConfig.Some? then [m.userConfig.value] else [])
    + (if m.projectConfig.Some? then [m.projectConfig.value] else [])
    + [m.envConfig]
  }

  /** Merging a list of layers in order into `base`: no layer leaves `base`
      as it is, and whatever the layers, only the search, output and
      performance sections and the extension list can differ from `base`. */
  function MergeAll(base: Config, layers: seq<Config>): (r: Config)
    ensures layers == [] ==> r == base
    ensures r.(search := base.search, output := base.output, performance := base.performance,
               filters := base.filters) == base
    ensures r.filters.(extensions := base.filters.extensions) == base.filters
    decreases |layers|
  {
    if layers == [] then base else MergeAll(Merge(base, layers[0]), layers[1..])
  }

  /** The extension list of the last layer that has one, else `base`'s. */
  function LastExtensions(base: seq<String>, layers: seq<Config>): (r: seq<String>)
    ensures r == base || exists i :: 0 <= i < |layers| && r == layers[i].filters.extensions
    decreases |layers|
  {
    if layers == [] then base
    else if layers[|layers| - 1].filters.extensions != [] then layers[|layers| - 1].filters.extensions
    else LastExtensions(base, layers[..|layers| - 1])
  }

  /** Merging a list of layers: the last layer's search, output and performance
      sections, the last non-empty extension list, and `base` everywhere else. */
  lemma {:induction false} MergeAllSpec(base: Config, layers: seq<Config>)
    requires layers != []
    ensures var r := MergeAll(base, layers);
            var last := layers[|layers| - 1];
            r.search == last.search && r.output == last.output && r.performance == last.performance
            && r.filters == base.filters.(extensions := LastExtensions(base.filters.extensions, layers))
            && r.(search := base.search, output := base.output, performance := base.performance,
                  filters := base.filters) == base
    decreases |layers|
  {
    var next := Merge(base, layers[0]);
    if |layers| > 1 {
      MergeAllSpec(next, layers[1..]);
      LastExtensionsFirst(base.filters.extensions, layers);
    } else {
      assert layers[..0] == [];
    }
  }

  /** Folding the first layer's list into the base first changes nothing. */
  lemma {:induction false} LastExtensionsFirst(base: seq<String>, layers: seq<Config>)
    requires |layers| > 1
    ensures LastExtensions(if layers[0].filters.extensions == [] then base else layers[0].filters.extensions,
                           layers[1..])
            == LastExtensions(base, layers)
    decreases |layers|
  {
    var init := layers[..|layers| - 1];
    assert layers[1..][..|layers[1..]| - 1] == init[1..];
    assert layers[1..][|layers[1..]| - 1] == layers[|layers| - 1];
    if |layers| > 2 {
      LastExtensionsFirst(base, init);
      assert init[0] == layers[0];
    } else {
      assert init[1..] == [];
      assert init[..0] == [];
    }
  }

  /** `merge_configs`: the defaults, then system, user, project and environment. */
  function MergeConfigs(m: ConfigManager): (r: ConfigManager)
    ensures r.(mergedConfig := m.mergedConfig) == m
  {
    m.(mergedConfig := MergeAll(DefaultConfig, Layers(m)))
  }

  /** The environment layer always comes last, so its search, output and
      performance sections are the merged ones; the extension list is the last
      non-empty one; everything else is the defaults'. */
  lemma MergeConfigsResult(m: ConfigManager)
    ensures var c := MergeConfigs(m).mergedConfig;
            c.search == m.envConfig.search && c.output == m.envConfig.output
            && c.performance == m.envConfig.performance
            && c.filters == DefaultFilters.(extensions := LastExtensions([], Layers(m)))
            && c.git == DefaultConfig.git && c.compression == DefaultConfig.compression
            && c.logging == DefaultConfig.logging && c.shortcuts == map[] && c.ui == DefaultConfig.ui
            && c.typeDefinitions == DefaultConfig.typeDefinitions && c.experimental == DefaultConfig.experimental
  {
    MergeAllSpec(DefaultConfig, Layers(m));
  }

  /** The thread count the environment sets is the merged one, whatever the
      files say. */
  lemma EnvThreadsWin(m: ConfigManager, threadsVar: String, n: nat)
    requires m.envConfig == LoadEnvConfig(Some(threadsVar)) && ParseUsize(threadsVar) == Some(n)
    ensures MergeConfigs(m).mergedConfig.search.threads == n
  {
    MergeConfigsResult(m);
  }

  /** `ConfigManager::new`: no project layer yet. */
  function NewManager(system: Option<Config>, user: Option<Config>, threadsVar: Option<String>): (r: ConfigManager)
    ensures r.projectConfig.None? && r.systemConfig == system && r.userConfig == user
    ensures r.envConfig == LoadEnvConfig(threadsVar)
    ensures r.mergedConfig.search == r.envConfig.search
  {
    var m := ConfigManager(system, user, None, LoadEnvConfig(threadsVar), DefaultConfig);
    MergeConfigsResult(m);
    MergeConfigs(m)
  }

  // ---------------------------------------------------------------------------
  // The project root

  /** A directory as its components; `absolute` paths start at the root. */
  datatype Dir = Dir(absolute: bool, components: seq<String>)

  const Markers: seq<String> := [".git", ".rfgreprc", "Cargo.toml"]

  /** The file-system oracle: does `dir/marker` exist? */
  type Present = (Dir, String) -> bool

  predicate Marked(present: Present, d: Dir) {
    exists i :: 0 <= i < |Markers| && present(d, Markers[i])
  }

  /** The ancestor `up` levels above `d` (`PathBuf::pop` applied `up` times). */
  function Ancestor(d: Dir, up: nat): (r: Dir)
    requires up <= |d.components|
    ensures r.absolute == d.absolute && |r.components| == |d.components| - up
    ensures r.components == d.components[..|r.components|]
  {
    Dir(d.absolute, d.components[..|d.components| - up])
  }

  /** Checks the markers of one directory in their order. */
  method HasMarker(present: Present, d: Dir) returns (found: bool)
    ensures found <==> Marked(present, d)
  {
    var i := 0;
    while i < |Markers|
      invariant 0 <= i <= |Markers|
      invariant forall j :: 0 <= j < i ==> !present(d, Markers[j])
    {
      if present(d, Markers[i]) {
        return true;
      }
      i := i + 1;
    }
    return false;
  }

  /** `find_project_root`: the nearest directory, from `start` upwards, holding
      one of the markers. */
  method FindProjectRoot(present: Present, start: Dir) returns (r: Option<Dir>)
    ensures r.Some? ==> exists up :: 0 <= up <= |start.components| && r.value == Ancestor(start, up)
                                     && Marked(present, r.value)
                                     && forall nearer :: 0 <= nearer < up ==> !Marked(present, Ancestor(start, nearer))
    ensures r.None? <==> forall up :: 0 <= up <= |start.components| ==> !Marked(present, Ancestor(start, up))
  {
    var current := start;
    var up := 0;
    while true
      invariant 0 <= up <= |start.components| && current == Ancestor(start, up)
      invariant forall nearer :: 0 <= nearer < up ==> !Marked(present, Ancestor(start, nearer))
      decreases |start.components| - up
    {
      var found := HasMarker(present, current);
      if found {
        return Some(current);
      }
      if up == |start.components| {
        return None;
      }
      up := up + 1;
      current := Ancestor(start, up);
    }
  }

  /** `load_for_directory`: with a project root found, its `.rfgreprc` (if
      any) becomes the project layer and the layers are merged again;
      otherwise nothing changes. */
  function LoadForDirectory(m: ConfigManager, root: Option<Dir>, projectFile: Option<Config>): (r: ConfigManager)
    ensures root.None? ==> r == m
    ensures root.Some? ==> r.projectConfig == projectFile && r.envConfig == m.envConfig
                           && r.mergedConfig.search == m.envConfig.search
  {
    if root.None? then m
    else
      var m' := m.(projectConfig := projectFile);
      MergeConfigsResult(m');
      MergeConfigs(m')
  }
}

=== FILE: filters.dfy ===
/** The file selection policy of src/app/filters.rs: binary skipping, the safety
    policy's size caps, include/exclude extension lists compared ignoring ASCII
    case, the file-type strategy, and the size limit in MiB.

    A file is described by what the policy reads from the file system: its path,
    its size (absent when the metadata cannot be read), whether it looks binary,
    and the classifier's own decision for it.  The external classifier of file
    types becomes three sets of lower-case extensions. */
module Filters {

  import opened Wrappers
  import opened Text
  import opened Seqs
  import Paths

  const MiB: nat := 1024 * 1024
  const ConservativeMaxSize: nat := 10 * MiB
  const PerformanceMaxSize: nat := 500 * MiB

  datatype SafetyPolicy = DefaultSafety | ConservativeSafety | PerformanceSafety

  datatype FileTypeStrategy = DefaultStrategy | Comprehensive | ConservativeStrategy | PerformanceStrategy

  /** `FileTypeClassifier`: extensions always searched, never searched, and searched
      on conditions. */
  datatype Classifier = Classifier(always: set<String>, never: set<String>, conditional: set<String>)

  datatype FileFilterOptions = FileFilterOptions(
    maxSize: Option<nat>,
    skipBinary: bool,
    safetyPolicy: SafetyPolicy,
    includeExtensions: Option<seq<String>>,
    excludeExtensions: Option<seq<String>>,
    searchAllFiles: bool,
    textOnly: bool,
    fileTypes: FileTypeStrategy)

  /** `FileFilterOptions::default`. */
  const DefaultOptions := FileFilterOptions(None, false, DefaultSafety, None, None, false, false, DefaultStrategy)

  /** A candidate file: `size` is `None` when its metadata cannot be read;
      `classifierSearches` is whether `should_search` answers Search or Conditional. */
  datatype FileEntry = FileEntry(path: String, size: Option<nat>, binary: bool, classifierSearches: bool)

  /** The lower-cased extension, "" when there is none. */
  function ExtOf(path: String): (ext: String)
    ensures Paths.Extension(path).None? ==> ext == []
    ensures Paths.Extension(path).Some? ==> ext == AsciiLower(Paths.Extension(path).value)
  {
    AsciiLower(Paths.Extension(path).GetOr([]))
  }

  // ---------------------------------------------------------------------------
  // The individual checks

  /** `apply_safety_policy`. */
  function ApplySafetyPolicy(opts: FileFilterOptions, cls: Classifier, size: nat, ext: String): (ok: bool)
    ensures opts.safetyPolicy.DefaultSafety? ==> ok
    ensures opts.safetyPolicy.ConservativeSafety? ==> (ok <==> size <= ConservativeMaxSize && ext in cls.always)
    ensures opts.safetyPolicy.PerformanceSafety? ==> (ok <==> size <= PerformanceMaxSize)
  {
    match opts.safetyPolicy
    case ConservativeSafety => if size > ConservativeMaxSize then false else ext in cls.always
    case PerformanceSafety => size <= PerformanceMaxSize
    case DefaultSafety => true
  }

  /** Some entry of `exts` equals `ext` ignoring ASCII case. */
  function AnyEqIgnoreCase(exts: seq<String>, ext: String): (r: bool)
    ensures r <==> exists i :: 0 <= i < |exts| && EqIgnoreAsciiCase(exts[i], ext)
  {
    if exts == [] then false
    else
      assert forall i :: 1 <= i < |exts| ==> exts[i] == exts[1..][i - 1];
      EqIgnoreAsciiCase(exts[0], ext) || AnyEqIgnoreCase(exts[1..], ext)
  }

  /** `apply_extension_filters`: with an include list some entry must match, and
      with an exclude list none may. */
  function ApplyExtensionFilters(opts: FileFilterOptions, ext: String): (ok: bool)
    ensures ok <==>
      (opts.includeExtensions.None? || AnyEqIgnoreCase(opts.includeExtensions.value, ext)) &&
      (opts.excludeExtensions.None? || !AnyEqIgnoreCase(opts.excludeExtensions.value, ext))
  {
    if opts.includeExtensions.Some? && !AnyEqIgnoreCase(opts.includeExtensions.value, ext) then false
    else if opts.excludeExtensions.Some? && AnyEqIgnoreCase(opts.excludeExtensions.value, ext) then false
    else true
  }

  /** `should_search_by_file_type`. */
  function ShouldSearchByFileType(opts: FileFilterOptions, cls: Classifier, ext: String,
                                  classifierSearches: bool): (ok: bool)
    ensures opts.searchAllFiles ==> ok
    ensures !opts.searchAllFiles && opts.textOnly ==> (ok <==> ext in cls.always)
    ensures !opts.searchAllFiles && !opts.textOnly && opts.fileTypes.Comprehensive? ==> (ok <==> ext !in cls.never)
    ensures !opts.searchAllFiles && !opts.textOnly && opts.fileTypes.ConservativeStrategy? ==> (ok <==> ext in cls.always)
    ensures !opts.searchAllFiles && !opts.textOnly && opts.fileTypes.PerformanceStrategy? ==>
              (ok <==> ext in cls.always || ext in cls.conditional)
    ensures !opts.searchAllFiles && !opts.textOnly && opts.fileTypes.DefaultStrategy? ==> ok == classifierSearches
  {
    if opts.searchAllFiles then true
    else if opts.textOnly then ext in cls.always
    else
      match opts.fileTypes
      case Comprehensive => ext !in cls.never
      case ConservativeStrategy => ext in cls.always
      case PerformanceStrategy => ext in cls.always || ext in cls.conditional
      case DefaultStrategy => classifierSearches
  }

  /** `apply_size_limits`: the size in MiB, a float, compared with the limit. */
  function ApplySizeLimits(opts: FileFilterOptions, size: nat): (ok: bool)
    ensures opts.maxSize.None? ==> ok
    ensures opts.maxSize.Some? ==> (ok <==> (size as real) / (MiB as real) <= opts.maxSize.value as real)
  {
    match opts.maxSize
    case None => true
    case Some(max) =>
      SizeInMiBExact(size, max);
      size <= max * MiB
  }

  /** Comparing bytes with `max * 1048576` is the same as comparing MiB with `max`. */
  lemma SizeInMiBExact(size: nat, max: nat)
    ensures size <= max * MiB <==> (size as real) / (MiB as real) <= max as real
  {
    var m := MiB as real;
    assert (size as real) / m * m == size as real;
    assert (max * MiB) as real == (max as real) * m;
  }

  /** `should_search_file`: readable metadata, then the binary, safety, extension,
      file-type and size checks, all of which must pass. */
  function ShouldSearchFile(opts: FileFilterOptions, cls: Classifier, f: FileEntry): (ok: bool)
    ensures ok ==> f.size.Some?
    ensures ok ==> !(opts.skipBinary && f.binary)
    ensures ok ==> ApplyExtensionFilters(opts, ExtOf(f.path))
  {
    match f.size
    case None => false
    case Some(size) =>
      var ext := ExtOf(f.path);
      !(opts.skipBinary && f.binary)
      && ApplySafetyPolicy(opts, cls, size, ext)
      && ApplyExtensionFilters(opts, ext)
      && ShouldSearchByFileType(opts, cls, ext, f.classifierSearches)
      && ApplySizeLimits(opts, size)
  }

  /** `filter_files`: the files that pass, in their original order. */
  function FilterFiles(opts: FileFilterOptions, cls: Classifier, files: seq<FileEntry>): (r: seq<FileEntry>)
    ensures forall f :: f in r <==> f in files && ShouldSearchFile(opts, cls, f)
  {
    var keep := f => ShouldSearchFile(opts, cls, f);
    FilterMembers(files, keep);
    Filter(files, keep)
  }

  // ---------------------------------------------------------------------------
  // Properties

  /** The selection keeps the input order and selecting again changes nothing. */
  lemma FilterFilesOrderAndIdempotent(opts: FileFilterOptions, cls: Classifier, files: seq<FileEntry>)
    ensures IsSubsequence(FilterFiles(opts, cls, files), files)
    ensures FilterFiles(opts, cls, FilterFiles(opts, cls, files)) == FilterFiles(opts, cls, files)
  {
    FilterIsSubsequence(files, f => ShouldSearchFile(opts, cls, f));
    FilterIdempotent(files, f => ShouldSearchFile(opts, cls, f));
  }

  /** The extension lists see only the ASCII-lowered extension. */
  lemma ExtensionFiltersIgnoreCase(opts: FileFilterOptions, a: String, b: String)
    requires AsciiLower(a) == AsciiLower(b)
    ensures ApplyExtensionFilters(opts, a) == ApplyExtensionFilters(opts, b)
  {
    EqIgnoreAsciiCaseIffLowerEqual(a, b);
    forall e: String ensures EqIgnoreAsciiCase(e, a) == EqIgnoreAsciiCase(e, b) {
      EqIgnoreAsciiCaseIffLowerEqual(e, a);
      EqIgnoreAsciiCaseIffLowerEqual(e, b);
    }
  }

  /** A file without an extension passes an include list only if the list holds "". */
  lemma NoExtensionNeedsEmptyEntry(opts: FileFilterOptions, dir: String, name: String)
    requires name != [] && name != "." && name != ".." && '/' !in name && '.' !in name
    requires opts.includeExtensions.Some? && "" !in opts.includeExtensions.value
    ensures !ApplyExtensionFilters(opts, ExtOf(dir + "/" + name))
  {
    Paths.NoExtensionWithoutInnerDot(dir, name);
    var exts := opts.includeExtensions.value;
    forall i | 0 <= i < |exts| ensures !EqIgnoreAsciiCase(exts[i], []) {
      assert exts[i] != [];
    }
  }

  /** For a classifier whose searched lists are disjoint from the never-searched
      one, the three list-based strategies nest: what the conservative strategy
      admits the performance strategy admits, and what that admits the
      comprehensive strategy admits. */
  lemma StrategiesNest(opts: FileFilterOptions, cls: Classifier, ext: String, classifierSearches: bool)
    requires cls.always !! cls.never && cls.conditional !! cls.never
    requires !opts.searchAllFiles && !opts.textOnly
    ensures ShouldSearchByFileType(opts.(fileTypes := ConservativeStrategy), cls, ext, classifierSearches)
        ==> ShouldSearchByFileType(opts.(fileTypes := PerformanceStrategy), cls, ext, classifierSearches)
    ensures ShouldSearchByFileType(opts.(fileTypes := PerformanceStrategy), cls, ext, classifierSearches)
        ==> ShouldSearchByFileType(opts.(fileTypes := Comprehensive), cls, ext, classifierSearches)
  {
    if ext in cls.always || ext in cls.conditional {
      assert ext !in cls.never;
    }
  }

  /** A lower-case extension is what the checks see. */
  lemma ExtOfLowerCaseName(dir: String, stem: String, ext: String)
    requires stem != [] && stem != "." && '/' !in stem && '/' !in ext && '.' !in ext
    requires forall i :: 0 <= i < |ext| ==> 'a' <= ext[i] <= 'z'
    ensures ExtOf(dir + "/" + stem + "." + ext) == ext
  {
    Paths.ExtensionOfName(dir, stem, ext);
  }
}

=== FILE: output_formats.dfy ===
/** The serialisers of src/output_formats.rs: the field escapers for CSV, TSV, XML
    and HTML, the CSV and TSV tables, the splice of a match back into its line
    used by the text, HTML and Markdown formats, and ANSI highlighting of the
    occurrences of the query inside the matched text. */
module OutputFormats {

  import opened Wrappers
  import opened Text
  import opened Seqs
  import P = Processor

  // ---------------------------------------------------------------------------
  // CSV fields (section 2, rules 6 and 7, of RFC 4180)

  /** A field that holds a separator, a quote or a line break must be quoted. */
  predicate NeedsQuoting(s: String) {
    ',' in s || '"' in s || '\n' in s || '\r' in s
  }

  /** `escape_csv`: such a field is enclosed in quotes with its quotes doubled;
      any other field is written as it is. */
  function EscapeCsv(s: String): (r: String)
    ensures !NeedsQuoting(s) ==> r == s
    ensures NeedsQuoting(s) ==> |r| >= 2 && r[0] == '"' && r[|r| - 1] == '"'
  {
    if NeedsQuoting(s) then "\"" + ReplaceChar(s, '"', "\"\"") + "\"" else s
  }

  /** Reading a quoted field's inside: a doubled quote stands for one quote. */
  function Undouble(t: String): (r: String)
    decreases |t|
  {
    if t == [] then []
    else if |t| >= 2 && t[0] == '"' && t[1] == '"' then ['"'] + Undouble(t[2..])
    else [t[0]] + Undouble(t[1..])
  }

  lemma {:induction false} UndoubleDoubled(s: String)
    ensures Undouble(ReplaceChar(s, '"', "\"\"")) == s
  {
    if s != [] {
      var rest := ReplaceChar(s[1..], '"', "\"\"");
      UndoubleDoubled(s[1..]);
      if s[0] == '"' {
        assert ReplaceChar(s, '"', "\"\"") == "\"\"" + rest;
        assert ("\"\"" + rest)[2..] == rest;
      } else {
        assert ReplaceChar(s, '"', "\"\"") == [s[0]] + rest;
        assert ([s[0]] + rest)[1..] == rest;
      }
    }
  }

  /** A CSV reader's view of one field. */
  function UnquoteCsv(f: String): (r: String) {
    if |f| >= 2 && f[0] == '"' && f[|f| - 1] == '"' then Undouble(f[1..|f| - 1]) else f
  }

  /** A reader recovers every field exactly. */
  lemma CsvFieldRoundTrip(s: String)
    ensures UnquoteCsv(EscapeCsv(s)) == s
  {
    if NeedsQuoting(s) {
      var inner := ReplaceChar(s, '"', "\"\"");
      var f := "\"" + inner + "\"";
      assert f[1..|f| - 1] == inner;
      UndoubleDoubled(s);
    } else {
      assert s != [] ==> s[0] != '"' by {
        if s != [] { assert s[0] in s; }
      }
    }
  }

  // ---------------------------------------------------------------------------
  // Reading CSV text back

  /** The inside of a quoted field up to its closing quote, and what follows
      that quote. */
  function ReadQuoted(t: String): (r: Option<(String, String)>)
    ensures r.Some? ==> |r.value.1| < |t|
    decreases |t|
  {
    if t == [] then None
    else if t[0] == '"' then
      if |t| >= 2 && t[1] == '"' then
        match ReadQuoted(t[2..])
        case None => None
        case Some(p) => Some((['"'] + p.0, p.1))
      else Some(([], t[1..]))
    else
      match ReadQuoted(t[1..])
      case None => None
      case Some(p) => Some(([t[0]] + p.0, p.1))
  }

  /** An unquoted field: everything up to the next ',' or line break. */
  function ReadBare(t: String): (r: (String, String))
    ensures |r.1| <= |t|
    decreases |t|
  {
    if t == [] || t[0] == ',' || t[0] == '\n' then ([], t)
    else
      var p := ReadBare(t[1..]);
      ([t[0]] + p.0, p.1)
  }

  /** One field and the text after it. */
  function ReadField(t: String): (r: Option<(String, String)>)
    ensures r.Some? ==> |r.value.1| <= |t|
  {
    if t != [] && t[0] == '"' then ReadQuoted(t[1..]) else Some(ReadBare(t))
  }

  /** A record of `n` fields separated by ',' and ended by '\n'. */
  function ReadRecord(t: String, n: nat): (r: Option<(seq<String>, String)>)
    requires n >= 1
    ensures r.Some? ==> |r.value.0| == n && |r.value.1| < |t|
    decreases n
  {
    match ReadField(t)
    case None => None
    case Some(p) =>
      var (field, rest) := p;
      if n == 1 then
        if rest != [] && rest[0] == '\n' then Some(([field], rest[1..])) else None
      else if rest != [] && rest[0] == ',' then
        match ReadRecord(rest[1..], n - 1)
        case None => None
        case Some(q) => Some(([field] + q.0, q.1))
      else None
  }

  /** All records of `n` fields until the text ends. */
  function ReadCsv(t: String, n: nat): (r: Option<seq<seq<String>>>)
    requires n >= 1
    decreases |t|
  {
    if t == [] then Some([])
    else
      match ReadRecord(t, n)
      case None => None
      case Some(p) =>
        match ReadCsv(p.1, n)
        case None => None
        case Some(rows) => Some([p.0] + rows)
  }

  lemma ReadQuotedPrefix(c: char, u: String, field: String, after: String)
    requires ReadQuoted(u) == Some((field, after))
    ensures c == '"' ==> ReadQuoted("\"\"" + u) == Some((['"'] + field, after))
    ensures c != '"' ==> ReadQuoted([c] + u) == Some(([c] + field, after))
  {
    if c == '"' {
      assert ("\"\"" + u)[2..] == u;
    } else {
      assert ([c] + u)[1..] == u;
    }
  }

  lemma ReadQuotedClose(rest: String)
    requires rest == [] || rest[0] != '"'
    ensures ReadQuoted(ReplaceChar([], '"', "\"\"") + "\"" + rest) == Some(([], rest))
  {
    var t := ReplaceChar([], '"', "\"\"") + "\"" + rest;
    assert t == ['"'] + rest;
    assert t[1..] == rest;
  }

  /** Doubling the quotes of a non-empty text: its first character's image, then the rest's. */
  lemma DoubledSplit(s: String, rest: String)
    requires s != []
    ensures ReplaceChar(s, '"', "\"\"") + "\"" + rest
         == (if s[0] == '"' then "\"\"" else [s[0]]) + (ReplaceChar(s[1..], '"', "\"\"") + "\"" + rest)
  {
  }

  lemma {:induction false} ReadQuotedDoubled(s: String, rest: String)
    requires rest == [] || rest[0] != '"'
    ensures ReadQuoted(ReplaceChar(s, '"', "\"\"") + "\"" + rest) == Some((s, rest))
  {
    if s == [] {
      ReadQuotedClose(rest);
    } else {
      var inner := ReplaceChar(s[1..], '"', "\"\"") + "\"" + rest;
      ReadQuotedDoubled(s[1..], rest);
      ReadQuotedPrefix(s[0], inner, s[1..], rest);
      assert [s[0]] + s[1..] == s;
      DoubledSplit(s, rest);
    }
  }

  lemma {:induction false} ReadBarePlain(s: String, rest: String)
    requires ',' !in s && '\n' !in s
    requires rest == [] || rest[0] == ',' || rest[0] == '\n'
    ensures ReadBare(s + rest) == (s, rest)
  {
    if s != [] {
      assert s[0] in s;
      assert (s + rest)[0] == s[0];
      assert (s + rest)[1..] == s[1..] + rest;
      ReadBarePlain(s[1..], rest);
      assert [s[0]] + s[1..] == s;
    } else {
      assert s + rest == rest;
    }
  }

  /** An escaped field followed by a separator reads back as the field. */
  lemma {:induction false} ReadEscapedField(s: String, rest: String)
    requires rest != [] && (rest[0] == ',' || rest[0] == '\n')
    ensures ReadField(EscapeCsv(s) + rest) == Some((s, rest))
  {
    var t := EscapeCsv(s) + rest;
    if NeedsQuoting(s) {
      var inner := ReplaceChar(s, '"', "\"\"") + "\"" + rest;
      assert t == "\"" + inner;
      assert t[1..] == inner;
      ReadQuotedDoubled(s, rest);
    } else {
      ReadBarePlain(s, rest);
      if s != [] {
        assert s[0] in s;
        assert t[0] == s[0];
      } else {
        assert t == rest;
      }
    }
  }

  /** The fields of a record, escaped and joined with ',', with a final '\n'. */
  function CsvLine(fields: seq<String>): (r: String)
    requires |fields| >= 1
  {
    if |fields| == 1 then EscapeCsv(fields[0]) + "\n"
    else EscapeCsv(fields[0]) + "," + CsvLine(fields[1..])
  }

  lemma {:induction false} ReadCsvLine(fields: seq<String>, rest: String)
    requires |fields| >= 1
    ensures ReadRecord(CsvLine(fields) + rest, |fields|) == Some((fields, rest))
  {
    if |fields| == 1 {
      ReadCsvLastField(fields, rest);
    } else {
      var others := fields[1..];
      ReadCsvLine(others, rest);
      assert |others| == |fields| - 1;
      ReadCsvFieldStep(fields, rest);
    }
  }

  /** The last field of a record reads back up to its line break. */
  lemma ReadCsvLastField(fields: seq<String>, rest: String)
    requires |fields| == 1
    ensures ReadRecord(CsvLine(fields) + rest, 1) == Some((fields, rest))
  {
    var f := fields[0];
    assert CsvLine(fields) + rest == EscapeCsv(f) + ("\n" + rest);
    ReadEscapedField(f, "\n" + rest);
    assert ("\n" + rest)[1..] == rest;
    assert [f] == fields;
  }

  /** A field followed by ',' reads back, and the record goes on with the others. */
  lemma {:induction false} ReadCsvFieldStep(fields: seq<String>, rest: String)
    requires |fields| >= 2
    requires ReadRecord(CsvLine(fields[1..]) + rest, |fields| - 1) == Some((fields[1..], rest))
    ensures ReadRecord(CsvLine(fields) + rest, |fields|) == Some((fields, rest))
  {
    CsvLineCons(fields, rest);
    ReadFieldThenRecord(fields[0], CsvLine(fields[1..]) + rest, fields[1..], rest, |fields|);
    assert [fields[0]] + fields[1..] == fields;
  }

  /** An escaped field, ',' and a record of the other fields read back together. */
  lemma ReadFieldThenRecord(f: String, tail: String, others: seq<String>, rest: String, n: nat)
    requires n >= 2 && ReadRecord(tail, n - 1) == Some((others, rest))
    ensures ReadRecord(EscapeCsv(f) + ("," + tail), n) == Some(([f] + others, rest))
  {
    ReadEscapedField(f, "," + tail);
    ReadRecordStep(EscapeCsv(f) + ("," + tail), n, f, tail, others, rest);
  }

  lemma CsvLineCons(fields: seq<String>, rest: String)
    requires |fields| >= 2
    ensures CsvLine(fields) + rest == EscapeCsv(fields[0]) + ("," + (CsvLine(fields[1..]) + rest))
  {
    var a, b := EscapeCsv(fields[0]), CsvLine(fields[1..]);
    assert CsvLine(fields) == a + "," + b;
    ConcatAssoc(a, ",", b, rest);
  }

  lemma ConcatAssoc(a: String, b: String, c: String, d: String)
    ensures a + b + c + d == a + (b + (c + d))
  {
  }

  /** A field, then ',', then the other fields of the record. */
  lemma ReadRecordStep(t: String, n: nat, field: String, tail: String, others: seq<String>, rest: String)
    requires n >= 2
    requires ReadField(t) == Some((field, "," + tail))
    requires ReadRecord(tail, n - 1) == Some((others, rest))
    ensures ReadRecord(t, n) == Some(([field] + others, rest))
  {
    assert ("," + tail)[1..] == tail;
  }

  // ---------------------------------------------------------------------------
  // The CSV table

  const CsvColumns: nat := 6

  /** The header names; none needs quoting. */
  const HeaderFields: seq<String> :=
    ["file", "line_number", "column_start", "column_end", "matched_text", "line_content"]

  /** The columns of one match. */
  function MatchFields(m: P.SearchMatch): (fields: seq<String>)
    ensures |fields| == CsvColumns
  {
    [m.path, NatToString(m.lineNumber), NatToString(m.columnStart), NatToString(m.columnEnd),
     m.matchedText, m.line]
  }

  function CsvRows(ms: seq<P.SearchMatch>): String {
    if ms == [] then [] else CsvLine(MatchFields(ms[0])) + CsvRows(ms[1..])
  }

  /** `format_csv`: the header line, then one record per match in order.  Reading
      the table back gives the header and every match's columns, in the order of
      the matches: no field text can break the table apart. */
  function FormatCsv(ms: seq<P.SearchMatch>): (r: String)
    ensures ReadCsv(r, CsvColumns) == Some([HeaderFields] + AllFields(ms))
  {
    ReadCsvLine(HeaderFields, CsvRows(ms));
    ReadCsvRows(ms);
    CsvLine(HeaderFields) + CsvRows(ms)
  }

  /** The columns of each match, in order. */
  function AllFields(ms: seq<P.SearchMatch>): (rows: seq<seq<String>>)
    ensures |rows| == |ms|
    ensures forall i :: 0 <= i < |ms| ==> rows[i] == MatchFields(ms[i])
  {
    if ms == [] then [] else [MatchFields(ms[0])] + AllFields(ms[1..])
  }

  lemma {:induction false} ReadCsvRows(ms: seq<P.SearchMatch>)
    ensures ReadCsv(CsvRows(ms), CsvColumns) == Some(AllFields(ms))
  {
    if ms != [] {
      var fields := MatchFields(ms[0]);
      var rest := CsvRows(ms[1..]);
      ReadCsvLine(fields, rest);
      assert CsvRows(ms) == CsvLine(fields) + rest;
      assert ReadRecord(CsvRows(ms), CsvColumns) == Some((fields, rest));
      ReadCsvRows(ms[1..]);
    }
  }

  // ---------------------------------------------------------------------------
  // TSV

  /** `escape_tsv`: tab, LF and CR become the two-character escapes \t, \n, \r. */
  function EscapeTsv(s: String): (r: String)
    ensures '\t' !in r && '\n' !in r && '\r' !in r
  {
    var a := ReplaceChar(s, '\t', "\\t");
    var b := ReplaceChar(a, '\n', "\\n");
    ReplaceCharKeepsAbsence(a, '\n', "\\n", '\t');
    var c := ReplaceChar(b, '\r', "\\r");
    ReplaceCharKeepsAbsence(b, '\r', "\\r", '\t');
    ReplaceCharKeepsAbsence(b, '\r', "\\r", '\n');
    c
  }

  /** The escape is not injective: a tab and a backslash followed by 't' are
      written alike, so a reader cannot tell them apart. */
  lemma EscapeTsvCollides()
    ensures EscapeTsv("\t") == EscapeTsv("\\t")
    ensures "\t" != "\\t"
  {
    assert ReplaceChar("\t", '\t', "\\t") == "\\t";
    var e := "\\t";
    assert ReplaceChar(e, '\t', "\\t") == e by {
      assert e[1..] == "t";
      assert ReplaceChar(e[1..], '\t', "\\t") == "t";
    }
  }

  /** Reading a TSV field back: \t, \n and \r stand for the characters. */
  function UnescapeTsv(t: String): (r: String)
    decreases |t|
  {
    if t == [] then []
    else if |t| >= 2 && t[0] == '\\' && t[1] == 't' then ['\t'] + UnescapeTsv(t[2..])
    else if |t| >= 2 && t[0] == '\\' && t[1] == 'n' then ['\n'] + UnescapeTsv(t[2..])
    else if |t| >= 2 && t[0] == '\\' && t[1] == 'r' then ['\r'] + UnescapeTsv(t[2..])
    else [t[0]] + UnescapeTsv(t[1..])
  }

  /** The escape of one character. */
  function TsvChar(c: char): String {
    if c == '\t' then "\\t" else if c == '\n' then "\\n" else if c == '\r' then "\\r" else [c]
  }

  /** The chain of replacements escapes character by character. */
  lemma {:induction false} EscapeTsvCons(c: char, rest: String)
    ensures EscapeTsv([c] + rest) == TsvChar(c) + EscapeTsv(rest)
  {
    ReplaceCharAppend([c], rest, '\t', "\\t");
    var a1 := ReplaceChar([c], '\t', "\\t");
    var a2 := ReplaceChar(rest, '\t', "\\t");
    ReplaceCharAppend(a1, a2, '\n', "\\n");
    var b1 := ReplaceChar(a1, '\n', "\\n");
    var b2 := ReplaceChar(a2, '\n', "\\n");
    ReplaceCharAppend(b1, b2, '\r', "\\r");
    assert ReplaceChar(b1, '\r', "\\r") == TsvChar(c) by {
      if c == '\t' {
        assert a1 == "\\t";
        assert ReplaceChar(a1[1..], '\n', "\\n") == "t";
        assert b1 == "\\t";
        assert ReplaceChar(b1[1..], '\r', "\\r") == "t";
      } else if c == '\n' {
        assert a1 == [c];
        assert b1 == "\\n";
        assert ReplaceChar(b1[1..], '\r', "\\r") == "n";
      } else if c == '\r' {
        assert a1 == [c];
        assert b1 == [c];
      } else {
        assert a1 == [c];
        assert b1 == [c];
      }
    }
  }

  /** Without backslashes in the field, a reader gets it back exactly. */
  lemma {:induction false} TsvRoundTrip(s: String)
    requires '\\' !in s
    ensures UnescapeTsv(EscapeTsv(s)) == s
  {
    if s != [] {
      var c := s[0];
      assert c in s;
      assert '\\' !in s[1..] by {
        forall i | 0 <= i < |s[1..]| ensures s[1..][i] != '\\' {
          assert s[1..][i] == s[i + 1];
        }
      }
      TsvRoundTrip(s[1..]);
      EscapeTsvCons(c, s[1..]);
      UnescapeTsvChar(c, EscapeTsv(s[1..]));
      assert [c] + s[1..] == s;
    }
  }

  lemma UnescapeTsvChar(c: char, u: String)
    requires c != '\\'
    ensures UnescapeTsv(TsvChar(c) + u) == [c] + UnescapeTsv(u)
  {
    var t := TsvChar(c) + u;
    if c == '\t' || c == '\n' || c == '\r' {
      assert t[2..] == u;
    } else {
      assert t[1..] == u;
    }
  }

  /** The six columns of one match as written in a TSV row. */
  function TsvFields(m: P.SearchMatch): (fields: seq<String>)
    ensures |fields| == 6
    ensures forall i :: 0 <= i < 6 ==> '\t' !in fields[i] && '\n' !in fields[i] && '\r' !in fields[i]
  {
    var ln := NatToString(m.lineNumber);
    var cs := NatToString(m.columnStart);
    var ce := NatToString(m.columnEnd);
    DigitsPlain(ln);
    DigitsPlain(cs);
    DigitsPlain(ce);
    SixPlain(EscapeTsv(m.path), ln, cs, ce, EscapeTsv(m.matchedText), EscapeTsv(m.line));
    [EscapeTsv(m.path), ln, cs, ce, EscapeTsv(m.matchedText), EscapeTsv(m.line)]
  }

  /** Six columns, none holding a tab or a line break. */
  lemma SixPlain(a: String, b: String, c: String, d: String, e: String, f: String)
    requires '\t' !in a && '\n' !in a && '\r' !in a
    requires '\t' !in b && '\n' !in b && '\r' !in b
    requires '\t' !in c && '\n' !in c && '\r' !in c
    requires '\t' !in d && '\n' !in d && '\r' !in d
    requires '\t' !in e && '\n' !in e && '\r' !in e
    requires '\t' !in f && '\n' !in f && '\r' !in f
    ensures var fields := [a, b, c, d, e, f];
            forall i :: 0 <= i < 6 ==> '\t' !in fields[i] && '\n' !in fields[i] && '\r' !in fields[i]
  {
  }

  /** A decimal number holds no tab, line break, or character CSV must quote. */
  lemma DigitsPlain(x: String)
    requires forall i :: 0 <= i < |x| ==> IsDigit(x[i])
    ensures '\t' !in x && '\n' !in x && '\r' !in x && !NeedsQuoting(x)
  {
    forall i | 0 <= i < |x| ensures x[i] != '\t' && x[i] != '\n' && x[i] != '\r' && x[i] != ',' && x[i] != '"' {
      assert IsDigit(x[i]);
    }
  }

  function TsvRows(ms: seq<P.SearchMatch>): (rows: seq<String>)
    ensures |rows| == |ms|
    ensures forall i :: 0 <= i < |ms| ==> rows[i] == Join(TsvFields(ms[i]), '\t')
  {
    if ms == [] then [] else [Join(TsvFields(ms[0]), '\t')] + TsvRows(ms[1..])
  }

  /** `format_tsv`: the header line, then one line per match; no field text adds
      or removes a line. */
  function FormatTsv(ms: seq<P.SearchMatch>): (r: String)
    ensures Lines(r) == [Join(HeaderFields, '\t')] + TsvRows(ms)
  {
    TsvTableLines(ms);
    Terminated([Join(HeaderFields, '\t')] + TsvRows(ms))
  }

  /** A row splits at its tabs into exactly its six columns, so holds five tabs,
      and it holds no line break. */
  lemma TsvRowShape(m: P.SearchMatch)
    ensures Split(Join(TsvFields(m), '\t'), '\t') == TsvFields(m)
    ensures Count(Join(TsvFields(m), '\t'), '\t') == 5
    ensures '\n' !in Join(TsvFields(m), '\t') && '\r' !in Join(TsvFields(m), '\t')
  {
    var fs := TsvFields(m);
    JoinKeepsAbsence(fs, '\t', '\n');
    JoinKeepsAbsence(fs, '\t', '\r');
    SplitJoin(fs, '\t');
    CountJoin(fs, '\t');
  }

  /** The lines of the table are the header and the rows. */
  lemma TsvTableLines(ms: seq<P.SearchMatch>)
    ensures Lines(Terminated([Join(HeaderFields, '\t')] + TsvRows(ms))) == [Join(HeaderFields, '\t')] + TsvRows(ms)
  {
    var ls := [Join(HeaderFields, '\t')] + TsvRows(ms);
    HeaderPlain();
    JoinKeepsAbsence(HeaderFields, '\t', '\n');
    JoinKeepsAbsence(HeaderFields, '\t', '\r');
    forall i | 0 <= i < |ls| ensures '\n' !in ls[i] && '\r' !in ls[i] {
      if i > 0 { TsvRowShape(ms[i - 1]); }
    }
    LinesOfTerminated(ls);
  }

  /** One line per match after the header, in order; each line splits at its tabs
      into exactly that match's six columns, so holds exactly five tabs. */
  lemma FormatTsvShape(ms: seq<P.SearchMatch>)
    ensures |Lines(FormatTsv(ms))| == |ms| + 1
    ensures Lines(FormatTsv(ms))[0] == Join(HeaderFields, '\t')
    ensures forall j :: 1 <= j <= |ms| ==> Split(Lines(FormatTsv(ms))[j], '\t') == TsvFields(ms[j - 1])
    ensures forall j :: 1 <= j <= |ms| ==> Count(Lines(FormatTsv(ms))[j], '\t') == 5
  {
    var ls := Lines(FormatTsv(ms));
    forall j | 1 <= j <= |ms|
      ensures Split(ls[j], '\t') == TsvFields(ms[j - 1]) && Count(ls[j], '\t') == 5
    {
      assert ls[j] == Join(TsvFields(ms[j - 1]), '\t');
      TsvRowShape(ms[j - 1]);
    }
  }

  /** No header name holds a tab or a line break. */
  lemma HeaderPlain()
    ensures forall i :: 0 <= i < |HeaderFields| ==> '\t' !in HeaderFields[i] && '\n' !in HeaderFields[i] && '\r' !in HeaderFields[i]
  {
    SixPlain("file", "line_number", "column_start", "column_end", "matched_text", "line_content");
  }

  // ---------------------------------------------------------------------------
  // XML and HTML

  /** The replacement texts for '&', '<', '>', '"' and '\''. */
  datatype Entities = Entities(amp: String, lt: String, gt: String, quot: String, apos: String)

  const XmlEntities := Entities("&amp;", "&lt;", "&gt;", "&quot;", "&apos;")
  const HtmlEntities := Entities("&amp;", "&lt;", "&gt;", "&quot;", "&#39;")

  predicate Markup(c: char) {
    c == '<' || c == '>' || c == '"' || c == '\''
  }

  /** A replacement text: starts with '&' and holds no markup character. */
  predicate Reference(x: String) {
    x != [] && x[0] == '&' && forall i :: 0 <= i < |x| ==> !Markup(x[i])
  }

  /** Neither text can be read as the start of the other. */
  ghost predicate Differ(x: String, y: String) {
    exists i :: 0 <= i < |x| && i < |y| && x[i] != y[i]
  }

  predicate References(e: Entities) {
    Reference(e.amp) && Reference(e.lt) && Reference(e.gt) && Reference(e.quot) && Reference(e.apos)
  }

  ghost predicate WellFormed(e: Entities) {
    References(e)
    && Differ(e.amp, e.lt) && Differ(e.amp, e.gt) && Differ(e.amp, e.quot) && Differ(e.amp, e.apos)
    && Differ(e.lt, e.gt) && Differ(e.lt, e.quot) && Differ(e.lt, e.apos)
    && Differ(e.gt, e.quot) && Differ(e.gt, e.apos) && Differ(e.quot, e.apos)
  }

  lemma XmlEntitiesWellFormed()
    ensures WellFormed(XmlEntities)
  {
    var e := XmlEntities;
    assert e.amp[1] == 'a' && e.lt[1] == 'l' && e.gt[1] == 'g' && e.quot[1] == 'q' && e.apos[1] == 'a';
    assert e.amp[2] == 'm' && e.apos[2] == 'p';
  }

  lemma HtmlEntitiesWellFormed()
    ensures WellFormed(HtmlEntities)
  {
    var e := HtmlEntities;
    assert e.amp[1] == 'a' && e.lt[1] == 'l' && e.gt[1] == 'g' && e.quot[1] == 'q' && e.apos[1] == '#';
  }

  /** The five replacements of `escape_xml` and `escape_html`, '&' first. */
  function EscapeEntities(s: String, e: Entities): String {
    var a := ReplaceChar(s, '&', e.amp);
    var b := ReplaceChar(a, '<', e.lt);
    var c := ReplaceChar(b, '>', e.gt);
    var d := ReplaceChar(c, '"', e.quot);
    ReplaceChar(d, '\'', e.apos)
  }

  /** What one character becomes. */
  function Entity(c: char, e: Entities): String {
    if c == '&' then e.amp else if c == '<' then e.lt else if c == '>' then e.gt
    else if c == '"' then e.quot else if c == '\'' then e.apos else [c]
  }

  /** A replacement of a character its input lacks changes nothing. */
  lemma ReplaceCharAbsent(s: String, c: char, rep: String)
    requires forall i :: 0 <= i < |s| ==> s[i] != c
    ensures ReplaceChar(s, c, rep) == s
  {
  }

  /** The replacements applied to a single character. */
  lemma {:induction false} EntitiesOfChar(c: char, e: Entities)
    requires References(e)
    ensures EscapeEntities([c], e) == Entity(c, e)
  {
    var x := Entity(c, e);
    var a := ReplaceChar([c], '&', e.amp);
    var b := ReplaceChar(a, '<', e.lt);
    var cc := ReplaceChar(b, '>', e.gt);
    var d := ReplaceChar(cc, '"', e.quot);
    if c == '&' {
      assert a == x;
      ReplaceCharAbsent(x, '<', e.lt);
      ReplaceCharAbsent(x, '>', e.gt);
      ReplaceCharAbsent(x, '"', e.quot);
      ReplaceCharAbsent(x, '\'', e.apos);
    } else if c == '<' {
      assert b == x;
      ReplaceCharAbsent(x, '>', e.gt);
      ReplaceCharAbsent(x, '"', e.quot);
      ReplaceCharAbsent(x, '\'', e.apos);
    } else if c == '>' {
      assert cc == x;
      ReplaceCharAbsent(x, '"', e.quot);
      ReplaceCharAbsent(x, '\'', e.apos);
    } else if c == '"' {
      assert d == x;
      ReplaceCharAbsent(x, '\'', e.apos);
    }
  }

  /** The chain of replacements escapes character by character. */
  lemma EscapeEntitiesCons(c: char, rest: String, e: Entities)
    requires References(e)
    ensures EscapeEntities([c] + rest, e) == Entity(c, e) + EscapeEntities(rest, e)
  {
    var x := [c];
    ReplaceCharAppend(x, rest, '&', e.amp);
    var a1 := ReplaceChar(x, '&', e.amp);
    var a2 := ReplaceChar(rest, '&', e.amp);
    ReplaceCharAppend(a1, a2, '<', e.lt);
    var b1 := ReplaceChar(a1, '<', e.lt);
    var b2 := ReplaceChar(a2, '<', e.lt);
    ReplaceCharAppend(b1, b2, '>', e.gt);
    var c1 := ReplaceChar(b1, '>', e.gt);
    var c2 := ReplaceChar(b2, '>', e.gt);
    ReplaceCharAppend(c1, c2, '"', e.quot);
    var d1 := ReplaceChar(c1, '"', e.quot);
    var d2 := ReplaceChar(c2, '"', e.quot);
    ReplaceCharAppend(d1, d2, '\'', e.apos);
    EntitiesOfChar(c, e);
  }

  /** No raw markup character survives the escape. */
  lemma {:induction false} EntitiesHaveNoMarkup(s: String, e: Entities)
    requires References(e)
    ensures forall i :: 0 <= i < |EscapeEntities(s, e)| ==> !Markup(EscapeEntities(s, e)[i])
  {
    if s != [] {
      EntitiesHaveNoMarkup(s[1..], e);
      EscapeEntitiesCons(s[0], s[1..], e);
      assert [s[0]] + s[1..] == s;
      var x := Entity(s[0], e);
      var r := EscapeEntities(s[1..], e);
      forall i | 0 <= i < |x + r| ensures !Markup((x + r)[i]) {
        if i >= |x| { assert (x + r)[i] == r[i - |x|]; }
      }
    }
  }

  /** `escape_xml`: no '<', '>', '"' or '\'' is left in the text. */
  function EscapeXml(s: String): (r: String)
    ensures forall i :: 0 <= i < |r| ==> !Markup(r[i])
  {
    XmlEntitiesWellFormed();
    EntitiesHaveNoMarkup(s, XmlEntities);
    EscapeEntities(s, XmlEntities)
  }

  /** `escape_html`: the same, with "&#39;" for '\''. */
  function EscapeHtml(s: String): (r: String)
    ensures forall i :: 0 <= i < |r| ==> !Markup(r[i])
  {
    HtmlEntitiesWellFormed();
    EntitiesHaveNoMarkup(s, HtmlEntities);
    EscapeEntities(s, HtmlEntities)
  }

  /** The character a reader sees at the start of `t`, and how much it consumes. */
  function ReadEntity(t: String, e: Entities): (r: (char, nat))
    requires t != [] && WellFormed(e)
    ensures 1 <= r.1 <= |t|
  {
    if StartsWith(t, e.amp) then ('&', |e.amp|)
    else if StartsWith(t, e.lt) then ('<', |e.lt|)
    else if StartsWith(t, e.gt) then ('>', |e.gt|)
    else if StartsWith(t, e.quot) then ('"', |e.quot|)
    else if StartsWith(t, e.apos) then ('\'', |e.apos|)
    else (t[0], 1)
  }

  /** An entity reader: each replacement text stands for its character. */
  function UnescapeEntities(t: String, e: Entities): (r: String)
    requires WellFormed(e)
    decreases |t|
  {
    if t == [] then []
    else
      var (c, n) := ReadEntity(t, e);
      [c] + UnescapeEntities(t[n..], e)
  }

  /** A text that differs from `x` within both cannot start with `x`. */
  lemma NotPrefix(x: String, y: String, u: String)
    requires Differ(x, y)
    ensures !StartsWith(y + u, x)
  {
    var i :| 0 <= i < |x| && i < |y| && x[i] != y[i];
    if |x| <= |y + u| {
      assert (y + u)[..|x|][i] == y[i];
    }
  }

  lemma ReadEntityOf(c: char, u: String, e: Entities)
    requires WellFormed(e)
    ensures ReadEntity(Entity(c, e) + u, e) == (c, |Entity(c, e)|)
  {
    var x := Entity(c, e);
    var t := x + u;
    assert t[..|x|] == x;
    if c == '&' {
    } else if c == '<' {
      NotPrefix(e.amp, e.lt, u);
    } else if c == '>' {
      NotPrefix(e.amp, e.gt, u);
      NotPrefix(e.lt, e.gt, u);
    } else if c == '"' {
      NotPrefix(e.amp, e.quot, u);
      NotPrefix(e.lt, e.quot, u);
      NotPrefix(e.gt, e.quot, u);
    } else if c == '\'' {
      NotPrefix(e.amp, e.apos, u);
      NotPrefix(e.lt, e.apos, u);
      NotPrefix(e.gt, e.apos, u);
      NotPrefix(e.quot, e.apos, u);
    } else {
      assert t[0] == c;
    }
  }

  /** Escaping '&' first is what makes the escape reversible: a reader gets every
      text back exactly. */
  lemma {:induction false} EntitiesRoundTrip(s: String, e: Entities)
    requires WellFormed(e)
    ensures UnescapeEntities(EscapeEntities(s, e), e) == s
  {
    if s != [] {
      EntitiesRoundTrip(s[1..], e);
      EscapeEntitiesCons(s[0], s[1..], e);
      assert [s[0]] + s[1..] == s;
      var x := Entity(s[0], e);
      var r := EscapeEntities(s[1..], e);
      ReadEntityOf(s[0], r, e);
      assert (x + r)[|x|..] == r;
    }
  }

  /** Reading XML text back. */
  function UnescapeXml(t: String): String {
    XmlEntitiesWellFormed();
    UnescapeEntities(t, XmlEntities)
  }

  /** Reading HTML text back. */
  function UnescapeHtml(t: String): String {
    HtmlEntitiesWellFormed();
    UnescapeEntities(t, HtmlEntities)
  }

  lemma XmlRoundTrip(s: String)
    ensures UnescapeXml(EscapeXml(s)) == s
  {
    XmlEntitiesWellFormed();
    EntitiesRoundTrip(s, XmlEntities);
  }

  lemma HtmlRoundTrip(s: String)
    ensures UnescapeHtml(EscapeHtml(s)) == s
  {
    HtmlEntitiesWellFormed();
    EntitiesRoundTrip(s, HtmlEntities);
  }

  // ---------------------------------------------------------------------------
  // Putting a match back into its line

  /** The line shown for a match as the text, HTML and Markdown formats build it:
      the line before the match column, the matched text, the line after the end
      column; the part before is left out unless the start column lies strictly
      inside the line. */
  function SpliceAsWritten(line: String, columnStart: nat, columnEnd: nat, matched: String): (r: String)
    requires columnEnd <= |line|
    ensures columnStart < |line| ==> columnStart <= |r| && r[..columnStart] == line[..columnStart]
    ensures |line| <= columnStart ==> r == matched + (if columnEnd < |line| then line[columnEnd..] else "")
  {
    var p := SpliceParts(line, columnStart, columnEnd, matched);
    p.0 + p.1 + p.2
  }

  /** The part before, the matched text and the part after, as `SpliceAsWritten`
      joins them. */
  function SpliceParts(line: String, columnStart: nat, columnEnd: nat, matched: String): (String, String, String)
    requires columnEnd <= |line|
  {
    (if columnStart < |line| then line[..columnStart] else "", matched,
     if columnEnd < |line| then line[columnEnd..] else "")
  }

  /** As written, a record whose matched text is its line between its columns
      shows its line when the start column lies strictly inside the line, and
      nothing when it is an empty match at the end of the line. */
  lemma SpliceAsWrittenExact(line: String, columnStart: nat, columnEnd: nat)
    requires columnStart <= columnEnd <= |line|
    ensures SpliceAsWritten(line, columnStart, columnEnd, line[columnStart..columnEnd])
         == if columnStart < |line| then line else ""
  {
    if columnStart < |line| {
      SpliceRestoresLine(line, columnStart, columnEnd);
    }
  }

  /** A zero-width match at the end of "ab" (the regex `$`, say) shows an empty
      line instead of "ab". */
  lemma SpliceDropsLineAtEnd()
    ensures SpliceAsWritten("ab", 2, 2, "") == ""
  {
  }

  /** The corrected splice: the part before the start column is kept whenever the
      column lies within the line, end included. */
  function Splice(line: String, columnStart: nat, columnEnd: nat, matched: String): (r: String)
    requires columnStart <= |line| && columnEnd <= |line|
    ensures columnStart < |line| ==> r == SpliceAsWritten(line, columnStart, columnEnd, matched)
  {
    line[..columnStart] + matched + line[columnEnd..]
  }

  /** A record whose matched text is the line between its columns shows its line
      unchanged. */
  lemma SpliceRestoresLine(line: String, columnStart: nat, columnEnd: nat)
    requires columnStart <= columnEnd <= |line|
    ensures Splice(line, columnStart, columnEnd, line[columnStart..columnEnd]) == line
  {
    assert line == line[..columnStart] + line[columnStart..columnEnd] + line[columnEnd..];
  }

  /** A record whose matched text is its line between its columns. */
  predicate Exact(m: P.SearchMatch) {
    m.columnStart <= m.columnEnd <= |m.line| && m.matchedText == m.line[m.columnStart..m.columnEnd]
  }

  /** The three parts of the shown line in the HTML and Markdown formats, which
      clamp both columns to the line first, so any record can be shown. */
  function ClampedParts(m: P.SearchMatch): (String, String, String) {
    SpliceParts(m.line, Min(m.columnStart, |m.line|), Min(m.columnEnd, |m.line|), m.matchedText)
  }

  /** The shown line of the HTML and Markdown formats: an exact record shows its
      line, except an empty match at the end of the line, which shows nothing; a
      start column at or past the end drops the whole line before the match. */
  function ClampedSplice(m: P.SearchMatch): (r: String)
    ensures Exact(m) ==> r == if m.columnStart < |m.line| then m.line else ""
    ensures |m.line| <= m.columnStart ==>
              r == m.matchedText + (if m.columnEnd < |m.line| then m.line[m.columnEnd..] else "")
  {
    var cs := Min(m.columnStart, |m.line|);
    var ce := Min(m.columnEnd, |m.line|);
    if Exact(m) then
      SpliceAsWrittenExact(m.line, cs, ce);
      SpliceAsWritten(m.line, cs, ce, m.matchedText)
    else SpliceAsWritten(m.line, cs, ce, m.matchedText)
  }

  // ---------------------------------------------------------------------------
  // Highlighting

  /** A pair of terminal colour codes: each starts with ESC and holds no other,
      and the two differ at their third character, so neither is a prefix of
      text that starts with the other. */
  datatype Colour = Colour(open: String, close: String)

  const Esc: char := '\U{1B}'

  /** The yellow used by `highlight` and the reset after it. */
  const Yellow := Colour("\U{1B}[33m", "\U{1B}[0m")

  predicate Codes(c: Colour) {
    |c.open| > 2 && |c.close| > 2 && c.open[0] == Esc && c.close[0] == Esc
    && Esc !in c.open[1..] && Esc !in c.close[1..] && c.open[2] != c.close[2]
  }

  lemma YellowCodes()
    ensures Codes(Yellow)
  {
    assert Yellow.open[1..] == "[33m";
    assert Yellow.close[1..] == "[0m";
  }

  /** Occurrence starts that can be highlighted from position `last` on: each at
      or after the end of the previous one, each inside the text. */
  predicate Separated(starts: seq<nat>, len: nat, n: nat, last: nat) {
    last <= n && (starts != [] ==> last <= starts[0] && starts[0] + len <= n && Separated(starts[1..], len, n, starts[0] + len))
  }

  /** `highlight` from position `last` on: the text up to each start, the wrapped
      occurrence, and the rest after the last one. */
  function HighlightFrom(text: String, starts: seq<nat>, len: nat, last: nat, c: Colour): (r: String)
    requires Separated(starts, len, |text|, last)
    decreases |starts|
  {
    if starts == [] then text[last..]
    else
      var st := starts[0];
      text[last..st] + c.open + text[st..st + len] + c.close
      + HighlightFrom(text, starts[1..], len, st + len, c)
  }

  function Highlight(text: String, starts: seq<nat>, len: nat): (r: String)
    requires Separated(starts, len, |text|, 0)
    ensures Esc !in text ==> StripHighlight(r, Yellow) == text && Count(r, Esc) == 2 * |starts|
  {
    var r := HighlightFrom(text, starts, len, 0, Yellow);
    if Esc !in text then
      YellowCodes();
      HighlightStrips(text, starts, len, 0, Yellow);
      HighlightCountsCodes(text, starts, len, 0, Yellow);
      r
    else r
  }

  /** Remove the colour codes again. */
  function StripHighlight(t: String, c: Colour): (r: String)
    decreases |t|
  {
    if t == [] then []
    else if StartsWith(t, c.open) && c.open != [] then StripHighlight(t[|c.open|..], c)
    else if StartsWith(t, c.close) && c.close != [] then StripHighlight(t[|c.close|..], c)
    else [t[0]] + StripHighlight(t[1..], c)
  }

  lemma {:induction false} StripPlain(a: String, b: String, c: Colour)
    requires Esc !in a && Codes(c)
    ensures StripHighlight(a + b, c) == a + StripHighlight(b, c)
  {
    if a != [] {
      assert a[0] in a;
      var t := a + b;
      assert t[0] == a[0];
      assert t[1..] == a[1..] + b;
      assert Esc !in a[1..] by {
        forall i | 0 <= i < |a[1..]| ensures a[1..][i] != Esc { assert a[1..][i] == a[i + 1]; }
      }
      StripPlain(a[1..], b, c);
      assert [a[0]] + a[1..] == a;
    } else {
      assert a + b == b;
    }
  }

  lemma StripOpen(b: String, c: Colour)
    requires Codes(c)
    ensures StripHighlight(c.open + b, c) == StripHighlight(b, c)
  {
    assert (c.open + b)[..|c.open|] == c.open;
    assert (c.open + b)[|c.open|..] == b;
  }

  lemma StripClose(b: String, c: Colour)
    requires Codes(c)
    ensures StripHighlight(c.close + b, c) == StripHighlight(b, c)
  {
    var t := c.close + b;
    assert t[..|c.close|] == c.close;
    assert t[|c.close|..] == b;
    assert t[2] == c.close[2];
  }

  /** No slice of an ESC-free text holds an ESC. */
  lemma SliceKeepsNoEsc(text: String, i: nat, j: nat)
    requires i <= j <= |text| && Esc !in text
    ensures Esc !in text[i..j]
  {
    forall k | 0 <= k < j - i ensures text[i..j][k] != Esc { assert text[i..j][k] == text[i + k]; }
  }

  lemma StripStep(a: String, w: String, rest: String, c: Colour)
    requires Esc !in a && Esc !in w && Codes(c)
    ensures StripHighlight(a + c.open + w + c.close + rest, c) == a + w + StripHighlight(rest, c)
  {
    assert a + c.open + w + c.close + rest == a + (c.open + (w + (c.close + rest)));
    StripPlain(a, c.open + (w + (c.close + rest)), c);
    StripOpen(w + (c.close + rest), c);
    StripPlain(w, c.close + rest, c);
    StripClose(rest, c);
  }

  lemma CodeHoldsOneEsc(code: String)
    requires |code| > 0 && code[0] == Esc && Esc !in code[1..]
    ensures Count(code, Esc) == 1
  {
    CountZero(code[1..], Esc);
  }

  lemma CountStep(a: String, w: String, rest: String, c: Colour)
    requires Esc !in a && Esc !in w && Codes(c)
    ensures Count(a + c.open + w + c.close + rest, Esc) == 2 + Count(rest, Esc)
  {
    assert a + c.open + w + c.close + rest == a + (c.open + (w + (c.close + rest)));
    CountAppend(a, c.open + (w + (c.close + rest)), Esc);
    CountAppend(c.open, w + (c.close + rest), Esc);
    CountAppend(w, c.close + rest, Esc);
    CountAppend(c.close, rest, Esc);
    CodeHoldsOneEsc(c.open);
    CodeHoldsOneEsc(c.close);
    CountZero(a, Esc);
    CountZero(w, Esc);
  }

  /** Removing the colour codes from a highlighted text gives the text back. */
  lemma {:induction false} HighlightStrips(text: String, starts: seq<nat>, len: nat, last: nat, c: Colour)
    requires Separated(starts, len, |text|, last) && Esc !in text && Codes(c)
    ensures StripHighlight(HighlightFrom(text, starts, len, last, c), c) == text[last..]
    decreases |starts|
  {
    if starts == [] {
      HighlightStripsNothing(text, starts, len, last, c);
    } else {
      HighlightStrips(text, starts[1..], len, starts[0] + len, c);
      HighlightStripsStep(text, starts, len, last, c);
    }
  }

  lemma HighlightStripsNothing(text: String, starts: seq<nat>, len: nat, last: nat, c: Colour)
    requires Separated(starts, len, |text|, last) && Esc !in text && Codes(c) && starts == []
    ensures StripHighlight(HighlightFrom(text, starts, len, last, c), c) == text[last..]
  {
    SliceKeepsNoEsc(text, last, |text|);
    StripPlain(text[last..], [], c);
    assert text[last..] + [] == text[last..];
  }

  /** One highlighted occurrence strips back to the text up to its end. */
  lemma HighlightStripsStep(text: String, starts: seq<nat>, len: nat, last: nat, c: Colour)
    requires Separated(starts, len, |text|, last) && Esc !in text && Codes(c) && starts != []
    requires StripHighlight(HighlightFrom(text, starts[1..], len, starts[0] + len, c), c) == text[starts[0] + len..]
    ensures StripHighlight(HighlightFrom(text, starts, len, last, c), c) == text[last..]
  {
    var st := starts[0];
    var a, w, rest := text[last..st], text[st..st + len], HighlightFrom(text, starts[1..], len, st + len, c);
    assert HighlightFrom(text, starts, len, last, c) == a + c.open + w + c.close + rest;
    SliceKeepsNoEsc(text, last, st);
    SliceKeepsNoEsc(text, st, st + len);
    StripStep(a, w, rest, c);
    SliceInThree(text, last, st, st + len);
  }

  /** One highlighted occurrence adds two colour codes. */
  lemma HighlightCountStep(text: String, starts: seq<nat>, len: nat, last: nat, c: Colour)
    requires Separated(starts, len, |text|, last) && Esc !in text && Codes(c) && starts != []
    ensures Count(HighlightFrom(text, starts, len, last, c), Esc)
            == 2 + Count(HighlightFrom(text, starts[1..], len, starts[0] + len, c), Esc)
  {
    var st := starts[0];
    SliceKeepsNoEsc(text, last, st);
    SliceKeepsNoEsc(text, st, st + len);
    var rest := HighlightFrom(text, starts[1..], len, st + len, c);
    assert HighlightFrom(text, starts, len, last, c) == text[last..st] + c.open + text[st..st + len] + c.close + rest;
    CountStep(text[last..st], text[st..st + len], rest, c);
  }

  /** With nothing left to highlight, the rest of the text holds no colour code. */
  lemma HighlightNothingCounts(text: String, starts: seq<nat>, len: nat, last: nat, c: Colour)
    requires Separated(starts, len, |text|, last) && Esc !in text && starts == []
    ensures Count(HighlightFrom(text, starts, len, last, c), Esc) == 0
  {
    SliceKeepsNoEsc(text, last, |text|);
    CountZero(text[last..], Esc);
  }

  /** A highlighted text holds one pair of colour codes per occurrence. */
  lemma {:induction false} HighlightCountsCodes(text: String, starts: seq<nat>, len: nat, last: nat, c: Colour)
    requires Separated(starts, len, |text|, last) && Esc !in text && Codes(c)
    ensures Count(HighlightFrom(text, starts, len, last, c), Esc) == 2 * |starts|
    decreases |starts|
  {
    if starts == [] {
      HighlightNothingCounts(text, starts, len, last, c);
    } else {
      HighlightCountsCodes(text, starts[1..], len, starts[0] + len, c);
      HighlightCountStep(text, starts, len, last, c);
    }
  }

  /** `find_match_indices`: the leftmost non-overlapping occurrences found by
      `memmem::find_iter`; the empty query is found at every position. */
  function FindMatchIndices(pattern: String, text: String): (r: seq<nat>)
    ensures pattern == [] ==> |r| == |text| + 1 && forall i :: 0 <= i < |r| ==> r[i] == i
    ensures pattern != [] ==> forall k :: k in r ==> MatchesAt(text, pattern, k)
  {
    if pattern == [] then seq(|text| + 1, i => i)
    else
      NonOverlappingSeparated(text, pattern, 0);
      NonOverlapping(text, pattern, 0)
  }

  function NonOverlapping(text: String, pattern: String, from: nat): (r: seq<nat>)
    requires pattern != []
    decreases |text| + 1 - from
  {
    match FindFrom(text, pattern, from)
    case None => []
    case Some(k) => [k] + NonOverlapping(text, pattern, k + |pattern|)
  }

  /** The occurrences found are occurrences, leftmost from `from` on, and can be
      highlighted. */
  lemma {:induction false} NonOverlappingSeparated(text: String, pattern: String, from: nat)
    requires pattern != [] && from <= |text|
    ensures Separated(NonOverlapping(text, pattern, from), |pattern|, |text|, from)
    ensures forall k :: k in NonOverlapping(text, pattern, from) ==> MatchesAt(text, pattern, k)
    decreases |text| + 1 - from
  {
    match FindFrom(text, pattern, from)
    case None =>
    case Some(k) =>
      NonOverlappingSeparated(text, pattern, k + |pattern|);
  }

  /** What `find_match_indices` returns can be highlighted: ascending, each at
      least the query's length past the previous, within the text. */
  lemma FindMatchIndicesSeparated(pattern: String, text: String)
    ensures Separated(FindMatchIndices(pattern, text), |pattern|, |text|, 0)
  {
    if pattern == [] {
      AllPositionsSeparated(|text|, 0);
      assert seq(|text| + 1, i => i) == seq(|text| + 1 - 0, i => i + 0);
    } else {
      NonOverlappingSeparated(text, pattern, 0);
    }
  }

  lemma {:induction false} AllPositionsSeparated(n: nat, from: nat)
    requires from <= n
    ensures Separated(seq(n + 1 - from, i => i + from), 0, n, from)
    decreases n - from
  {
    var s := seq(n + 1 - from, i => i + from);
    if from < n {
      AllPositionsSeparated(n, from + 1);
      assert s[1..] == seq(n + 1 - (from + 1), i => i + (from + 1));
    } else {
      assert s == [n];
      assert s[1..] == [];
    }
  }

  // ---------------------------------------------------------------------------
  // The formatter

  datatype OutputFormat = Text | Json | Xml | Html | Markdown | Csv | Tsv

  /** `OutputFormatter`; `new` turns metadata and context on and colour on when
      standard output is a terminal. */
  datatype Formatter = Formatter(
    format: OutputFormat,
    includeMetadata: bool,
    includeContext: bool,
    useColor: bool,
    ndjson: bool)

  /** The lines made for the matches `ms`, numbered from `from`, block after block. */
  function Blocks(ms: seq<P.SearchMatch>, from: nat, block: (nat, P.SearchMatch) -> seq<String>): (r: seq<String>)
    decreases |ms|
  {
    if ms == [] then [] else block(from, ms[0]) + Blocks(ms[1..], from + 1, block)
  }

  lemma {:induction false} BlocksLength(ms: seq<P.SearchMatch>, from: nat, block: (nat, P.SearchMatch) -> seq<String>,
                                        size: nat)
    requires forall i: nat, m :: |block(i, m)| == size
    ensures |Blocks(ms, from, block)| == size * |ms|
    decreases |ms|
  {
    if ms != [] {
      BlocksLength(ms[1..], from + 1, block, size);
      assert size * |ms| == size + size * |ms[1..]|;
    }
  }

  lemma {:induction false} BlocksSplit(ms: seq<P.SearchMatch>, from: nat, block: (nat, P.SearchMatch) -> seq<String>, k: nat)
    requires k < |ms|
    ensures Blocks(ms, from, block)
            == Blocks(ms[..k], from, block) + block(from + k, ms[k]) + Blocks(ms[k + 1..], from + k + 1, block)
    decreases k
  {
    if k == 0 {
      assert ms[..0] == [];
    } else {
      BlocksSplit(ms[1..], from + 1, block, k - 1);
      assert ms[1..][..k - 1] == ms[1..k];
      assert ms[1..][k..] == ms[k + 1..];
      assert ms[..k][1..] == ms[1..k];
    }
  }

  /** Match `k`'s block starts after the blocks of the matches before it. */
  lemma BlockAt(ms: seq<P.SearchMatch>, from: nat, block: (nat, P.SearchMatch) -> seq<String>, k: nat)
    requires k < |ms|
    ensures var at := |Blocks(ms[..k], from, block)|;
            var b := block(from + k, ms[k]);
            at + |b| <= |Blocks(ms, from, block)| && Blocks(ms, from, block)[at..at + |b|] == b
  {
    BlocksSplit(ms, from, block, k);
    MiddleSlice(Blocks(ms[..k], from, block), block(from + k, ms[k]), Blocks(ms[k + 1..], from + k + 1, block));
  }

  /** Line `j` of match `k`'s block, found after the blocks of the matches before it. */
  lemma BlockLineAt(ms: seq<P.SearchMatch>, from: nat, block: (nat, P.SearchMatch) -> seq<String>, k: nat, j: nat)
    requires k < |ms| && j < |block(from + k, ms[k])|
    ensures var at := |Blocks(ms[..k], from, block)|;
            at + j < |Blocks(ms, from, block)| && Blocks(ms, from, block)[at + j] == block(from + k, ms[k])[j]
  {
    BlockAt(ms, from, block, k);
    var at := |Blocks(ms[..k], from, block)|;
    var b := block(from + k, ms[k]);
    assert Blocks(ms, from, block)[at..at + |b|][j] == b[j];
  }

  /** When every block has `size` lines, line `j` of match `k`'s block sits
      `size * k + j` lines after the head. */
  lemma UniformBlockLine(head: seq<String>, ms: seq<P.SearchMatch>, block: (nat, P.SearchMatch) -> seq<String>,
                         size: nat, k: nat, j: nat)
    requires forall i: nat, m :: |block(i, m)| == size
    requires k < |ms| && j < size
    ensures var doc := head + Blocks(ms, 0, block);
            |head| + size * k + j < |doc| && doc[|head| + size * k + j] == block(k, ms[k])[j]
  {
    BlockLineAt(ms, 0, block, k, j);
    BlocksLength(ms[..k], 0, block, size);
    LineAfterHeader(head, Blocks(ms, 0, block), size * k + j);
  }

  /** The middle part of a three-part concatenation, cut back out. */
  lemma MiddleSlice(a: seq<String>, b: seq<String>, c: seq<String>)
    ensures (a + b + c)[|a|..|a| + |b|] == b
  {
  }

  /** In a document of a head, the blocks and a tail, match `k`'s block starts
      after the head and the blocks of the matches before it. */
  lemma DocumentBlock(doc: seq<String>, head: seq<String>, tail: seq<String>, ms: seq<P.SearchMatch>,
                      block: (nat, P.SearchMatch) -> seq<String>, k: nat)
    requires doc == head + Blocks(ms, 0, block) + tail && k < |ms|
    ensures var at := |head| + |Blocks(ms[..k], 0, block)|;
            var b := block(k, ms[k]);
            |doc| == |head| + |Blocks(ms, 0, block)| + |tail|
            && at + |b| <= |doc| && doc[at..at + |b|] == b
  {
    BlockAt(ms, 0, block, k);
    var at := |Blocks(ms[..k], 0, block)|;
    var b := block(k, ms[k]);
    SliceOfMiddle(head, Blocks(ms, 0, block), tail, at, at + |b|);
  }

  /** In a document of a head and the blocks, line `j` of match `k`'s block
      follows the head and the blocks of the matches before it. */
  lemma DocumentLine(doc: seq<String>, head: seq<String>, ms: seq<P.SearchMatch>,
                     block: (nat, P.SearchMatch) -> seq<String>, k: nat, j: nat)
    requires doc == head + Blocks(ms, 0, block) && k < |ms| && j < |block(k, ms[k])|
    ensures var at := |head| + |Blocks(ms[..k], 0, block)|;
            |doc| == |head| + |Blocks(ms, 0, block)| && at + j < |doc| && doc[at + j] == block(k, ms[k])[j]
  {
    BlockLineAt(ms, 0, block, k, j);
    LineAfterHeader(head, Blocks(ms, 0, block), |Blocks(ms[..k], 0, block)| + j);
  }

  // The text format

  /** The columns lie within the line: `format_text` slices the line at both of
      them unconditionally (src/output_formats.rs:248-249). */
  predicate ColumnsFit(m: P.SearchMatch) {
    m.columnStart <= |m.line| && m.columnEnd <= |m.line|
  }

  /** "path:line:" and, without colour, the column. */
  function TextLocation(f: Formatter, m: P.SearchMatch): String {
    if f.useColor then m.path + ":" + NatToString(m.lineNumber) + ": "
    else m.path + ":" + NatToString(m.lineNumber) + ":" + NatToString(m.columnStart + 1) + ": "
  }

  /** What the line of a match shows after its location: with colour, the
      matched text with every occurrence of the query highlighted; otherwise the
      spliced line, which for an exact record is the whole line unless the match
      is empty at its end. */
  function TextShown(f: Formatter, m: P.SearchMatch, query: String): (r: String)
    requires ColumnsFit(m)
    ensures !f.useColor && Exact(m) ==> r == if m.columnStart < |m.line| then m.line else ""
    ensures !f.useColor && m.columnStart == |m.line| ==>
              r == m.matchedText + (if m.columnEnd < |m.line| then m.line[m.columnEnd..] else "")
    ensures f.useColor && Esc !in m.matchedText ==> StripHighlight(r, Yellow) == m.matchedText
  {
    if f.useColor then
      FindMatchIndicesSeparated(query, m.matchedText);
      Highlight(m.matchedText, FindMatchIndices(query, m.matchedText), |query|)
    else if Exact(m) then
      SpliceAsWrittenExact(m.line, m.columnStart, m.columnEnd);
      SpliceAsWritten(m.line, m.columnStart, m.columnEnd, m.matchedText)
    else SpliceAsWritten(m.line, m.columnStart, m.columnEnd, m.matchedText)
  }

  /** The one line of a match. */
  function TextMatchLine(f: Formatter, m: P.SearchMatch, query: String): (r: String)
    requires ColumnsFit(m)
    ensures |TextLocation(f, m)| <= |r| && r[..|TextLocation(f, m)|] == TextLocation(f, m)
    ensures !f.useColor && Exact(m) ==> r[|TextLocation(f, m)|..] == if m.columnStart < |m.line| then m.line else ""
    ensures f.useColor && Esc !in m.matchedText ==>
              StripHighlight(r[|TextLocation(f, m)|..], Yellow) == m.matchedText
  {
    var loc := TextLocation(f, m);
    var shown := TextShown(f, m, query);
    assert (loc + shown)[|loc|..] == shown;
    loc + shown
  }

  function ContextLine(c: (nat, String)): String {
    "  " + NatToString(c.0) + " │ " + c.1
  }

  /** The context block, present when context is on and the match has any:
      a marker line, the lines before, the match's own line, the lines after and
      an empty line.  The match's own line ends with the line of an exact record
      whose start column lies inside it. */
  function TextContext(f: Formatter, m: P.SearchMatch): (r: seq<String>)
    requires ColumnsFit(m)
    ensures |r| == if f.includeContext && (m.contextBefore != [] || m.contextAfter != [])
                   then |m.contextBefore| + |m.contextAfter| + 3 else 0
    ensures r != [] && Exact(m) && m.columnStart < |m.line| ==> EndsWith(r[|m.contextBefore| + 1], m.line)
  {
    if f.includeContext && (m.contextBefore != [] || m.contextAfter != []) then
      var pre := "→ " + NatToString(m.lineNumber) + " │ ";
      var shown := SpliceAsWritten(m.line, m.columnStart, m.columnEnd, m.matchedText);
      var before := seq(|m.contextBefore|, i requires 0 <= i < |m.contextBefore| => ContextLine(m.contextBefore[i]));
      var r := ["-- context --"] + before + [pre + shown]
               + seq(|m.contextAfter|, i requires 0 <= i < |m.contextAfter| => ContextLine(m.contextAfter[i]))
               + [""];
      assert r[|before| + 1] == pre + shown;
      assert (pre + shown)[|pre|..] == shown;
      if Exact(m) then
        SpliceAsWrittenExact(m.line, m.columnStart, m.columnEnd);
        r
      else r
    else []
  }

  function TextBlocks(f: Formatter, ms: seq<P.SearchMatch>, query: String): (r: seq<String>)
    requires forall k :: 0 <= k < |ms| ==> ColumnsFit(ms[k])
  {
    if ms == [] then []
    else [TextMatchLine(f, ms[0], query)] + TextContext(f, ms[0]) + TextBlocks(f, ms[1..], query)
  }

  function TextHeader(f: Formatter, n: nat, query: String, path: String): (r: seq<String>) {
    if f.includeMetadata then ["Query: " + query, "Path: " + path, "Total matches: " + NatToString(n), ""] else []
  }

  /** `format_text`, as its lines; the output is each followed by a line feed.
      After the four metadata lines, if any, every match has at least its own
      line, and exactly that one without context. */
  function FormatTextLines(f: Formatter, ms: seq<P.SearchMatch>, query: String, path: String): (r: seq<String>)
    requires forall k :: 0 <= k < |ms| ==> ColumnsFit(ms[k])
    ensures |r| >= (if f.includeMetadata then 4 else 0) + |ms|
    ensures !f.includeContext ==> |r| == (if f.includeMetadata then 4 else 0) + |ms|
  {
    TextBlocksLength(f, ms, query);
    TextHeader(f, |ms|, query, path) + TextBlocks(f, ms, query)
  }

  /** Every match gives at least one line, and exactly one without context. */
  lemma {:induction false} TextBlocksLength(f: Formatter, ms: seq<P.SearchMatch>, query: String)
    requires forall k :: 0 <= k < |ms| ==> ColumnsFit(ms[k])
    ensures |TextBlocks(f, ms, query)| >= |ms|
    ensures !f.includeContext ==> |TextBlocks(f, ms, query)| == |ms|
  {
    if ms != [] {
      TextBlocksLength(f, ms[1..], query);
    }
  }

  lemma HeadThenRest(r: seq<String>, head: String, context: seq<String>, rest: seq<String>)
    requires r == [head] + context + rest && context == []
    ensures |r| == 1 + |rest| && r[0] == head && r[1..] == rest
  {
  }

  /** Without context every match has its one line, in order. */
  lemma {:induction false} TextBlocksWithoutContext(f: Formatter, ms: seq<P.SearchMatch>, query: String, k: nat)
    requires !f.includeContext && k < |ms|
    requires forall i :: 0 <= i < |ms| ==> ColumnsFit(ms[i])
    ensures |TextBlocks(f, ms, query)| == |ms|
    ensures TextBlocks(f, ms, query)[k] == TextMatchLine(f, ms[k], query)
    decreases |ms|
  {
    var rest := TextBlocks(f, ms[1..], query);
    var context := TextContext(f, ms[0]);
    assert |context| == 0;
    if |ms| > 1 {
      TextBlocksWithoutContext(f, ms[1..], query, if k == 0 then 0 else k - 1);
    } else {
      assert ms[1..] == [];
    }
    HeadThenRest(TextBlocks(f, ms, query), TextMatchLine(f, ms[0], query), context, rest);
  }

  /** Without context, the text format shows after its header exactly one line
      per match, in order.  Without colour, an exact record's line ends with the
      record's line, unless the match is empty at the end of the line, when the
      location is all there is. */
  lemma FormatTextShowsLines(f: Formatter, ms: seq<P.SearchMatch>, query: String, path: String, k: nat)
    requires !f.includeContext && k < |ms|
    requires forall i :: 0 <= i < |ms| ==> ColumnsFit(ms[i])
    ensures var lines := FormatTextLines(f, ms, query, path);
            var h := if f.includeMetadata then 4 else 0;
            |lines| == h + |ms| && lines[h + k] == TextMatchLine(f, ms[k], query)
            && (!f.useColor && Exact(ms[k]) && ms[k].columnStart < |ms[k].line| ==> EndsWith(lines[h + k], ms[k].line))
            && (!f.useColor && Exact(ms[k]) && ms[k].columnStart == |ms[k].line| ==> lines[h + k] == TextLocation(f, ms[k]))
  {
    TextBlocksWithoutContext(f, ms, query, k);
    var header := TextHeader(f, |ms|, query, path);
    var blocks := TextBlocks(f, ms, query);
    assert |header| == if f.includeMetadata then 4 else 0;
    LineAfterHeader(header, blocks, k);
    var line := TextMatchLine(f, ms[k], query);
    var loc := TextLocation(f, ms[k]);
    if !f.useColor && Exact(ms[k]) {
      assert line == loc + line[|loc|..];
    }
  }

  /** Line `k` of the part after a header is line `|header| + k` of the whole. */
  lemma LineAfterHeader(header: seq<String>, blocks: seq<String>, k: nat)
    requires k < |blocks|
    ensures |header + blocks| == |header| + |blocks| && (header + blocks)[|header| + k] == blocks[k]
  {
  }

  // Tagged lines, shared by the XML format

  /** `indent<tag>content</tag>`. */
  function Element(indent: String, tag: String, content: String): (r: String)
    ensures |r| == |indent| + 2 * |tag| + |content| + 5
  {
    indent + "<" + tag + ">" + content + "</" + tag + ">"
  }

  /** The content of an element line, given the lengths of its indent and tag. */
  function ElementContent(line: String, indent: nat, tag: nat): (c: String) {
    if |line| >= indent + 2 * tag + 5 then line[indent + tag + 2..|line| - tag - 3] else []
  }

  lemma ElementContentRoundTrip(indent: String, tag: String, content: String)
    ensures ElementContent(Element(indent, tag, content), |indent|, |tag|) == content
  {
    var r := Element(indent, tag, content);
    assert r == (indent + "<" + tag + ">") + content + ("</" + tag + ">");
  }

  // The XML format

  /** The indentation and tags of the elements inside a `<match>`. */
  const MatchIndent: String := "      "
  const LineNumberTag: String := "line-number"
  const LineTag: String := "line"
  const MatchedTextTag: String := "matched-text"
  const ColumnStartTag: String := "column-start"
  const ColumnEndTag: String := "column-end"

  /** The opening tag of match `i`'s block, numbered from 1. */
  function XmlMatchOpen(i: nat): String {
    "    <match index=\"" + NatToString(i + 1) + "\">"
  }

  function XmlMatch(i: nat, m: P.SearchMatch): (r: seq<String>)
    ensures |r| == 7
  {
    [ XmlMatchOpen(i),
      Element(MatchIndent, LineNumberTag, NatToString(m.lineNumber)),
      Element(MatchIndent, LineTag, EscapeXml(m.line)),
      Element(MatchIndent, MatchedTextTag, EscapeXml(m.matchedText)),
      Element(MatchIndent, ColumnStartTag, NatToString(m.columnStart)),
      Element(MatchIndent, ColumnEndTag, NatToString(m.columnEnd)),
      "    </match>" ]
  }

  function XmlMetadata(query: String, path: String, n: nat): (r: seq<String>)
    ensures |r| == 5
  {
    [ "  <metadata>",
      Element("    ", "query", EscapeXml(query)),
      Element("    ", "path", EscapeXml(path)),
      Element("    ", "total-matches", NatToString(n)),
      "  </metadata>" ]
  }

  function XmlHeadLines(f: Formatter, query: String, path: String, n: nat): (r: seq<String>)
    ensures |r| == if f.includeMetadata then 8 else 3
  {
    ["<?xml version=\"1.0\" encoding=\"UTF-8\"?>", "<search-results>"]
    + (if f.includeMetadata then XmlMetadata(query, path, n) else [])
    + ["  <matches>"]
  }

  /** The two closing lines of the XML document. */
  const XmlTail: seq<String> := ["  </matches>", "</search-results>"]

  /** `format_xml`, as its lines: the head (eight lines with metadata, three
      without), seven lines per match, and the two closing lines. */
  function FormatXmlLines(f: Formatter, ms: seq<P.SearchMatch>, query: String, path: String): (r: seq<String>)
    ensures |r| == (if f.includeMetadata then 8 else 3) + 7 * |ms| + 2
    ensures r[|r| - 2..] == XmlTail
  {
    XmlBlocksLength(ms);
    XmlHeadLines(f, query, path, |ms|) + Blocks(ms, 0, XmlMatch) + XmlTail
  }

  /** Every match takes seven lines of the XML document. */
  lemma XmlBlocksLength(ms: seq<P.SearchMatch>)
    ensures |Blocks(ms, 0, XmlMatch)| == 7 * |ms|
  {
    assert forall i: nat, m :: |XmlMatch(i, m)| == 7;
    BlocksLength(ms, 0, XmlMatch, 7);
  }

  lemma TextElementReadsBack(indent: String, tag: String, s: String)
    ensures UnescapeXml(ElementContent(Element(indent, tag, EscapeXml(s)), |indent|, |tag|)) == s
  {
    ElementContentRoundTrip(indent, tag, EscapeXml(s));
    XmlRoundTrip(s);
  }

  lemma NumberElementReadsBack(indent: String, tag: String, n: nat)
    ensures ParseNat(ElementContent(Element(indent, tag, NatToString(n)), |indent|, |tag|)) == Some(n)
  {
    ElementContentRoundTrip(indent, tag, NatToString(n));
    NatToStringRoundTrip(n);
  }

  /** Seven lines that read back as the match `m`: its line number, line,
      matched text and columns from the second to the sixth line. */
  predicate XmlBlockReadsAs(b: seq<String>, m: P.SearchMatch) {
    |b| == 7
    && ParseNat(ElementContent(b[1], |MatchIndent|, |LineNumberTag|)) == Some(m.lineNumber)
    && UnescapeXml(ElementContent(b[2], |MatchIndent|, |LineTag|)) == m.line
    && UnescapeXml(ElementContent(b[3], |MatchIndent|, |MatchedTextTag|)) == m.matchedText
    && ParseNat(ElementContent(b[4], |MatchIndent|, |ColumnStartTag|)) == Some(m.columnStart)
    && ParseNat(ElementContent(b[5], |MatchIndent|, |ColumnEndTag|)) == Some(m.columnEnd)
  }

  /** The element lines of match `m`'s block, one per field. */
  lemma XmlMatchLines(i: nat, m: P.SearchMatch)
    ensures var b := XmlMatch(i, m);
            b[1] == Element(MatchIndent, LineNumberTag, NatToString(m.lineNumber))
            && b[2] == Element(MatchIndent, LineTag, EscapeXml(m.line))
            && b[3] == Element(MatchIndent, MatchedTextTag, EscapeXml(m.matchedText))
            && b[4] == Element(MatchIndent, ColumnStartTag, NatToString(m.columnStart))
            && b[5] == Element(MatchIndent, ColumnEndTag, NatToString(m.columnEnd))
  {
    SevenLines(XmlMatch(i, m), XmlMatchOpen(i),
      Element(MatchIndent, LineNumberTag, NatToString(m.lineNumber)),
      Element(MatchIndent, LineTag, EscapeXml(m.line)),
      Element(MatchIndent, MatchedTextTag, EscapeXml(m.matchedText)),
      Element(MatchIndent, ColumnStartTag, NatToString(m.columnStart)),
      Element(MatchIndent, ColumnEndTag, NatToString(m.columnEnd)),
      "    </match>");
  }

  /** The lines of a seven-line display, read back by index. */
  lemma SevenLines(b: seq<String>, l0: String, l1: String, l2: String, l3: String, l4: String, l5: String, l6: String)
    requires b == [l0, l1, l2, l3, l4, l5, l6]
    ensures b[1] == l1 && b[2] == l2 && b[3] == l3 && b[4] == l4 && b[5] == l5
  {
  }

  /** A number element of a match block reads back as its number. */
  lemma NumberLineReadsBack(line: String, tag: String, n: nat)
    requires line == Element(MatchIndent, tag, NatToString(n))
    ensures ParseNat(ElementContent(line, |MatchIndent|, |tag|)) == Some(n)
  {
    NumberElementReadsBack(MatchIndent, tag, n);
  }

  /** A text element of a match block reads back as its text. */
  lemma TextLineReadsBack(line: String, tag: String, s: String)
    requires line == Element(MatchIndent, tag, EscapeXml(s))
    ensures UnescapeXml(ElementContent(line, |MatchIndent|, |tag|)) == s
  {
    TextElementReadsBack(MatchIndent, tag, s);
  }

  /** A match's block gives back its line number, line, matched text and
      columns. */
  lemma XmlMatchReadsBack(i: nat, m: P.SearchMatch)
    ensures XmlBlockReadsAs(XmlMatch(i, m), m)
  {
    var b := XmlMatch(i, m);
    XmlMatchLines(i, m);
    NumberLineReadsBack(b[1], LineNumberTag, m.lineNumber);
    TextLineReadsBack(b[2], LineTag, m.line);
    TextLineReadsBack(b[3], MatchedTextTag, m.matchedText);
    NumberLineReadsBack(b[4], ColumnStartTag, m.columnStart);
    NumberLineReadsBack(b[5], ColumnEndTag, m.columnEnd);
  }

  /** Reading the XML back: after the head, match `k` owns the seven lines from
      the head's length plus `7 * k`, in order, and they are its block. */
  lemma FormatXmlMatchBlock(f: Formatter, ms: seq<P.SearchMatch>, query: String, path: String, k: nat)
    requires k < |ms|
    ensures var lines := FormatXmlLines(f, ms, query, path);
            var h := if f.includeMetadata then 8 else 3;
            |lines| == h + 7 * |ms| + 2 && lines[h + 7 * k..h + 7 * k + 7] == XmlMatch(k, ms[k])
  {
    XmlBlocksLength(ms);
    XmlBlocksLength(ms[..k]);
    DocumentBlock(FormatXmlLines(f, ms, query, path), XmlHeadLines(f, query, path, |ms|), XmlTail, ms, XmlMatch, k);
  }

  /** The XML format gives back every match's line number, line, matched text and
      columns, in order, from the seven lines of its block. */
  lemma FormatXmlReadsBack(f: Formatter, ms: seq<P.SearchMatch>, query: String, path: String, k: nat)
    requires k < |ms|
    ensures var lines := FormatXmlLines(f, ms, query, path);
            var b := (if f.includeMetadata then 8 else 3) + 7 * k;
            |lines| == b + 7 * (|ms| - k) + 2 && XmlBlockReadsAs(lines[b..b + 7], ms[k])
  {
    FormatXmlMatchBlock(f, ms, query, path, k);
    XmlMatchReadsBack(k, ms[k]);
  }

  // The HTML format

  /** `<t>`, for a tag body `t` without angle brackets. */
  function Tag(t: String): String {
    "<" + t + ">"
  }

  lemma TagCounts(t: String)
    requires '<' !in t && '>' !in t
    ensures Count(Tag(t), '<') == 1 && Count(Tag(t), '>') == 1
  {
    CountZero(t, '<');
    CountZero(t, '>');
    CountAppend("<" + t, ">", '<');
    CountAppend("<", t, '<');
    CountAppend("<" + t, ">", '>');
    CountAppend("<", t, '>');
  }

  const Arrow := "→ "

  /** The line number right-aligned in four places after an arrow, as the HTML
      and Markdown formats show it. */
  function ArrowNumber(n: nat): (r: String)
    ensures '<' !in r && '>' !in r
  {
    var digits := NatToString(n);
    var p := PadLeft(digits, 4);
    assert forall i :: 0 <= i < |p| ==> p[i] == ' ' || IsDigit(p[i]);
    Arrow + p
  }

  lemma NoMarkupNoAngles(s: String)
    requires forall i :: 0 <= i < |s| ==> !Markup(s[i])
    ensures Count(s, '<') == 0 && Count(s, '>') == 0
  {
    assert '<' !in s && '>' !in s by {
      forall i | 0 <= i < |s| ensures s[i] != '<' && s[i] != '>' { assert !Markup(s[i]); }
    }
    CountZero(s, '<');
    CountZero(s, '>');
  }

  /** The fixed parts of the shown line, as the bodies of its tags: the opening
      tag, the number's span, the separator after it, the matched text's span and
      the closing tag. */
  datatype LineTags = LineTags(open: String, numberOpen: String, numberClose: String, sep: String,
                               matchOpen: String, matchClose: String, close: String)

  const HtmlLineTags := LineTags("div", SpanOf("line-number"), "/span", " │ ", SpanOf("matched-text"), "/span", "/div")

  /** The body of a span tag of class `name`. */
  function SpanOf(name: String): String {
    "span class=\"" + name + "\""
  }

  /** No tag body and not the separator holds `c`. */
  predicate Without(t: LineTags, c: char) {
    c !in t.open && c !in t.numberOpen && c !in t.numberClose && c !in t.sep
    && c !in t.matchOpen && c !in t.matchClose && c !in t.close
  }

  lemma HtmlLineTagsPlain()
    ensures Without(HtmlLineTags, '<') && Without(HtmlLineTags, '>')
  {
    SpanPlain("line-number");
    SpanPlain("matched-text");
  }

  /** A span of a class whose name holds no angle bracket holds none either. */
  lemma SpanPlain(name: String)
    requires forall i :: 0 <= i < |name| ==> 'a' <= name[i] <= 'z' || name[i] == '-'
    ensures '<' !in SpanOf(name) && '>' !in SpanOf(name)
  {
    forall i | 0 <= i < |name| ensures name[i] != '<' && name[i] != '>' { }
  }

  /** The shown line's layout around the number and the three escaped parts. */
  function TaggedLine(t: LineTags, number: String, before: String, matched: String, after: String): String {
    Tag(t.open) + Tag(t.numberOpen) + number + Tag(t.numberClose) + t.sep + before
    + Tag(t.matchOpen) + matched + Tag(t.matchClose) + after + Tag(t.close)
  }

  lemma TaggedLineCount(t: LineTags, number: String, before: String, matched: String, after: String)
    requires Without(t, '<') && Without(t, '>')
    requires forall c | c == '<' || c == '>' :: c !in number && c !in before && c !in matched && c !in after
    ensures Count(TaggedLine(t, number, before, matched, after), '<') == 6
    ensures Count(TaggedLine(t, number, before, matched, after), '>') == 6
  {
    TaggedLineCountOf(t, number, before, matched, after, '<');
    TaggedLineCountOf(t, number, before, matched, after, '>');
  }

  lemma TaggedLineCountOf(t: LineTags, number: String, before: String, matched: String, after: String, c: char)
    requires c == '<' || c == '>'
    requires Without(t, '<') && Without(t, '>')
    requires c !in number && c !in before && c !in matched && c !in after
    ensures Count(TaggedLine(t, number, before, matched, after), c) == 6
  {
    TagCounts(t.open);
    TagCounts(t.numberOpen);
    TagCounts(t.numberClose);
    TagCounts(t.matchOpen);
    TagCounts(t.matchClose);
    TagCounts(t.close);
    CountZero(number, c);
    CountZero(before, c);
    CountZero(matched, c);
    CountZero(after, c);
    CountZero(t.sep, c);
    var t1, t2, t3, sep, t4, t5, t6 := Tag(t.open), Tag(t.numberOpen), Tag(t.numberClose), t.sep,
                                       Tag(t.matchOpen), Tag(t.matchClose), Tag(t.close);
    CountAppend(t1, t2, c);
    CountAppend(t1 + t2, number, c);
    CountAppend(t1 + t2 + number, t3, c);
    CountAppend(t1 + t2 + number + t3, sep, c);
    CountAppend(t1 + t2 + number + t3 + sep, before, c);
    CountAppend(t1 + t2 + number + t3 + sep + before, t4, c);
    CountAppend(t1 + t2 + number + t3 + sep + before + t4, matched, c);
    CountAppend(t1 + t2 + number + t3 + sep + before + t4 + matched, t5, c);
    CountAppend(t1 + t2 + number + t3 + sep + before + t4 + matched + t5, after, c);
    CountAppend(t1 + t2 + number + t3 + sep + before + t4 + matched + t5 + after, t6, c);
  }

  /** The shown line of a match: the line number, then the clamped parts of the
      line, the matched text in its own span, all escaped.  Whatever the line and
      the matched text hold, the shown line has exactly the six angle-bracket pairs
      of its own tags: nothing in the match becomes markup. */
  function HtmlMatchLine(m: P.SearchMatch): (r: String)
    ensures Count(r, '<') == 6 && Count(r, '>') == 6
  {
    var p := ClampedParts(m);
    var e1, e2, e3 := EscapeHtml(p.0), EscapeHtml(p.1), EscapeHtml(p.2);
    NoMarkupNoAngles(e1);
    NoMarkupNoAngles(e2);
    NoMarkupNoAngles(e3);
    HtmlLineTagsPlain();
    TaggedLineCount(HtmlLineTags, ArrowNumber(m.lineNumber), e1, e2, e3);
    TaggedLine(HtmlLineTags, ArrowNumber(m.lineNumber), e1, e2, e3)
  }

  /** Reading the shown line's three escaped parts back gives the line of an
      exact record, or nothing for an empty match at the end of the line. */
  lemma HtmlMatchLineShowsLine(m: P.SearchMatch)
    requires Exact(m)
    ensures var p := ClampedParts(m);
            UnescapeHtml(EscapeHtml(p.0)) + UnescapeHtml(EscapeHtml(p.1)) + UnescapeHtml(EscapeHtml(p.2))
              == if m.columnStart < |m.line| then m.line else ""
  {
    var p := ClampedParts(m);
    HtmlRoundTrip(p.0);
    HtmlRoundTrip(p.1);
    HtmlRoundTrip(p.2);
    SpliceAsWrittenExact(m.line, m.columnStart, m.columnEnd);
  }

  function HtmlMatch(i: nat, m: P.SearchMatch): (r: seq<String>)
    ensures |r| == 4 && r[2] == HtmlMatchLine(m)
  {
    ["<div class=\"match\">", "<h3>Match " + NatToString(i + 1) + "</h3>", HtmlMatchLine(m), "</div>"]
  }

  /** The page head and style sheet, up to the opening of the body. */
  const HtmlPreamble: seq<String> := [
    "<!DOCTYPE html>", "<html>", "<head>", "<meta charset=\"UTF-8\">",
    "<title>rfgrep Search Results</title>", "<style>",
    "body { font-family: monospace; margin: 20px; }",
    ".match { margin: 10px 0; padding: 10px; border-left: 3px solid #007acc; }",
    ".line-number { color: #666; }",
    ".matched-text { background-color: #ffff00; font-weight: bold; }",
    ".context { color: #888; }",
    ".metadata { background-color: #f5f5f5; padding: 10px; margin-bottom: 20px; }",
    "</style>", "</head>", "<body>" ]

  function HtmlHeadLines(f: Formatter, query: String, path: String, n: nat): (r: seq<String>)
    ensures |r| == if f.includeMetadata then 21 else 15
  {
    HtmlPreamble
    + (if f.includeMetadata then
         [ "<div class=\"metadata\">", "<h2>Search Results</h2>",
           "<p><strong>Query:</strong> " + EscapeHtml(query) + "</p>",
           "<p><strong>Path:</strong> " + EscapeHtml(path) + "</p>",
           "<p><strong>Total Matches:</strong> " + NatToString(n) + "</p>",
           "</div>" ]
       else [])
  }

  /** `format_html`, as its lines: the head (21 lines with metadata, 15
      without), four lines per match, and the closing body and html tags. */
  function FormatHtmlLines(f: Formatter, ms: seq<P.SearchMatch>, query: String, path: String): (r: seq<String>)
    ensures |r| == (if f.includeMetadata then 21 else 15) + 4 * |ms| + 2
    ensures r[|r| - 2..] == ["</body>", "</html>"]
  {
    BlocksLength(ms, 0, HtmlMatch, 4);
    HtmlHeadLines(f, query, path, |ms|) + Blocks(ms, 0, HtmlMatch) + ["</body>", "</html>"]
  }

  lemma HtmlBlocksShow(ms: seq<P.SearchMatch>, from: nat, k: nat)
    requires k < |ms|
    ensures |Blocks(ms, from, HtmlMatch)| == 4 * |ms|
    ensures Blocks(ms, from, HtmlMatch)[4 * k + 2] == HtmlMatchLine(ms[k])
  {
    BlocksLength(ms, from, HtmlMatch, 4);
    BlocksLength(ms[..k], from, HtmlMatch, 4);
    BlockLineAt(ms, from, HtmlMatch, k, 2);
  }

  /** After the head, match `k` owns four lines, the third its shown line. */
  lemma FormatHtmlShowsLine(f: Formatter, ms: seq<P.SearchMatch>, query: String, path: String, k: nat)
    requires k < |ms|
    ensures var lines := FormatHtmlLines(f, ms, query, path);
            var h := if f.includeMetadata then 21 else 15;
            |lines| == h + 4 * |ms| + 2 && lines[h + 4 * k + 2] == HtmlMatchLine(ms[k])
  {
    HtmlBlocksShow(ms, 0, k);
    IndexOfMiddle(HtmlHeadLines(f, query, path, |ms|), Blocks(ms, 0, HtmlMatch), ["</body>", "</html>"], 4 * k + 2);
  }

  // The Markdown format

  /** The seven lines of a match; inside the code fence, an exact record's line
      follows the number, except that an empty match at the end of the line leaves
      the number alone. */
  function MarkdownMatch(i: nat, m: P.SearchMatch): (r: seq<String>)
    ensures |r| == 7
    ensures Exact(m) && m.columnStart < |m.line| ==> EndsWith(r[4], m.line)
    ensures Exact(m) && m.columnStart == |m.line| ==> r[4] == ArrowNumber(m.lineNumber) + " │ "
  {
    var pre := ArrowNumber(m.lineNumber) + " │ ";
    var shown := pre + ClampedSplice(m);
    assert shown[|pre|..] == ClampedSplice(m);
    ["## Match " + NatToString(i + 1), "", "**Match:**", "```", shown, "```", ""]
  }

  function MarkdownHeadLines(f: Formatter, query: String, path: String, n: nat): (r: seq<String>)
    ensures |r| == if f.includeMetadata then 6 else 2
  {
    ["# rfgrep Search Results", ""]
    + (if f.includeMetadata then
         ["**Query:** `" + query + "`", "**Path:** `" + path + "`", "**Total Matches:** " + NatToString(n), ""]
       else [])
  }

  /** `format_markdown`, as its lines: the title and, with metadata, four more
      head lines, then seven lines per match. */
  function FormatMarkdownLines(f: Formatter, ms: seq<P.SearchMatch>, query: String, path: String): (r: seq<String>)
    ensures |r| == (if f.includeMetadata then 6 else 2) + 7 * |ms|
    ensures r[0] == "# rfgrep Search Results"
  {
    MarkdownBlocksLength(ms);
    MarkdownHeadLines(f, query, path, |ms|) + Blocks(ms, 0, MarkdownMatch)
  }

  /** After the head, match `k` owns seven lines; the fifth, inside the code
      fence, ends with the match's line when the record is exact and its start
      column lies inside the line. */
  lemma FormatMarkdownShowsLines(f: Formatter, ms: seq<P.SearchMatch>, query: String, path: String, k: nat)
    requires k < |ms|
    ensures var lines := FormatMarkdownLines(f, ms, query, path);
            var h := if f.includeMetadata then 6 else 2;
            |lines| == h + 7 * |ms|
            && (Exact(ms[k]) && ms[k].columnStart < |ms[k].line| ==> EndsWith(lines[h + 7 * k + 4], ms[k].line))
            && (Exact(ms[k]) && ms[k].columnStart == |ms[k].line| ==> lines[h + 7 * k + 4] == ArrowNumber(ms[k].lineNumber) + " │ ")
  {
    MarkdownLineOf(f, ms, query, path, k);
    var block := MarkdownMatch(k, ms[k]);
  }

  /** The fifth line of match `k`'s block sits at `h + 7 * k + 4`. */
  lemma MarkdownLineOf(f: Formatter, ms: seq<P.SearchMatch>, query: String, path: String, k: nat)
    requires k < |ms|
    ensures var lines := FormatMarkdownLines(f, ms, query, path);
            var h := if f.includeMetadata then 6 else 2;
            h + 7 * k + 4 < |lines| && lines[h + 7 * k + 4] == MarkdownMatch(k, ms[k])[4]
  {
    assert forall i: nat, m :: |MarkdownMatch(i, m)| == 7;
    UniformBlockLine(MarkdownHeadLines(f, query, path, |ms|), ms, MarkdownMatch, 7, k, 4);
  }

  /** Every match takes seven lines of the Markdown document. */
  lemma MarkdownBlocksLength(ms: seq<P.SearchMatch>)
    ensures |Blocks(ms, 0, MarkdownMatch)| == 7 * |ms|
  {
    assert forall i: nat, m :: |MarkdownMatch(i, m)| == 7;
    BlocksLength(ms, 0, MarkdownMatch, 7);
  }
}

=== FILE: paths.dfy ===
/** `std::path::Path::file_name` and `Path::extension` on '/'-separated paths, as
    the filters, the compression table and the list command use them. */
module Paths {

  import opened Wrappers
  import opened Text
  import opened Seqs

  /** Position of the last `c` in `s`, if any. */
  function LastIndexOf(s: String, c: char): (r: Option<nat>)
    ensures r.Some? ==> r.value < |s| && s[r.value] == c && c !in s[r.value + 1..]
    ensures r.None? ==> c !in s
  {
    if s == [] then None
    else if s[|s| - 1] == c then Some(|s| - 1)
    else
      var r := LastIndexOf(s[..|s| - 1], c);
      assert s == s[..|s| - 1] + [s[|s| - 1]];
      assert r.Some? ==> s[r.value + 1..] == s[..|s| - 1][r.value + 1..] + [s[|s| - 1]];
      r
  }

  /** The last `c` of `a + [c] + t` is the one joining them when `t` holds none. */
  lemma LastIndexOfJoin(a: String, c: char, t: String)
    requires c !in t
    ensures LastIndexOf(a + [c] + t, c) == Some(|a|)
  {
    var s := a + [c] + t;
    assert s[|a|] == c;
    var r := LastIndexOf(s, c);
    assert r.Some?;
    var k := r.value;
    forall j | k < j < |s| ensures s[j] != c {
      assert s[j] == s[k + 1..][j - k - 1];
    }
    forall j | |a| < j < |s| ensures s[j] != c {
      assert s[j] == t[j - |a| - 1];
    }
    assert k == |a|;
  }

  /** The path without trailing separators. */
  function TrimTrailingSlashes(path: String): (r: String)
    ensures |r| <= |path| && r == path[..|r|]
    ensures r == [] || r[|r| - 1] != '/'
    ensures path == [] || path[|path| - 1] != '/' ==> r == path
  {
    if path != [] && path[|path| - 1] == '/' then TrimTrailingSlashes(path[..|path| - 1]) else path
  }

  /** The path without trailing separators and trailing "." components, which the
      component iterator of `Path` skips: "x/./" and "x/." both end at "x". */
  function TrimTrailing(path: String): (r: String)
    ensures |r| <= |path| && r == path[..|r|]
    ensures r == [] || r[|r| - 1] != '/'
    ensures !(|r| >= 2 && r[|r| - 2..] == "/.")
    decreases |path|
  {
    var t := TrimTrailingSlashes(path);
    if |t| >= 2 && t[|t| - 2..] == "/." then TrimTrailing(t[..|t| - 2]) else t
  }

  /** The last component, unless it is empty, "." or "..". */
  function FileName(path: String): (r: Option<String>)
    ensures r.Some? ==> '/' !in r.value && r.value != [] && r.value != "." && r.value != ".."
  {
    var trimmed := TrimTrailing(path);
    var name := match LastIndexOf(trimmed, '/')
      case None => trimmed
      case Some(k) => trimmed[k + 1..];
    if name == [] || name == "." || name == ".." then None else Some(name)
  }

  /** The text after the last '.' of the file name, unless the name has no '.' or
      its only '.' is the first character. */
  function Extension(path: String): (r: Option<String>)
    ensures r.Some? ==> '.' !in r.value && '/' !in r.value
  {
    match FileName(path)
    case None => None
    case Some(name) =>
      match LastIndexOf(name, '.')
      case None => None
      case Some(k) => if k == 0 then None else Some(name[k + 1..])
  }

  /** A path in a directory whose last component has no '/' names that component. */
  lemma FileNameOfComponent(dir: String, name: String)
    requires name != [] && name != "." && name != ".." && '/' !in name
    ensures FileName(dir + "/" + name) == Some(name)
  {
    var path := dir + "/" + name;
    assert path == dir + ['/'] + name;
    assert path[|path| - 1] == name[|name| - 1];
    assert name[|name| - 1] in name;
    if |name| >= 2 {
      assert path[|path| - 2] == name[|name| - 2];
      assert name[|name| - 2] in name;
    } else {
      assert name == [name[0]];
    }
    assert TrimTrailing(path) == path;
    LastIndexOfJoin(dir, '/', name);
    assert path[|dir| + 1..] == name;
  }

  /** A directory, a stem and an extension: the extension is recovered. */
  lemma ExtensionOfName(dir: String, stem: String, ext: String)
    requires stem != [] && stem != "." && '/' !in stem && '/' !in ext && '.' !in ext
    ensures Extension(dir + "/" + stem + "." + ext) == Some(ext)
  {
    var name := stem + "." + ext;
    assert dir + "/" + stem + "." + ext == dir + "/" + name;
    assert name == stem + ['.'] + ext;
    assert name[..|stem|] == stem;
    assert name != "." && name != "..";
    assert '/' !in name;
    FileNameOfComponent(dir, name);
    LastIndexOfJoin(stem, '.', ext);
    assert name[|stem| + 1..] == ext;
  }

  /** A file name without a '.', or whose only '.' leads, has no extension. */
  lemma {:induction false} NoExtensionWithoutInnerDot(dir: String, name: String)
    requires name != [] && name != "." && name != ".." && '/' !in name
    requires '.' !in name || (name[0] == '.' && '.' !in name[1..])
    ensures Extension(dir + "/" + name) == None
  {
    FileNameOfComponent(dir, name);
    if '.' in name {
      assert name == [] + ['.'] + name[1..];
      LastIndexOfJoin([], '.', name[1..]);
    }
  }

  /** A trailing separator or a trailing "." component leaves the file name as it
      was: "x/." and "x/./" name "x", as `Path::file_name` skips both. */
  lemma FileNameSkipsTrailing(p: String)
    ensures FileName(p + "/") == FileName(p)
    ensures FileName(p + "/.") == FileName(p)
  {
    TrimTrailingSlash(p);
    TrimTrailingDot(p);
  }

  lemma TrimTrailingSlash(p: String)
    ensures TrimTrailing(p + "/") == TrimTrailing(p)
  {
    assert (p + "/")[..|p + "/"| - 1] == p;
    assert TrimTrailingSlashes(p + "/") == TrimTrailingSlashes(p);
  }

  lemma TrimTrailingDot(p: String)
    ensures TrimTrailing(p + "/.") == TrimTrailing(p)
  {
    var q := p + "/.";
    assert q[|q| - 1] == '.';
    assert TrimTrailingSlashes(q) == q;
    assert q[|q| - 2..] == "/." && q[..|q| - 2] == p;
  }

  // ---------------------------------------------------------------------------
  // Component order (`Ord for PathBuf`)

  /** Lexicographic order of component lists, each component compared as a
      string, and a list before every list it starts. */
  predicate ComponentsLeq(a: seq<String>, b: seq<String>) {
    a == [] || (b != [] && (StrLess(a[0], b[0]) || (a[0] == b[0] && ComponentsLeq(a[1..], b[1..]))))
  }

  /** A path as a sort key in component order: every separator becomes NUL, which
      sorts below every character a path can hold, so that comparing keys compares
      the components one by one (`PathOrderIsComponentOrder`). */
  function PathOrderKey(path: String): (k: String)
    ensures '/' !in k
    ensures '/' !in path ==> k == path
  {
    ReplaceChar(path, '/', ['\0'])
  }

  /** Below a common prefix, strings compare as what follows it. */
  lemma {:induction false} StrLeqCommonPrefix(x: String, s: String, t: String)
    ensures StrLeq(x + s, x + t) <==> StrLeq(s, t)
  {
    if x != [] {
      assert (x + s)[0] == x[0] == (x + t)[0];
      assert (x + s)[1..] == x[1..] + s;
      assert (x + t)[1..] == x[1..] + t;
      StrLeqCommonPrefix(x[1..], s, t);
    } else {
      assert x + s == s && x + t == t;
    }
  }

  /** What may follow a component in a key: nothing, or a separator. */
  predicate Boundary(s: String) {
    s == [] || s[0] == '\0'
  }

  /** Two different NUL-free components, each followed by a boundary, compare as
      the components do. */
  lemma {:induction false} DistinctComponents(x: String, y: String, s: String, t: String)
    requires '\0' !in x && '\0' !in y && x != y
    requires Boundary(s) && Boundary(t)
    ensures StrLeq(x + s, y + t) <==> StrLeq(x, y)
  {
    if x == [] {
      assert y[0] in y;
    } else if y == [] {
      assert x[0] in x;
    } else if x[0] == y[0] {
      assert (x + s)[1..] == x[1..] + s;
      assert (y + t)[1..] == y[1..] + t;
      assert x == [x[0]] + x[1..] && y == [y[0]] + y[1..];
      assert forall c :: c in x[1..] ==> c in x;
      assert forall c :: c in y[1..] ==> c in y;
      DistinctComponents(x[1..], y[1..], s, t);
    }
  }

  /** The key of '/'-joined components is their NUL-join. */
  lemma {:induction false} PathOrderKeyJoin(pieces: seq<String>)
    requires |pieces| >= 1 && forall i :: 0 <= i < |pieces| ==> '/' !in pieces[i]
    ensures PathOrderKey(Join(pieces, '/')) == Join(pieces, '\0')
  {
    if |pieces| > 1 {
      PathOrderKeyJoin(pieces[1..]);
      ReplaceCharAppend(pieces[0] + ['/'], Join(pieces[1..], '/'), '/', ['\0']);
      ReplaceCharAppend(pieces[0], ['/'], '/', ['\0']);
    }
  }

  /** NUL-joins of NUL-free components compare as the component lists. */
  lemma {:induction false} JoinOrder(a: seq<String>, b: seq<String>)
    requires |a| >= 1 && |b| >= 1
    requires forall i :: 0 <= i < |a| ==> '\0' !in a[i]
    requires forall i :: 0 <= i < |b| ==> '\0' !in b[i]
    ensures StrLeq(Join(a, '\0'), Join(b, '\0')) <==> ComponentsLeq(a, b)
    decreases |a|
  {
    var s := if |a| == 1 then [] else ['\0'] + Join(a[1..], '\0');
    var t := if |b| == 1 then [] else ['\0'] + Join(b[1..], '\0');
    assert Join(a, '\0') == a[0] + s;
    assert Join(b, '\0') == b[0] + t;
    if a[0] == b[0] {
      StrLeqCommonPrefix(a[0], s, t);
      if |a| > 1 && |b| > 1 {
        StrLeqCommonPrefix(['\0'], Join(a[1..], '\0'), Join(b[1..], '\0'));
        JoinOrder(a[1..], b[1..]);
      }
    } else {
      DistinctComponents(a[0], b[0], s, t);
    }
  }

  /** Comparing keys compares paths component by component, as `Ord for PathBuf`
      does for paths without repeated or trailing separators or "." components:
      "src/app/f.rs" sorts before "src/app.rs", because "app" sorts before
      "app.rs". */
  lemma PathOrderIsComponentOrder(p: String, q: String)
    requires '\0' !in p && '\0' !in q
    ensures StrLeq(PathOrderKey(p), PathOrderKey(q)) <==> ComponentsLeq(Split(p, '/'), Split(q, '/'))
  {
    JoinSplit(p, '/');
    JoinSplit(q, '/');
    PathOrderKeyJoin(Split(p, '/'));
    PathOrderKeyJoin(Split(q, '/'));
    PiecesKeepAbsence(Split(p, '/'), '/', '\0');
    PiecesKeepAbsence(Split(q, '/'), '/', '\0');
    JoinOrder(Split(p, '/'), Split(q, '/'));
  }
}

=== FILE: processor.dfy ===
/** File-level helpers of src/processor.rs: the sizing arithmetic, the byte-sample
    binary heuristics, the regex cache, and the two line-oriented match extractors
    (whole-content with a context window, and streaming over a line reader).

    The regex engine is a parameter: `find` returns the span of the first match in a
    line, and `compile` stands for `Regex::new`. */
module Processor {

  import opened Wrappers
  import opened Text
  import opened Seqs
  import SearchAlgorithms

  const ContextLines: nat := 2
  const BinaryCheckSize: nat := 8000
  const MmapThreshold: nat := 16 * 1024 * 1024
  const MmapThresholdCap: nat := 1024 * 1024 * 1024
  const U64Modulus: nat := 0x1_0000_0000_0000_0000

  type Byte = b: int | 0 <= b < 256

  // ---------------------------------------------------------------------------
  // Sizing

  /** `get_adaptive_chunk_size`: four tiers with cut-offs at 64 KiB, 1 MiB and 16 MiB. */
  function AdaptiveChunkSize(fileSize: nat): (r: nat)
    ensures r == 4096 <==> fileSize < 64 * 1024
    ensures r == 8192 <==> 64 * 1024 <= fileSize < 1024 * 1024
    ensures r == 65536 <==> 1024 * 1024 <= fileSize < 16 * 1024 * 1024
    ensures r == 262144 <==> 16 * 1024 * 1024 <= fileSize
  {
    if fileSize < 64 * 1024 then 4096
    else if fileSize < 1024 * 1024 then 8192
    else if fileSize < 16 * 1024 * 1024 then 65536
    else 262144
  }

  /** A larger file never gets a smaller chunk. */
  lemma ChunkSizeMonotone(a: nat, b: nat)
    requires a <= b
    ensures AdaptiveChunkSize(a) <= AdaptiveChunkSize(b)
  {
  }

  /** `get_adaptive_mmap_threshold`, given the `MemAvailable` figure in KiB, or `None`
      when /proc/meminfo cannot be read or holds no parsable entry.  `kb * 1024` is
      u64 arithmetic and wraps. */
  function AdaptiveMmapThreshold(memAvailableKb: Option<nat>): (r: nat)
    requires memAvailableKb.Some? ==> memAvailableKb.value < U64Modulus
    ensures MmapThreshold <= r <= MmapThresholdCap
    ensures memAvailableKb.None? ==> r == MmapThreshold
  {
    match memAvailableKb
    case None => MmapThreshold
    case Some(kb) =>
      var threshold := Min((kb * 1024) % U64Modulus / 8, MmapThresholdCap);
      if threshold >= MmapThreshold then threshold else MmapThreshold
  }

  /** Without wrap-around the threshold is an eighth of the available memory, clamped
      to [16 MiB, 1 GiB]. */
  lemma MmapThresholdIsClampedEighth(kb: nat)
    requires kb * 1024 < U64Modulus
    ensures var eighth := kb * 128;
      AdaptiveMmapThreshold(Some(kb))
        == if eighth < MmapThreshold then MmapThreshold
           else if eighth > MmapThresholdCap then MmapThresholdCap
           else eighth
  {
    assert (kb * 1024) % U64Modulus == kb * 1024;
    assert kb * 1024 / 8 == kb * 128;
  }

  /** Without wrap-around, more available memory never lowers the threshold. */
  lemma MmapThresholdMonotone(a: nat, b: nat)
    requires a <= b && b * 1024 < U64Modulus
    ensures AdaptiveMmapThreshold(Some(a)) <= AdaptiveMmapThreshold(Some(b))
  {
    MmapThresholdIsClampedEighth(a);
    MmapThresholdIsClampedEighth(b);
  }

  // ---------------------------------------------------------------------------
  // Binary detection over the first bytes of a file

  function CountZeros(s: seq<Byte>): (n: nat)
    ensures n <= |s|
    ensures n == 0 <==> forall i :: 0 <= i < |s| ==> s[i] != 0
    ensures n == |s| <==> forall i :: 0 <= i < |s| ==> s[i] == 0
  {
    if s == [] then 0
    else
      var rest := CountZeros(s[1..]);
      assert forall i :: 1 <= i < |s| ==> s[i] == s[1..][i - 1];
      (if s[0] == 0 then 1 else 0) + rest
  }

  predicate Utf16Bom(s: seq<Byte>) {
    |s| >= 2 && ((s[0] == 0xFF && s[1] == 0xFE) || (s[0] == 0xFE && s[1] == 0xFF))
  }

  predicate Utf8Bom(s: seq<Byte>) {
    |s| >= 3 && s[0] == 0xEF && s[1] == 0xBB && s[2] == 0xBF
  }

  /** No even offset holds a non-zero byte followed by a zero byte. */
  predicate NoLowHighPair(s: seq<Byte>) {
    forall i :: 0 <= i && i + 1 < |s| && i % 2 == 0 ==> !(s[i] != 0 && s[i + 1] == 0)
  }

  /** No even offset holds a zero byte followed by a non-zero byte. */
  predicate NoHighLowPair(s: seq<Byte>) {
    forall i :: 0 <= i && i + 1 < |s| && i % 2 == 0 ==> !(s[i] == 0 && s[i + 1] != 0)
  }

  /** The sample-based part of `is_binary`, stated declaratively: a sample is binary
      when it is non-empty, carries no byte-order mark, does not look like UTF-16 (for
      four bytes or more), and more than one byte and more than a tenth of the bytes
      are zero. */
  predicate SampleIsBinary(s: seq<Byte>) {
    |s| > 0 && !Utf16Bom(s) && !Utf8Bom(s)
    && !(|s| >= 4 && (NoLowHighPair(s) || NoHighLowPair(s)))
    && CountZeros(s) > 1 && 10 * CountZeros(s) > |s|
  }

  /** The `step_by(2)` loop of `is_binary`: the first flag survives when no even
      offset holds (non-zero, zero), the second when none holds (zero, non-zero). */
  method Utf16Scan(s: seq<Byte>) returns (utf16Likely: bool, utf16BeLikely: bool)
    requires |s| >= 1
    ensures utf16Likely <==> NoLowHighPair(s)
    ensures utf16BeLikely <==> NoHighLowPair(s)
  {
    utf16Likely, utf16BeLikely := true, true;
    var i := 0;
    while i < |s| - 1
      invariant i % 2 == 0 && i <= |s|
      invariant utf16Likely <==>
        forall k :: 0 <= k < i && k + 1 < |s| && k % 2 == 0 ==> !(s[k] != 0 && s[k + 1] == 0)
      invariant utf16BeLikely <==>
        forall k :: 0 <= k < i && k + 1 < |s| && k % 2 == 0 ==> !(s[k] == 0 && s[k + 1] != 0)
    {
      if i + 1 < |s| {
        if s[i] != 0 && s[i + 1] == 0 {
          utf16Likely := false;
        }
        if s[i] == 0 && s[i + 1] != 0 {
          utf16BeLikely := false;
        }
      }
      i := i + 2;
    }
  }

  /** The `Ok(n) if n > 0` branch of `is_binary`, on the `n` bytes read: the BOM
      checks, the UTF-16 scan, then the null-byte count.  The source compares the
      count with `max(n * 0.1, 1.0)` in floating point; for `n <= 8000` that is
      exactly `count > 1 && 10 * count > n`. */
  method ClassifySample(s: seq<Byte>) returns (binary: bool)
    requires |s| <= BinaryCheckSize
    ensures binary <==> SampleIsBinary(s)
  {
    var n := |s|;
    if n == 0 {
      return false;
    }
    if n >= 2 {
      var bomUtf16Le := s[0] == 0xFF && s[1] == 0xFE;
      var bomUtf16Be := s[0] == 0xFE && s[1] == 0xFF;
      if bomUtf16Le || bomUtf16Be {
        return false;
      }
    }
    if n >= 3 && s[0] == 0xEF && s[1] == 0xBB && s[2] == 0xBF {
      return false;
    }
    if n >= 4 {
      var utf16Likely, utf16BeLikely := Utf16Scan(s);
      if utf16Likely || utf16BeLikely {
        return false;
      }
    }
    var nullBytes := CountZeros(s);
    binary := nullBytes > 1 && 10 * nullBytes > n;
  }

  /** `is_binary`: a sniffed MIME type outside `text/` decides at once; otherwise the
      sample read from the file decides, and a file that cannot be opened or read
      (`None`) counts as text. */
  method IsBinary(mime: Option<String>, sample: Option<seq<Byte>>) returns (binary: bool)
    requires sample.Some? ==> |sample.value| <= BinaryCheckSize
    ensures mime.Some? && !StartsWith(mime.value, "text/") ==> binary
    ensures mime.None? || StartsWith(mime.value, "text/") ==>
      (binary <==> sample.Some? && SampleIsBinary(sample.value))
  {
    if mime.Some? && !StartsWith(mime.value, "text/") {
      return true;
    }
    if sample.None? {
      return false;
    }
    binary := ClassifySample(sample.value);
  }

  /** A byte-order mark makes a sample text whatever follows it. */
  lemma BomSampleIsText(s: seq<Byte>)
    requires Utf16Bom(s) || Utf8Bom(s)
    ensures !SampleIsBinary(s)
  {
  }

  /** The UTF-16 heuristic calls every sample of four bytes or more without a zero
      byte, and every such sample made only of zero bytes, text. */
  lemma Utf16HeuristicExtremes(s: seq<Byte>)
    requires |s| >= 4
    requires (forall i :: 0 <= i < |s| ==> s[i] != 0) || (forall i :: 0 <= i < |s| ==> s[i] == 0)
    ensures !SampleIsBinary(s)
  {
    if forall i :: 0 <= i < |s| ==> s[i] == 0 {
      assert NoLowHighPair(s);
    } else {
      assert NoLowHighPair(s);
    }
  }

  /** A binary verdict on four bytes or more needs both a (non-zero, zero) and a
      (zero, non-zero) pair at even offsets. */
  lemma BinarySampleHasBothPairs(s: seq<Byte>)
    requires |s| >= 4 && SampleIsBinary(s)
    ensures exists i :: 0 <= i && i + 1 < |s| && i % 2 == 0 && s[i] != 0 && s[i + 1] == 0
    ensures exists i :: 0 <= i && i + 1 < |s| && i % 2 == 0 && s[i] == 0 && s[i + 1] != 0
  {
  }

  /** `is_binary_content`: more than 30% zero bytes among the first 8000, compared in
      exact integers. */
  function IsBinaryContent(data: seq<Byte>): (r: bool)
    ensures data == [] ==> !r
  {
    if data == [] then false
    else
      var sampleSize := Min(|data|, BinaryCheckSize);
      10 * CountZeros(data[..sampleSize]) > 3 * sampleSize
  }

  /** Only the first 8000 bytes matter, and within them a sample of zero bytes only is
      binary while one without any is text. */
  lemma BinaryContentSample(data: seq<Byte>, other: seq<Byte>)
    requires |data| >= BinaryCheckSize && |other| >= BinaryCheckSize
    requires data[..BinaryCheckSize] == other[..BinaryCheckSize]
    ensures IsBinaryContent(data) == IsBinaryContent(other)
  {
  }

  lemma BinaryContentExtremes(data: seq<Byte>)
    requires data != []
    ensures (forall i :: 0 <= i < |data| ==> data[i] == 0) ==> IsBinaryContent(data)
    ensures (forall i :: 0 <= i < |data| ==> data[i] != 0) ==> !IsBinaryContent(data)
  {
    var n := Min(|data|, BinaryCheckSize);
    var sample := data[..n];
    assert forall i :: 0 <= i < n ==> sample[i] == data[i];
  }

  // ---------------------------------------------------------------------------
  // Regex cache (`get_or_compile_regex`)

  /** A compiled regex, known by the pattern it was compiled from. */
  datatype Regex = Regex(source: String)

  type RegexCache = map<String, Regex>

  datatype CacheLookup = CacheLookup(result: Result<Regex, String>, cache: RegexCache)

  /** `get_or_compile_regex`: a hit returns the cached regex; a miss compiles and, on
      success only, stores the result under the pattern. */
  function GetOrCompileRegex(cache: RegexCache, pattern: String, compile: String -> Result<Regex, String>)
    : (r: CacheLookup)
    ensures pattern in cache ==> r.result == Ok(cache[pattern]) && r.cache == cache
    ensures pattern !in cache ==> r.result == compile(pattern)
    ensures r.cache.Keys == if r.result.Ok? then cache.Keys + {pattern} else cache.Keys
    ensures forall k :: k in cache ==> k in r.cache && r.cache[k] == cache[k]
  {
    if pattern in cache then CacheLookup(Ok(cache[pattern]), cache)
    else
      match compile(pattern)
      case Ok(regex) => CacheLookup(Ok(regex), cache[pattern := regex])
      case Err(e) => CacheLookup(Err(e), cache)
  }

  /** Every cached entry is what compiling its key gives. */
  ghost predicate CacheCoherent(cache: RegexCache, compile: String -> Result<Regex, String>) {
    forall k :: k in cache ==> compile(k) == Ok(cache[k])
  }

  /** The cache is invisible: a coherent cache returns exactly what compiling would,
      and stays coherent. */
  lemma CacheTransparent(cache: RegexCache, pattern: String, compile: String -> Result<Regex, String>)
    requires CacheCoherent(cache, compile)
    ensures GetOrCompileRegex(cache, pattern, compile).result == compile(pattern)
    ensures CacheCoherent(GetOrCompileRegex(cache, pattern, compile).cache, compile)
  {
  }

  /** After a successful lookup, a second lookup of the same pattern hits: same regex,
      cache unchanged. */
  lemma CacheSecondLookupHits(cache: RegexCache, pattern: String, compile: String -> Result<Regex, String>)
    requires GetOrCompileRegex(cache, pattern, compile).result.Ok?
    ensures var first := GetOrCompileRegex(cache, pattern, compile);
      GetOrCompileRegex(first.cache, pattern, compile) == first
  {
  }

  /** The pattern handed to the regex engine: "(?i)" in front when matching ignores
      case, the pattern itself otherwise. */
  function CaseFlagged(pattern: String, caseSensitive: bool): (p: String)
    ensures caseSensitive ==> p == pattern
    ensures !caseSensitive ==> |p| == |pattern| + 4 && StartsWith(p, "(?i)") && p[4..] == pattern
  {
    if caseSensitive then pattern else "(?i)" + pattern
  }

  // ---------------------------------------------------------------------------
  // Match records

  /** The span of a regex match within a line. */
  datatype Span = Span(start: nat, end: nat)

  /** `Regex::find` on one line: the first match, if any. */
  type Finder = String -> Option<Span>

  /** The regex engine's guarantee: a reported span lies within the line. */
  ghost predicate SaneFinder(find: Finder) {
    forall s :: find(s).Some? ==> find(s).value.start <= find(s).value.end <= |s|
  }

  /** `processor::SearchMatch`; `path` is the file's path as text. */
  datatype SearchMatch = SearchMatch(
    path: String,
    lineNumber: nat,
    line: String,
    contextBefore: seq<(nat, String)>,
    contextAfter: seq<(nat, String)>,
    matchedText: String,
    columnStart: nat,
    columnEnd: nat)

  /** The paths of the records, in order. */
  function MatchPaths(ms: seq<SearchMatch>): (r: seq<String>)
    ensures |r| == |ms| && forall i :: 0 <= i < |ms| ==> r[i] == ms[i].path
  {
    seq(|ms|, i requires 0 <= i < |ms| => ms[i].path)
  }

  /** Line numbers strictly ascend through the list. */
  predicate AscendingLineNumbers(r: seq<SearchMatch>) {
    forall a, b :: 0 <= a < b < |r| ==> r[a].lineNumber < r[b].lineNumber
  }

  /** `m` is the record `find_matches_with_context` makes for its line: the first
      match of that line, with two lines of context on each side. */
  ghost predicate IsContextRecord(lines: seq<String>, find: Finder, path: String, m: SearchMatch) {
    1 <= m.lineNumber <= |lines| && m.path == path && m.line == lines[m.lineNumber - 1]
    && find(m.line) == Some(Span(m.columnStart, m.columnEnd))
    && m.columnStart <= m.columnEnd <= |m.line|
    && m.matchedText == m.line[m.columnStart..m.columnEnd]
    && m.contextBefore == SearchAlgorithms.ContextBefore(lines, m.lineNumber - 1, ContextLines)
    && m.contextAfter == SearchAlgorithms.ContextAfter(lines, m.lineNumber - 1, ContextLines)
  }

  /** Some record of `r` carries line number `n`. */
  ghost predicate Reported(r: seq<SearchMatch>, n: nat) {
    exists k :: 0 <= k < |r| && r[k].lineNumber == n
  }

  /** The record for matching line index `i`. */
  function ContextRecord(lines: seq<String>, find: Finder, path: String, i: nat): (m: SearchMatch)
    requires SaneFinder(find) && i < |lines| && find(lines[i]).Some?
    ensures IsContextRecord(lines, find, path, m) && m.lineNumber == i + 1
  {
    var span := find(lines[i]).value;
    SearchMatch(path, i + 1, lines[i],
                SearchAlgorithms.ContextBefore(lines, i, ContextLines),
                SearchAlgorithms.ContextAfter(lines, i, ContextLines),
                lines[i][span.start..span.end], span.start, span.end)
  }

  /** The state of the `find_matches_with_context` loop before line index `i`: the
      records so far are well formed, ascending, below line `i + 1`, and cover every
      matching line before `i`. */
  ghost predicate ContextProgress(lines: seq<String>, find: Finder, path: String, r: seq<SearchMatch>, i: nat) {
    i <= |lines|
    && (forall k :: 0 <= k < |r| ==> IsContextRecord(lines, find, path, r[k]) && r[k].lineNumber <= i)
    && AscendingLineNumbers(r)
    && forall q :: 0 <= q < i && find(lines[q]).Some? ==> Reported(r, q + 1)
  }

  /** One turn of the loop keeps its state. */
  lemma ContextStep(lines: seq<String>, find: Finder, path: String, r: seq<SearchMatch>, i: nat)
    requires SaneFinder(find) && i < |lines| && ContextProgress(lines, find, path, r, i)
    ensures find(lines[i]).None? ==> ContextProgress(lines, find, path, r, i + 1)
    ensures find(lines[i]).Some? ==>
      ContextProgress(lines, find, path, r + [ContextRecord(lines, find, path, i)], i + 1)
  {
    if find(lines[i]).Some? {
      ContextStepFound(lines, find, path, r, i);
    }
  }

  /** A matching line appends its record, which keeps the loop's state. */
  lemma ContextStepFound(lines: seq<String>, find: Finder, path: String, r: seq<SearchMatch>, i: nat)
    requires SaneFinder(find) && i < |lines| && ContextProgress(lines, find, path, r, i)
    requires find(lines[i]).Some?
    ensures ContextProgress(lines, find, path, r + [ContextRecord(lines, find, path, i)], i + 1)
  {
    var m := ContextRecord(lines, find, path, i);
    AppendKeepsRecords(lines, find, path, r, m, i);
    AppendKeepsAscending(r, m, i);
    AppendKeepsReported(lines, find, r, m, i);
  }

  /** Appending the next line's record keeps every record well formed. */
  lemma AppendKeepsRecords(lines: seq<String>, find: Finder, path: String, r: seq<SearchMatch>, m: SearchMatch, i: nat)
    requires forall k :: 0 <= k < |r| ==> IsContextRecord(lines, find, path, r[k]) && r[k].lineNumber <= i
    requires IsContextRecord(lines, find, path, m) && m.lineNumber == i + 1
    ensures forall k :: 0 <= k < |r + [m]| ==> IsContextRecord(lines, find, path, (r + [m])[k]) && (r + [m])[k].lineNumber <= i + 1
  {
    forall k | 0 <= k < |r + [m]|
      ensures IsContextRecord(lines, find, path, (r + [m])[k]) && (r + [m])[k].lineNumber <= i + 1
    {
      if k < |r| {
        assert (r + [m])[k] == r[k];
      }
    }
  }

  /** A record numbered past all others keeps the numbers ascending. */
  lemma AppendKeepsAscending(r: seq<SearchMatch>, m: SearchMatch, i: nat)
    requires AscendingLineNumbers(r) && (forall k :: 0 <= k < |r| ==> r[k].lineNumber <= i)
    requires m.lineNumber == i + 1
    ensures AscendingLineNumbers(r + [m])
  {
    var r' := r + [m];
    forall a, b | 0 <= a < b < |r'| ensures r'[a].lineNumber < r'[b].lineNumber {
      assert r'[a] == r[a];
    }
  }

  /** Appending the record of line `i + 1` reports it, and everything reported before. */
  lemma AppendKeepsReported(lines: seq<String>, find: Finder, r: seq<SearchMatch>, m: SearchMatch, i: nat)
    requires i < |lines|
    requires forall q :: 0 <= q < i && find(lines[q]).Some? ==> Reported(r, q + 1)
    requires m.lineNumber == i + 1
    ensures forall q :: 0 <= q < i + 1 && find(lines[q]).Some? ==> Reported(r + [m], q + 1)
  {
    var r' := r + [m];
    forall q | 0 <= q < i + 1 && find(lines[q]).Some? ensures Reported(r', q + 1) {
      if q == i {
        assert r'[|r|] == m;
      } else {
        var k :| 0 <= k < |r| && r[k].lineNumber == q + 1;
        assert r'[k] == r[k];
      }
    }
  }

  /** The loop of `find_matches_with_context` over the lines of the content. */
  method ContextRecords(lines: seq<String>, find: Finder, path: String) returns (r: seq<SearchMatch>)
    requires SaneFinder(find)
    ensures forall k :: 0 <= k < |r| ==> IsContextRecord(lines, find, path, r[k])
    ensures AscendingLineNumbers(r)
    ensures forall i :: 0 <= i < |lines| && find(lines[i]).Some? ==> Reported(r, i + 1)
  {
    r := [];
    var i := 0;
    while i < |lines|
      invariant ContextProgress(lines, find, path, r, i)
    {
      ContextStep(lines, find, path, r, i);
      if find(lines[i]).Some? {
        r := r + [ContextRecord(lines, find, path, i)];
      }
      i := i + 1;
    }
  }

  /** `find_matches_with_context`: one record per matching line, in line order, none
      for the other lines. */
  method FindMatchesWithContext(content: String, find: Finder, path: String) returns (r: seq<SearchMatch>)
    requires SaneFinder(find)
    ensures forall k :: 0 <= k < |r| ==> IsContextRecord(Lines(content), find, path, r[k])
    ensures AscendingLineNumbers(r)
    ensures forall i :: 0 <= i < |Lines(content)| && find(Lines(content)[i]).Some? ==> Reported(r, i + 1)
  {
    r := ContextRecords(Lines(content), find, path);
  }

  // ---------------------------------------------------------------------------
  // Streaming extraction (`find_matches_streaming`)

  /** One item of `BufRead::lines`: a line, or a read error (`invalidData` when the
      bytes were not UTF-8). */
  datatype LineRead = Read(text: String) | ReadFailed(invalidData: bool)

  datatype Error = IoError | RegexError(message: String)

  /** Append to the bounded context window (`VecDeque` of capacity `2 * 2 + 1`),
      dropping the oldest entry once it overflows. */
  function PushWindow(window: seq<(nat, String)>, entry: (nat, String)): (r: seq<(nat, String)>)
    requires |window| <= 2 * ContextLines + 1
    ensures 1 <= |r| <= 2 * ContextLines + 1 && r[|r| - 1] == entry
    ensures |window| < 2 * ContextLines + 1 ==> r == window + [entry]
    ensures |window| == 2 * ContextLines + 1 ==> r == window[1..] + [entry]
  {
    var grown := window + [entry];
    if |grown| > 2 * ContextLines + 1 then grown[1..] else grown
  }

  /** `run` is lines `from + 1`, `from + 2`, ... of the input, numbered. */
  ghost predicate NumberedRun(items: seq<LineRead>, run: seq<(nat, String)>, from: nat) {
    forall t :: 0 <= t < |run| ==>
      run[t].0 == from + t + 1 && from + t < |items| && items[from + t] == Read(run[t].1)
  }

  /** The `take(2)` lines after the match, numbered on from `lineNo`; any read error
      aborts. */
  function ReadAfter(items: seq<LineRead>, lineNo: nat, stop: nat): (r: Result<seq<(nat, String)>, Error>)
    requires lineNo <= stop <= |items|
    ensures r.Ok? <==> forall i :: lineNo <= i < stop ==> items[i].Read?
    ensures r.Ok? ==> |r.value| == stop - lineNo
    ensures r.Ok? ==> NumberedRun(items, r.value, lineNo)
    decreases stop - lineNo
  {
    if lineNo == stop then Ok([])
    else
      match items[lineNo]
      case ReadFailed(_) => Err(IoError)
      case Read(text) =>
        match ReadAfter(items, lineNo + 1, stop)
        case Err(e) => Err(e)
        case Ok(rest) => Ok([(lineNo + 1, text)] + rest)
  }

  /** The loop of `find_matches_streaming` from the `idx`-th line on, with the
      context window `window`.  The lines taken as context after a match are consumed
      from the same iterator, so they are never searched themselves; the record's
      line number is the count of lines consumed so far, which includes them. */
  function StreamFrom(items: seq<LineRead>, find: Finder, path: String, idx: nat,
                      window: seq<(nat, String)>): Result<seq<SearchMatch>, Error>
    requires idx <= |items| && |window| <= 2 * ContextLines + 1 && SaneFinder(find)
    decreases |items| - idx
  {
    if idx == |items| then Ok([])
    else
      match items[idx]
      case ReadFailed(_) => Err(IoError)
      case Read(line) =>
        var lineNo := idx + 1;
        var window' := PushWindow(window, (lineNo, line));
        if find(line).None? then StreamFrom(items, find, path, lineNo, window')
        else
          var stop := Min(lineNo + ContextLines, |items|);
          match ReadAfter(items, lineNo, stop)
          case Err(e) => Err(e)
          case Ok(contextAfter) =>
            var record := StreamRecord(path, line, find(line).value, window', contextAfter, stop);
            match StreamFrom(items, find, path, stop, window')
            case Err(e) => Err(e)
            case Ok(rest) => Ok([record] + rest)
  }

  /** The record for a matching line: the window's two oldest entries as context
      before, and the line number reached after reading the context after. */
  function StreamRecord(path: String, line: String, span: Span, window: seq<(nat, String)>,
                        contextAfter: seq<(nat, String)>, lineNo: nat): SearchMatch
    requires span.start <= span.end <= |line|
  {
    SearchMatch(path, lineNo, line, window[..Min(ContextLines, |window|)], contextAfter,
                line[span.start..span.end], span.start, span.end)
  }

  function FindMatchesStreaming(items: seq<LineRead>, find: Finder, path: String): (r: Result<seq<SearchMatch>, Error>)
    requires SaneFinder(find)
    ensures r.Ok? <==> forall i :: 0 <= i < |items| ==> items[i].Read?
    ensures r.Ok? ==> StreamRecords(items, find, path, r.value, 0)
    ensures r.Ok? ==> forall i :: 0 <= i < |items| && items[i].Read? && find(items[i].text).Some? ==> Covers(r.value, i)
  {
    StreamOkIffReadable(items, find, path, 0, []);
    StreamRecordsSound(items, find, path, 0, []);
    StreamCoversAll(items, find, path);
    StreamFrom(items, find, path, 0, [])
  }

  /** `StreamCoversMatches` for every matching line of the whole file. */
  lemma StreamCoversAll(items: seq<LineRead>, find: Finder, path: String)
    requires SaneFinder(find)
    ensures var r := StreamFrom(items, find, path, 0, []);
            r.Ok? ==> forall i :: 0 <= i < |items| && items[i].Read? && find(items[i].text).Some? ==> Covers(r.value, i)
  {
    var r := StreamFrom(items, find, path, 0, []);
    if r.Ok? {
      forall i | 0 <= i < |items| && items[i].Read? && find(items[i].text).Some?
        ensures Covers(r.value, i)
      {
        StreamCoversMatches(items, find, path, 0, [], i);
      }
    }
  }

  /** Entries of a context window: numbered lines read before `idx`, ascending. */
  ghost predicate WindowSound(items: seq<LineRead>, window: seq<(nat, String)>, idx: nat) {
    (forall t :: 0 <= t < |window| ==>
      1 <= window[t].0 <= idx && window[t].0 <= |items| && items[window[t].0 - 1] == Read(window[t].1))
    && forall a, b :: 0 <= a < b < |window| ==> window[a].0 < window[b].0
  }

  /** The line a streaming record was found on: its line number less the lines read
      as context after it. */
  function MatchedLine(m: SearchMatch): int {
    m.lineNumber - |m.contextAfter|
  }

  /** Line `MatchedLine(m)`, past `lo`, is the record's line and matched there; the
      line number counts the context lines read after it. */
  ghost predicate MatchedLineOk(items: seq<LineRead>, find: Finder, path: String, m: SearchMatch, lo: nat) {
    lo < MatchedLine(m) <= |items| && m.path == path && items[MatchedLine(m) - 1] == Read(m.line)
    && find(m.line) == Some(Span(m.columnStart, m.columnEnd))
    && m.columnStart <= m.columnEnd <= |m.line|
    && m.matchedText == m.line[m.columnStart..m.columnEnd]
    && m.lineNumber == Min(MatchedLine(m) + ContextLines, |items|)
  }

  /** The context after is the run of lines right after the matched line. */
  ghost predicate ContextAfterOk(items: seq<LineRead>, m: SearchMatch) {
    MatchedLine(m) >= 0 && NumberedRun(items, m.contextAfter, MatchedLine(m))
  }

  /** The context before is at most two window entries, none past the matched line. */
  ghost predicate ContextBeforeOk(items: seq<LineRead>, m: SearchMatch) {
    |m.contextBefore| <= ContextLines && MatchedLine(m) >= 0 && WindowSound(items, m.contextBefore, MatchedLine(m))
  }

  /** What a streaming record promises. */
  ghost predicate IsStreamRecord(items: seq<LineRead>, find: Finder, path: String, m: SearchMatch, lo: nat) {
    MatchedLineOk(items, find, path, m, lo) && ContextAfterOk(items, m) && ContextBeforeOk(items, m)
  }

  /** The stream ends in an error exactly when some line from `idx` on fails to read. */
  lemma {:induction false} StreamOkIffReadable(items: seq<LineRead>, find: Finder, path: String, idx: nat,
                                               window: seq<(nat, String)>)
    requires idx <= |items| && |window| <= 2 * ContextLines + 1 && SaneFinder(find)
    ensures StreamFrom(items, find, path, idx, window).Ok? <==> forall i :: idx <= i < |items| ==> items[i].Read?
    decreases |items| - idx
  {
    if idx < |items| && items[idx].Read? {
      var line := items[idx].text;
      var window' := PushWindow(window, (idx + 1, line));
      match find(line)
      case None =>
        StreamOkIffReadable(items, find, path, idx + 1, window');
        StreamSkipHead(items, find, path, idx, window);
      case Some(m) =>
        var stop := Min(idx + 1 + ContextLines, |items|);
        StreamOkIffReadable(items, find, path, stop, window');
        StreamFoundOk(items, find, path, idx, window);
        assert (forall i :: idx <= i < |items| ==> items[i].Read?)
           <==> (forall i :: idx + 1 <= i < stop ==> items[i].Read?) && (forall i :: stop <= i < |items| ==> items[i].Read?);
    }
  }

  /** At a matching line, the stream goes on exactly when the context after and
      the rest of the stream both read. */
  lemma StreamFoundOk(items: seq<LineRead>, find: Finder, path: String, idx: nat, window: seq<(nat, String)>)
    requires idx < |items| && |window| <= 2 * ContextLines + 1 && SaneFinder(find)
    requires items[idx].Read? && find(items[idx].text).Some?
    ensures var stop := Min(idx + 1 + ContextLines, |items|);
            StreamFrom(items, find, path, idx, window).Ok?
            <==> ReadAfter(items, idx + 1, stop).Ok?
                 && StreamFrom(items, find, path, stop, PushWindow(window, (idx + 1, items[idx].text))).Ok?
  {
  }

  /** Every record is well formed with its matching line past `lo`, and each record's
      matching line lies past the previous record's line number. */
  ghost predicate StreamRecords(items: seq<LineRead>, find: Finder, path: String, r: seq<SearchMatch>, lo: nat) {
    (forall k :: 0 <= k < |r| ==> IsStreamRecord(items, find, path, r[k], lo))
    && forall a, b :: 0 <= a < b < |r| ==> r[a].lineNumber < r[b].lineNumber - |r[b].contextAfter|
  }

  lemma ConsStreamRecord(items: seq<LineRead>, find: Finder, path: String, m: SearchMatch,
                         rest: seq<SearchMatch>, lo: nat)
    requires IsStreamRecord(items, find, path, m, lo)
    requires StreamRecords(items, find, path, rest, m.lineNumber)
    ensures StreamRecords(items, find, path, [m] + rest, lo)
  {
    var r := [m] + rest;
    forall k | 0 <= k < |r| ensures IsStreamRecord(items, find, path, r[k], lo) {
      if k > 0 {
        assert r[k] == rest[k - 1];
      }
    }
    forall a, b | 0 <= a < b < |r| ensures r[a].lineNumber < r[b].lineNumber - |r[b].contextAfter| {
      assert r[b] == rest[b - 1];
      if a > 0 {
        assert r[a] == rest[a - 1];
      }
    }
  }

  /** Dropping the oldest entries of a sound window keeps it sound. */
  lemma WindowSuffixSound(items: seq<LineRead>, window: seq<(nat, String)>, idx: nat, k: nat)
    requires k <= |window| && WindowSound(items, window, idx)
    ensures WindowSound(items, window[k..], idx)
  {
    forall a, b | 0 <= a < b < |window[k..]| ensures window[k..][a].0 < window[k..][b].0 {
      assert window[k..][a] == window[k + a] && window[k..][b] == window[k + b];
    }
  }

  /** Pushing line `idx + 1` onto a window sound before `idx` gives one sound before
      `idx + 1`. */
  lemma {:induction false} PushWindowSound(items: seq<LineRead>, window: seq<(nat, String)>, idx: nat, line: String)
    requires idx < |items| && items[idx] == Read(line)
    requires |window| <= 2 * ContextLines + 1 && WindowSound(items, window, idx)
    ensures WindowSound(items, PushWindow(window, (idx + 1, line)), idx + 1)
  {
    var grown := window + [(idx + 1, line)];
    forall t | 0 <= t < |grown|
      ensures 1 <= grown[t].0 <= idx + 1 && grown[t].0 <= |items| && items[grown[t].0 - 1] == Read(grown[t].1)
    {
      if t < |window| {
        assert grown[t] == window[t];
      }
    }
    forall a, b | 0 <= a < b < |grown| ensures grown[a].0 < grown[b].0 {
      assert grown[a] == window[a];
      if b < |window| {
        assert grown[b] == window[b];
      }
    }
    assert WindowSound(items, grown, idx + 1);
    if |grown| > 2 * ContextLines + 1 {
      WindowSuffixSound(items, grown, idx + 1, 1);
    }
  }

  /** The oldest entries of a sound window form a sound window. */
  lemma WindowPrefixSound(items: seq<LineRead>, window: seq<(nat, String)>, idx: nat, k: nat)
    requires k <= |window| && WindowSound(items, window, idx)
    ensures WindowSound(items, window[..k], idx)
  {
    assert forall t :: 0 <= t < k ==> window[..k][t] == window[t];
  }

  /** The record made for a matching line `idx + 1` is well formed. */
  lemma {:induction false} StreamHeadRecord(items: seq<LineRead>, find: Finder, path: String, idx: nat,
                         window: seq<(nat, String)>, line: String, span: Span, stop: nat,
                         contextAfter: seq<(nat, String)>)
    requires idx < |items| && items[idx] == Read(line) && |window| <= 2 * ContextLines + 1
    requires WindowSound(items, window, idx)
    requires find(line) == Some(span) && span.start <= span.end <= |line|
    requires stop == Min(idx + 1 + ContextLines, |items|)
    requires ReadAfter(items, idx + 1, stop) == Ok(contextAfter)
    ensures IsStreamRecord(items, find, path,
      StreamRecord(path, line, span, PushWindow(window, (idx + 1, line)), contextAfter, stop), idx)
  {
    StreamHeadMatched(items, find, path, idx, window, line, span, stop, contextAfter);
    StreamHeadBefore(items, find, path, idx, window, line, span, stop, contextAfter);
  }

  /** The head record's matched line and context after. */
  lemma StreamHeadMatched(items: seq<LineRead>, find: Finder, path: String, idx: nat,
                          window: seq<(nat, String)>, line: String, span: Span, stop: nat,
                          contextAfter: seq<(nat, String)>)
    requires idx < |items| && items[idx] == Read(line) && |window| <= 2 * ContextLines + 1
    requires find(line) == Some(span) && span.start <= span.end <= |line|
    requires stop == Min(idx + 1 + ContextLines, |items|)
    requires ReadAfter(items, idx + 1, stop) == Ok(contextAfter)
    ensures var m := StreamRecord(path, line, span, PushWindow(window, (idx + 1, line)), contextAfter, stop);
            MatchedLine(m) == idx + 1 && MatchedLineOk(items, find, path, m, idx) && ContextAfterOk(items, m)
  {
    var m := StreamRecord(path, line, span, PushWindow(window, (idx + 1, line)), contextAfter, stop);
    assert m.lineNumber == stop && m.contextAfter == contextAfter && m.line == line;
    assert |contextAfter| == stop - (idx + 1);
  }

  /** The head record's context before: a prefix of the pushed window. */
  lemma StreamHeadBefore(items: seq<LineRead>, find: Finder, path: String, idx: nat,
                         window: seq<(nat, String)>, line: String, span: Span, stop: nat,
                         contextAfter: seq<(nat, String)>)
    requires idx < |items| && items[idx] == Read(line) && |window| <= 2 * ContextLines + 1
    requires WindowSound(items, window, idx)
    requires span.start <= span.end <= |line|
    requires stop == Min(idx + 1 + ContextLines, |items|)
    requires ReadAfter(items, idx + 1, stop) == Ok(contextAfter)
    ensures ContextBeforeOk(items, StreamRecord(path, line, span, PushWindow(window, (idx + 1, line)), contextAfter, stop))
  {
    var window' := PushWindow(window, (idx + 1, line));
    var m := StreamRecord(path, line, span, window', contextAfter, stop);
    assert m.contextBefore == window'[..Min(ContextLines, |window'|)];
    assert MatchedLine(m) == idx + 1 by {
      assert |contextAfter| == stop - (idx + 1);
    }
    PushWindowSound(items, window, idx, line);
    WindowPrefixSound(items, window', idx + 1, Min(ContextLines, |window'|));
  }

  /** Every streaming record from `idx` on is well formed, and each record's matching
      line lies past the previous record's line number. */
  lemma {:induction false} StreamRecordsSound(items: seq<LineRead>, find: Finder, path: String, idx: nat,
                                              window: seq<(nat, String)>)
    requires idx <= |items| && |window| <= 2 * ContextLines + 1 && SaneFinder(find)
    requires WindowSound(items, window, idx)
    ensures StreamFrom(items, find, path, idx, window).Ok? ==>
      StreamRecords(items, find, path, StreamFrom(items, find, path, idx, window).value, idx)
    decreases |items| - idx
  {
    if idx < |items| && items[idx].Read? {
      var line := items[idx].text;
      var lineNo := idx + 1;
      var window' := PushWindow(window, (lineNo, line));
      PushWindowSound(items, window, idx, line);
      match find(line)
      case None =>
        StreamRecordsSound(items, find, path, lineNo, window');
        StreamRecordsSkipped(items, find, path, idx, window);
      case Some(span) =>
        var stop := Min(lineNo + ContextLines, |items|);
        StreamRecordsSound(items, find, path, stop, window');
        StreamRecordsFound(items, find, path, idx, window, line, span);
    }
  }

  /** The step of `StreamRecordsSound` at a line that does not match. */
  lemma StreamRecordsSkipped(items: seq<LineRead>, find: Finder, path: String, idx: nat, window: seq<(nat, String)>)
    requires idx < |items| && |window| <= 2 * ContextLines + 1 && SaneFinder(find)
    requires items[idx].Read? && find(items[idx].text).None?
    requires var rest := StreamFrom(items, find, path, idx + 1, PushWindow(window, (idx + 1, items[idx].text)));
             rest.Ok? ==> StreamRecords(items, find, path, rest.value, idx + 1)
    ensures StreamFrom(items, find, path, idx, window).Ok? ==>
      StreamRecords(items, find, path, StreamFrom(items, find, path, idx, window).value, idx)
  {
    StreamSkipHead(items, find, path, idx, window);
    var r := StreamFrom(items, find, path, idx, window);
    if r.Ok? {
      StreamRecordsLower(items, find, path, r.value, idx + 1, idx);
    }
  }

  /** Records sound past `lo` are sound past any `lo'` below it. */
  lemma StreamRecordsLower(items: seq<LineRead>, find: Finder, path: String, r: seq<SearchMatch>, lo: nat, lo': nat)
    requires lo' <= lo && StreamRecords(items, find, path, r, lo)
    ensures StreamRecords(items, find, path, r, lo')
  {
    forall k | 0 <= k < |r| ensures IsStreamRecord(items, find, path, r[k], lo') {
      assert IsStreamRecord(items, find, path, r[k], lo);
    }
  }

  /** The step of `StreamRecordsSound` at a matching line: its record heads the
      records from where the context after stops. */
  lemma StreamRecordsFound(items: seq<LineRead>, find: Finder, path: String, idx: nat,
                           window: seq<(nat, String)>, line: String, span: Span)
    requires idx < |items| && |window| <= 2 * ContextLines + 1 && SaneFinder(find)
    requires WindowSound(items, window, idx)
    requires items[idx] == Read(line) && find(line) == Some(span)
    requires var stop := Min(idx + 1 + ContextLines, |items|);
             var rest := StreamFrom(items, find, path, stop, PushWindow(window, (idx + 1, line)));
             rest.Ok? ==> StreamRecords(items, find, path, rest.value, stop)
    ensures StreamFrom(items, find, path, idx, window).Ok? ==>
      StreamRecords(items, find, path, StreamFrom(items, find, path, idx, window).value, idx)
  {
    var window' := PushWindow(window, (idx + 1, line));
    var stop := Min(idx + 1 + ContextLines, |items|);
    var after := ReadAfter(items, idx + 1, stop);
    var rest := StreamFrom(items, find, path, stop, window');
    if after.Ok? && rest.Ok? {
      StreamMatchStep(items, find, path, idx, window, line, span, stop, after.value, rest.value);
      StreamHeadRecord(items, find, path, idx, window, line, span, stop, after.value);
      var record := StreamRecord(path, line, span, window', after.value, stop);
      ConsStreamRecord(items, find, path, record, rest.value, idx);
    }
  }

  /** Line index `i` lies between some record's matching line and its line number. */
  ghost predicate Covers(r: seq<SearchMatch>, i: nat) {
    exists k :: 0 <= k < |r| && MatchedLine(r[k]) <= i + 1 <= r[k].lineNumber
  }

  /** Every matching line from `idx` on is either reported or was swallowed as context
      after an earlier report: it lies between some record's matching line and its
      line number. */
  lemma {:induction false} StreamCoversMatches(items: seq<LineRead>, find: Finder, path: String, idx: nat,
                                               window: seq<(nat, String)>, i: nat)
    requires idx <= i < |items| && |window| <= 2 * ContextLines + 1 && SaneFinder(find)
    requires items[i].Read? && find(items[i].text).Some?
    requires StreamFrom(items, find, path, idx, window).Ok?
    ensures Covers(StreamFrom(items, find, path, idx, window).value, i)
    decreases |items| - idx
  {
    var line := items[idx].text;
    var lineNo := idx + 1;
    var window' := PushWindow(window, (lineNo, line));
    if find(line).None? {
      assert i != idx;
      StreamSkipHead(items, find, path, idx, window);
      StreamCoversMatches(items, find, path, lineNo, window', i);
    } else {
      var stop := Min(lineNo + ContextLines, |items|);
      StreamFoundHead(items, find, path, idx, window);
      if i >= stop {
        StreamCoversMatches(items, find, path, stop, window', i);
      }
      StreamCoversFound(items, find, path, idx, window, i);
    }
  }

  /** A matching line covers itself and the lines read as its context after; any
      later line is covered once the records from there on cover it. */
  lemma StreamCoversFound(items: seq<LineRead>, find: Finder, path: String, idx: nat,
                          window: seq<(nat, String)>, i: nat)
    requires idx <= i < |items| && |window| <= 2 * ContextLines + 1 && SaneFinder(find)
    requires items[idx].Read? && find(items[idx].text).Some?
    requires StreamFrom(items, find, path, idx, window).Ok?
    requires var stop := Min(idx + 1 + ContextLines, |items|);
             var rest := StreamFrom(items, find, path, stop, PushWindow(window, (idx + 1, items[idx].text)));
             i >= stop ==> rest.Ok? && Covers(rest.value, i)
    ensures Covers(StreamFrom(items, find, path, idx, window).value, i)
  {
    var stop := Min(idx + 1 + ContextLines, |items|);
    var r := StreamFrom(items, find, path, idx, window).value;
    StreamFoundHead(items, find, path, idx, window);
    if i >= stop {
      CoverShifts(r, StreamFrom(items, find, path, stop, PushWindow(window, (idx + 1, items[idx].text))).value, i);
    } else {
      assert MatchedLine(r[0]) <= i + 1 <= r[0].lineNumber;
    }
  }

  /** A line that does not match adds no record; it only enters the window. */
  lemma StreamSkipHead(items: seq<LineRead>, find: Finder, path: String, idx: nat, window: seq<(nat, String)>)
    requires idx < |items| && |window| <= 2 * ContextLines + 1 && SaneFinder(find)
    requires items[idx].Read? && find(items[idx].text).None?
    ensures StreamFrom(items, find, path, idx, window)
         == StreamFrom(items, find, path, idx + 1, PushWindow(window, (idx + 1, items[idx].text)))
  {
  }

  /** A matching line heads the records: its record's line number is where the
      context after stops, and the records from there follow it. */
  lemma StreamFoundHead(items: seq<LineRead>, find: Finder, path: String, idx: nat, window: seq<(nat, String)>)
    requires idx < |items| && |window| <= 2 * ContextLines + 1 && SaneFinder(find)
    requires items[idx].Read? && find(items[idx].text).Some?
    requires StreamFrom(items, find, path, idx, window).Ok?
    ensures var stop := Min(idx + 1 + ContextLines, |items|);
            var rest := StreamFrom(items, find, path, stop, PushWindow(window, (idx + 1, items[idx].text)));
            var r := StreamFrom(items, find, path, idx, window).value;
            rest.Ok? && |r| == 1 + |rest.value| && r[1..] == rest.value
            && r[0].lineNumber == stop && idx + 1 == r[0].lineNumber - |r[0].contextAfter|
  {
    var stop := Min(idx + 1 + ContextLines, |items|);
    var after := ReadAfter(items, idx + 1, stop).value;
    assert |after| == stop - (idx + 1);
  }

  /** A line covered by a later record stays covered once a record is put in front. */
  lemma CoverShifts(r: seq<SearchMatch>, rest: seq<SearchMatch>, i: nat)
    requires |r| == 1 + |rest| && r[1..] == rest
    requires Covers(rest, i)
    ensures Covers(r, i)
  {
    var k :| 0 <= k < |rest| && MatchedLine(rest[k]) <= i + 1 <= rest[k].lineNumber;
    assert r[k + 1] == rest[k];
  }

  lemma ReadAfterStep(items: seq<LineRead>, lineNo: nat, stop: nat, text: String, rest: seq<(nat, String)>)
    requires lineNo < stop <= |items| && items[lineNo] == Read(text)
    requires ReadAfter(items, lineNo + 1, stop) == Ok(rest)
    ensures ReadAfter(items, lineNo, stop) == Ok([(lineNo + 1, text)] + rest)
  {
  }

  lemma StreamMatchStep(items: seq<LineRead>, find: Finder, path: String, idx: nat,
                        window: seq<(nat, String)>, line: String, span: Span, stop: nat,
                        contextAfter: seq<(nat, String)>, rest: seq<SearchMatch>)
    requires idx < |items| && |window| <= 2 * ContextLines + 1 && SaneFinder(find)
    requires items[idx] == Read(line) && find(line) == Some(span)
    requires stop == Min(idx + 1 + ContextLines, |items|)
    requires ReadAfter(items, idx + 1, stop) == Ok(contextAfter)
    requires StreamFrom(items, find, path, stop, PushWindow(window, (idx + 1, line))) == Ok(rest)
    ensures span.start <= span.end <= |line|
    ensures StreamFrom(items, find, path, idx, window)
         == Ok([StreamRecord(path, line, span, PushWindow(window, (idx + 1, line)), contextAfter, stop)] + rest)
  {
  }

  /** A finder that matches the whole of the line "x" and nothing else. */
  function FindX(s: String): Option<Span> {
    if s == "x" then Some(Span(0, 1)) else None
  }

  /** The two quirks on a three-line input whose first two lines match: the record
      for line 1 carries line 1 itself as context before, reports line number 3, and
      line 2, consumed as context, is never reported. */
  lemma StreamingQuirks()
    ensures SaneFinder(FindX)
    ensures FindMatchesStreaming([Read("x"), Read("x"), Read("y")], FindX, "f")
         == Ok([SearchMatch("f", 3, "x", [(1, "x")], [(2, "x"), (3, "y")], "x", 0, 1)])
  {
    StreamingQuirksFrom();
  }

  /** The two lines after the first are read as its context. */
  lemma QuirksContextAfter()
    ensures ReadAfter([Read("x"), Read("x"), Read("y")], 1, 3) == Ok([(2, "x"), (3, "y")])
  {
    var items := [Read("x"), Read("x"), Read("y")];
    ReadAfterStep(items, 2, 3, "y", []);
    assert [(3, "y")] + [] == [(3, "y")];
    ReadAfterStep(items, 1, 3, "x", [(3, "y")]);
    assert [(2, "x")] + [(3, "y")] == [(2, "x"), (3, "y")];
  }

  lemma StreamingQuirksFrom()
    ensures SaneFinder(FindX)
    ensures StreamFrom([Read("x"), Read("x"), Read("y")], FindX, "f", 0, [])
         == Ok([SearchMatch("f", 3, "x", [(1, "x")], [(2, "x"), (3, "y")], "x", 0, 1)])
  {
    var items := [Read("x"), Read("x"), Read("y")];
    FindXSane();
    QuirksContextAfter();
    assert PushWindow([], (1, "x")) == [(1, "x")];
    assert StreamFrom(items, FindX, "f", 3, [(1, "x")]) == Ok([]);
    StreamMatchStep(items, FindX, "f", 0, [], "x", Span(0, 1), 3, [(2, "x"), (3, "y")], []);
    QuirksRecord();
  }

  lemma FindXSane()
    ensures SaneFinder(FindX) && FindX("x") == Some(Span(0, 1))
  {
  }

  /** The record made for the first line. */
  lemma QuirksRecord()
    ensures var record := StreamRecord("f", "x", Span(0, 1), [(1, "x")], [(2, "x"), (3, "y")], 3);
            [record] + [] == [SearchMatch("f", 3, "x", [(1, "x")], [(2, "x"), (3, "y")], "x", 0, 1)]
  {
    var window: seq<(nat, String)> := [(1, "x")];
    assert window[..Min(ContextLines, |window|)] == window;
    assert "x"[0..1] == "x";
    var record := StreamRecord("f", "x", Span(0, 1), window, [(2, "x"), (3, "y")], 3);
    assert [record] + [] == [record];
  }
}

=== FILE: search_algorithms.dfy ===
/** The substring matchers of src/search_algorithms.rs: Boyer-Moore with its two
    shift tables, the `find`-based simple search, the context-line helpers shared by
    every matcher, and the factory that builds a matcher for an algorithm name.

    The Boyer-Moore good-suffix table of the source (all 1 except entry m-2, which is
    m) lets the scan jump over occurrences; `BoyerMooreMissesOccurrence` exhibits one.
    The corrected table (all 1, so each step shifts by the bad-character rule alone,
    as in Horspool's variant) is proved complete beside it.  The factory builds the
    table as written, so the Boyer-Moore matcher it returns is only sound. */
module SearchAlgorithms {

  import opened Wrappers
  import opened Seqs
  import opened Text
  import SimdEngine = Simd

  // ---------------------------------------------------------------------------
  // Boyer-Moore tables

  /** `table` is the bad-character table of `pat`: it maps exactly the bytes of the
      pattern, each to m-1 minus the index of its last occurrence. */
  ghost predicate BadCharValid(pat: String, table: map<char, nat>) {
    (forall t :: 0 <= t < |pat| ==> pat[t] in table) &&
    (forall b :: b in table ==>
      table[b] < |pat| && pat[|pat| - 1 - table[b]] == b &&
      forall t :: |pat| - table[b] <= t < |pat| ==> pat[t] != b)
  }

  /** The table after the bytes `pat[..i]` were inserted in order. */
  ghost predicate BadCharPartial(pat: String, i: nat, acc: map<char, nat>)
    requires i <= |pat|
  {
    (forall t :: 0 <= t < i ==> pat[t] in acc) &&
    (forall b :: b in acc ==>
      |pat| - i <= acc[b] < |pat| && pat[|pat| - 1 - acc[b]] == b &&
      forall t :: |pat| - acc[b] <= t < i ==> pat[t] != b)
  }

  /** Inserting the next pattern byte, mapped from its position, keeps the table partial. */
  lemma BadCharInsert(pat: String, i: nat, acc: map<char, nat>)
    requires i < |pat| && BadCharPartial(pat, i, acc)
    ensures BadCharPartial(pat, i + 1, acc[pat[i] := |pat| - 1 - i])
  {
  }

  function BadCharFrom(pat: String, i: nat, acc: map<char, nat>): (r: map<char, nat>)
    requires i <= |pat| && BadCharPartial(pat, i, acc)
    ensures BadCharValid(pat, r)
    decreases |pat| - i
  {
    if i == |pat| then
      acc
    else
      BadCharInsert(pat, i, acc);
      BadCharFrom(pat, i + 1, acc[pat[i] := |pat| - 1 - i])
  }

  /** `build_bad_char_table`: later bytes overwrite earlier ones, so each byte ends up
      mapped from its last occurrence. */
  function BuildBadCharTable(pat: String): (r: map<char, nat>)
    ensures BadCharValid(pat, r)
  {
    BadCharFrom(pat, 0, map[])
  }

  /** `build_good_suffix_table` as written: all 1, except entry m-2, which is m. */
  function BuildGoodSuffixTable(m: nat): (gs: seq<nat>)
    ensures |gs| == m
    ensures forall t :: 0 <= t < m ==> gs[t] >= 1
    ensures m > 1 ==> gs[m - 2] == m
    ensures forall t :: 0 <= t < m && t + 2 != m ==> gs[t] == 1
  {
    seq(m, t => if t + 2 == m then m else 1)
  }

  /** The corrected good-suffix table: every entry 1, so the shift is the bad-character
      shift (at least 1), which never skips an occurrence. */
  function BuildGoodSuffixTableFixed(m: nat): (gs: seq<nat>)
    ensures |gs| == m
    ensures forall t :: 0 <= t < m ==> gs[t] == 1
  {
    seq(m, t => 1)
  }

  datatype BoyerMoore = BoyerMoore(pattern: String, badCharTable: map<char, nat>, goodSuffixTable: seq<nat>) {
    ghost predicate Valid() {
      BadCharValid(pattern, badCharTable) && |goodSuffixTable| == |pattern| &&
      forall t :: 0 <= t < |goodSuffixTable| ==> goodSuffixTable[t] >= 1
    }
  }

  /** `BoyerMoore::new` as written. */
  function NewBoyerMoore(pattern: String): (bm: BoyerMoore)
    ensures bm.Valid() && bm.pattern == pattern
    ensures bm.goodSuffixTable == BuildGoodSuffixTable(|pattern|)
  {
    BoyerMoore(pattern, BuildBadCharTable(pattern), BuildGoodSuffixTable(|pattern|))
  }

  /** `BoyerMoore::new` with the corrected good-suffix table. */
  function NewBoyerMooreFixed(pattern: String): (bm: BoyerMoore)
    ensures bm.Valid() && bm.pattern == pattern
    ensures forall t :: 0 <= t < |bm.goodSuffixTable| ==> bm.goodSuffixTable[t] == 1
  {
    BoyerMoore(pattern, BuildBadCharTable(pattern), BuildGoodSuffixTableFixed(|pattern|))
  }

  // ---------------------------------------------------------------------------
  // Boyer-Moore scan

  /** The inner comparison loop: with the window ending at `i`, compare right to left
      from pattern index `j` while `j > 0` and the bytes agree; return where it stops. */
  function StopIndex(text: String, pat: String, i: nat, j: nat): (s: nat)
    requires j < |pat| && |pat| - 1 <= i < |text|
    ensures s <= j
  {
    if j > 0 && text[i - (|pat| - 1) + j] == pat[j] then StopIndex(text, pat, i, j - 1) else j
  }

  /** The comparison agrees on every index above the stop index, and disagrees at
      the stop index unless it reached 0. */
  lemma {:induction false} StopIndexSpec(text: String, pat: String, i: nat, j: nat)
    requires j < |pat| && |pat| - 1 <= i < |text|
    ensures var s := StopIndex(text, pat, i, j);
            (forall t :: s < t <= j ==> text[i - (|pat| - 1) + t] == pat[t])
            && (s > 0 ==> text[i - (|pat| - 1) + s] != pat[s])
  {
    if j > 0 && text[i - (|pat| - 1) + j] == pat[j] {
      StopIndexSpec(text, pat, i, j - 1);
    }
  }

  lemma WindowMatches(text: String, pat: String, w: nat)
    requires pat != [] && w + |pat| <= |text|
    requires forall t :: 0 <= t < |pat| ==> text[w + t] == pat[t]
    ensures MatchesAt(text, pat, w)
  {
    assert text[w..w + |pat|] == pat;
  }

  /** Bad-character shift for the byte under the window's end: its table entry, or
      m when the byte does not occur in the pattern. */
  function BadCharShift(bc: map<char, nat>, c: char, m: nat): nat {
    if c in bc then bc[c] else m
  }

  /** One step's shift: the larger of the bad-character shift and the good-suffix
      shift (the entry after the stop index, or 1 if the last byte already differed). */
  function Shift(text: String, pat: String, bc: map<char, nat>, gs: seq<nat>, i: nat, j: nat): (d: nat)
    requires i < |text| && j < |pat| && |gs| == |pat|
    requires forall t :: 0 <= t < |gs| ==> gs[t] >= 1
    ensures d >= 1
  {
    var badCharShift := BadCharShift(bc, text[i], |pat|);
    var goodSuffixShift := if j < |pat| - 1 then gs[j + 1] else 1;
    if badCharShift >= goodSuffixShift then badCharShift else goodSuffixShift
  }

  /** The outer loop of `BoyerMoore::search` from window end `i`. */
  function Scan(text: String, pat: String, bc: map<char, nat>, gs: seq<nat>, i: nat): seq<nat>
    requires pat != [] && |pat| - 1 <= i && |gs| == |pat|
    requires forall t :: 0 <= t < |gs| ==> gs[t] >= 1
    decreases |text| - i
  {
    if i >= |text| then []
    else
      var w := i - (|pat| - 1);
      var j := StopIndex(text, pat, i, |pat| - 1);
      (if j == 0 && text[w] == pat[0] then [w] else [])
        + Scan(text, pat, bc, gs, i + Shift(text, pat, bc, gs, i, j))
  }

  /** One turn of the outer loop. */
  lemma ScanUnfold(text: String, pat: String, bc: map<char, nat>, gs: seq<nat>, i: nat)
    requires pat != [] && |pat| - 1 <= i < |text| && |gs| == |pat|
    requires forall t :: 0 <= t < |gs| ==> gs[t] >= 1
    ensures var w := i - (|pat| - 1);
            var j := StopIndex(text, pat, i, |pat| - 1);
            Scan(text, pat, bc, gs, i)
            == (if j == 0 && text[w] == pat[0] then [w] else []) + Scan(text, pat, bc, gs, i + Shift(text, pat, bc, gs, i, j))
  {
  }

  /** Every window the scan reports holds the pattern and ends at or after the
      current window end. */
  lemma {:induction false} ScanHits(text: String, pat: String, bc: map<char, nat>, gs: seq<nat>, i: nat)
    requires pat != [] && |pat| - 1 <= i && |gs| == |pat|
    requires forall t :: 0 <= t < |gs| ==> gs[t] >= 1
    ensures forall k :: k in Scan(text, pat, bc, gs, i) ==> MatchesAt(text, pat, k) && i <= k + |pat| - 1
    decreases |text| - i
  {
    if i < |text| {
      var w := i - (|pat| - 1);
      var j := StopIndex(text, pat, i, |pat| - 1);
      var d := Shift(text, pat, bc, gs, i, j);
      ScanUnfold(text, pat, bc, gs, i);
      ScanHits(text, pat, bc, gs, i + d);
      if j == 0 && text[w] == pat[0] {
        StopIndexSpec(text, pat, i, |pat| - 1);
        WindowMatches(text, pat, w);
      }
    }
  }

  /** An element below every element of an ascending list, put in front of it,
      keeps it ascending. */
  lemma ConsIncreasing(x: nat, rest: seq<nat>)
    requires StrictlyIncreasing(rest) && forall n :: 0 <= n < |rest| ==> x < rest[n]
    ensures StrictlyIncreasing([x] + rest)
  {
    var s := [x] + rest;
    forall a, b | 0 <= a < b < |s| ensures s[a] < s[b] {
      assert s[b] == rest[b - 1];
      if a > 0 {
        assert s[a] == rest[a - 1];
      }
    }
  }

  /** The reported windows strictly ascend, and each ends at or after the current
      window end, whatever the tables (as long as each step moves). */
  lemma {:induction false} ScanIncreasing(text: String, pat: String, bc: map<char, nat>, gs: seq<nat>, i: nat)
    requires pat != [] && |pat| - 1 <= i && |gs| == |pat|
    requires forall t :: 0 <= t < |gs| ==> gs[t] >= 1
    ensures var r := Scan(text, pat, bc, gs, i);
            StrictlyIncreasing(r) && forall n :: 0 <= n < |r| ==> i <= r[n] + |pat| - 1
    decreases |text| - i
  {
    if i < |text| {
      var w := i - (|pat| - 1);
      var j := StopIndex(text, pat, i, |pat| - 1);
      var d := Shift(text, pat, bc, gs, i, j);
      var rest := Scan(text, pat, bc, gs, i + d);
      ScanUnfold(text, pat, bc, gs, i);
      ScanIncreasing(text, pat, bc, gs, i + d);
      if j == 0 && text[w] == pat[0] {
        ConsIncreasing(w, rest);
        var r := [w] + rest;
        assert forall n :: 1 <= n < |r| ==> r[n] == rest[n - 1];
      }
    }
  }

  /** The scan is sound and ordered. */
  lemma ScanSound(text: String, pat: String, bc: map<char, nat>, gs: seq<nat>, i: nat)
    requires pat != [] && |pat| - 1 <= i && |gs| == |pat|
    requires forall t :: 0 <= t < |gs| ==> gs[t] >= 1
    ensures forall k :: k in Scan(text, pat, bc, gs, i) ==> MatchesAt(text, pat, k) && i <= k + |pat| - 1
    ensures StrictlyIncreasing(Scan(text, pat, bc, gs, i))
  {
    ScanHits(text, pat, bc, gs, i);
    ScanIncreasing(text, pat, bc, gs, i);
  }

  /** `BoyerMoore::search`: nothing for an empty pattern or a text shorter than it;
      otherwise only true occurrences, strictly ascending. */
  function BoyerMooreSearch(bm: BoyerMoore, text: String): (r: seq<nat>)
    requires bm.Valid()
    ensures bm.pattern == [] || |text| < |bm.pattern| ==> r == []
    ensures forall k :: k in r ==> MatchesAt(text, bm.pattern, k)
    ensures StrictlyIncreasing(r)
  {
    var m := |bm.pattern|;
    if m == 0 || |text| < m then []
    else
      var r := Scan(text, bm.pattern, bm.badCharTable, bm.goodSuffixTable, m - 1);
      ScanSound(text, bm.pattern, bm.badCharTable, bm.goodSuffixTable, m - 1);
      r
  }

  /** The good-suffix table as written skips the occurrence of "abab" at offset 2 of
      "aaababab": the first window fails at pattern index 1, and entry 2 of the table
      shifts the window by 4, past the occurrence. */
  lemma BoyerMooreMissesOccurrence()
    ensures BoyerMooreSearch(NewBoyerMoore("abab"), "aaababab") == [4]
    ensures Occurrences("aaababab", "abab") == [2, 4]
  {
    AsWrittenScanOfAbab();
    OccurrencesOfAbab();
  }

  /** The scan as written: window end 3 stops at pattern index 1 and jumps by 4 to
      window end 7, which matches; the next window end, 8, is past the text. */
  lemma AsWrittenScanOfAbab()
    ensures var bm := NewBoyerMoore("abab");
      Scan("aaababab", "abab", bm.badCharTable, bm.goodSuffixTable, 3) == [4]
  {
    var text, pat := "aaababab", "abab";
    var bm := NewBoyerMoore(pat);
    var bc, gs := bm.badCharTable, bm.goodSuffixTable;
    assert bc['b'] == 0;
    assert gs[2] == 4 && gs[1] == 1;
    assert StopIndex(text, pat, 3, 1) == 1;
    assert StopIndex(text, pat, 3, 3) == 1;
    assert Shift(text, pat, bc, gs, 3, 1) == 4;
    assert StopIndex(text, pat, 7, 0) == 0;
    assert StopIndex(text, pat, 7, 3) == 0;
    assert Shift(text, pat, bc, gs, 7, 0) == 1;
    assert Scan(text, pat, bc, gs, 8) == [];
    assert Scan(text, pat, bc, gs, 7) == [4];
  }

  /** "abab" occurs in "aaababab" at offsets 2 and 4. */
  lemma OccurrencesOfAbab()
    ensures Occurrences("aaababab", "abab") == [2, 4]
  {
    var text, pat := "aaababab", "abab";
    assert !MatchesAt(text, pat, 0) by { assert text[0..4][1] != pat[1]; }
    assert !MatchesAt(text, pat, 1) by { assert text[1..5][1] != pat[1]; }
    assert MatchesAt(text, pat, 2) by { assert text[2..6] == pat; }
    assert !MatchesAt(text, pat, 3) by { assert text[3..7][0] != pat[0]; }
    assert MatchesAt(text, pat, 4) by { assert text[4..8] == pat; }
    assert OccurrencesFrom(text, pat, 5) == [];
    assert OccurrencesFrom(text, pat, 4) == [4];
    assert OccurrencesFrom(text, pat, 2) == [2, 4];
  }

  /** Horspool's argument: an occurrence starting `d` positions after the window, with
      `0 < d` below the bad-character shift, would put a copy of the byte under the
      window's end after its last occurrence in the pattern. */
  lemma BadCharShiftSafe(text: String, pat: String, bc: map<char, nat>, i: nat, d: nat)
    requires BadCharValid(pat, bc)
    requires |pat| - 1 <= i < |text|
    requires 0 < d < BadCharShift(bc, text[i], |pat|)
    ensures !MatchesAt(text, pat, i - (|pat| - 1) + d)
  {
    var m := |pat|;
    var w := i - (m - 1);
    if w + d + m <= |text| {
      assert text[w + d..w + d + m][m - 1 - d] == text[i];
      assert pat[m - 1 - d] in bc;
    }
  }

  /** No occurrence starts strictly inside a shift no larger than the bad-character shift. */
  lemma NoOccurrenceWithinShift(text: String, pat: String, bc: map<char, nat>, i: nat, w: nat, d: nat)
    requires BadCharValid(pat, bc)
    requires i == w + (|pat| - 1) && i < |text|
    requires d <= BadCharShift(bc, text[i], |pat|) || d == 1
    ensures forall e :: w + 1 <= e < w + d ==> !MatchesAt(text, pat, e)
  {
    forall e | w + 1 <= e < w + d ensures !MatchesAt(text, pat, e) {
      BadCharShiftSafe(text, pat, bc, i, e - w);
    }
  }

  /** The scan reports the current window exactly when the pattern occurs there. */
  lemma HitIffMatch(text: String, pat: String, i: nat, w: nat, j: nat)
    requires pat != [] && |pat| - 1 <= i < |text|
    requires w == i - (|pat| - 1) && j == StopIndex(text, pat, i, |pat| - 1)
    ensures (j == 0 && text[w] == pat[0]) <==> MatchesAt(text, pat, w)
  {
    var m := |pat|;
    StopIndexSpec(text, pat, i, m - 1);
    if MatchesAt(text, pat, w) {
      assert text[w..w + m][j] == text[w + j];
      assert text[w..w + m][0] == text[w];
    } else if j == 0 && text[w] == pat[0] {
      WindowMatches(text, pat, w);
    }
  }

  lemma ScanStep(text: String, pat: String, bc: map<char, nat>, gs: seq<nat>, i: nat, w: nat, j: nat, d: nat)
    requires pat != [] && |pat| - 1 <= i < |text| && |gs| == |pat|
    requires forall t :: 0 <= t < |gs| ==> gs[t] >= 1
    requires w == i - (|pat| - 1) && j == StopIndex(text, pat, i, |pat| - 1) && d == Shift(text, pat, bc, gs, i, j)
    ensures Scan(text, pat, bc, gs, i) == (if MatchesAt(text, pat, w) then [w] else []) + Scan(text, pat, bc, gs, i + d)
  {
    ScanUnfold(text, pat, bc, gs, i);
    HitIffMatch(text, pat, i, w, j);
  }

  /** With every good-suffix entry 1, the shift is the bad-character shift, at least 1. */
  lemma UnitSuffixShift(text: String, pat: String, bc: map<char, nat>, gs: seq<nat>, i: nat, j: nat)
    requires i < |text| && j < |pat| && |gs| == |pat| && forall t :: 0 <= t < |gs| ==> gs[t] == 1
    ensures var bcs := BadCharShift(bc, text[i], |pat|);
            Shift(text, pat, bc, gs, i, j) == if bcs >= 1 then bcs else 1
  {
  }

  /** With every good-suffix entry 1, no occurrence starts strictly between the
      window at `w` and the window after the shift `d`. */
  lemma ScanSkip(text: String, pat: String, bc: map<char, nat>, gs: seq<nat>, i: nat, j: nat, w: nat, d: nat)
    requires BadCharValid(pat, bc) && |gs| == |pat| && forall t :: 0 <= t < |gs| ==> gs[t] == 1
    requires |pat| - 1 <= i < |text| && j < |pat|
    requires w == i - (|pat| - 1) && d == Shift(text, pat, bc, gs, i, j)
    ensures OccurrencesFrom(text, pat, w + 1) == OccurrencesFrom(text, pat, w + d)
  {
    UnitSuffixShift(text, pat, bc, gs, i, j);
    NoOccurrenceWithinShift(text, pat, bc, i, w, d);
    OccurrencesSkip(text, pat, w + 1, w + d);
  }

  /** One turn of the completeness induction: if the scan from the next window end
      lists the occurrences from the next window, the scan from this one lists the
      occurrences from this window. */
  lemma ScanCompleteStep(text: String, pat: String, bc: map<char, nat>, gs: seq<nat>, i: nat, w: nat, j: nat, d: nat)
    requires pat != [] && |pat| - 1 <= i < |text| && w == i - (|pat| - 1)
    requires BadCharValid(pat, bc) && |gs| == |pat| && forall t :: 0 <= t < |gs| ==> gs[t] == 1
    requires j == StopIndex(text, pat, i, |pat| - 1) && d == Shift(text, pat, bc, gs, i, j)
    requires Scan(text, pat, bc, gs, i + d) == OccurrencesFrom(text, pat, w + d)
    ensures Scan(text, pat, bc, gs, i) == OccurrencesFrom(text, pat, w)
  {
    ScanStep(text, pat, bc, gs, i, w, j, d);
    ScanSkip(text, pat, bc, gs, i, j, w, d);
    OccurrencesStep(text, pat, w);
    var h := if MatchesAt(text, pat, w) then [w] else [];
    SharedHead(Scan(text, pat, bc, gs, i), OccurrencesFrom(text, pat, w), h,
      Scan(text, pat, bc, gs, i + d), OccurrencesFrom(text, pat, w + d), OccurrencesFrom(text, pat, w + 1));
  }

  /** Two lists with the same head and equal tails are equal. */
  lemma SharedHead(x: seq<nat>, y: seq<nat>, h: seq<nat>, a: seq<nat>, b: seq<nat>, c: seq<nat>)
    requires x == h + a && a == b && b == c && y == h + c
    ensures x == y
  {
  }

  /** Once the window end passes the text, neither the scan nor the occurrences list
      anything. */
  lemma ScanPastEnd(text: String, pat: String, bc: map<char, nat>, gs: seq<nat>, i: nat)
    requires pat != [] && |pat| - 1 <= i && |gs| == |pat| && |text| <= i
    requires forall t :: 0 <= t < |gs| ==> gs[t] >= 1
    ensures Scan(text, pat, bc, gs, i) == OccurrencesFrom(text, pat, i - (|pat| - 1)) == []
  {
    NoOccurrencesPastEnd(text, pat, i - (|pat| - 1));
  }

  /** With every good-suffix entry 1, the scan from window end `i` reports exactly the
      occurrences starting at that window's start `w` or later. */
  lemma {:induction false} ScanComplete(text: String, pat: String, bc: map<char, nat>, gs: seq<nat>, i: nat, w: nat)
    requires pat != [] && i == w + (|pat| - 1)
    requires BadCharValid(pat, bc) && |gs| == |pat| && forall t :: 0 <= t < |gs| ==> gs[t] == 1
    ensures Scan(text, pat, bc, gs, i) == OccurrencesFrom(text, pat, w)
    decreases |text| - i
  {
    if i < |text| {
      var j := StopIndex(text, pat, i, |pat| - 1);
      var d := Shift(text, pat, bc, gs, i, j);
      ScanComplete(text, pat, bc, gs, i + d, w + d);
      ScanCompleteStep(text, pat, bc, gs, i, w, j, d);
    } else {
      ScanPastEnd(text, pat, bc, gs, i);
    }
  }

  /** The corrected Boyer-Moore reports every occurrence, in ascending order. */
  lemma BoyerMooreFixedComplete(pattern: String, text: String)
    ensures BoyerMooreSearch(NewBoyerMooreFixed(pattern), text)
         == (if pattern == [] then [] else Occurrences(text, pattern))
  {
    var bm := NewBoyerMooreFixed(pattern);
    if pattern != [] && |text| >= |pattern| {
      ScanComplete(text, pattern, bm.badCharTable, bm.goodSuffixTable, |pattern| - 1, 0);
    }
  }

  // ---------------------------------------------------------------------------
  // SimpleSearch

  datatype SimpleSearch = SimpleSearch(pattern: String, caseSensitive: bool)

  /** `SimpleSearch::new`: case-sensitive, like `new_case_sensitive`. */
  function NewSimpleSearch(pattern: String): (s: SimpleSearch)
    ensures s.pattern == pattern && s.caseSensitive
  {
    SimpleSearch(pattern, true)
  }

  function NewSimpleSearchCaseSensitive(pattern: String): (s: SimpleSearch)
    ensures s.pattern == pattern && s.caseSensitive
  {
    SimpleSearch(pattern, true)
  }

  /** The text actually searched: lowered only for a case-insensitive searcher, which
      neither constructor produces. */
  function SearchedText(s: SimpleSearch, text: String): (t: String)
    ensures |t| == |text|
  {
    if s.caseSensitive then text else AsciiLower(text)
  }

  /** The indices `0..n` in order. */
  function Indices(n: nat): (r: seq<nat>)
    ensures |r| == n && forall q :: 0 <= q < n ==> r[q] == q
  {
    if n == 0 then [] else Indices(n - 1) + [n - 1]
  }

  /** What `SimpleSearch::search` has collected once it resumes at `pos`. */
  ghost predicate SimpleProgress(t: String, pat: String, pos: nat, r: seq<nat>) {
    if pat != [] then r + OccurrencesFrom(t, pat, pos) == Occurrences(t, pat)
    else r == Indices(pos)
  }

  lemma SimpleAdvance(t: String, pat: String, pos: nat, r: seq<nat>, k: nat)
    requires pos <= |t|
    requires SimpleProgress(t, pat, pos, r)
    requires FindFrom(t, pat, pos) == Some(k)
    ensures SimpleProgress(t, pat, k + 1, r + [k])
    ensures pat == [] ==> k == pos
  {
    if pat != [] {
      FindFromOccurrences(t, pat, pos);
      assert (r + [k]) + OccurrencesFrom(t, pat, k + 1) == r + OccurrencesFrom(t, pat, pos);
    } else {
      FindEmpty(t, pos);
    }
  }

  /** The final collection: every occurrence, or every index for an empty pattern. */
  ghost predicate SimpleDone(t: String, pat: String, r: seq<nat>) {
    if pat != [] then r == Occurrences(t, pat) else r == Indices(if t == [] then 1 else |t|)
  }

  /** One turn of the `while let Some(found_pos) = ...find(..)` loop: record the hit
      and move one past it, or report that the loop has ended. */
  method SimpleStep(t: String, pat: String, pos: nat, r: seq<nat>)
      returns (done: bool, pos': nat, r': seq<nat>)
    requires pos == 0 || pos < |t|
    requires SimpleProgress(t, pat, pos, r)
    ensures done ==> SimpleDone(t, pat, r')
    ensures !done ==> pos < pos' < |t| && SimpleProgress(t, pat, pos', r')
  {
    var found := FindFrom(t, pat, pos);
    if found.None? {
      if pat == [] {
        FindEmpty(t, pos);
      } else {
        FindFromOccurrences(t, pat, pos);
      }
      return true, pos, r;
    }
    var k := found.value;
    SimpleAdvance(t, pat, pos, r, k);
    r' := r + [k];
    pos' := k + 1;
    done := pos' >= |t|;
    if done && pat != [] {
      NoOccurrencesPastEnd(t, pat, pos');
    }
  }

  /** `SimpleSearch::search`: repeated `find` from just after the previous hit. Every
      occurrence is reported, overlapping ones included; an empty pattern reports
      every position of the text (position 0 alone for an empty text). */
  method SimpleSearchRun(s: SimpleSearch, text: String) returns (r: seq<nat>)
    ensures s.pattern != [] ==> r == Occurrences(SearchedText(s, text), s.pattern)
    ensures s.pattern == [] ==> r == Indices(if text == [] then 1 else |text|)
  {
    var t := SearchedText(s, text);
    r := [];
    var pos := 0;
    var done := false;
    while !done
      invariant pos == 0 || pos < |t|
      invariant !done ==> SimpleProgress(t, s.pattern, pos, r)
      invariant done ==> SimpleDone(t, s.pattern, r)
      decreases |t| - pos, !done
    {
      var pos';
      done, pos', r := SimpleStep(t, s.pattern, pos, r);
      if !done {
        pos := pos';
      }
    }
  }

  // ---------------------------------------------------------------------------
  // Context lines (the trait's default `get_context_before` / `get_context_after`)

  /** Lines `lo..hi` (0-based) paired with their 1-based numbers. */
  function NumberedLines(lines: seq<String>, lo: nat, hi: nat): (r: seq<(nat, String)>)
    requires lo <= hi <= |lines|
    ensures |r| == hi - lo
    ensures forall t :: 0 <= t < |r| ==> r[t] == (lo + t + 1, lines[lo + t])
  {
    seq(hi - lo, t requires 0 <= t < hi - lo => (lo + t + 1, lines[lo + t]))
  }

  /** Up to `contextLines` lines before line index `current`, ending just before it. */
  function ContextBefore(lines: seq<String>, current: nat, contextLines: nat): (r: seq<(nat, String)>)
    requires current <= |lines|
    ensures |r| == (if contextLines < current then contextLines else current)
    ensures forall t :: 0 <= t < |r| ==> r[t].0 == current - |r| + t + 1 && r[t].1 == lines[r[t].0 - 1]
  {
    var start := if current >= contextLines then current - contextLines else 0;
    NumberedLines(lines, start, current)
  }

  /** Up to `contextLines` lines after line index `current`, cut at the last line. */
  function ContextAfter(lines: seq<String>, current: nat, contextLines: nat): (r: seq<(nat, String)>)
    ensures |r| <= contextLines
    ensures current + 1 + |r| <= |lines| || r == []
    ensures current + contextLines + 1 <= |lines| ==> |r| == contextLines
    ensures forall t :: 0 <= t < |r| ==> r[t].0 == current + t + 2 && r[t].1 == lines[r[t].0 - 1]
  {
    var end := if current + contextLines + 1 <= |lines| then current + contextLines + 1 else |lines|;
    if current + 1 <= end then NumberedLines(lines, current + 1, end) else []
  }

  /** The context before, the line itself and the context after form one contiguous,
      consecutively numbered window of at most `2 * contextLines + 1` lines. */
  lemma ContextWindow(lines: seq<String>, current: nat, contextLines: nat)
    requires current < |lines|
    ensures var before := ContextBefore(lines, current, contextLines);
            var after := ContextAfter(lines, current, contextLines);
            before + [(current + 1, lines[current])] + after
              == NumberedLines(lines, current - |before|, current + 1 + |after|)
  {
  }

  // ---------------------------------------------------------------------------
  // Algorithm factory

  datatype SearchAlgorithm = Simd | BoyerMooreAlgorithm | Regex | Simple

  /** A constructed matcher; a regex matcher keeps its pattern, whose matching is
      left to the regex engine. */
  datatype Matcher =
    | SimdMatcher(engine: SimdEngine.SimdSearchEngine<char>)
    | BoyerMooreMatcher(bm: BoyerMoore)
    | RegexMatcher(regex: String)
    | SimpleMatcher(simple: SimpleSearch)
  {
    function Pattern(): String {
      match this
      case SimdMatcher(e) => e.Pattern()
      case BoyerMooreMatcher(bm) => bm.pattern
      case RegexMatcher(p) => p
      case SimpleMatcher(s) => s.pattern
    }

    ghost predicate Valid() {
      match this
      case SimdMatcher(e) => e.Valid()
      case BoyerMooreMatcher(bm) => bm == NewBoyerMoore(bm.pattern)
      case RegexMatcher(_) => true
      case SimpleMatcher(s) => s.caseSensitive
    }
  }

  /** `SearchAlgorithmFactory::create_with_case_sensitivity`: both `SimpleSearch`
      constructors are case-sensitive, so the flag changes nothing. */
  function CreateWithCaseSensitivity(algorithm: SearchAlgorithm, pattern: String, caseSensitive: bool,
                                     cpu: SimdEngine.CpuFeatures): (m: Matcher)
    ensures m.Valid() && m.Pattern() == pattern
    ensures algorithm.Simd? <==> m.SimdMatcher?
    ensures algorithm.BoyerMooreAlgorithm? <==> m.BoyerMooreMatcher?
    ensures algorithm.Regex? <==> m.RegexMatcher?
    ensures algorithm.Simple? <==> m.SimpleMatcher?
  {
    match algorithm
    case Simd => SimdMatcher(SimdEngine.NewEngine(pattern, cpu))
    case BoyerMooreAlgorithm => BoyerMooreMatcher(NewBoyerMoore(pattern))
    case Regex => RegexMatcher(pattern)
    case Simple =>
      if caseSensitive then SimpleMatcher(NewSimpleSearchCaseSensitive(pattern))
      else SimpleMatcher(NewSimpleSearch(pattern))
  }

  /** `SearchAlgorithmFactory::create`. */
  function Create(algorithm: SearchAlgorithm, pattern: String, cpu: SimdEngine.CpuFeatures): (m: Matcher)
    ensures m.Valid() && m.Pattern() == pattern
  {
    match algorithm
    case Simd => SimdMatcher(SimdEngine.NewEngine(pattern, cpu))
    case BoyerMooreAlgorithm => BoyerMooreMatcher(NewBoyerMoore(pattern))
    case Regex => RegexMatcher(pattern)
    case Simple => SimpleMatcher(NewSimpleSearch(pattern))
  }

  /** The case-sensitivity flag has no effect, and `create` is the case-sensitive variant. */
  lemma CaseSensitivityIgnored(algorithm: SearchAlgorithm, pattern: String, cpu: SimdEngine.CpuFeatures)
    ensures CreateWithCaseSensitivity(algorithm, pattern, true, cpu)
         == CreateWithCaseSensitivity(algorithm, pattern, false, cpu)
         == Create(algorithm, pattern, cpu)
  {
  }

  /** `SearchAlgorithmTrait::search` on a constructed matcher.  `regexStarts` is what
      the regex engine's `find_iter` reports for the text.  For a non-empty pattern the
      SIMD and simple matchers report every occurrence, ascending; the Boyer-Moore
      matcher, with its good-suffix table as written, reports only occurrences,
      ascending, and may skip some (`BoyerMooreMissesOccurrence`). */
  method MatcherSearch(m: Matcher, text: String, regexStarts: seq<nat>) returns (r: seq<nat>)
    requires m.Valid()
    ensures (m.SimdMatcher? || m.SimpleMatcher?) && m.Pattern() != [] ==> r == Occurrences(text, m.Pattern())
    ensures m.BoyerMooreMatcher? ==> StrictlyIncreasing(r) && forall k :: k in r ==> MatchesAt(text, m.Pattern(), k)
    ensures (m.SimdMatcher? || m.BoyerMooreMatcher?) && m.Pattern() == [] ==> r == []
    ensures m.RegexMatcher? ==> r == regexStarts
  {
    match m
    case SimdMatcher(e) =>
      r := SimdEngine.EngineSearch(e, text);
    case BoyerMooreMatcher(bm) =>
      r := BoyerMooreSearch(bm, text);
    case RegexMatcher(_) =>
      r := regexStarts;
    case SimpleMatcher(s) =>
      r := SimpleSearchRun(s, text);
  }
}

=== FILE: seqs.dfy ===
/** Sequence vocabulary shared by the model: the reference definition of substring
    occurrences that every matcher is compared with, the byte-wise string order
    Rust derives for `String`, a stable sort by key, sorted duplicate-free lists,
    and order-preserving filtering. */
module Seqs {

  import opened Wrappers

  /** `usize::min`. */
  function Min(a: nat, b: nat): nat {
    if a <= b then a else b
  }

  // ---------------------------------------------------------------------------
  // Substring occurrences: the reference every matcher is measured against

  /** `pat` occurs in `text` starting at offset `i`. */
  predicate MatchesAt<T(==)>(text: seq<T>, pat: seq<T>, i: int) {
    0 <= i && i + |pat| <= |text| && text[i..i + |pat|] == pat
  }

  predicate StrictlyIncreasing(s: seq<nat>) {
    forall i, j :: 0 <= i < j < |s| ==> s[i] < s[j]
  }

  /** A list of at most one element below `bound`, followed by an ascending list of
      elements at or above `bound`, is ascending. */
  lemma PrependIncreasing(head: seq<nat>, rest: seq<nat>, bound: nat)
    requires |head| <= 1 && forall k :: k in head ==> k < bound
    requires StrictlyIncreasing(rest) && forall k :: k in rest ==> bound <= k
    ensures StrictlyIncreasing(head + rest)
  {
    if head != [] {
      assert head[0] in head;
      forall a, b | 0 <= a < b < |head + rest| ensures (head + rest)[a] < (head + rest)[b] {
        if a == 0 {
          assert rest[b - 1] in rest;
        } else {
          assert (head + rest)[a] == rest[a - 1] && (head + rest)[b] == rest[b - 1];
        }
      }
    } else {
      assert head + rest == rest;
    }
  }

  /** All offsets `k >= from` at which `pat` occurs, ascending. */
  function OccurrencesFrom<T(==)>(text: seq<T>, pat: seq<T>, from: nat): seq<nat>
    decreases |text| - from
  {
    if from + |pat| > |text| then []
    else (if MatchesAt(text, pat, from) then [from] else []) + OccurrencesFrom(text, pat, from + 1)
  }

  /** `OccurrencesFrom` lists exactly the matching offsets from `from` on, in ascending order. */
  lemma {:induction false} OccurrencesFromSpec<T>(text: seq<T>, pat: seq<T>, from: nat)
    ensures forall k :: k in OccurrencesFrom(text, pat, from) <==> from <= k && MatchesAt(text, pat, k)
    ensures StrictlyIncreasing(OccurrencesFrom(text, pat, from))
    ensures forall i :: 0 <= i < |OccurrencesFrom(text, pat, from)| ==> from <= OccurrencesFrom(text, pat, from)[i]
    decreases |text| - from
  {
    if from + |pat| <= |text| {
      OccurrencesFromSpec(text, pat, from + 1);
    }
  }

  /** Every offset at which `pat` occurs in `text`, ascending: what the repository's
      own property test expects of every substring matcher. */
  function Occurrences<T(==)>(text: seq<T>, pat: seq<T>): seq<nat> {
    OccurrencesFrom(text, pat, 0)
  }

  /** A scan that has collected `r` before `p` and then records `p` exactly when the
      pattern occurs there has collected everything before `p + 1`. */
  lemma CollectStep<T>(text: seq<T>, pat: seq<T>, p: nat, r: seq<nat>)
    requires pat != []
    requires r + OccurrencesFrom(text, pat, p) == Occurrences(text, pat)
    ensures (if MatchesAt(text, pat, p) then r + [p] else r) + OccurrencesFrom(text, pat, p + 1)
         == Occurrences(text, pat)
  {
    OccurrencesStep(text, pat, p);
    if MatchesAt(text, pat, p) {
      assert (r + [p]) + OccurrencesFrom(text, pat, p + 1) == r + ([p] + OccurrencesFrom(text, pat, p + 1));
    } else {
      assert [] + OccurrencesFrom(text, pat, p + 1) == OccurrencesFrom(text, pat, p + 1);
    }
  }

  /** One step of a left-to-right scan: the occurrences from `p` are `p` itself when
      the pattern occurs there, followed by those from `p + 1`. */
  lemma OccurrencesStep<T>(text: seq<T>, pattern: seq<T>, p: nat)
    requires pattern != []
    ensures OccurrencesFrom(text, pattern, p)
         == (if MatchesAt(text, pattern, p) then [p] else []) + OccurrencesFrom(text, pattern, p + 1)
  {
  }

  /** Past the last possible start there are no occurrences. */
  lemma NoOccurrencesPastEnd<T>(text: seq<T>, pattern: seq<T>, p: nat)
    requires p + |pattern| > |text|
    ensures OccurrencesFrom(text, pattern, p) == []
  {
  }

  /** Where the pattern occurs nowhere from `from` on, nothing is listed. */
  lemma {:induction false} NoMatchNoOccurrences<T>(text: seq<T>, pattern: seq<T>, from: nat)
    requires forall k :: from <= k ==> !MatchesAt(text, pattern, k)
    ensures OccurrencesFrom(text, pattern, from) == []
    decreases |text| - from
  {
    if from + |pattern| <= |text| {
      NoMatchNoOccurrences(text, pattern, from + 1);
    }
  }

  /** `FindFrom` hands out the next occurrence: the occurrences from `from` are the
      one found followed by those after it, and none when nothing is found. */
  lemma FindFromOccurrences<T>(text: seq<T>, pat: seq<T>, from: nat)
    requires pat != []
    ensures FindFrom(text, pat, from).None? ==> OccurrencesFrom(text, pat, from) == []
    ensures FindFrom(text, pat, from).Some? ==>
      OccurrencesFrom(text, pat, from)
        == [FindFrom(text, pat, from).value] + OccurrencesFrom(text, pat, FindFrom(text, pat, from).value + 1)
  {
    var r := FindFrom(text, pat, from);
    if r.None? {
      if from <= |text| {
        OccurrencesSkip(text, pat, from, |text| + 1);
      }
    } else {
      OccurrencesSkip(text, pat, from, r.value);
    }
  }

  /** The empty pattern is found at every position up to the end. */
  lemma FindEmpty<T>(text: seq<T>, from: nat)
    requires from <= |text|
    ensures FindFrom(text, [], from) == Some(from)
  {
    assert MatchesAt(text, [], from);
  }

  /** Leftmost occurrence of `pat` at or after `from` (`str::find` on `text[from..]`,
      reported as an absolute offset). */
  function FindFrom<T(==)>(text: seq<T>, pat: seq<T>, from: nat): (r: Option<nat>)
    ensures r.Some? ==> from <= r.value && MatchesAt(text, pat, r.value)
    ensures r.Some? ==> forall k :: from <= k < r.value ==> !MatchesAt(text, pat, k)
    ensures r.None? ==> forall k :: from <= k ==> !MatchesAt(text, pat, k)
    decreases |text| - from
  {
    if from + |pat| > |text| then None
    else if MatchesAt(text, pat, from) then Some(from)
    else FindFrom(text, pat, from + 1)
  }

  /** A strictly increasing list is determined by its elements. */
  lemma {:induction false} StrictlyIncreasingUnique(a: seq<nat>, b: seq<nat>)
    requires StrictlyIncreasing(a) && StrictlyIncreasing(b)
    requires forall k :: k in a <==> k in b
    ensures a == b
  {
    assert a != [] ==> a[0] in a;
    assert b != [] ==> b[0] in b;
    if a != [] && b != [] {
      var k :| 0 <= k < |b| && b[k] == a[0];
      var l :| 0 <= l < |a| && a[l] == b[0];
      assert a[0] <= a[l] && b[0] <= b[k];
      forall y ensures y in a[1..] <==> y in b[1..] {
        if y in a[1..] { assert y in b && y != b[0]; }
        if y in b[1..] { assert y in a && y != a[0]; }
      }
      StrictlyIncreasingUnique(a[1..], b[1..]);
      assert a == [a[0]] + a[1..];
      assert b == [b[0]] + b[1..];
    }
  }

  /** Advancing past offsets where `pat` does not occur loses no occurrence. */
  lemma {:induction false} OccurrencesSkip<T>(text: seq<T>, pat: seq<T>, from: nat, stop: nat)
    requires from <= stop
    requires forall k :: from <= k < stop ==> !MatchesAt(text, pat, k)
    ensures OccurrencesFrom(text, pat, from) == OccurrencesFrom(text, pat, stop)
    decreases stop - from
  {
    if from < stop {
      OccurrencesSkip(text, pat, from + 1, stop);
    }
  }

  // ---------------------------------------------------------------------------
  // Byte-wise lexicographic order of strings (Rust's `Ord for String`)

  predicate StrLeq(a: seq<char>, b: seq<char>) {
    a == [] || (b != [] && (a[0] < b[0] || (a[0] == b[0] && StrLeq(a[1..], b[1..]))))
  }

  predicate StrLess(a: seq<char>, b: seq<char>) {
    StrLeq(a, b) && a != b
  }

  lemma {:induction false} StrLeqTotal(a: seq<char>, b: seq<char>)
    ensures StrLeq(a, b) || StrLeq(b, a)
  {
    if a != [] && b != [] && a[0] == b[0] {
      StrLeqTotal(a[1..], b[1..]);
    }
  }

  lemma {:induction false} StrLeqAntisymmetric(a: seq<char>, b: seq<char>)
    requires StrLeq(a, b) && StrLeq(b, a)
    ensures a == b
  {
    if a != [] && b != [] {
      StrLeqAntisymmetric(a[1..], b[1..]);
      assert a == [a[0]] + a[1..];
      assert b == [b[0]] + b[1..];
    }
  }

  lemma {:induction false} StrLeqTransitive(a: seq<char>, b: seq<char>, c: seq<char>)
    requires StrLeq(a, b) && StrLeq(b, c)
    ensures StrLeq(a, c)
  {
    if a != [] && b != [] && c != [] && a[0] == b[0] && b[0] == c[0] {
      StrLeqTransitive(a[1..], b[1..], c[1..]);
    }
  }

  // ---------------------------------------------------------------------------
  // Sort keys: a string compared first, then an integer

  datatype Key = Key(s: seq<char>, n: int)

  predicate KeyLeq(a: Key, b: Key) {
    StrLess(a.s, b.s) || (a.s == b.s && a.n <= b.n)
  }

  lemma KeyLeqTotal(a: Key, b: Key)
    ensures KeyLeq(a, b) || KeyLeq(b, a)
  {
    StrLeqTotal(a.s, b.s);
  }

  lemma KeyLeqTransitive(a: Key, b: Key, c: Key)
    requires KeyLeq(a, b) && KeyLeq(b, c)
    ensures KeyLeq(a, c)
  {
    if StrLess(a.s, b.s) && StrLess(b.s, c.s) {
      StrLeqTransitive(a.s, b.s, c.s);
      if a.s == c.s {
        StrLeqAntisymmetric(a.s, b.s);
      }
    }
  }

  ghost predicate SortedBy<T>(s: seq<T>, key: T -> Key) {
    forall i, j :: 0 <= i < j < |s| ==> KeyLeq(key(s[i]), key(s[j]))
  }

  /** Inserts `x` behind every element whose key is not greater: a stable insertion. */
  function InsertByKey<T>(sorted: seq<T>, x: T, key: T -> Key): seq<T>
  {
    if sorted == [] then [x]
    else if KeyLeq(key(sorted[|sorted| - 1]), key(x)) then sorted + [x]
    else InsertByKey(sorted[..|sorted| - 1], x, key) + [sorted[|sorted| - 1]]
  }

  /** Where `InsertByKey` puts `x`: behind the last element whose key is not greater. */
  function InsertPos<T>(sorted: seq<T>, x: T, key: T -> Key): (p: nat)
    ensures p <= |sorted|
  {
    if sorted == [] then 0
    else if KeyLeq(key(sorted[|sorted| - 1]), key(x)) then |sorted|
    else InsertPos(sorted[..|sorted| - 1], x, key)
  }

  /** Stable sort by key, like Rust's `sort_by` (a merge sort, with the same result
      because a stable sort's output is determined by the order alone). */
  function SortByKey<T>(xs: seq<T>, key: T -> Key): seq<T>
  {
    if xs == [] then [] else InsertByKey(SortByKey(xs[..|xs| - 1], key), xs[|xs| - 1], key)
  }

  lemma {:induction false} InsertByKeySplice<T>(sorted: seq<T>, x: T, key: T -> Key)
    ensures var p := InsertPos(sorted, x, key);
      InsertByKey(sorted, x, key) == sorted[..p] + [x] + sorted[p..]
  {
    if sorted != [] && !KeyLeq(key(sorted[|sorted| - 1]), key(x)) {
      var init := sorted[..|sorted| - 1];
      InsertByKeySplice(init, x, key);
      var p := InsertPos(init, x, key);
      assert init[..p] == sorted[..p];
      assert init[p..] + [sorted[|sorted| - 1]] == sorted[p..];
    }
  }

  /** Elements before the insertion point are not greater than `x`; those after it are greater. */
  lemma {:induction false} InsertPosSplits<T>(sorted: seq<T>, x: T, key: T -> Key)
    requires SortedBy(sorted, key)
    ensures var p := InsertPos(sorted, x, key);
      (forall i :: 0 <= i < p ==> KeyLeq(key(sorted[i]), key(x))) &&
      (forall i :: p <= i < |sorted| ==> KeyLeq(key(x), key(sorted[i])))
  {
    if sorted != [] {
      var n := |sorted|;
      var last := sorted[n - 1];
      if KeyLeq(key(last), key(x)) {
        forall i | 0 <= i < n - 1 ensures KeyLeq(key(sorted[i]), key(x)) {
          KeyLeqTransitive(key(sorted[i]), key(last), key(x));
        }
      } else {
        var init := sorted[..n - 1];
        InsertPosSplits(init, x, key);
        KeyLeqTotal(key(last), key(x));
      }
    }
  }

  lemma InsertByKeyCorrect<T>(sorted: seq<T>, x: T, key: T -> Key)
    requires SortedBy(sorted, key)
    ensures SortedBy(InsertByKey(sorted, x, key), key)
    ensures multiset(InsertByKey(sorted, x, key)) == multiset(sorted) + multiset{x}
  {
    var p := InsertPos(sorted, x, key);
    InsertByKeySplice(sorted, x, key);
    InsertPosSplits(sorted, x, key);
    var r := sorted[..p] + [x] + sorted[p..];
    forall i, j | 0 <= i < j < |r| ensures KeyLeq(key(r[i]), key(r[j])) {
      if i < p && j > p {
        KeyLeqTransitive(key(r[i]), key(x), key(r[j]));
      }
    }
    assert sorted == sorted[..p] + sorted[p..];
  }

  lemma {:induction false} SortByKeyCorrect<T>(xs: seq<T>, key: T -> Key)
    ensures SortedBy(SortByKey(xs, key), key)
    ensures multiset(SortByKey(xs, key)) == multiset(xs)
  {
    if xs != [] {
      var init := xs[..|xs| - 1];
      var last := xs[|xs| - 1];
      SortByKeyCorrect(init, key);
      var sortedInit := SortByKey(init, key);
      assert SortByKey(xs, key) == InsertByKey(sortedInit, last, key);
      InsertByKeyCorrect(sortedInit, last, key);
      MultisetSnoc(xs);
    }
  }

  /** A sequence's multiset is its front's plus its last element. */
  lemma MultisetSnoc<T>(xs: seq<T>)
    requires xs != []
    ensures multiset(xs) == multiset(xs[..|xs| - 1]) + multiset{xs[|xs| - 1]}
  {
    assert xs == xs[..|xs| - 1] + [xs[|xs| - 1]];
  }

  // ---------------------------------------------------------------------------
  // Sorted, duplicate-free lists of strings (a `HashSet` collected and sorted)

  predicate StrictlySorted(s: seq<seq<char>>) {
    forall i, j :: 0 <= i < j < |s| ==> StrLess(s[i], s[j])
  }

  function InsertUnique(sorted: seq<seq<char>>, x: seq<char>): seq<seq<char>> {
    if sorted == [] then [x]
    else if sorted[0] == x then sorted
    else if StrLess(x, sorted[0]) then [x] + sorted
    else [sorted[0]] + InsertUnique(sorted[1..], x)
  }

  /** The distinct elements of `xs` in ascending order. */
  function SortedSet(xs: seq<seq<char>>): seq<seq<char>> {
    if xs == [] then [] else InsertUnique(SortedSet(xs[..|xs| - 1]), xs[|xs| - 1])
  }

  lemma {:induction false} InsertUniqueCorrect(sorted: seq<seq<char>>, x: seq<char>)
    requires StrictlySorted(sorted)
    ensures StrictlySorted(InsertUnique(sorted, x))
    ensures forall y :: y in InsertUnique(sorted, x) <==> y in sorted || y == x
  {
    if sorted != [] && sorted[0] != x {
      if StrLess(x, sorted[0]) {
        var r := [x] + sorted;
        forall i, j | 0 <= i < j < |r| ensures StrLess(r[i], r[j]) {
          if i == 0 && j > 1 {
            StrLeqTransitive(x, sorted[0], sorted[j - 1]);
            if x == sorted[j - 1] {
              StrLeqAntisymmetric(x, sorted[0]);
            }
          }
        }
      } else {
        StrLeqTotal(x, sorted[0]);
        var tail := sorted[1..];
        InsertUniqueCorrect(tail, x);
        var r := [sorted[0]] + InsertUnique(tail, x);
        forall i, j | 0 <= i < j < |r| ensures StrLess(r[i], r[j]) {
          if i == 0 {
            var y := r[j];
            assert y in InsertUnique(tail, x);
            if y != x {
              assert y in tail;
            }
          }
        }
        assert sorted == [sorted[0]] + tail;
      }
    }
  }

  lemma {:induction false} SortedSetCorrect(xs: seq<seq<char>>)
    ensures StrictlySorted(SortedSet(xs))
    ensures forall y :: y in SortedSet(xs) <==> y in xs
  {
    if xs != [] {
      var init := xs[..|xs| - 1];
      SortedSetCorrect(init);
      InsertUniqueCorrect(SortedSet(init), xs[|xs| - 1]);
      assert xs == init + [xs[|xs| - 1]];
    }
  }

  lemma StrLeqReflexive(a: seq<char>)
    ensures StrLeq(a, a)
  {
  }

  lemma StrictlySortedFirstLeast(s: seq<seq<char>>, y: seq<char>)
    requires StrictlySorted(s) && y in s
    ensures StrLeq(s[0], y)
  {
    var k :| 0 <= k < |s| && s[k] == y;
    StrLeqReflexive(y);
  }

  /** A strictly sorted list is the only one with its elements: the sorted set of
      `xs` is the canonical listing of the distinct elements. */
  lemma {:induction false} StrictlySortedUnique(a: seq<seq<char>>, b: seq<seq<char>>)
    requires StrictlySorted(a) && StrictlySorted(b)
    requires forall y :: y in a <==> y in b
    ensures a == b
  {
    assert a != [] ==> a[0] in a;
    assert b != [] ==> b[0] in b;
    if a != [] && b != [] {
      StrictlySortedFirstLeast(b, a[0]);
      StrictlySortedFirstLeast(a, b[0]);
      StrLeqAntisymmetric(a[0], b[0]);
      forall y ensures y in a[1..] <==> y in b[1..] {
        if y in a[1..] {
          var k :| 1 <= k < |a| && a[k] == y;
          assert y in b && y != b[0];
        }
        if y in b[1..] {
          var k :| 1 <= k < |b| && b[k] == y;
          assert y in a && y != a[0];
        }
      }
      StrictlySortedUnique(a[1..], b[1..]);
      assert a == [a[0]] + a[1..];
      assert b == [b[0]] + b[1..];
    }
  }

  // ---------------------------------------------------------------------------
  // Order-preserving filtering (`iter().filter(..).collect()`, `retain`)

  function Filter<T(==,!new)>(xs: seq<T>, keep: T -> bool): (r: seq<T>)
    ensures |r| <= |xs|
  {
    if xs == [] then [] else (if keep(xs[0]) then [xs[0]] else []) + Filter(xs[1..], keep)
  }

  /** The filtered sequence holds exactly the elements that pass the test. */
  lemma {:induction false} FilterMembers<T(!new)>(xs: seq<T>, keep: T -> bool)
    ensures forall y :: y in Filter(xs, keep) <==> y in xs && keep(y)
  {
    if xs != [] {
      FilterMembers(xs[1..], keep);
      assert xs == [xs[0]] + xs[1..];
    }
  }

  /** Filtering a single element keeps it exactly when it passes. */
  lemma FilterSingleton<T(!new)>(x: T, keep: T -> bool)
    ensures Filter([x], keep) == if keep(x) then [x] else []
  {
    assert [x][1..] == [];
  }

  /** Filtering a concatenation filters each part. */
  lemma {:induction false} FilterAppend<T(!new)>(a: seq<T>, b: seq<T>, keep: T -> bool)
    ensures Filter(a + b, keep) == Filter(a, keep) + Filter(b, keep)
    decreases |a|
  {
    if a != [] {
      FilterAppend(a[1..], b, keep);
      assert (a + b)[0] == a[0];
      assert (a + b)[1..] == a[1..] + b;
      assert Filter(a + b, keep) == (if keep(a[0]) then [a[0]] else []) + Filter(a[1..] + b, keep);
      assert Filter(a, keep) == (if keep(a[0]) then [a[0]] else []) + Filter(a[1..], keep);
    } else {
      assert a + b == b;
    }
  }

  /** `a` can be obtained from `b` by deleting elements. */
  predicate IsSubsequence<T(==)>(a: seq<T>, b: seq<T>) {
    a == [] || (b != [] && ((a[0] == b[0] && IsSubsequence(a[1..], b[1..])) || IsSubsequence(a, b[1..])))
  }

  lemma {:induction false} FilterIsSubsequence<T(!new)>(xs: seq<T>, keep: T -> bool)
    ensures IsSubsequence(Filter(xs, keep), xs)
  {
    if xs != [] {
      FilterIsSubsequence(xs[1..], keep);
      var r := Filter(xs, keep);
      if keep(xs[0]) {
        assert r == [xs[0]] + Filter(xs[1..], keep);
        assert r != [] && r[0] == xs[0] && r[1..] == Filter(xs[1..], keep);
      } else {
        assert r == Filter(xs[1..], keep);
      }
    }
  }

  lemma {:induction false} FilterIdempotent<T(!new)>(xs: seq<T>, keep: T -> bool)
    ensures Filter(Filter(xs, keep), keep) == Filter(xs, keep)
  {
    if xs != [] {
      FilterIdempotent(xs[1..], keep);
      var r := Filter(xs, keep);
      if keep(xs[0]) {
        assert r == [xs[0]] + Filter(xs[1..], keep);
        assert r != [] && r[0] == xs[0] && r[1..] == Filter(xs[1..], keep);
      } else {
        assert r == Filter(xs[1..], keep);
      }
    }
  }

  /** A slice inside the middle part of a concatenation is a slice of that part. */
  lemma SliceOfMiddle<T>(a: seq<T>, b: seq<T>, c: seq<T>, i: nat, j: nat)
    requires i <= j <= |b|
    ensures (a + b + c)[|a| + i..|a| + j] == b[i..j]
  {
    assert forall k :: 0 <= k < j - i ==> (a + b + c)[|a| + i..|a| + j][k] == b[i..j][k];
  }

  lemma SliceInThree<T>(s: seq<T>, i: nat, j: nat, k: nat)
    requires i <= j <= k <= |s|
    ensures s[i..] == s[i..j] + s[j..k] + s[k..]
  {
  }

  lemma IndexOfMiddle<T>(a: seq<T>, b: seq<T>, c: seq<T>, i: nat)
    requires i < |b|
    ensures (a + b + c)[|a| + i] == b[i]
  {
  }
}

=== FILE: simd.dfy ===
/** The SIMD substring search engine (src/simd.rs).

    The vector intrinsics are modelled by what they compute: a block of 32 (AVX2)
    or 16 (SSE4.2) text positions is compared with the pattern's first byte, giving
    a mask with one flag per lane, and the set flags are visited from the lowest lane
    up (trailing-zero count, then clear the lowest flag).  Each backend is proved to
    report exactly the ascending list of occurrences of its (non-empty) pattern. */
module Simd {

  import opened Seqs

  // ---------------------------------------------------------------------------
  // Backends

  datatype Avx2Backend<T> = Avx2Backend(pattern: seq<T>, firstByte: T, lastByte: T) {
    ghost predicate Valid() {
      pattern != [] && firstByte == pattern[0] && lastByte == pattern[|pattern| - 1]
    }
  }

  datatype Sse42Backend<T> = Sse42Backend(pattern: seq<T>, firstByte: T) {
    ghost predicate Valid() {
      pattern != [] && firstByte == pattern[0]
    }
  }

  datatype FallbackBackend<T> = FallbackBackend(pattern: seq<T>)

  /** The AVX2 constructor reads the first and last pattern byte, so it needs a
      non-empty pattern. */
  function NewAvx2<T>(pattern: seq<T>): (b: Avx2Backend<T>)
    requires pattern != []
    ensures b.Valid() && b.pattern == pattern
  {
    Avx2Backend(pattern, pattern[0], pattern[|pattern| - 1])
  }

  function NewSse42<T>(pattern: seq<T>): (b: Sse42Backend<T>)
    requires pattern != []
    ensures b.Valid() && b.pattern == pattern
  {
    Sse42Backend(pattern, pattern[0])
  }

  // ---------------------------------------------------------------------------
  // Lane masks

  /** Lane `t` is set when the text byte at `start + t` equals `b`. */
  function CompareMask<T(==)>(text: seq<T>, start: nat, lanes: nat, b: T): (mask: seq<bool>)
    requires start + lanes <= |text|
    ensures |mask| == lanes
    ensures forall t :: 0 <= t < lanes ==> (mask[t] <==> text[start + t] == b)
  {
    seq(lanes, t requires 0 <= t < lanes => text[start + t] == b)
  }

  /** Index of the lowest set lane (`trailing_zeros`). */
  function TrailingZeros(mask: seq<bool>): (tz: nat)
    requires true in mask
    ensures tz < |mask| && mask[tz]
    ensures forall t :: 0 <= t < tz ==> !mask[t]
  {
    if mask[0] then 0 else 1 + TrailingZeros(mask[1..])
  }

  // ---------------------------------------------------------------------------
  // Occurrence bookkeeping used by every backend

  /** Positions whose byte differs from the pattern's first byte hold no occurrence. */
  lemma SkipWithoutFirst<T>(text: seq<T>, pattern: seq<T>, from: nat, stop: nat)
    requires pattern != [] && from <= stop <= |text|
    requires forall q :: from <= q < stop ==> text[q] != pattern[0]
    ensures OccurrencesFrom(text, pattern, from) == OccurrencesFrom(text, pattern, stop)
  {
    forall q | from <= q < stop ensures !MatchesAt(text, pattern, q) {
      if q + |pattern| <= |text| {
        assert text[q..q + |pattern|][0] == text[q];
      }
    }
    OccurrencesSkip(text, pattern, from, stop);
  }

  // ---------------------------------------------------------------------------
  // The block scan shared by the AVX2 and SSE4.2 backends

  /** One candidate position `p`: bounds check, optional last-byte filter, full
      comparison.  Appends `p` exactly when the pattern occurs there. */
  method CheckCandidate<T(==)>(text: seq<T>, pattern: seq<T>, last: T, ghost from: nat, p: nat,
                               lastFilter: bool, r0: seq<nat>)
    returns (r: seq<nat>)
    requires pattern != [] && last == pattern[|pattern| - 1]
    requires from <= p < |text| && forall q :: from <= q < p ==> text[q] != pattern[0]
    requires r0 + OccurrencesFrom(text, pattern, from) == Occurrences(text, pattern)
    ensures r + OccurrencesFrom(text, pattern, p + 1) == Occurrences(text, pattern)
  {
    SkipWithoutFirst(text, pattern, from, p);
    r := r0;
    var m := |pattern|;
    OccurrencesStep(text, pattern, p);
    if p + m <= |text| {
      assert text[p..p + m] == pattern ==> text[p + m - 1] == last by {
        if text[p..p + m] == pattern {
          assert text[p..p + m][m - 1] == text[p + m - 1];
        }
      }
      if !lastFilter || text[p + m - 1] == last {
        if text[p..p + m] == pattern {
          r := r + [p];
        }
      }
    }
  }

  /** The lanes still set in `mask` are exactly the lanes from `lo` on whose byte is `first`. */
  ghost predicate Pending<T>(mask: seq<bool>, text: seq<T>, i: nat, lo: nat, first: T) {
    lo <= |mask| && i + |mask| <= |text|
    && forall t :: 0 <= t < |mask| ==> (mask[t] <==> lo <= t && text[i + t] == first)
  }

  /** Clearing the lowest set lane `tz` moves `lo` past it; the lanes skipped on the
      way held no `first` byte. */
  lemma ClearLowest<T>(mask: seq<bool>, text: seq<T>, i: nat, lo: nat, first: T, tz: nat)
    requires Pending(mask, text, i, lo, first)
    requires tz < |mask| && mask[tz] && forall t :: 0 <= t < tz ==> !mask[t]
    ensures lo <= tz
    ensures Pending(mask[tz := false], text, i, tz + 1, first)
    ensures forall q :: i + lo <= q < i + tz ==> text[q] != first
  {
    forall q | i + lo <= q < i + tz ensures text[q] != first {
      assert !mask[q - i];
    }
  }

  /** Once the mask is empty, nothing from `lo` to the end of the block can start an
      occurrence, so the collected list already covers the whole block. */
  lemma NoneLeft<T>(mask: seq<bool>, text: seq<T>, pattern: seq<T>, i: nat, lo: nat, r: seq<nat>)
    requires pattern != [] && Pending(mask, text, i, lo, pattern[0]) && true !in mask
    requires r + OccurrencesFrom(text, pattern, i + lo) == Occurrences(text, pattern)
    ensures r + OccurrencesFrom(text, pattern, i + |mask|) == Occurrences(text, pattern)
  {
    forall q | i + lo <= q < i + |mask| ensures text[q] != pattern[0] {
      assert !mask[q - i];
    }
    SkipWithoutFirst(text, pattern, i + lo, i + |mask|);
  }

  /** One turn of the block loop: the lowest pending lane is checked and cleared. */
  method VisitLowest<T(==)>(text: seq<T>, pattern: seq<T>, first: T, last: T, i: nat, lastFilter: bool,
                            mask0: seq<bool>, ghost lo0: nat, r0: seq<nat>)
    returns (mask: seq<bool>, r: seq<nat>, ghost lo: nat)
    requires pattern != [] && first == pattern[0] && last == pattern[|pattern| - 1]
    requires Pending(mask0, text, i, lo0, first) && true in mask0
    requires r0 + OccurrencesFrom(text, pattern, i + lo0) == Occurrences(text, pattern)
    ensures |mask| == |mask0| && Pending(mask, text, i, lo, first) && lo0 < lo
    ensures r + OccurrencesFrom(text, pattern, i + lo) == Occurrences(text, pattern)
  {
    var tz := TrailingZeros(mask0);
    ClearLowest(mask0, text, i, lo0, first, tz);
    r := CheckCandidate(text, pattern, last, i + lo0, i + tz, lastFilter, r0);
    mask := mask0[tz := false];
    lo := tz + 1;
  }

  /** One block of `lanes` positions starting at `i`: the lanes whose byte equals
      the first pattern byte are visited from low to high; each candidate is
      bounds-checked, optionally filtered on the last pattern byte, then compared in
      full.  Appends exactly the occurrences that start inside the block. */
  method ScanBlock<T(==)>(text: seq<T>, pattern: seq<T>, first: T, last: T, i: nat, lanes: nat,
                          lastFilter: bool, r0: seq<nat>)
    returns (r: seq<nat>)
    requires pattern != [] && i + lanes <= |text|
    requires first == pattern[0] && last == pattern[|pattern| - 1]
    requires r0 + OccurrencesFrom(text, pattern, i) == Occurrences(text, pattern)
    ensures r + OccurrencesFrom(text, pattern, i + lanes) == Occurrences(text, pattern)
  {
    r := r0;
    var mask := CompareMask(text, i, lanes, first);
    ghost var lo := 0;
    while true in mask
      invariant |mask| == lanes && Pending(mask, text, i, lo, first)
      invariant r + OccurrencesFrom(text, pattern, i + lo) == Occurrences(text, pattern)
      decreases lanes - lo
    {
      mask, r, lo := VisitLowest(text, pattern, first, last, i, lastFilter, mask, lo, r);
    }
    NoneLeft(mask, text, pattern, i, lo, r);
  }

  /** The scalar loop after the blocks: every remaining start up to `|text| - |pattern|`,
      first byte checked before the full comparison. */
  method ScanTail<T(==)>(text: seq<T>, pattern: seq<T>, first: T, i0: nat, r0: seq<nat>)
    returns (r: seq<nat>)
    requires pattern != [] && first == pattern[0] && i0 <= |text|
    requires r0 + OccurrencesFrom(text, pattern, i0) == Occurrences(text, pattern)
    ensures r == Occurrences(text, pattern)
  {
    r := r0;
    var m := |pattern|;
    var i := i0;
    while i + m <= |text|
      invariant i <= |text|
      invariant r + OccurrencesFrom(text, pattern, i) == Occurrences(text, pattern)
    {
      CollectStep(text, pattern, i, r);
      if text[i] == first {
        if text[i..i + m] == pattern {
          r := r + [i];
        }
      } else {
        assert text[i..i + m][0] == text[i];
      }
      i := i + 1;
    }
    NoOccurrencesPastEnd(text, pattern, i);
  }

  /** Block scan shared by the AVX2 and SSE4.2 backends: whole `lanes`-wide blocks
      first, then the scalar tail. */
  method BlockScan<T(==)>(text: seq<T>, pattern: seq<T>, first: T, last: T, lanes: nat, lastFilter: bool)
    returns (r: seq<nat>)
    requires pattern != [] && lanes > 0
    requires first == pattern[0] && last == pattern[|pattern| - 1]
    ensures r == Occurrences(text, pattern)
  {
    r := [];
    if |text| < |pattern| {
      NoOccurrencesPastEnd(text, pattern, 0);
      return;
    }
    var i := 0;
    while i + lanes <= |text|
      invariant i <= |text|
      invariant r + OccurrencesFrom(text, pattern, i) == Occurrences(text, pattern)
    {
      r := ScanBlock(text, pattern, first, last, i, lanes, lastFilter, r);
      i := i + lanes;
    }
    r := ScanTail(text, pattern, first, i, r);
  }

  /** `Avx2Backend::search`: 32-lane blocks with the last-byte filter. */
  method Avx2Search<T(==)>(b: Avx2Backend<T>, text: seq<T>) returns (r: seq<nat>)
    requires b.Valid()
    ensures r == Occurrences(text, b.pattern)
    ensures |text| < |b.pattern| ==> r == []
  {
    r := BlockScan(text, b.pattern, b.firstByte, b.lastByte, 32, true);
  }

  /** `Sse42Backend::search`: 16-lane blocks, no last-byte filter. */
  method Sse42Search<T(==)>(b: Sse42Backend<T>, text: seq<T>) returns (r: seq<nat>)
    requires b.Valid()
    ensures r == Occurrences(text, b.pattern)
    ensures |text| < |b.pattern| ==> r == []
  {
    r := BlockScan(text, b.pattern, b.firstByte, b.pattern[|b.pattern| - 1], 16, false);
  }

  /** `FallbackBackend::search`: every start in `0..=n-m`, none for an empty pattern. */
  method FallbackSearch<T(==)>(b: FallbackBackend<T>, text: seq<T>) returns (r: seq<nat>)
    ensures b.pattern == [] ==> r == []
    ensures b.pattern != [] ==> r == Occurrences(text, b.pattern)
  {
    r := [];
    var pattern := b.pattern;
    var m := |pattern|;
    if m == 0 {
      return;
    }
    if |text| < m {
      NoOccurrencesPastEnd(text, pattern, 0);
      return;
    }
    var i := 0;
    while i + m <= |text|
      invariant i <= |text|
      invariant r + OccurrencesFrom(text, pattern, i) == Occurrences(text, pattern)
    {
      CollectStep(text, pattern, i, r);
      if text[i..i + m] == pattern {
        r := r + [i];
      }
      i := i + 1;
    }
    NoOccurrencesPastEnd(text, pattern, i);
  }

  // ---------------------------------------------------------------------------
  // Backend selection

  /** What `is_x86_feature_detected!` reports on the running CPU. */
  datatype CpuFeatures = CpuFeatures(avx2: bool, sse42: bool)

  datatype Backend<T> =
    | Avx2(avx: Avx2Backend<T>)
    | Sse42(sse: Sse42Backend<T>)
    | Fallback(fallback: FallbackBackend<T>)

  datatype SimdSearchEngine<T> = SimdSearchEngine(backend: Backend<T>) {
    function Pattern(): seq<T> {
      match backend
      case Avx2(b) => b.pattern
      case Sse42(b) => b.pattern
      case Fallback(b) => b.pattern
    }

    ghost predicate Valid() {
      match backend
      case Avx2(b) => b.Valid()
      case Sse42(b) => b.Valid()
      case Fallback(_) => true
    }
  }

  /** `SimdSearchEngine::new`: AVX2 if available, else SSE4.2, else the fallback;
      a vector backend is never chosen for an empty pattern. */
  function NewEngine<T>(pattern: seq<T>, cpu: CpuFeatures): (e: SimdSearchEngine<T>)
    ensures e.Valid() && e.Pattern() == pattern
    ensures e.backend.Avx2? <==> cpu.avx2 && pattern != []
    ensures e.backend.Sse42? <==> !cpu.avx2 && cpu.sse42 && pattern != []
    ensures pattern == [] ==> e.backend.Fallback?
  {
    if cpu.avx2 && pattern != [] then SimdSearchEngine(Avx2(NewAvx2(pattern)))
    else if cpu.sse42 && pattern != [] then SimdSearchEngine(Sse42(NewSse42(pattern)))
    else SimdSearchEngine(Fallback(FallbackBackend(pattern)))
  }

  /** `SimdSearchEngine::search`: whatever backend was chosen, the result is every
      occurrence in ascending order, and nothing for an empty pattern. */
  method EngineSearch<T(==)>(e: SimdSearchEngine<T>, text: seq<T>) returns (r: seq<nat>)
    requires e.Valid()
    ensures e.Pattern() == [] ==> r == []
    ensures e.Pattern() != [] ==> r == Occurrences(text, e.Pattern())
  {
    match e.backend
    case Avx2(b) => r := Avx2Search(b, text);
    case Sse42(b) => r := Sse42Search(b, text);
    case Fallback(b) => r := FallbackSearch(b, text);
  }

  // ---------------------------------------------------------------------------
  // Consequences the repository's property tests check

  /** A pattern at the very start of the text is the first result. */
  lemma OccurrenceAtStartIsFirst<T>(text: seq<T>, pattern: seq<T>)
    requires MatchesAt(text, pattern, 0)
    ensures Occurrences(text, pattern) != [] && Occurrences(text, pattern)[0] == 0
  {
  }

  /** Matching is case-sensitive: a word of lower-case ASCII letters does not
      occur in a word of upper-case ones, such as its own upper-case form. */
  lemma LowerNotFoundInUpper(upper: seq<char>, lower: seq<char>)
    requires lower != [] && forall i :: 0 <= i < |lower| ==> 'a' <= lower[i] <= 'z'
    requires forall i :: 0 <= i < |upper| ==> 'A' <= upper[i] <= 'Z'
    ensures Occurrences(upper, lower) == []
  {
    forall k | 0 <= k && k + |lower| <= |upper| ensures !MatchesAt(upper, lower, k) {
      assert upper[k..k + |lower|][0] != lower[0];
    }
    NoMatchNoOccurrences(upper, lower, 0);
  }

  /** Overlapping occurrences are all reported: in `xxx` the pattern `xx` occurs at 0 and 1. */
  lemma OverlappingOccurrences<T>(x: T)
    ensures Occurrences([x, x, x], [x, x]) == [0, 1]
  {
    assert MatchesAt([x, x, x], [x, x], 0) by { assert [x, x, x][0..2] == [x, x]; }
    assert MatchesAt([x, x, x], [x, x], 1) by { assert [x, x, x][1..3] == [x, x]; }
    assert OccurrencesFrom([x, x, x], [x, x], 2) == [];
    assert OccurrencesFrom([x, x, x], [x, x], 1) == [1];
    assert OccurrencesFrom([x, x, x], [x, x], 0) == [0, 1];
  }
}

=== FILE: stdin.dfy ===
/** The stdin search of src/app/stdin.rs: every line of standard input tested with
    the regex, inverted on request, counted, recorded unless only a count or the
    "<stdin>" name is wanted, and cut off once `max_matches` is reached; then the
    choice of what to print.

    The regex is the parameter `find` (its first match in a line, if any); a line
    matches when `find` returns a span. */
module Stdin {

  import opened Wrappers
  import opened Text
  import opened Seqs
  import P = Processor
  import F = OutputFormats

  const StdinPath: String := "<stdin>"

  datatype StdinSearchOptions = StdinSearchOptions(
    searchPattern: String,
    caseSensitive: bool,
    invertMatch: bool,
    maxMatches: Option<nat>,
    outputFormat: F.OutputFormat,
    ndjson: bool,
    count: bool,
    filesWithMatches: bool,
    quiet: bool)

  /** What the search leaves for output: the records and the number of included lines. */
  datatype StdinResult = StdinResult(matches: seq<P.SearchMatch>, matchCount: nat)

  /** A line is included when it matches, or with `invert` when it does not. */
  predicate Included(find: P.Finder, invert: bool, line: String) {
    find(line).Some? != invert
  }

  /** Included lines among the first `n` items. */
  function IncludedCount(items: seq<P.LineRead>, find: P.Finder, invert: bool, n: nat): (c: nat)
    requires n <= |items|
    ensures c <= n
  {
    if n == 0 then 0
    else IncludedCount(items, find, invert, n - 1)
         + (if items[n - 1].Read? && Included(find, invert, items[n - 1].text) then 1 else 0)
  }

  lemma {:induction false} IncludedCountMonotone(items: seq<P.LineRead>, find: P.Finder, invert: bool, a: nat, b: nat)
    requires a <= b <= |items|
    ensures IncludedCount(items, find, invert, a) <= IncludedCount(items, find, invert, b)
    decreases b - a
  {
    if a < b {
      IncludedCountMonotone(items, find, invert, a, b - 1);
    }
  }

  /** How many included lines the loop admits: `max_matches` stops it once the count
      reaches the limit, which is checked only after a line was counted, so a limit
      of 0 still admits one line. */
  function Cap(opts: StdinSearchOptions, items: seq<P.LineRead>): (cap: nat)
    ensures cap >= 1
  {
    match opts.maxMatches
    case Some(k) => if k == 0 then 1 else k
    case None => |items| + 1
  }

  /** Records are built only when neither a count nor the file name is wanted. */
  predicate Recording(opts: StdinSearchOptions) {
    !opts.count && !opts.filesWithMatches
  }

  /** The span `find` reports for `line` lies within it. */
  predicate SpanFits(find: P.Finder, line: String) {
    find(line).Some? ==> find(line).value.start <= find(line).value.end <= |line|
  }

  /** The record for included line `lineNumber` (counted from 0): the first match,
      or for a line without one an empty text spanning the whole line. */
  function StdinRecord(find: P.Finder, lineNumber: nat, line: String): (m: P.SearchMatch)
    requires SpanFits(find, line)
    ensures m.path == StdinPath && m.lineNumber == lineNumber && m.line == line
    ensures m.contextBefore == [] && m.contextAfter == []
    ensures find(line).None? ==> m.matchedText == [] && m.columnStart == 0 && m.columnEnd == |line|
    ensures find(line).Some? ==> m.columnStart == find(line).value.start && m.columnEnd == find(line).value.end
                                 && m.matchedText == line[m.columnStart..m.columnEnd]
  {
    match find(line)
    case Some(span) => P.SearchMatch(StdinPath, lineNumber, line, [], [], line[span.start..span.end], span.start, span.end)
    case None => P.SearchMatch(StdinPath, lineNumber, line, [], [], [], 0, |line|)
  }

  /** `m` is the record of an included line of the input. */
  ghost predicate IsStdinRecord(items: seq<P.LineRead>, find: P.Finder, invert: bool, m: P.SearchMatch) {
    m.lineNumber < |items| && items[m.lineNumber] == P.Read(m.line)
    && Included(find, invert, m.line) && SpanFits(find, m.line)
    && m == StdinRecord(find, m.lineNumber, m.line)
  }

  ghost predicate Recorded(matches: seq<P.SearchMatch>, n: nat) {
    exists k :: 0 <= k < |matches| && matches[k].lineNumber == n
  }

  /** The records, when kept, are the included lines' in input order. */
  ghost predicate RecordsSound(items: seq<P.LineRead>, find: P.Finder, invert: bool, i: nat,
                               matches: seq<P.SearchMatch>) {
    (forall k :: 0 <= k < |matches| ==>
       IsStdinRecord(items, find, invert, matches[k]) && matches[k].lineNumber < i)
    && (forall a, b :: 0 <= a < b < |matches| ==> matches[a].lineNumber < matches[b].lineNumber)
  }

  /** Every included line before `i` has its record. */
  ghost predicate RecordsComplete(items: seq<P.LineRead>, find: P.Finder, invert: bool, i: nat,
                                  matches: seq<P.SearchMatch>) {
    forall t :: 0 <= t < i && t < |items| && items[t].Read? && Included(find, invert, items[t].text) ==>
      Recorded(matches, t)
  }

  /** The records of the included lines among the first `n` items, in order. */
  function RecordsUpTo(items: seq<P.LineRead>, find: P.Finder, invert: bool, n: nat): (r: seq<P.SearchMatch>)
    requires P.SaneFinder(find) && n <= |items|
  {
    if n == 0 then []
    else
      var before := RecordsUpTo(items, find, invert, n - 1);
      var item := items[n - 1];
      if item.Read? && Included(find, invert, item.text) then before + [StdinRecord(find, n - 1, item.text)]
      else before
  }

  /** One record per included line. */
  lemma {:induction false} RecordsUpToCount(items: seq<P.LineRead>, find: P.Finder, invert: bool, n: nat)
    requires P.SaneFinder(find) && n <= |items|
    ensures |RecordsUpTo(items, find, invert, n)| == IncludedCount(items, find, invert, n)
  {
    if n > 0 {
      RecordsUpToCount(items, find, invert, n - 1);
    }
  }

  /** Each record is the record of an included line before `n`. */
  lemma {:induction false} RecordsUpToFaithful(items: seq<P.LineRead>, find: P.Finder, invert: bool, n: nat)
    requires P.SaneFinder(find) && n <= |items|
    ensures forall k :: 0 <= k < |RecordsUpTo(items, find, invert, n)| ==>
      IsStdinRecord(items, find, invert, RecordsUpTo(items, find, invert, n)[k])
      && RecordsUpTo(items, find, invert, n)[k].lineNumber < n
  {
    if n > 0 {
      RecordsUpToFaithful(items, find, invert, n - 1);
      var before := RecordsUpTo(items, find, invert, n - 1);
      var r := RecordsUpTo(items, find, invert, n);
      var item := items[n - 1];
      if item.Read? && Included(find, invert, item.text) {
        var m := StdinRecord(find, n - 1, item.text);
        assert r == before + [m];
        assert IsStdinRecord(items, find, invert, m);
        forall k | 0 <= k < |r| ensures IsStdinRecord(items, find, invert, r[k]) && r[k].lineNumber < n {
          if k < |before| { assert r[k] == before[k]; }
        }
      }
    }
  }

  /** The records are strictly ordered by line. */
  lemma {:induction false} RecordsUpToOrdered(items: seq<P.LineRead>, find: P.Finder, invert: bool, n: nat)
    requires P.SaneFinder(find) && n <= |items|
    ensures forall k :: 0 <= k < |RecordsUpTo(items, find, invert, n)| ==>
      RecordsUpTo(items, find, invert, n)[k].lineNumber < n
    ensures forall a, b :: 0 <= a < b < |RecordsUpTo(items, find, invert, n)| ==>
      RecordsUpTo(items, find, invert, n)[a].lineNumber < RecordsUpTo(items, find, invert, n)[b].lineNumber
  {
    if n > 0 {
      RecordsUpToOrdered(items, find, invert, n - 1);
      var before := RecordsUpTo(items, find, invert, n - 1);
      var r := RecordsUpTo(items, find, invert, n);
      var item := items[n - 1];
      if item.Read? && Included(find, invert, item.text) {
        var m := StdinRecord(find, n - 1, item.text);
        assert r == before + [m];
        forall k | 0 <= k < |r| ensures r[k].lineNumber < n {
          if k < |before| { assert r[k] == before[k]; }
        }
        forall a, b | 0 <= a < b < |r| ensures r[a].lineNumber < r[b].lineNumber {
          assert r[a] == before[a];
          if b < |before| { assert r[b] == before[b]; }
        }
      }
    }
  }

  /** Every included line has its record. */
  lemma {:induction false} RecordsUpToComplete(items: seq<P.LineRead>, find: P.Finder, invert: bool, n: nat)
    requires P.SaneFinder(find) && n <= |items|
    ensures RecordsComplete(items, find, invert, n, RecordsUpTo(items, find, invert, n))
  {
    if n > 0 {
      RecordsUpToComplete(items, find, invert, n - 1);
      var before := RecordsUpTo(items, find, invert, n - 1);
      var r := RecordsUpTo(items, find, invert, n);
      var item := items[n - 1];
      if item.Read? && Included(find, invert, item.text) {
        var m := StdinRecord(find, n - 1, item.text);
        assert r == before + [m];
        forall t | 0 <= t < n && items[t].Read? && Included(find, invert, items[t].text)
          ensures Recorded(r, t)
        {
          if t < n - 1 {
            var k :| 0 <= k < |before| && before[k].lineNumber == t;
            assert r[k] == before[k];
          } else {
            assert r[|before|].lineNumber == t;
          }
        }
      }
    }
  }

  lemma RecordsUpToCorrect(items: seq<P.LineRead>, find: P.Finder, invert: bool, n: nat)
    requires P.SaneFinder(find) && n <= |items|
    ensures |RecordsUpTo(items, find, invert, n)| == IncludedCount(items, find, invert, n)
    ensures RecordsSound(items, find, invert, n, RecordsUpTo(items, find, invert, n))
    ensures RecordsComplete(items, find, invert, n, RecordsUpTo(items, find, invert, n))
  {
    RecordsUpToCount(items, find, invert, n);
    RecordsUpToFaithful(items, find, invert, n);
    RecordsUpToOrdered(items, find, invert, n);
    RecordsUpToComplete(items, find, invert, n);
  }

  /** The loop's state before line `i`: every line so far was read, `count` lines
      were included, and when recording, the records are those lines'. */
  ghost predicate Progress(items: seq<P.LineRead>, find: P.Finder, opts: StdinSearchOptions, i: nat,
                           count: nat, matches: seq<P.SearchMatch>) {
    P.SaneFinder(find) && i <= |items|
    && (forall t :: 0 <= t < i ==> items[t].Read?)
    && count == IncludedCount(items, find, opts.invertMatch, i)
    && matches == (if Recording(opts) then RecordsUpTo(items, find, opts.invertMatch, i) else [])
  }

  /** What the search promises about a finished run that counted `count` lines. */
  ghost predicate Outcome(items: seq<P.LineRead>, find: P.Finder, opts: StdinSearchOptions, res: StdinResult) {
    res.matchCount == Min(IncludedCount(items, find, opts.invertMatch, |items|), Cap(opts, items))
    && (!Recording(opts) ==> res.matches == [])
    && (Recording(opts) ==>
          |res.matches| == res.matchCount
          && RecordsSound(items, find, opts.invertMatch, |items|, res.matches)
          && forall t :: 0 <= t < |items| && items[t].Read? && Included(find, opts.invertMatch, items[t].text)
                         && IncludedCount(items, find, opts.invertMatch, t) < res.matchCount ==>
               Recorded(res.matches, t))
  }

  /** The line loop of `StdinSearcher::search` from line `i` on, with `count` lines
      counted and `matches` recorded so far. */
  function SearchFrom(items: seq<P.LineRead>, find: P.Finder, opts: StdinSearchOptions, i: nat,
                      count: nat, matches: seq<P.SearchMatch>): (r: Result<StdinResult, P.Error>)
    requires P.SaneFinder(find) && Progress(items, find, opts, i, count, matches) && count < Cap(opts, items)
    ensures r.Err? ==> r.error == P.IoError && exists t :: i <= t < |items| && items[t].ReadFailed?
    ensures (forall t :: i <= t < |items| ==> items[t].Read?) ==> r.Ok?
    ensures r.Ok? ==> Outcome(items, find, opts, r.value)
    decreases |items| - i
  {
    if i == |items| then
      Finished(items, find, opts, count, matches);
      Ok(StdinResult(matches, count))
    else if items[i].ReadFailed? then Err(P.IoError)
    else
      var line := items[i].text;
      if !Included(find, opts.invertMatch, line) then
        SearchFrom(items, find, opts, i + 1, count, matches)
      else
        var matches' := if Recording(opts) then matches + [StdinRecord(find, i, line)] else matches;
        if opts.maxMatches.Some? && count + 1 >= opts.maxMatches.value then
          Stopped(items, find, opts, i + 1, count + 1, matches');
          Ok(StdinResult(matches', count + 1))
        else
          SearchFrom(items, find, opts, i + 1, count + 1, matches')
  }

  /** `StdinSearcher::search` over the lines of standard input: a read error ends
      the search with an I/O error; otherwise the count is the number of included
      lines, capped by the limit, and when records are kept they are exactly the
      records of the included lines the count reached, in input order. */
  function SearchLines(items: seq<P.LineRead>, find: P.Finder, opts: StdinSearchOptions)
    : (r: Result<StdinResult, P.Error>)
    requires P.SaneFinder(find)
    ensures r.Err? ==> r.error == P.IoError && exists t :: 0 <= t < |items| && items[t].ReadFailed?
    ensures (forall t :: 0 <= t < |items| ==> items[t].Read?) ==> r.Ok?
    ensures r.Ok? ==> Outcome(items, find, opts, r.value)
  {
    SearchFrom(items, find, opts, 0, 0, [])
  }

  /** Leaving at the limit: the count is the cap, and every included line below the
      count's reach is recorded. */
  lemma Stopped(items: seq<P.LineRead>, find: P.Finder, opts: StdinSearchOptions, i: nat,
                count: nat, matches: seq<P.SearchMatch>)
    requires Progress(items, find, opts, i, count, matches)
    requires opts.maxMatches.Some? && count >= opts.maxMatches.value && 1 <= count <= Cap(opts, items)
    ensures Outcome(items, find, opts, StdinResult(matches, count))
  {
    var invert := opts.invertMatch;
    IncludedCountMonotone(items, find, invert, i, |items|);
    if Recording(opts) {
      RecordsUpToCorrect(items, find, invert, i);
      forall t | 0 <= t < |items| && items[t].Read? && Included(find, invert, items[t].text)
                 && IncludedCount(items, find, invert, t) < count
        ensures Recorded(matches, t)
      {
        if i <= t {
          IncludedCountMonotone(items, find, invert, i, t);
        }
      }
      assert RecordsSound(items, find, invert, |items|, matches);
    }
  }

  /** Reaching the end below the limit: everything was counted and recorded. */
  lemma Finished(items: seq<P.LineRead>, find: P.Finder, opts: StdinSearchOptions,
                 count: nat, matches: seq<P.SearchMatch>)
    requires Progress(items, find, opts, |items|, count, matches) && count < Cap(opts, items)
    ensures Outcome(items, find, opts, StdinResult(matches, count))
  {
    RecordsUpToCorrect(items, find, opts.invertMatch, |items|);
  }

  /** Without a limit, every included line is counted; with limit `k` at most
      `max(k, 1)` are. */
  lemma CountBounds(items: seq<P.LineRead>, find: P.Finder, opts: StdinSearchOptions, res: StdinResult)
    requires Outcome(items, find, opts, res)
    ensures opts.maxMatches.None? ==> res.matchCount == IncludedCount(items, find, opts.invertMatch, |items|)
    ensures opts.maxMatches.Some? ==> res.matchCount <= if opts.maxMatches.value == 0 then 1 else opts.maxMatches.value
    ensures opts.maxMatches.Some? && opts.maxMatches.value > 0 ==>
      res.matchCount == Min(IncludedCount(items, find, opts.invertMatch, |items|), opts.maxMatches.value)
  {
  }

  /** `search`: the regex is compiled from the case-flagged pattern first, and a
      pattern that does not compile fails before any line is read. */
  method Search(opts: StdinSearchOptions, compiled: Result<P.Finder, String>, items: seq<P.LineRead>)
    returns (r: Result<StdinResult, P.Error>)
    requires compiled.Ok? ==> P.SaneFinder(compiled.value)
    ensures compiled.Err? ==> r == Err(P.RegexError(compiled.error))
    ensures compiled.Ok? && r.Ok? ==> Outcome(items, compiled.value, opts, r.value)
    ensures compiled.Ok? && r.Err? ==> r.error == P.IoError
  {
    if compiled.Err? {
      return Err(P.RegexError(compiled.error));
    }
    r := SearchLines(items, compiled.value, opts);
  }

  // ---------------------------------------------------------------------------
  // Output

  datatype Output =
    | PrintCount(n: nat)
    | PrintStdinName
    | PrintNothing
    | PrintNoMatches
    | PrintMatches(matches: seq<P.SearchMatch>)

  /** `output_results` with `output_no_matches`: the count first, then the file
      name, then the "No matches found" notice (not for JSON or when quiet), then
      the formatted matches. */
  function OutputResults(opts: StdinSearchOptions, res: StdinResult): (o: Output)
    ensures opts.count <==> o.PrintCount?
    ensures o.PrintCount? ==> o.n == res.matchCount
    ensures o.PrintStdinName? <==> !opts.count && opts.filesWithMatches && res.matchCount > 0
    ensures o.PrintNoMatches? <==> Recording(opts) && res.matches == [] && opts.outputFormat != F.Json && !opts.quiet
    ensures o.PrintMatches? <==> Recording(opts) && res.matches != []
    ensures o.PrintMatches? ==> o.matches == res.matches
  {
    if opts.count then PrintCount(res.matchCount)
    else if opts.filesWithMatches then (if res.matchCount > 0 then PrintStdinName else PrintNothing)
    else if res.matches == [] then (if opts.outputFormat != F.Json && !opts.quiet then PrintNoMatches else PrintNothing)
    else PrintMatches(res.matches)
  }

  /** `output_matches`: the "Found n matches:" header is printed unless quiet, JSON
      or NDJSON, so a header never comes before output the JSON formatter writes. */
  function ShowsHeader(opts: StdinSearchOptions): (shown: bool)
    ensures shown <==> !opts.quiet && FormatterFormat(opts) != F.Json
  {
    !opts.quiet && opts.outputFormat != F.Json && !opts.ndjson
  }

  /** The formatter's format: NDJSON forces JSON, otherwise the command line's.
      It is JSON exactly when the output is printed raw, without the blank line
      in front. */
  function FormatterFormat(opts: StdinSearchOptions): (f: F.OutputFormat)
    ensures opts.ndjson ==> f == F.Json
    ensures !opts.ndjson ==> f == opts.outputFormat
    ensures f == F.Json <==> opts.ndjson || opts.outputFormat == F.Json
  {
    if opts.ndjson then F.Json else opts.outputFormat
  }

  /** The pattern given to the regex engine. */
  function RegexPattern(opts: StdinSearchOptions): (p: String)
    ensures opts.caseSensitive ==> p == opts.searchPattern
    ensures !opts.caseSensitive ==> StartsWith(p, "(?i)") && p[4..] == opts.searchPattern
  {
    P.CaseFlagged(opts.searchPattern, opts.caseSensitive)
  }
}

=== FILE: streaming_search.dfy ===
/** The streaming pipeline of src/streaming_search.rs: the per-line loop of
    `process_file_streaming` with its bounded context buffer, the context helpers,
    the record each match position yields, post-processing (invert match), the
    `max_matches` truncation, the pattern handed to the matcher factory, the
    algorithm-suggestion ladder, and the final sort of `search_files_parallel`.

    The matcher is a parameter: `search(line)` is what `SearchAlgorithmTrait::search`
    returns for the line (for the non-regex matchers, `MatcherSearch` in
    SearchAlgorithms says what that is). */
module StreamingSearch {

  import opened Wrappers
  import opened Text
  import opened Seqs
  import P = Processor
  import SA = SearchAlgorithms
  import SimdEngine = Simd
  import Paths

  /** Characters of a line kept as `matched_text` from the match position on. */
  const MatchedTextMax: nat := 50

  /** `StreamingConfig`, without the timeout and buffer sizes, which only tune I/O. */
  datatype StreamingConfig = StreamingConfig(
    algorithm: SA.SearchAlgorithm,
    contextLines: nat,
    caseSensitive: bool,
    invertMatch: bool,
    maxMatches: Option<nat>)

  /** `StreamingConfig::default`. */
  const DefaultConfig := StreamingConfig(SA.BoyerMooreAlgorithm, 2, true, false, None)

  /** `search_algorithms::SearchMatch`: a match before the file's path is attached. */
  datatype RawMatch = RawMatch(
    lineNumber: nat,
    line: String,
    contextBefore: seq<(nat, String)>,
    contextAfter: seq<(nat, String)>,
    matchedText: String,
    columnStart: nat,
    columnEnd: nat)

  /** Match start positions the matcher reports for one line. */
  type LineSearch = String -> seq<nat>

  // ---------------------------------------------------------------------------
  // Context buffer and context helpers

  /** Push onto the context buffer, dropping the oldest entry beyond `2c + 1`. */
  function PushBuffer(buffer: seq<(nat, String)>, entry: (nat, String), c: nat): (r: seq<(nat, String)>)
    requires |buffer| <= 2 * c + 1
    ensures |buffer| < 2 * c + 1 ==> r == buffer + [entry]
    ensures |buffer| == 2 * c + 1 ==> r == buffer[1..] + [entry]
    ensures |r| <= 2 * c + 1
  {
    var grown := buffer + [entry];
    if |grown| > 2 * c + 1 then grown[1..] else grown
  }

  /** `get_context_before`: the buffered entries numbered from `current - c`
      (saturating at 0) up to, not including, `current`, in buffer order. */
  function ContextBeforeOf(buffer: seq<(nat, String)>, current: nat, c: nat): (r: seq<(nat, String)>)
    ensures |r| <= |buffer|
    ensures forall e :: e in r <==> e in buffer && current <= e.0 + c && e.0 < current
  {
    var start := if current >= c then current - c else 0;
    var inWindow := (e: (nat, String)) => start <= e.0 < current;
    FilterMembers(buffer, inWindow);
    Filter(buffer, inWindow)
  }

  /** The context before keeps the buffer's order: it is a subsequence of it. */
  lemma ContextBeforeIsSubsequence(buffer: seq<(nat, String)>, current: nat, c: nat)
    ensures IsSubsequence(ContextBeforeOf(buffer, current, c), buffer)
  {
    var start := if current >= c then current - c else 0;
    FilterIsSubsequence(buffer, (e: (nat, String)) => start <= e.0 < current);
  }

  /** `get_context_after`: up to `count` further lines pulled from the reader at
      `idx`, numbered on from `lineNumber`.  Any read error, even invalid UTF-8,
      is an error here. */
  function PullAfter(items: seq<P.LineRead>, idx: nat, lineNumber: nat, count: nat)
    : (r: Result<seq<(nat, String)>, P.Error>)
    requires idx <= |items|
    ensures r.Ok? <==> forall t :: idx <= t < idx + Min(count, |items| - idx) ==> items[t].Read?
    ensures r.Ok? ==> |r.value| == Min(count, |items| - idx)
    ensures r.Ok? ==> forall t :: 0 <= t < |r.value| ==>
      items[idx + t].Read? && r.value[t] == (lineNumber + t + 1, items[idx + t].text)
    decreases count
  {
    if count == 0 || idx == |items| then Ok([])
    else
      match items[idx]
      case ReadFailed(_) => Err(P.IoError)
      case Read(text) =>
        match PullAfter(items, idx + 1, lineNumber + 1, count - 1)
        case Err(e) => Err(e)
        case Ok(rest) => Ok([(lineNumber + 1, text)] + rest)
  }

  // ---------------------------------------------------------------------------
  // One record per match position

  /** The record for a match at `pos`: a one-character column range, and as matched
      text up to 50 characters from `pos`, or the whole line when `pos` is its last
      position or beyond. */
  function RawRecord(lineNumber: nat, line: String, before: seq<(nat, String)>,
                     after: seq<(nat, String)>, pos: nat): (m: RawMatch)
    ensures m.lineNumber == lineNumber && m.line == line
    ensures m.contextBefore == before && m.contextAfter == after
    ensures m.columnStart == pos && m.columnEnd == pos + 1
    ensures pos + 1 < |line| ==>
      |m.matchedText| == Min(MatchedTextMax, |line| - pos) && m.matchedText == line[pos..pos + |m.matchedText|]
    ensures pos + 1 >= |line| ==> m.matchedText == line
  {
    var matchedText := if pos + 1 < |line| then line[pos..pos + Min(MatchedTextMax, |line| - pos)] else line;
    RawMatch(lineNumber, line, before, after, matchedText, pos, pos + 1)
  }

  /** A record's matched text is empty exactly when its line is. */
  lemma MatchedTextEmptyIff(lineNumber: nat, line: String, before: seq<(nat, String)>,
                            after: seq<(nat, String)>, pos: nat)
    ensures RawRecord(lineNumber, line, before, after, pos).matchedText == [] <==> line == []
  {
    var m := RawRecord(lineNumber, line, before, after, pos);
    if pos + 1 < |line| {
      assert |m.matchedText| >= 1;
    }
  }

  // ---------------------------------------------------------------------------
  // The line loop of `process_file_streaming`

  /** The loop from reader item `idx` on, `lineNumber` lines counted so far.  A line
      that is not UTF-8 is counted and skipped; any other read error ends the search.
      Lines pulled as context after a match are consumed from the same reader: they
      are neither searched nor counted by the outer loop. */
  function StreamFrom(items: seq<P.LineRead>, search: LineSearch, c: nat, idx: nat, lineNumber: nat,
                      buffer: seq<(nat, String)>): Result<seq<RawMatch>, P.Error>
    requires idx <= |items| && |buffer| <= 2 * c + 1
    decreases |items| - idx, 0, 0
  {
    if idx == |items| then Ok([])
    else
      match items[idx]
      case ReadFailed(invalidData) =>
        if invalidData then StreamFrom(items, search, c, idx + 1, lineNumber + 1, buffer)
        else Err(P.IoError)
      case Read(line) =>
        var buffer' := PushBuffer(buffer, (lineNumber + 1, line), c);
        EmitPositions(items, search, c, idx + 1, lineNumber + 1, buffer', line, search(line))
  }

  /** The inner loop over the match positions of `line`: each position takes the
      context before from the buffer and pulls its own context after. */
  function EmitPositions(items: seq<P.LineRead>, search: LineSearch, c: nat, idx: nat, lineNumber: nat,
                         buffer: seq<(nat, String)>, line: String, positions: seq<nat>)
    : Result<seq<RawMatch>, P.Error>
    requires idx <= |items| && |buffer| <= 2 * c + 1
    decreases |items| - idx, 1, |positions|
  {
    if positions == [] then StreamFrom(items, search, c, idx, lineNumber, buffer)
    else
      match PullAfter(items, idx, lineNumber, c)
      case Err(e) => Err(e)
      case Ok(after) =>
        var m := RawRecord(lineNumber, line, ContextBeforeOf(buffer, lineNumber, c), after, positions[0]);
        match EmitPositions(items, search, c, idx + |after|, lineNumber, buffer, line, positions[1..])
        case Err(e) => Err(e)
        case Ok(rest) => Ok([m] + rest)
  }

  /** `process_file_streaming` over the items of `reader.lines()`. */
  function ProcessFileStreaming(items: seq<P.LineRead>, search: LineSearch, c: nat)
    : (r: Result<seq<RawMatch>, P.Error>)
    ensures RecordsOk(items, search, c, r)
    ensures (forall t :: 0 <= t < |items| ==> items[t].Read?) ==> r.Ok?
  {
    StreamSound(items, search, c, 0, 0, []);
    assert (forall t :: 0 <= t < |items| ==> items[t].Read?) ==> StreamFrom(items, search, c, 0, 0, []).Ok? by {
      if forall t :: 0 <= t < |items| ==> items[t].Read? {
        StreamAllReadOk(items, search, c, 0, 0, []);
      }
    }
    StreamFrom(items, search, c, 0, 0, [])
  }

  /** What every record of the loop satisfies: a one-character column range at a
      position the matcher reported for the record's line, at most `c` lines of
      context after, context before numbered within `c` lines below the record's
      line number, and a line number that never exceeds the line's true position
      (it falls behind by the lines consumed as context). */
  ghost predicate RawRecordOk(items: seq<P.LineRead>, search: LineSearch, c: nat, m: RawMatch) {
    && m.columnEnd == m.columnStart + 1
    && m.columnStart in search(m.line)
    && |m.contextAfter| <= c
    && (forall e :: e in m.contextBefore ==> m.lineNumber <= e.0 + c && e.0 < m.lineNumber)
    && exists k :: 0 <= k < |items| && items[k] == P.Read(m.line) && m.lineNumber <= k + 1
  }

  /** Every record of a successful result is well formed. */
  ghost predicate RecordsOk(items: seq<P.LineRead>, search: LineSearch, c: nat, r: Result<seq<RawMatch>, P.Error>) {
    r.Ok? ==> AllRecordsOk(items, search, c, r.value)
  }

  ghost predicate AllRecordsOk(items: seq<P.LineRead>, search: LineSearch, c: nat, ms: seq<RawMatch>) {
    ms != [] ==> RawRecordOk(items, search, c, ms[0]) && AllRecordsOk(items, search, c, ms[1..])
  }

  lemma ConsRecordsOk(items: seq<P.LineRead>, search: LineSearch, c: nat, m: RawMatch, rest: seq<RawMatch>)
    requires RawRecordOk(items, search, c, m) && RecordsOk(items, search, c, Ok(rest))
    ensures RecordsOk(items, search, c, Ok([m] + rest))
  {
    assert ([m] + rest)[1..] == rest;
  }

  lemma {:induction false} StreamSound(items: seq<P.LineRead>, search: LineSearch, c: nat, idx: nat,
                                       lineNumber: nat, buffer: seq<(nat, String)>)
    requires idx <= |items| && |buffer| <= 2 * c + 1 && lineNumber <= idx
    ensures RecordsOk(items, search, c, StreamFrom(items, search, c, idx, lineNumber, buffer))
    decreases |items| - idx, 0, 0
  {
    if idx < |items| {
      match items[idx]
      case ReadFailed(invalidData) =>
        if invalidData {
          StreamSound(items, search, c, idx + 1, lineNumber + 1, buffer);
        }
      case Read(line) =>
        var buffer' := PushBuffer(buffer, (lineNumber + 1, line), c);
        EmitSound(items, search, c, idx + 1, lineNumber + 1, buffer', line, search(line), idx);
    }
  }

  lemma {:induction false} EmitSound(items: seq<P.LineRead>, search: LineSearch, c: nat, idx: nat,
                                     lineNumber: nat, buffer: seq<(nat, String)>, line: String,
                                     positions: seq<nat>, k: nat)
    requires idx <= |items| && |buffer| <= 2 * c + 1 && lineNumber <= idx
    requires k < idx && items[k] == P.Read(line) && lineNumber <= k + 1
    requires forall t :: 0 <= t < |positions| ==> positions[t] in search(line)
    ensures RecordsOk(items, search, c, EmitPositions(items, search, c, idx, lineNumber, buffer, line, positions))
    decreases |items| - idx, 1, |positions|
  {
    if positions == [] {
      StreamSound(items, search, c, idx, lineNumber, buffer);
    } else {
      var pull := PullAfter(items, idx, lineNumber, c);
      if pull.Ok? {
        var after := pull.value;
        EmitSound(items, search, c, idx + |after|, lineNumber, buffer, line, positions[1..], k);
        EmitSoundStep(items, search, c, idx, lineNumber, buffer, line, positions, k, after);
      }
    }
  }

  /** The step of `EmitSound` at a position whose context after was read. */
  lemma EmitSoundStep(items: seq<P.LineRead>, search: LineSearch, c: nat, idx: nat,
                      lineNumber: nat, buffer: seq<(nat, String)>, line: String,
                      positions: seq<nat>, k: nat, after: seq<(nat, String)>)
    requires idx <= |items| && |buffer| <= 2 * c + 1 && positions != []
    requires k < |items| && items[k] == P.Read(line) && lineNumber <= k + 1
    requires positions[0] in search(line)
    requires PullAfter(items, idx, lineNumber, c) == Ok(after)
    requires RecordsOk(items, search, c, EmitPositions(items, search, c, idx + |after|, lineNumber, buffer, line, positions[1..]))
    ensures RecordsOk(items, search, c, EmitPositions(items, search, c, idx, lineNumber, buffer, line, positions))
  {
    var m := RawRecord(lineNumber, line, ContextBeforeOf(buffer, lineNumber, c), after, positions[0]);
    RecordOk(items, search, c, buffer, lineNumber, line, after, positions[0], k);
    var rest := EmitPositions(items, search, c, idx + |after|, lineNumber, buffer, line, positions[1..]);
    if rest.Ok? {
      EmitStep(items, search, c, idx, lineNumber, buffer, line, positions, after, rest.value);
      ConsRecordsOk(items, search, c, m, rest.value);
    }
  }

  lemma RecordOk(items: seq<P.LineRead>, search: LineSearch, c: nat, buffer: seq<(nat, String)>,
                 lineNumber: nat, line: String, after: seq<(nat, String)>, pos: nat, k: nat)
    requires k < |items| && items[k] == P.Read(line) && lineNumber <= k + 1
    requires pos in search(line) && |after| <= c
    ensures RawRecordOk(items, search, c, RawRecord(lineNumber, line, ContextBeforeOf(buffer, lineNumber, c), after, pos))
  {
  }

  /** Only a read error other than invalid UTF-8 in the searched lines, or any read
      error in lines pulled as context, makes the search fail: a reader whose every
      item is a line never does. */
  lemma {:induction false} StreamAllReadOk(items: seq<P.LineRead>, search: LineSearch, c: nat, idx: nat,
                                           lineNumber: nat, buffer: seq<(nat, String)>)
    requires idx <= |items| && |buffer| <= 2 * c + 1
    requires forall t :: idx <= t < |items| ==> items[t].Read?
    ensures StreamFrom(items, search, c, idx, lineNumber, buffer).Ok?
    decreases |items| - idx, 0, 0
  {
    if idx < |items| {
      var line := items[idx].text;
      var buffer' := PushBuffer(buffer, (lineNumber + 1, line), c);
      EmitAllReadOk(items, search, c, idx + 1, lineNumber + 1, buffer', line, search(line));
    }
  }

  lemma {:induction false} EmitAllReadOk(items: seq<P.LineRead>, search: LineSearch, c: nat, idx: nat,
                                         lineNumber: nat, buffer: seq<(nat, String)>, line: String,
                                         positions: seq<nat>)
    requires idx <= |items| && |buffer| <= 2 * c + 1
    requires forall t :: idx <= t < |items| ==> items[t].Read?
    ensures EmitPositions(items, search, c, idx, lineNumber, buffer, line, positions).Ok?
    decreases |items| - idx, 1, |positions|
  {
    if positions == [] {
      StreamAllReadOk(items, search, c, idx, lineNumber, buffer);
    } else {
      var pulled := PullAfter(items, idx, lineNumber, c);
      assert pulled.Ok? by {
        assert forall t :: idx <= t < idx + Min(c, |items| - idx) ==> items[t].Read?;
      }
      var after := pulled.value;
      EmitAllReadOk(items, search, c, idx + |after|, lineNumber, buffer, line, positions[1..]);
      var rest := EmitPositions(items, search, c, idx + |after|, lineNumber, buffer, line, positions[1..]);
      EmitStep(items, search, c, idx, lineNumber, buffer, line, positions, after, rest.value);
    }
  }

  /** A matcher that finds "a" at the start of the line "a" and nothing else. */
  function SearchA(line: String): seq<nat> {
    if line == "a" then [0] else []
  }

  /** With two lines of context, three matching lines give a single record: the two
      lines after the first are consumed as its context and never searched. */
  lemma ContextLinesNotSearched()
    ensures ProcessFileStreaming([P.Read("a"), P.Read("a"), P.Read("a")], SearchA, 2)
         == Ok([RawMatch(1, "a", [], [(2, "a"), (3, "a")], "a", 0, 1)])
  {
    var items := [P.Read("a"), P.Read("a"), P.Read("a")];
    PullAfterStep(items, 2, 2, 1, "a", []);
    assert [(3, "a")] + [] == [(3, "a")];
    PullAfterStep(items, 1, 1, 2, "a", [(3, "a")]);
    assert [(2, "a")] + [(3, "a")] == [(2, "a"), (3, "a")];
    var buffer := PushBuffer([], (1, "a"), 2);
    assert buffer == [(1, "a")];
    assert ContextBeforeOf(buffer, 1, 2) == [];
    EmitStep(items, SearchA, 2, 1, 1, buffer, "a", [0], [(2, "a"), (3, "a")], []);
    ReadStep(items, SearchA, 2, 0, 0, [], "a");
    var m := RawRecord(1, "a", [], [(2, "a"), (3, "a")], 0);
    assert m == RawMatch(1, "a", [], [(2, "a"), (3, "a")], "a", 0, 1);
    assert [m] + [] == [m];
  }

  /** Line numbers fall behind the lines consumed as context: with one line of
      context the third line, the second match, is reported as line 2, with line 1
      as its context before. */
  lemma LineNumberDrift()
    ensures ProcessFileStreaming([P.Read("a"), P.Read("b"), P.Read("a")], SearchA, 1)
         == Ok([RawMatch(1, "a", [], [(2, "b")], "a", 0, 1), RawMatch(2, "a", [(1, "a")], [], "a", 0, 1)])
  {
    var items := [P.Read("a"), P.Read("b"), P.Read("a")];
    ReadStep(items, SearchA, 1, 0, 0, [], "a");
    assert PushBuffer([], (1, "a"), 1) == [(1, "a")];
    assert SearchA("a") == [0];
    DriftFirstLine(items);
  }

  /** The match on the first line takes the second as context after, and the
      outer loop goes on with the third. */
  lemma DriftFirstLine(items: seq<P.LineRead>)
    requires items == [P.Read("a"), P.Read("b"), P.Read("a")]
    ensures EmitPositions(items, SearchA, 1, 1, 1, [(1, "a")], "a", [0])
         == Ok([RawMatch(1, "a", [], [(2, "b")], "a", 0, 1), RawMatch(2, "a", [(1, "a")], [], "a", 0, 1)])
  {
    var second := RawMatch(2, "a", [(1, "a")], [], "a", 0, 1);
    DriftSecondRecord(items);
    PullAfterStep(items, 1, 1, 1, "b", []);
    assert [(2, "b")] + [] == [(2, "b")];
    var buffer1 := [(1, "a")];
    assert ContextBeforeOf(buffer1, 1, 1) == [];
    assert [0][1..] == [];
    assert EmitPositions(items, SearchA, 1, 2, 1, buffer1, "a", []) == Ok([second]);
    EmitStep(items, SearchA, 1, 1, 1, buffer1, "a", [0], [(2, "b")], [second]);
    var first := RawRecord(1, "a", [], [(2, "b")], 0);
    assert first == RawMatch(1, "a", [], [(2, "b")], "a", 0, 1);
    assert [first] + [second] == [first, second];
  }

  /** The outer loop resumes at the third line with one line counted. */
  lemma DriftSecondRecord(items: seq<P.LineRead>)
    requires items == [P.Read("a"), P.Read("b"), P.Read("a")]
    ensures StreamFrom(items, SearchA, 1, 2, 1, [(1, "a")]) == Ok([RawMatch(2, "a", [(1, "a")], [], "a", 0, 1)])
  {
    var buffer2 := [(1, "a"), (2, "a")];
    assert PushBuffer([(1, "a")], (2, "a"), 1) == buffer2;
    DriftContextBefore(buffer2);
    assert [0][1..] == [];
    EmitStep(items, SearchA, 1, 3, 2, buffer2, "a", [0], [], []);
    ReadStep(items, SearchA, 1, 2, 1, [(1, "a")], "a");
    var second := RawRecord(2, "a", [(1, "a")], [], 0);
    assert SearchA("a") == [0];
    assert second == RawMatch(2, "a", [(1, "a")], [], "a", 0, 1);
    assert [second] + [] == [second];
  }

  lemma DriftContextBefore(buffer: seq<(nat, String)>)
    requires buffer == [(1, "a"), (2, "a")]
    ensures ContextBeforeOf(buffer, 2, 1) == [(1, "a")]
  {
    var keep := (e: (nat, String)) => 1 <= e.0 < 2;
    assert buffer[1..] == [(2, "a")];
    assert Filter(buffer[1..], keep) == [];
    assert Filter(buffer, keep) == [(1, "a")] + Filter(buffer[1..], keep);
  }

  lemma PullAfterStep(items: seq<P.LineRead>, idx: nat, lineNumber: nat, count: nat, text: String,
                      rest: seq<(nat, String)>)
    requires idx < |items| && count >= 1 && items[idx] == P.Read(text)
    requires PullAfter(items, idx + 1, lineNumber + 1, count - 1) == Ok(rest)
    ensures PullAfter(items, idx, lineNumber, count) == Ok([(lineNumber + 1, text)] + rest)
  {
  }

  /** A line read by the outer loop is counted, buffered and searched. */
  lemma ReadStep(items: seq<P.LineRead>, search: LineSearch, c: nat, idx: nat, lineNumber: nat,
                 buffer: seq<(nat, String)>, line: String)
    requires idx < |items| && |buffer| <= 2 * c + 1 && items[idx] == P.Read(line)
    ensures StreamFrom(items, search, c, idx, lineNumber, buffer)
         == EmitPositions(items, search, c, idx + 1, lineNumber + 1,
                          PushBuffer(buffer, (lineNumber + 1, line), c), line, search(line))
  {
  }

  /** One match position with its context after, then the remaining positions. */
  lemma EmitStep(items: seq<P.LineRead>, search: LineSearch, c: nat, idx: nat, lineNumber: nat,
                 buffer: seq<(nat, String)>, line: String, positions: seq<nat>,
                 after: seq<(nat, String)>, rest: seq<RawMatch>)
    requires idx <= |items| && |buffer| <= 2 * c + 1 && positions != []
    requires PullAfter(items, idx, lineNumber, c) == Ok(after)
    requires EmitPositions(items, search, c, idx + |after|, lineNumber, buffer, line, positions[1..]) == Ok(rest)
    ensures EmitPositions(items, search, c, idx, lineNumber, buffer, line, positions)
         == Ok([RawRecord(lineNumber, line, ContextBeforeOf(buffer, lineNumber, c), after, positions[0])] + rest)
  {
  }

  // ---------------------------------------------------------------------------
  // Post-processing and truncation

  /** `apply_post_processing`'s test: a non-empty matched text, or with `invert` an
      empty one. */
  predicate Included(m: RawMatch, invert: bool) {
    if invert then m.matchedText == [] else m.matchedText != []
  }

  /** The record with the file's path attached. */
  function WithPath(m: RawMatch, path: String): (r: P.SearchMatch) {
    P.SearchMatch(path, m.lineNumber, m.line, m.contextBefore, m.contextAfter,
                  m.matchedText, m.columnStart, m.columnEnd)
  }

  function WithPathAll(ms: seq<RawMatch>, path: String): (r: seq<P.SearchMatch>)
    ensures |r| == |ms|
    ensures forall t :: 0 <= t < |ms| ==> r[t] == WithPath(ms[t], path)
  {
    if ms == [] then [] else [WithPath(ms[0], path)] + WithPathAll(ms[1..], path)
  }

  /** `apply_post_processing`: the included records, in order, with the path. */
  function PostProcess(ms: seq<RawMatch>, path: String, invert: bool): (r: seq<P.SearchMatch>)
    ensures |r| <= |ms|
    ensures forall t :: 0 <= t < |r| ==> r[t].path == path && (r[t].matchedText == []) == invert
  {
    if ms == [] then []
    else (if Included(ms[0], invert) then [WithPath(ms[0], path)] else []) + PostProcess(ms[1..], path, invert)
  }

  /** Post-processing is the order-preserving filter of the included records. */
  lemma {:induction false} PostProcessIsFilter(ms: seq<RawMatch>, path: String, invert: bool)
    ensures PostProcess(ms, path, invert) == WithPathAll(Filter(ms, m => Included(m, invert)), path)
  {
    if ms != [] {
      PostProcessIsFilter(ms[1..], path, invert);
      var keep := (m: RawMatch) => Included(m, invert);
      var rest := Filter(ms[1..], keep);
      if Included(ms[0], invert) {
        assert Filter(ms, keep) == [ms[0]] + rest;
        assert ([ms[0]] + rest)[1..] == rest;
      } else {
        assert Filter(ms, keep) == rest;
      }
    }
  }

  /** With and without invert the two results split the records between them. */
  lemma {:induction false} PostProcessPartition(ms: seq<RawMatch>, path: String)
    ensures |PostProcess(ms, path, false)| + |PostProcess(ms, path, true)| == |ms|
  {
    if ms != [] {
      PostProcessPartition(ms[1..], path);
    }
  }

  /** `truncate(max_matches)` when the list is longer. */
  function Truncate<T>(ms: seq<T>, maxMatches: Option<nat>): (r: seq<T>)
    ensures maxMatches.None? ==> r == ms
    ensures maxMatches.Some? ==> |r| == Min(maxMatches.value, |ms|)
    ensures r == ms[..|r|]
  {
    if maxMatches.Some? && |ms| > maxMatches.value then ms[..maxMatches.value] else ms
  }

  /** `search_file` for a file that is neither an archive nor compressed: nothing for
      a binary file, otherwise the streamed records post-processed and truncated. */
  function SearchFile(cfg: StreamingConfig, binary: bool, items: seq<P.LineRead>, search: LineSearch,
                      path: String): (r: Result<seq<P.SearchMatch>, P.Error>)
    ensures binary ==> r == Ok([])
    ensures r.Ok? && cfg.maxMatches.Some? ==> |r.value| <= cfg.maxMatches.value
    ensures r.Ok? ==> forall t :: 0 <= t < |r.value| ==>
      r.value[t].path == path && (r.value[t].matchedText == []) == cfg.invertMatch
  {
    if binary then Ok([])
    else
      match ProcessFileStreaming(items, search, cfg.contextLines)
      case Err(e) => Err(e)
      case Ok(raw) => Ok(Truncate(PostProcess(raw, path, cfg.invertMatch), cfg.maxMatches))
  }

  // ---------------------------------------------------------------------------
  // Matcher construction and algorithm suggestion

  /** The pattern `create_search_algorithm` hands to the factory: "(?i)" in front for
      a case-insensitive regex, the pattern itself otherwise. */
  function ProcessedPattern(algorithm: SA.SearchAlgorithm, pattern: String, caseSensitive: bool): (p: String)
    ensures p != pattern <==> algorithm.Regex? && !caseSensitive
    ensures p != pattern ==> StartsWith(p, "(?i)") && p[4..] == pattern
  {
    if algorithm.Regex? then P.CaseFlagged(pattern, caseSensitive) else pattern
  }

  /** `create_search_algorithm`: a matcher of the configured kind for the processed
      pattern. */
  function CreateSearchAlgorithm(cfg: StreamingConfig, pattern: String, cpu: SimdEngine.CpuFeatures)
    : (m: SA.Matcher)
    ensures m.Valid()
    ensures m.Pattern() == ProcessedPattern(cfg.algorithm, pattern, cfg.caseSensitive)
    ensures cfg.algorithm.Regex? <==> m.RegexMatcher?
  {
    SA.CreateWithCaseSensitivity(cfg.algorithm, ProcessedPattern(cfg.algorithm, pattern, cfg.caseSensitive),
                                 cfg.caseSensitive, cpu)
  }

  /** The pattern looks like a regular expression: it holds a backslash, '[' or '('. */
  predicate HasRegexSyntax(pattern: String) {
    '\\' in pattern || '[' in pattern || '(' in pattern
  }

  /** `utils::suggest_algorithm`: Boyer-Moore for patterns of at most 4 bytes, then
      Regex for regex syntax, then Simple for more than 1000 files of unknown or
      under 1 KiB average size, Boyer-Moore otherwise. */
  function SuggestAlgorithm(pattern: String, fileCount: nat, avgFileSize: Option<nat>): (a: SA.SearchAlgorithm)
    ensures !a.Simd?
    ensures |pattern| <= 4 ==> a.BoyerMooreAlgorithm?
    ensures a.Regex? <==> |pattern| > 4 && HasRegexSyntax(pattern)
    ensures a.Simple? <==> |pattern| > 4 && !HasRegexSyntax(pattern) && fileCount > 1000
                           && (avgFileSize.None? || avgFileSize.value < 1024)
  {
    if |pattern| <= 4 then SA.BoyerMooreAlgorithm
    else if HasRegexSyntax(pattern) then SA.Regex
    else if fileCount > 1000 && (avgFileSize.None? || avgFileSize.value < 1024) then SA.Simple
    else SA.BoyerMooreAlgorithm
  }

  /** Only more files can turn a Boyer-Moore suggestion into Simple, never the reverse. */
  lemma SuggestionFileCountMonotone(pattern: String, a: nat, b: nat, avgFileSize: Option<nat>)
    requires a <= b
    ensures SuggestAlgorithm(pattern, a, avgFileSize).Simple? ==> SuggestAlgorithm(pattern, b, avgFileSize).Simple?
    ensures SuggestAlgorithm(pattern, b, avgFileSize).BoyerMooreAlgorithm? ==>
            SuggestAlgorithm(pattern, a, avgFileSize).BoyerMooreAlgorithm?
  {
  }

  // ---------------------------------------------------------------------------
  // Collecting the per-file results of `search_files_parallel`

  /** The records of every file whose search succeeded, in arrival order; failed
      files are dropped. */
  function CollectOk(results: seq<Result<seq<P.SearchMatch>, P.Error>>): (r: seq<P.SearchMatch>)
    ensures forall m :: m in r <==> exists i :: 0 <= i < |results| && results[i].Ok? && m in results[i].value
  {
    if results == [] then []
    else
      var rest := CollectOk(results[1..]);
      assert forall i :: 1 <= i < |results| ==> results[i] == results[1..][i - 1];
      (if results[0].Ok? then results[0].value else []) + rest
  }

  /** The sort key: the path in component order, then the line number. */
  function MatchKey(m: P.SearchMatch): Key {
    Key(Paths.PathOrderKey(m.path), m.lineNumber)
  }

  /** `search_files_parallel` once every task has reported: the collected records,
      sorted by path, compared component by component, and line number. */
  function SearchFilesParallel(results: seq<Result<seq<P.SearchMatch>, P.Error>>): (r: seq<P.SearchMatch>)
    ensures SortedBy(r, MatchKey)
    ensures multiset(r) == multiset(CollectOk(results))
  {
    var all := CollectOk(results);
    SortByKeyCorrect(all, MatchKey);
    SortByKey(all, MatchKey)
  }
}

=== FILE: text.dfy ===
/** Character-level string helpers shared by the model. Rust strings are modelled
    as `seq<char>` with one char per byte, so byte offsets and char offsets agree. */
module Text {

  import opened Wrappers

  type String = seq<char>

  // ---------------------------------------------------------------------------
  // ASCII case folding (`to_ascii_lowercase`, `eq_ignore_ascii_case`)

  function ToAsciiLower(c: char): (r: char)
    ensures 'A' <= c <= 'Z' ==> r as int == c as int + 32
    ensures !('A' <= c <= 'Z') ==> r == c
    ensures !('A' <= r <= 'Z')
  {
    if 'A' <= c <= 'Z' then (c as int + 32) as char else c
  }

  function AsciiLower(s: String): (r: String)
    ensures |r| == |s|
    ensures forall i :: 0 <= i < |s| ==> r[i] == ToAsciiLower(s[i])
  {
    if s == [] then [] else [ToAsciiLower(s[0])] + AsciiLower(s[1..])
  }

  /** `str::eq_ignore_ascii_case`: equal lengths and equal after folding each byte. */
  predicate EqIgnoreAsciiCase(a: String, b: String) {
    |a| == |b| && forall i :: 0 <= i < |a| ==> ToAsciiLower(a[i]) == ToAsciiLower(b[i])
  }

  lemma EqIgnoreAsciiCaseIffLowerEqual(a: String, b: String)
    ensures EqIgnoreAsciiCase(a, b) <==> AsciiLower(a) == AsciiLower(b)
  {
    if AsciiLower(a) == AsciiLower(b) {
      assert |a| == |b|;
      forall i | 0 <= i < |a| ensures ToAsciiLower(a[i]) == ToAsciiLower(b[i]) {
        assert AsciiLower(a)[i] == AsciiLower(b)[i];
      }
    }
  }

  // ---------------------------------------------------------------------------
  // Prefixes and counting

  predicate StartsWith(s: String, prefix: String) {
    |prefix| <= |s| && s[..|prefix|] == prefix
  }

  function Count(s: String, c: char): (n: nat)
    ensures n <= |s|
  {
    if s == [] then 0 else (if s[0] == c then 1 else 0) + Count(s[1..], c)
  }

  /** A character is counted zero times exactly when it does not occur. */
  lemma {:induction false} CountZero(s: String, c: char)
    ensures Count(s, c) == 0 <==> c !in s
  {
    if s != [] {
      CountZero(s[1..], c);
      assert s == [s[0]] + s[1..];
    }
  }

  lemma CountAppend(a: String, b: String, c: char)
    ensures Count(a + b, c) == Count(a, c) + Count(b, c)
  {
    if a == [] {
      assert a + b == b;
    } else {
      assert (a + b)[1..] == a[1..] + b;
      CountAppend(a[1..], b, c);
    }
  }

  // ---------------------------------------------------------------------------
  // `str::replace` with a one-character pattern

  /** Every occurrence of `c` in `s` replaced by `rep`, left to right. */
  function ReplaceChar(s: String, c: char, rep: String): (r: String)
    ensures c !in rep ==> c !in r
    ensures c !in s ==> r == s
  {
    if s == [] then [] else (if s[0] == c then rep else [s[0]]) + ReplaceChar(s[1..], c, rep)
  }

  lemma ReplaceCharAppend(a: String, b: String, c: char, rep: String)
    ensures ReplaceChar(a + b, c, rep) == ReplaceChar(a, c, rep) + ReplaceChar(b, c, rep)
  {
    if a == [] {
      assert a + b == b;
    } else {
      assert (a + b)[1..] == a[1..] + b;
      ReplaceCharAppend(a[1..], b, c, rep);
    }
  }

  /** Characters other than `c` survive a replacement unless `rep` introduces them. */
  lemma ReplaceCharKeepsAbsence(s: String, c: char, rep: String, d: char)
    requires d !in s && d !in rep
    ensures d !in ReplaceChar(s, c, rep)
  {
    if s != [] {
      ReplaceCharKeepsAbsence(s[1..], c, rep, d);
    }
  }

  // ---------------------------------------------------------------------------
  // `str::split(sep)` and its inverse `join`

  /** Rust's `split` on a single character: always at least one piece. */
  function Split(s: String, sep: char): (pieces: seq<String>)
    ensures |pieces| >= 1
    ensures forall i :: 0 <= i < |pieces| ==> sep !in pieces[i]
  {
    if s == [] then [[]]
    else
      var rest := Split(s[1..], sep);
      if s[0] == sep then [[]] + rest
      else [[s[0]] + rest[0]] + rest[1..]
  }

  function Join(pieces: seq<String>, sep: char): String
    requires |pieces| >= 1
  {
    if |pieces| == 1 then pieces[0] else pieces[0] + [sep] + Join(pieces[1..], sep)
  }

  lemma {:induction false} JoinSplit(s: String, sep: char)
    ensures Join(Split(s, sep), sep) == s
  {
    if s != [] {
      var rest := Split(s[1..], sep);
      JoinSplit(s[1..], sep);
      if s[0] == sep {
        assert Split(s, sep)[1..] == rest;
      } else {
        var pieces := Split(s, sep);
        if |rest| == 1 {
          assert pieces == [[s[0]] + rest[0]];
        } else {
          assert pieces[1..] == rest[1..];
          assert Join(rest, sep) == rest[0] + [sep] + Join(rest[1..], sep);
        }
      }
    }
  }

  /** A character absent from a join is absent from every piece. */
  lemma {:induction false} PiecesKeepAbsence(pieces: seq<String>, sep: char, c: char)
    requires |pieces| >= 1 && c !in Join(pieces, sep)
    ensures forall i :: 0 <= i < |pieces| ==> c !in pieces[i]
  {
    if |pieces| > 1 {
      PiecesKeepAbsence(pieces[1..], sep, c);
      assert forall i :: 1 <= i < |pieces| ==> pieces[i] == pieces[1..][i - 1];
    }
  }

  /** A piece without the separator splits into itself. */
  lemma {:induction false} SplitPiece(a: String, sep: char)
    requires sep !in a
    ensures Split(a, sep) == [a]
  {
    if a != [] {
      assert a[0] in a;
      SplitPiece(a[1..], sep);
      assert [a[0]] + a[1..] == a;
    }
  }

  /** Splitting at the first separator. */
  lemma {:induction false} SplitAtFirst(a: String, sep: char, b: String)
    requires sep !in a
    ensures Split(a + [sep] + b, sep) == [a] + Split(b, sep)
  {
    var s := a + [sep] + b;
    if a == [] {
      assert s[1..] == b;
    } else {
      assert a[0] in a;
      assert s[1..] == a[1..] + [sep] + b;
      SplitAtFirst(a[1..], sep, b);
      assert [a[0]] + a[1..] == a;
    }
  }

  /** Joining pieces free of the separator and splitting again gives them back. */
  lemma {:induction false} SplitJoin(pieces: seq<String>, sep: char)
    requires |pieces| >= 1
    requires forall i :: 0 <= i < |pieces| ==> sep !in pieces[i]
    ensures Split(Join(pieces, sep), sep) == pieces
  {
    if |pieces| == 1 {
      SplitPiece(pieces[0], sep);
    } else {
      SplitJoin(pieces[1..], sep);
      SplitAtFirst(pieces[0], sep, Join(pieces[1..], sep));
      assert [pieces[0]] + pieces[1..] == pieces;
    }
  }

  /** A join holds one separator fewer than it has pieces. */
  lemma {:induction false} CountJoin(pieces: seq<String>, sep: char)
    requires |pieces| >= 1
    requires forall i :: 0 <= i < |pieces| ==> sep !in pieces[i]
    ensures Count(Join(pieces, sep), sep) == |pieces| - 1
  {
    if |pieces| == 1 {
      CountZero(pieces[0], sep);
    } else {
      CountJoin(pieces[1..], sep);
      CountZero(pieces[0], sep);
      CountAppend(pieces[0] + [sep], Join(pieces[1..], sep), sep);
      CountAppend(pieces[0], [sep], sep);
    }
  }

  /** A character in neither the pieces nor the separator is not in the join. */
  lemma {:induction false} JoinKeepsAbsence(pieces: seq<String>, sep: char, d: char)
    requires |pieces| >= 1 && d != sep
    requires forall i :: 0 <= i < |pieces| ==> d !in pieces[i]
    ensures d !in Join(pieces, sep)
  {
    if |pieces| > 1 {
      JoinKeepsAbsence(pieces[1..], sep, d);
    }
  }

  // ---------------------------------------------------------------------------
  // Decimal rendering of `usize` values (`format!("{}", n)`)

  function DigitChar(d: nat): (c: char)
    requires d < 10
    ensures '0' <= c <= '9'
  {
    ('0' as int + d) as char
  }

  predicate IsDigit(c: char) {
    '0' <= c <= '9'
  }

  function NatToString(n: nat): (s: String)
    ensures |s| >= 1
    ensures forall i :: 0 <= i < |s| ==> IsDigit(s[i])
    decreases n
  {
    if n < 10 then [DigitChar(n)] else NatToString(n / 10) + [DigitChar(n % 10)]
  }

  /** The value of a nonempty string of decimal digits; nothing for any other
      text. */
  function ParseNat(s: String): (r: Option<nat>)
    ensures r.Some? <==> s != [] && forall i :: 0 <= i < |s| ==> IsDigit(s[i])
  {
    if s == [] || !IsDigit(s[|s| - 1]) then None
    else
      var d := s[|s| - 1] as int - '0' as int;
      if |s| == 1 then Some(d)
      else
        var init := s[..|s| - 1];
        assert forall i :: 0 <= i < |init| ==> init[i] == s[i];
        match ParseNat(init)
        case None => None
        case Some(v) => Some(v * 10 + d)
  }

  /** Reading a rendered number gives it back. */
  lemma {:induction false} NatToStringRoundTrip(n: nat)
    ensures ParseNat(NatToString(n)) == Some(n)
    decreases n
  {
    if n >= 10 {
      var s := NatToString(n);
      NatToStringRoundTrip(n / 10);
      assert s[..|s| - 1] == NatToString(n / 10);
    }
  }

  // ---------------------------------------------------------------------------
  // `str::lines` / `BufRead::lines`: split at '\n', drop one trailing '\r' before
  // each '\n', and produce no empty final line for a trailing line ending.

  function StripCr(line: String): String {
    if |line| > 0 && line[|line| - 1] == '\r' then line[..|line| - 1] else line
  }

  /** Position of the first `c` in `s` at or after `from`, if any. */
  function IndexOf(s: String, c: char, from: nat): (r: Option<nat>)
    requires from <= |s|
    ensures r.Some? ==> from <= r.value < |s| && s[r.value] == c && c !in s[from..r.value]
    ensures r.None? ==> c !in s[from..]
    decreases |s| - from
  {
    if from == |s| then None
    else if s[from] == c then Some(from)
    else
      var r := IndexOf(s, c, from + 1);
      assert r.Some? ==> s[from..r.value] == [s[from]] + s[from + 1..r.value];
      assert s[from..] == [s[from]] + s[from + 1..];
      r
  }

  function Lines(s: String): (ls: seq<String>)
    ensures forall i :: 0 <= i < |ls| ==> '\n' !in ls[i]
    decreases |s|
  {
    if s == [] then []
    else
      match IndexOf(s, '\n', 0)
      case None => [s]
      case Some(k) =>
        assert '\n' !in s[..k] by { assert s[0..k] == s[..k]; }
        [StripCr(s[..k])] + Lines(s[k + 1..])
  }

  /** Joining lines with a terminating '\n' each and splitting again gives them back. */
  lemma {:induction false} LinesOfTerminated(ls: seq<String>)
    requires forall i :: 0 <= i < |ls| ==> '\n' !in ls[i] && '\r' !in ls[i]
    ensures Lines(Terminated(ls)) == ls
  {
    if ls != [] {
      var s := Terminated(ls);
      var l := ls[0];
      assert s == l + "\n" + Terminated(ls[1..]);
      assert s[..|l|] == l;
      assert s[|l|] == '\n';
      assert s[0..|l|] == l;
      match IndexOf(s, '\n', 0)
      case None =>
        assert false;
      case Some(k) =>
        assert k == |l|;
        assert s[..k] == l;
        assert StripCr(l) == l by {
          if |l| > 0 { assert l[|l| - 1] in l; }
        }
        assert s[k + 1..] == Terminated(ls[1..]);
        LinesOfTerminated(ls[1..]);
    }
  }

  function Terminated(ls: seq<String>): String {
    if ls == [] then [] else ls[0] + "\n" + Terminated(ls[1..])
  }

  predicate EndsWith(s: String, suffix: String) {
    |suffix| <= |s| && s[|s| - |suffix|..] == suffix
  }

  /** The `{:>w}` format: right-aligned in a field of at least `w` characters,
      padded with spaces. */
  function PadLeft(s: String, w: nat): (r: String)
    ensures |r| == if |s| < w then w else |s|
    ensures EndsWith(r, s)
    ensures forall i :: 0 <= i < |r| - |s| ==> r[i] == ' '
    ensures forall i :: |r| - |s| <= i < |r| ==> r[i] == s[i - (|r| - |s|)]
  {
    if |s| < w then seq(w - |s|, _ => ' ') + s else s
  }
}

=== FILE: tui.dfy ===
/** The state machine behind the terminal interface of src/tui.rs: moving
    between matches and files with wrap-around, cycling the search mode and the
    algorithm, scrolling, installing a new result list, the one-line editor of
    the search prompt, and the key dispatch around them.

    Drawing, the terminal and spawning an editor are outside the model. A
    search run by `refresh_search` and the failure of spawning the editor are
    parameters of the key handler. Characters are single units: the source
    indexes its `String` by bytes, which agrees for ASCII input. */
module Tui {

  import opened Wrappers
  import opened Text
  import opened Seqs
  import P = Processor
  import SA = SearchAlgorithms

  datatype SearchMode = TextMode | WordMode | RegexMode

  datatype InputMode = Normal | SearchInput | CommandInput

  datatype TuiState = TuiState(
    pattern: String,
    matches: seq<P.SearchMatch>,
    currentFileIndex: nat,
    currentMatchIndex: nat,
    files: seq<String>,
    searchMode: SearchMode,
    algorithm: SA.SearchAlgorithm,
    caseSensitive: bool,
    contextLines: nat,
    showHelp: bool,
    statusMessage: String,
    searchInProgress: bool,
    scrollOffset: nat,
    inputMode: InputMode,
    inputBuffer: String,
    inputCursor: nat)

  const Ready := "Ready"

  /** `TuiState::default`. */
  const DefaultState := TuiState([], [], 0, 0, [], TextMode, SA.BoyerMooreAlgorithm, false, 0, false, Ready,
                                 false, 0, Normal, [], 0)

  /** The page of ten rows the scroll keeps filled. */
  const PageRows: nat := 10

  /** `matches.len().saturating_sub(10)`. */
  function MaxScroll(s: TuiState): (r: nat)
    ensures |s.matches| >= PageRows ==> r + PageRows == |s.matches|
    ensures |s.matches| < PageRows ==> r == 0
  {
    if |s.matches| >= PageRows then |s.matches| - PageRows else 0
  }

  /** What every reachable state keeps: both indices within their lists (when
      those are non-empty), the scroll within its bound, the file list the
      sorted set of match paths, and the cursor within the input. */
  predicate Valid(s: TuiState) {
    (s.matches != [] ==> s.currentMatchIndex < |s.matches|)
    && (s.files != [] ==> s.currentFileIndex < |s.files|)
    && s.scrollOffset <= MaxScroll(s)
    && s.files == SortedSet(P.MatchPaths(s.matches))
    && s.inputCursor <= |s.inputBuffer|
  }

  lemma DefaultValid()
    ensures Valid(DefaultState)
  {
    assert SortedSet([]) == [];
  }

  // ---------------------------------------------------------------------------
  // Matches and files

  /** The first index of `x` in `xs`. */
  function Position(xs: seq<String>, x: String): (r: Option<nat>)
    ensures r.Some? ==> r.value < |xs| && xs[r.value] == x && forall j :: 0 <= j < r.value ==> xs[j] != x
    ensures r.None? ==> x !in xs
  {
    if xs == [] then None
    else if xs[0] == x then Some(0)
    else
      match Position(xs[1..], x)
      case None => None
      case Some(k) =>
        assert forall j :: 1 <= j < k + 1 ==> xs[j] == xs[1..][j - 1];
        Some(k + 1)
  }

  /** The first match whose path is `x`. */
  function MatchPosition(ms: seq<P.SearchMatch>, x: String): (r: Option<nat>)
    ensures r.Some? ==> r.value < |ms| && ms[r.value].path == x && forall j :: 0 <= j < r.value ==> ms[j].path != x
    ensures r.None? ==> forall j :: 0 <= j < |ms| ==> ms[j].path != x
  {
    var r := Position(P.MatchPaths(ms), x);
    assert r.None? ==> forall j :: 0 <= j < |ms| ==> P.MatchPaths(ms)[j] != x;
    r
  }

  /** `update_file_index_from_match`: the file of the current match, if it is
      listed. */
  function UpdateFileIndexFromMatch(s: TuiState): (r: TuiState)
    ensures r == s.(currentFileIndex := r.currentFileIndex)
    ensures s.currentMatchIndex < |s.matches| && s.matches[s.currentMatchIndex].path in s.files
            ==> r.currentFileIndex < |s.files| && s.files[r.currentFileIndex] == s.matches[s.currentMatchIndex].path
  {
    if s.currentMatchIndex < |s.matches| then
      match Position(s.files, s.matches[s.currentMatchIndex].path)
      case Some(k) => s.(currentFileIndex := k)
      case None => s
    else s
  }

  /** `update_match_index_from_file`: the first match in the current file, if
      there is one. */
  function UpdateMatchIndexFromFile(s: TuiState): (r: TuiState)
    ensures r == s.(currentMatchIndex := r.currentMatchIndex)
    ensures s.currentFileIndex < |s.files| && (exists j :: 0 <= j < |s.matches| && s.matches[j].path == s.files[s.currentFileIndex])
            ==> r.currentMatchIndex < |s.matches| && s.matches[r.currentMatchIndex].path == s.files[s.currentFileIndex]
  {
    if s.currentFileIndex < |s.files| then
      match MatchPosition(s.matches, s.files[s.currentFileIndex])
      case Some(k) => s.(currentMatchIndex := k)
      case None => s
    else s
  }

  /** `next_match`: the match after the current one, wrapping to the first,
      and the file that holds it; only the two indices move. */
  function NextMatch(s: TuiState): (r: TuiState)
    ensures r == s.(currentMatchIndex := r.currentMatchIndex, currentFileIndex := r.currentFileIndex)
    ensures s.matches == [] ==> r == s
    ensures s.matches != [] ==> r.currentMatchIndex == (s.currentMatchIndex + 1) % |s.matches|
    ensures Valid(s) && s.matches != [] ==> Valid(r) && r.files[r.currentFileIndex] == r.matches[r.currentMatchIndex].path
  {
    if s.matches == [] then s
    else
      var k := (s.currentMatchIndex + 1) % |s.matches|;
      MatchPathListedWhenValid(s, k);
      UpdateFileIndexFromMatch(s.(currentMatchIndex := k))
  }

  /** `previous_match`: the match before the current one, wrapping to the
      last, and the file that holds it; only the two indices move. */
  function PreviousMatch(s: TuiState): (r: TuiState)
    ensures r == s.(currentMatchIndex := r.currentMatchIndex, currentFileIndex := r.currentFileIndex)
    ensures s.matches == [] ==> r == s
    ensures s.matches != [] && s.currentMatchIndex < |s.matches|
            ==> r.currentMatchIndex < |s.matches| && (r.currentMatchIndex + 1) % |s.matches| == s.currentMatchIndex
    ensures Valid(s) && s.matches != [] ==> Valid(r) && r.files[r.currentFileIndex] == r.matches[r.currentMatchIndex].path
  {
    if s.matches == [] then s
    else
      var k := if s.currentMatchIndex == 0 then |s.matches| - 1 else s.currentMatchIndex - 1;
      StepBackWhenInRange(s.currentMatchIndex, |s.matches|);
      MatchPathListedWhenValid(s, k);
      UpdateFileIndexFromMatch(s.(currentMatchIndex := k))
  }

  /** `next_file`: the file after the current one, wrapping to the first, and
      its first match; only the two indices move. */
  function NextFile(s: TuiState): (r: TuiState)
    ensures r == s.(currentMatchIndex := r.currentMatchIndex, currentFileIndex := r.currentFileIndex)
    ensures s.files == [] ==> r == s
    ensures s.files != [] ==> r.currentFileIndex == (s.currentFileIndex + 1) % |s.files|
    ensures Valid(s) && s.files != [] ==> Valid(r) && r.matches[r.currentMatchIndex].path == r.files[r.currentFileIndex]
  {
    if s.files == [] then s
    else
      var f := (s.currentFileIndex + 1) % |s.files|;
      FileHasMatchWhenValid(s, f);
      UpdateMatchIndexFromFile(s.(currentFileIndex := f))
  }

  /** `previous_file`: the file before the current one, wrapping to the last,
      and its first match; only the two indices move. */
  function PreviousFile(s: TuiState): (r: TuiState)
    ensures r == s.(currentMatchIndex := r.currentMatchIndex, currentFileIndex := r.currentFileIndex)
    ensures s.files == [] ==> r == s
    ensures s.files != [] && s.currentFileIndex < |s.files|
            ==> r.currentFileIndex < |s.files| && (r.currentFileIndex + 1) % |s.files| == s.currentFileIndex
    ensures Valid(s) && s.files != [] ==> Valid(r) && r.matches[r.currentMatchIndex].path == r.files[r.currentFileIndex]
  {
    if s.files == [] then s
    else
      var f := if s.currentFileIndex == 0 then |s.files| - 1 else s.currentFileIndex - 1;
      StepBackWhenInRange(s.currentFileIndex, |s.files|);
      FileHasMatchWhenValid(s, f);
      UpdateMatchIndexFromFile(s.(currentFileIndex := f))
  }

  /** `StepBack`, for any current index. */
  lemma StepBackWhenInRange(c: nat, n: nat)
    requires n > 0
    ensures var k := if c == 0 then n - 1 else c - 1;
            c < n ==> (k + 1) % n == c
  {
    if c < n { StepBack(c, n); }
  }

  /** `MatchPathListed`, for any state: a fact about valid states only. */
  lemma MatchPathListedWhenValid(s: TuiState, i: nat)
    ensures Valid(s) && i < |s.matches| ==> s.matches[i].path in s.files
  {
    if Valid(s) && i < |s.matches| { MatchPathListed(s, i); }
  }

  /** `FileHasMatch`, for any state. */
  lemma FileHasMatchWhenValid(s: TuiState, f: nat)
    ensures Valid(s) && f < |s.files| ==> exists j :: 0 <= j < |s.matches| && s.matches[j].path == s.files[f]
  {
    if Valid(s) && f < |s.files| { FileHasMatch(s, f); }
  }

  /** Every match's path is in the file list of a valid state. */
  lemma MatchPathListed(s: TuiState, i: nat)
    requires Valid(s) && i < |s.matches|
    ensures s.matches[i].path in s.files
  {
    SortedSetCorrect(P.MatchPaths(s.matches));
    assert P.MatchPaths(s.matches)[i] == s.matches[i].path;
  }

  /** Every listed file has a match. */
  lemma FileHasMatch(s: TuiState, f: nat)
    requires Valid(s) && f < |s.files|
    ensures exists j :: 0 <= j < |s.matches| && s.matches[j].path == s.files[f]
  {
    SortedSetCorrect(P.MatchPaths(s.matches));
    assert s.files[f] in P.MatchPaths(s.matches);
  }

  /** Stepping back from `c` with wrap-around, then forward modulo `n`, returns to `c`. */
  lemma StepBack(c: nat, n: nat)
    requires c < n
    ensures var k := if c == 0 then n - 1 else c - 1;
            (k + 1) % n == c
  {
  }

  /** After a move between matches, the current file is the current match's. */
  lemma MatchMoveSelectsFile(s: TuiState, k: nat)
    requires Valid(s) && k < |s.matches|
    ensures var r := UpdateFileIndexFromMatch(s.(currentMatchIndex := k));
            r.currentFileIndex < |r.files| && r.files[r.currentFileIndex] == r.matches[r.currentMatchIndex].path
  {
    MatchPathListed(s, k);
  }

  /** After a move between files, the current match is the first in that file. */
  lemma FileMoveSelectsMatch(s: TuiState, f: nat)
    requires Valid(s) && f < |s.files|
    ensures var r := UpdateMatchIndexFromFile(s.(currentFileIndex := f));
            r.currentMatchIndex < |r.matches| && r.matches[r.currentMatchIndex].path == r.files[r.currentFileIndex]
            && forall j :: 0 <= j < r.currentMatchIndex ==> r.matches[j].path != r.files[f]
  {
    FileHasMatch(s, f);
  }

  // ---------------------------------------------------------------------------
  // Modes, algorithms and scrolling

  function NextMode(m: SearchMode): SearchMode {
    match m
    case TextMode => WordMode
    case WordMode => RegexMode
    case RegexMode => TextMode
  }

  function ModeName(m: SearchMode): String {
    match m
    case TextMode => "Text"
    case WordMode => "Word"
    case RegexMode => "Regex"
  }

  function NextAlgorithm(a: SA.SearchAlgorithm): SA.SearchAlgorithm {
    match a
    case BoyerMooreAlgorithm => SA.Regex
    case Regex => SA.Simple
    case Simple => SA.Simd
    case Simd => SA.BoyerMooreAlgorithm
  }

  function AlgorithmName(a: SA.SearchAlgorithm): String {
    match a
    case BoyerMooreAlgorithm => "BoyerMoore"
    case Regex => "Regex"
    case Simple => "Simple"
    case Simd => "Simd"
  }

  function CycleSearchMode(s: TuiState): (r: TuiState)
    ensures r == s.(searchMode := NextMode(s.searchMode), statusMessage := r.statusMessage)
  {
    var m := NextMode(s.searchMode);
    s.(searchMode := m, statusMessage := "Search mode: " + ModeName(m))
  }

  function CycleAlgorithm(s: TuiState): (r: TuiState)
    ensures r == s.(algorithm := NextAlgorithm(s.algorithm), statusMessage := r.statusMessage)
  {
    var a := NextAlgorithm(s.algorithm);
    s.(algorithm := a, statusMessage := "Algorithm: " + AlgorithmName(a))
  }

  /** `m` returns to the same mode after three presses and no sooner; `a`
      returns to the same algorithm after four presses and no sooner. */
  lemma CyclePeriods(m: SearchMode, a: SA.SearchAlgorithm)
    ensures NextMode(NextMode(NextMode(m))) == m
    ensures NextMode(m) != m && NextMode(NextMode(m)) != m
    ensures NextAlgorithm(NextAlgorithm(NextAlgorithm(NextAlgorithm(a)))) == a
    ensures NextAlgorithm(a) != a && NextAlgorithm(NextAlgorithm(a)) != a
    ensures NextAlgorithm(NextAlgorithm(NextAlgorithm(a))) != a
  {
  }

  function ScrollUp(s: TuiState): (r: TuiState)
    ensures r == s.(scrollOffset := r.scrollOffset)
    ensures r.scrollOffset == if s.scrollOffset > 0 then s.scrollOffset - 1 else 0
  {
    if s.scrollOffset > 0 then s.(scrollOffset := s.scrollOffset - 1) else s
  }

  function ScrollDown(s: TuiState): (r: TuiState)
    ensures r == s.(scrollOffset := r.scrollOffset)
    ensures s.scrollOffset <= MaxScroll(s) ==> r.scrollOffset <= MaxScroll(s)
    ensures r.scrollOffset == if s.scrollOffset < MaxScroll(s) then s.scrollOffset + 1 else s.scrollOffset
  {
    if s.scrollOffset < MaxScroll(s) then s.(scrollOffset := s.scrollOffset + 1) else s
  }

  /** Page down then page up returns to the same place unless the bottom was
      already reached; page up then page down likewise unless at the top. */
  lemma ScrollInverse(s: TuiState)
    ensures s.scrollOffset < MaxScroll(s) ==> ScrollUp(ScrollDown(s)) == s
    ensures s.scrollOffset > 0 && s.scrollOffset <= MaxScroll(s) ==> ScrollDown(ScrollUp(s)) == s
  {
  }

  /** `set_matches`: the new list, every index and the scroll back to 0, and the
      file list the sorted, duplicate-free paths of the matches. */
  function SetMatches(s: TuiState, ms: seq<P.SearchMatch>): (r: TuiState)
    ensures r.matches == ms && r.currentMatchIndex == 0 && r.currentFileIndex == 0 && r.scrollOffset == 0
    ensures StrictlySorted(r.files) && forall x :: x in r.files <==> exists i :: 0 <= i < |ms| && ms[i].path == x
    ensures r == s.(matches := ms, currentMatchIndex := 0, currentFileIndex := 0, scrollOffset := 0,
                    files := r.files)
  {
    SortedSetCorrect(P.MatchPaths(ms));
    forall x ensures x in P.MatchPaths(ms) <==> exists i :: 0 <= i < |ms| && ms[i].path == x {
      if x in P.MatchPaths(ms) {
        var i :| 0 <= i < |ms| && P.MatchPaths(ms)[i] == x;
      }
    }
    s.(matches := ms, currentMatchIndex := 0, currentFileIndex := 0, scrollOffset := 0,
       files := SortedSet(P.MatchPaths(ms)))
  }

  const NoPattern := "No pattern to search"
  const Completed := "Search completed"

  /** `refresh_search` with `found` the matches the search returns. */
  function RefreshSearch(s: TuiState, found: seq<P.SearchMatch>): (r: TuiState)
    ensures s.pattern == [] ==> r == s.(statusMessage := NoPattern)
    ensures s.pattern != [] ==> r == SetMatches(s, found).(searchInProgress := false, statusMessage := Completed)
  {
    if s.pattern == [] then s.(statusMessage := NoPattern)
    else SetMatches(s, found).(searchInProgress := false, statusMessage := Completed)
  }

  const SearchPrompt := "Enter search pattern (Enter to search, Esc to cancel)"

  /** `enter_search_input_mode`: the prompt starts from the current pattern with
      the cursor at its end, the status line asks for a pattern, and nothing else
      changes. */
  function EnterSearchInputMode(s: TuiState): (r: TuiState)
    ensures r == s.(inputMode := r.inputMode, inputBuffer := r.inputBuffer, inputCursor := r.inputCursor,
                    statusMessage := r.statusMessage)
    ensures r.inputMode == SearchInput && r.inputBuffer == s.pattern && r.inputCursor == |s.pattern|
    ensures r.statusMessage == SearchPrompt
  {
    s.(inputMode := SearchInput, inputBuffer := s.pattern, inputCursor := |s.pattern|,
       statusMessage := SearchPrompt)
  }

  /** `open_current_file`: names the current match's file, or its failure to
      open when spawning the editor fails. */
  function OpenCurrentFile(s: TuiState, spawnFails: bool): (r: TuiState)
    ensures r == s.(statusMessage := r.statusMessage)
    ensures s.currentMatchIndex >= |s.matches| ==> r == s
  {
    if s.currentMatchIndex < |s.matches| then
      var path := s.matches[s.currentMatchIndex].path;
      s.(statusMessage := if spawnFails then "Failed to open: " + path else "Opening: " + path)
    else s
  }

  // ---------------------------------------------------------------------------
  // The line editor of the prompt

  datatype Key =
    | Char(c: char)
    | Esc | Enter | Up | Down | Left | Right | PageUp | PageDown | Backspace | Delete | Home | End
    | OtherKey

  /** The prompt's text and cursor. */
  datatype Line = Line(buffer: String, cursor: nat)

  predicate CursorInside(l: Line) {
    l.cursor <= |l.buffer|
  }

  /** The editing keys of `handle_search_input`; other keys leave the line as
      it is. */
  function Edit(l: Line, key: Key): (r: Line)
    requires CursorInside(l)
    ensures CursorInside(r)
    ensures key.Char? ==> r == Line(l.buffer[..l.cursor] + [key.c] + l.buffer[l.cursor..], l.cursor + 1)
    ensures key.Backspace? && l.cursor > 0 ==>
              r == Line(l.buffer[..l.cursor - 1] + l.buffer[l.cursor..], l.cursor - 1)
    ensures key.Delete? && l.cursor < |l.buffer| ==>
              r == Line(l.buffer[..l.cursor] + l.buffer[l.cursor + 1..], l.cursor)
    ensures key.Left? || key.Right? || key.Home? || key.End? ==> r.buffer == l.buffer
    ensures key.Home? ==> r.cursor == 0
    ensures key.End? ==> r.cursor == |l.buffer|
  {
    match key
    case Backspace => if l.cursor > 0 then Line(Remove(l.buffer, l.cursor - 1), l.cursor - 1) else l
    case Delete => if l.cursor < |l.buffer| then Line(Remove(l.buffer, l.cursor), l.cursor) else l
    case Left => if l.cursor > 0 then l.(cursor := l.cursor - 1) else l
    case Right => if l.cursor < |l.buffer| then l.(cursor := l.cursor + 1) else l
    case Home => l.(cursor := 0)
    case End => l.(cursor := |l.buffer|)
    case Char(c) => Line(Insert(l.buffer, l.cursor, c), l.cursor + 1)
    case _ => l
  }

  /** `String::insert`. */
  function Insert(s: String, i: nat, c: char): (r: String)
    requires i <= |s|
    ensures |r| == |s| + 1 && r[i] == c && r[..i] == s[..i] && r[i + 1..] == s[i..]
  {
    s[..i] + [c] + s[i..]
  }

  /** `String::remove`. */
  function Remove(s: String, i: nat): (r: String)
    requires i < |s|
    ensures |r| == |s| - 1 && r[..i] == s[..i] && r[i..] == s[i + 1..]
  {
    s[..i] + s[i + 1..]
  }

  /** Removing what was just inserted gives the text back. */
  lemma RemoveInsert(s: String, i: nat, c: char)
    requires i <= |s|
    ensures Remove(Insert(s, i, c), i) == s
  {
    var t := Insert(s, i, c);
    assert Remove(t, i) == t[..i] + t[i + 1..];
  }

  /** Typing a character and then Backspace restores the line; Left then Right
      restores the cursor when it was not at the start. */
  lemma EditUndo(l: Line, c: char)
    requires CursorInside(l)
    ensures Edit(Edit(l, Char(c)), Backspace) == l
    ensures l.cursor > 0 ==> Edit(Edit(l, Left), Right) == l
  {
    RemoveInsert(l.buffer, l.cursor, c);
  }

  // ---------------------------------------------------------------------------
  // Keys

  datatype KeyOutcome = KeyOutcome(state: TuiState, quit: bool)

  const Cancelled := "Search cancelled"
  const Searching := "Searching..."
  const CommandProcessed := "Command processed"
  const CommandCancelled := "Command cancelled"

  /** `handle_search_input`: Enter runs the search for the typed pattern, Esc
      drops it, the rest edit the line. */
  function HandleSearchInput(s: TuiState, key: Key, found: seq<P.SearchMatch>): (r: TuiState)
    requires s.inputCursor <= |s.inputBuffer|
    ensures key.Enter? ==> r == RefreshSearch(s.(pattern := s.inputBuffer, inputMode := Normal, inputBuffer := [],
                                                 inputCursor := 0, statusMessage := Searching), found)
    ensures key.Esc? ==> r == s.(inputMode := Normal, inputBuffer := [], inputCursor := 0, statusMessage := Cancelled)
    ensures !key.Enter? && !key.Esc? ==>
              var l := Edit(Line(s.inputBuffer, s.inputCursor), key);
              r == s.(inputBuffer := l.buffer, inputCursor := l.cursor)
  {
    match key
    case Enter =>
      RefreshSearch(s.(pattern := s.inputBuffer, inputMode := Normal, inputBuffer := [], inputCursor := 0,
                       statusMessage := Searching), found)
    case Esc => s.(inputMode := Normal, inputBuffer := [], inputCursor := 0, statusMessage := Cancelled)
    case _ =>
      var l := Edit(Line(s.inputBuffer, s.inputCursor), key);
      s.(inputBuffer := l.buffer, inputCursor := l.cursor)
  }

  /** `handle_command_input`: Enter and Esc leave the mode, the rest edit. */
  function HandleCommandInput(s: TuiState, key: Key, found: seq<P.SearchMatch>): (r: TuiState)
    requires s.inputCursor <= |s.inputBuffer|
    ensures key.Enter? || key.Esc? ==> r.inputMode == Normal && r.inputBuffer == [] && r.inputCursor == 0
    ensures key.Enter? || key.Esc? ==> r.pattern == s.pattern && r.matches == s.matches
    ensures key.Enter? || key.Esc? ==>
              r == s.(inputMode := r.inputMode, inputBuffer := r.inputBuffer, inputCursor := r.inputCursor,
                      statusMessage := r.statusMessage)
    ensures key.Enter? ==> r.statusMessage == CommandProcessed
    ensures key.Esc? ==> r.statusMessage == CommandCancelled
    ensures !key.Enter? && !key.Esc? ==>
              var l := Edit(Line(s.inputBuffer, s.inputCursor), key);
              r == s.(inputBuffer := l.buffer, inputCursor := l.cursor)
  {
    match key
    case Enter => s.(inputMode := Normal, inputBuffer := [], inputCursor := 0, statusMessage := CommandProcessed)
    case Esc => s.(inputMode := Normal, inputBuffer := [], inputCursor := 0, statusMessage := CommandCancelled)
    case _ => HandleSearchInput(s, key, found)
  }

  const CaseOn := "Case sensitivity: ON"
  const CaseOff := "Case sensitivity: OFF"

  /** The `c` key: flips case sensitivity and reports the new setting. */
  function ToggleCase(s: TuiState): (r: TuiState)
    ensures r.caseSensitive != s.caseSensitive
    ensures r == s.(caseSensitive := r.caseSensitive, statusMessage := r.statusMessage)
  {
    s.(caseSensitive := !s.caseSensitive, statusMessage := if !s.caseSensitive then CaseOn else CaseOff)
  }

  /** What a key does in normal mode. */
  datatype Action =
    | Quit | ShowHelp | ToNextMatch | ToPreviousMatch | ToNextFile | ToPreviousFile | ToggleCaseAction
    | CycleMode | CycleAlgorithmAction | Refresh | EnterSearch | OpenFile | PageUpAction | PageDownAction
    | NoAction

  /** The key bindings of normal mode. */
  function KeyAction(key: Key): (r: Action)
    ensures r.Quit? <==> key == Char('q')
    ensures key.Down? ==> r.ToNextMatch?
    ensures key.Up? ==> r.ToPreviousMatch?
    ensures key.Right? ==> r.ToNextFile?
    ensures key.Left? ==> r.ToPreviousFile?
    ensures r.ShowHelp? <==> key == Char('h')
    ensures r.ToNextMatch? <==> key == Char('j') || key == Char('n') || key.Down?
    ensures r.ToPreviousMatch? <==> key == Char('k') || key == Char('N') || key.Up?
    ensures r.ToNextFile? <==> key == Char('l') || key.Right?
    ensures r.ToPreviousFile? <==> key.Left?
    ensures r.ToggleCaseAction? <==> key == Char('c')
    ensures r.CycleMode? <==> key == Char('m')
    ensures r.CycleAlgorithmAction? <==> key == Char('a')
    ensures r.Refresh? <==> key == Char('r')
    ensures r.EnterSearch? <==> key == Char('/')
    ensures r.OpenFile? <==> key.Enter?
    ensures r.PageUpAction? <==> key.PageUp?
    ensures r.PageDownAction? <==> key.PageDown?
  {
    match key
    case Char(c) =>
      if c == 'q' then Quit
      else if c == 'h' then ShowHelp
      else if c == 'j' || c == 'n' then ToNextMatch
      else if c == 'k' || c == 'N' then ToPreviousMatch
      else if c == 'l' then ToNextFile
      else if c == 'c' then ToggleCaseAction
      else if c == 'm' then CycleMode
      else if c == 'a' then CycleAlgorithmAction
      else if c == 'r' then Refresh
      else if c == '/' then EnterSearch
      else NoAction
    case Down => ToNextMatch
    case Up => ToPreviousMatch
    case Right => ToNextFile
    case Left => ToPreviousFile
    case Enter => OpenFile
    case PageUp => PageUpAction
    case PageDown => PageDownAction
    case _ => NoAction
  }

  /** Carries out an action of normal mode; `Quit` leaves the state alone. */
  function Apply(s: TuiState, a: Action, found: seq<P.SearchMatch>, spawnFails: bool): (r: TuiState)
    ensures a.Quit? || a.NoAction? ==> r == s
  {
    match a
    case Quit => s
    case ShowHelp => s.(showHelp := true)
    case ToNextMatch => NextMatch(s)
    case ToPreviousMatch => PreviousMatch(s)
    case ToNextFile => NextFile(s)
    case ToPreviousFile => PreviousFile(s)
    case ToggleCaseAction => ToggleCase(s)
    case CycleMode => CycleSearchMode(s)
    case CycleAlgorithmAction => CycleAlgorithm(s)
    case Refresh => RefreshSearch(s, found)
    case EnterSearch => EnterSearchInputMode(s)
    case OpenFile => OpenCurrentFile(s, spawnFails)
    case PageUpAction => ScrollUp(s)
    case PageDownAction => ScrollDown(s)
    case NoAction => s
  }

  /** What each action of normal mode does to the state `r` it leads to. */
  lemma ApplyEffects(s: TuiState, a: Action, found: seq<P.SearchMatch>, spawnFails: bool, r: TuiState)
    requires r == Apply(s, a, found, spawnFails)
    ensures a.ShowHelp? ==> r == s.(showHelp := true)
    ensures a.ToNextMatch? || a.ToPreviousMatch? || a.ToNextFile? || a.ToPreviousFile? ==>
              r == s.(currentMatchIndex := r.currentMatchIndex, currentFileIndex := r.currentFileIndex)
    ensures a.ToNextMatch? && s.matches != [] ==> r.currentMatchIndex == (s.currentMatchIndex + 1) % |s.matches|
    ensures a.ToNextFile? && s.files != [] ==> r.currentFileIndex == (s.currentFileIndex + 1) % |s.files|
    ensures a.ToggleCaseAction? ==> r == s.(caseSensitive := !s.caseSensitive, statusMessage := r.statusMessage)
    ensures a.CycleMode? ==> r == s.(searchMode := NextMode(s.searchMode), statusMessage := r.statusMessage)
    ensures a.CycleAlgorithmAction? ==> r == s.(algorithm := NextAlgorithm(s.algorithm), statusMessage := r.statusMessage)
    ensures a.Refresh? && s.pattern == [] ==> r == s.(statusMessage := NoPattern)
    ensures a.Refresh? && s.pattern != [] ==>
              r.matches == found && r.currentMatchIndex == 0 && !r.searchInProgress && r.statusMessage == Completed
    ensures a.EnterSearch? ==>
              r.inputMode == SearchInput && r.inputBuffer == s.pattern && r.statusMessage == SearchPrompt
    ensures a.OpenFile? ==> r == s.(statusMessage := r.statusMessage)
    ensures a.PageUpAction? || a.PageDownAction? ==> r == s.(scrollOffset := r.scrollOffset)
    ensures a.PageUpAction? ==> r.scrollOffset == if s.scrollOffset > 0 then s.scrollOffset - 1 else 0
    ensures a.PageDownAction? ==>
              r.scrollOffset == if s.scrollOffset < MaxScroll(s) then s.scrollOffset + 1 else s.scrollOffset
  {
  }

  /** `handle_key_event`. `found` is what a search started by this key
      returns; `spawnFails` whether opening the editor fails. */
  function HandleKey(s: TuiState, key: Key, found: seq<P.SearchMatch>, spawnFails: bool): (r: KeyOutcome)
    requires s.inputCursor <= |s.inputBuffer|
    ensures r.quit <==> !s.showHelp && s.inputMode.Normal? && key == Char('q')
    ensures r.quit ==> r.state == s
    ensures s.showHelp ==> r.state == s.(showHelp := !(key == Char('h') || key.Esc?))
  {
    if s.showHelp then
      KeyOutcome(if key == Char('h') || key.Esc? then s.(showHelp := false) else s, false)
    else if s.inputMode == SearchInput then KeyOutcome(HandleSearchInput(s, key, found), false)
    else if s.inputMode == CommandInput then KeyOutcome(HandleCommandInput(s, key, found), false)
    else
      var a := KeyAction(key);
      KeyOutcome(Apply(s, a, found, spawnFails), a.Quit?)
  }

  // ---------------------------------------------------------------------------
  // The invariant

  lemma SetMatchesValid(s: TuiState, ms: seq<P.SearchMatch>)
    requires s.inputCursor <= |s.inputBuffer|
    ensures Valid(SetMatches(s, ms))
  {
  }

  /** Moving between matches or files keeps a valid state valid. */
  lemma MatchMovesValid(s: TuiState)
    requires Valid(s)
    ensures Valid(NextMatch(s)) && Valid(PreviousMatch(s))
  {
  }

  lemma FileMovesValid(s: TuiState)
    requires Valid(s)
    ensures Valid(NextFile(s)) && Valid(PreviousFile(s))
  {
  }

  /** A change that leaves the lists, the indices, the scroll and the prompt
      alone keeps a state valid. */
  lemma ValidFrame(s: TuiState, r: TuiState)
    requires Valid(s)
    requires r.matches == s.matches && r.files == s.files && r.scrollOffset == s.scrollOffset
    requires r.currentMatchIndex == s.currentMatchIndex && r.currentFileIndex == s.currentFileIndex
    requires r.inputBuffer == s.inputBuffer && r.inputCursor == s.inputCursor
    ensures Valid(r)
  {
  }

  lemma RefreshValid(s: TuiState, found: seq<P.SearchMatch>)
    requires Valid(s)
    ensures Valid(RefreshSearch(s, found))
  {
    if s.pattern == [] {
      ValidFrame(s, RefreshSearch(s, found));
    } else {
      var t := SetMatches(s, found);
      SetMatchesValid(s, found);
      ValidFrame(t, RefreshSearch(s, found));
    }
  }

  /** Every action of normal mode keeps a valid state valid. */
  lemma ApplyValid(s: TuiState, a: Action, found: seq<P.SearchMatch>, spawnFails: bool)
    requires Valid(s)
    ensures Valid(Apply(s, a, found, spawnFails))
  {
    match a
    case ToNextMatch => MatchMovesValid(s);
    case ToPreviousMatch => MatchMovesValid(s);
    case ToNextFile => FileMovesValid(s);
    case ToPreviousFile => FileMovesValid(s);
    case Refresh => RefreshValid(s, found);
    case PageUpAction =>
    case PageDownAction =>
    case EnterSearch =>
    case ShowHelp => ValidFrame(s, Apply(s, a, found, spawnFails));
    case ToggleCaseAction => ValidFrame(s, Apply(s, a, found, spawnFails));
    case CycleMode => ValidFrame(s, Apply(s, a, found, spawnFails));
    case CycleAlgorithmAction => ValidFrame(s, Apply(s, a, found, spawnFails));
    case OpenFile => ValidFrame(s, Apply(s, a, found, spawnFails));
    case Quit =>
    case NoAction =>
  }

  /** The keys of the two prompts keep a valid state valid. */
  lemma {:induction false} PromptKeyValid(s: TuiState, key: Key, found: seq<P.SearchMatch>)
    requires Valid(s) && (s.inputMode == SearchInput || s.inputMode == CommandInput)
    ensures Valid(HandleSearchInput(s, key, found)) && Valid(HandleCommandInput(s, key, found))
  {
    var entered := s.(pattern := s.inputBuffer, inputMode := Normal, inputBuffer := [], inputCursor := 0,
                      statusMessage := Searching);
    SetMatchesValid(entered, found);
  }

  /** Every key keeps a valid state valid, whatever a search returns. */
  lemma HandleKeyValid(s: TuiState, key: Key, found: seq<P.SearchMatch>, spawnFails: bool)
    requires Valid(s)
    ensures Valid(HandleKey(s, key, found, spawnFails).state)
  {
    if s.showHelp {
    } else if s.inputMode == Normal {
      ApplyValid(s, KeyAction(key), found, spawnFails);
    } else {
      PromptKeyValid(s, key, found);
    }
  }

  /** Enter in the prompt makes the typed text the pattern and leaves the
      prompt empty; Esc leaves the pattern as it was. */
  lemma PromptEnterEsc(s: TuiState, found: seq<P.SearchMatch>)
    requires Valid(s) && !s.showHelp && s.inputMode == SearchInput
    ensures var r := HandleKey(s, Enter, found, false).state;
            r.pattern == s.inputBuffer && r.inputMode == Normal && r.inputBuffer == [] && r.inputCursor == 0
    ensures var r := HandleKey(s, Esc, found, false).state;
            r.pattern == s.pattern && r.inputMode == Normal && r.inputBuffer == [] && r.inputCursor == 0
            && r.matches == s.matches
  {
  }
}

=== FILE: wrappers.dfy ===
/** Failure-carrying datatypes shared by the model: `Option` for values that may be
    absent and `Result` for operations whose error path the source reports. */
module Wrappers {

  datatype Option<+T> = None | Some(value: T) {
    function GetOr(default: T): T {
      match this
      case Some(v) => v
      case None => default
    }
  }

  datatype Result<+R, +E> = Ok(value: R) | Err(error: E)
}
